=== FILE: README.md ===
# Code Review Assistant — a Dafny model of the review pipeline

This project models the decision logic of the Code Review Assistant, a Spring Boot service.
The service receives pull-request webhooks from GitHub, GitLab and Bitbucket.
It fetches the diff, reduces it, and asks a language model for a review.
It turns the reply into review comments, then publishes them back to the platform.
Around that pipeline sit statistics, health reporting and a small dashboard script.
Every external effect becomes a parameter or an abstract outcome, and the model keeps only the pure decisions:

- **Event intake** (`Webhooks`, `PullRequests`, `GitHub`, `GitLab`, `Bitbucket`).
  - which events the three controllers accept, ignore or reject;
  - the GitHub signature check, with its constant-time comparison loop;
  - get-or-create of repositories and pull requests over map-shaped tables.
- **Diff reduction** (`DiffReducer`, `GitHub`, `GitLab`).
  - the line-streaming filter with its skip list and its 2500-character stop;
  - the diff text that the GitHub and GitLab adapters synthesize from file lists.
- **Prompt assembly** (`Prompts`, `Rules`).
  - the language guideline table and the prompt template;
  - rule applicability over comma-separated globs;
  - rendering rules into prompt text;
  - creating and updating rules.
- **Model-output handling** (`Analysis`, `ResponseParser`, `RetryPolicy`, `ApiKeys`, `Exceptions`, `Json`).
  - extraction of the fenced block and defensive field extraction;
  - the ordered error classifier over messages and cause chains;
  - the retry policy;
  - the API-key predicates.
- **Orchestration** (`Reviews`, `Tally`): the review state machine, from `in_progress` to `completed` or `failed`, with severity counting and language detection.
- **Publishing** (`Sessions`, `Publishing`, `GitHub`, `GitLab`, `Bitbucket`).
  - comment formatting;
  - inline-versus-general dispatch;
  - the fallbacks of inline posts;
  - the publishing loops, which stop at the first escaping exception.
- **Ancillary logic** (`Statistics`, `Health`, `Dashboard`, `Base64`).
  - distributions and daily series;
  - the health-check decision trees and key masking;
  - the HTTP Basic header;
  - the dashboard's HTML escaping, badges and time text.

Shared pieces live in `Wrappers` (Option/Result), `Seqs`, `Text`, `Json` and `Domain`.
`Text` holds Java's `trim`, `split`, `contains` and ASCII case mapping.
`Domain` holds the stored entities: Repository, PullRequest, Review and the stored review Comment, together with `Db`, the review and comment tables. The comment parsed from the model's reply (`ReviewComment`) lives in `ResponseParser`, and the review rule (`Rule`) in `Rules`.

## Model

| member | source | states |
|---|---|---|
| Analysis.ParseException | src/main/java/com/codereview/assistant/service/CodeReviewService.java:430-492 | a reply that cannot be parsed throws an exception that is not a RestClientException and carries the parse failure's message, so the generic catch handles it |
| Analysis.Rewrap | src/main/java/com/codereview/assistant/service/CodeReviewService.java:91-105 | a 4xx, 5xx or network failure of the model call is rethrown as a RuntimeException whose cause chain holds the original; any other exception passes unchanged |
| Analysis.Attempt | src/main/java/com/codereview/assistant/service/CodeReviewService.java:62-116 | the try block (test-mode reply or retried model call plus parse) never lets a 4xx, 5xx or network exception escape |
| Analysis.QuotaClauseRedundant | src/main/java/com/codereview/assistant/service/CodeReviewService.java:392-393 | the quota test holds exactly when the message contains "quota"; the "insufficient_quota" alternative never decides anything |
| Analysis.ClassificationOrder | src/main/java/com/codereview/assistant/service/CodeReviewService.java:364-407 | verdict priority: an HttpRetryException in the cause chain wins; a null message skips every text test; the network verdict needs a ResourceAccessException whose message names no other case, and holds for every such exception |
| Analysis.HandleRestClient | src/main/java/com/codereview/assistant/service/CodeReviewService.java:409-414 | every RestClientException verdict yields a result with no comments and zero tokens |
| Analysis.Catch | src/main/java/com/codereview/assistant/service/CodeReviewService.java:118-127 | a RestClientException goes to the verdict table; any other exception yields a summary starting with "Unexpected error occurred during code analysis: "; both have no comments and zero tokens |
| Analysis.Run | src/main/java/com/codereview/assistant/service/CodeReviewService.java:48-128 | an unconfigured key gives the fixed "not configured" result; comments or tokens in the result come only from a successful attempt |
| Analysis.NoCallWhenUnconfigured | src/main/java/com/codereview/assistant/service/CodeReviewService.java:52-60 | without a configured key the result does not depend on test mode, the model or the parser |
| Analysis.TestModeMakesNoCall | src/main/java/com/codereview/assistant/service/CodeReviewService.java:64-70 | in test mode the result does not depend on the model or the prompt, and reports 100 tokens when the canned reply parses |
| Analysis.CallErrorsAreUnexpected | src/main/java/com/codereview/assistant/service/CodeReviewService.java:91-127 | a 4xx, 5xx or network failure that survives the retries ends as "Unexpected error occurred during code analysis: " followed by the rewrap prefix and the original message |
| Analysis.NetworkVerdictUnreachable | src/main/java/com/codereview/assistant/service/CodeReviewService.java:398-401 | no failure of either entry point is classified as a network failure |
| Analysis.ReadReply | src/main/java/com/codereview/assistant/service/CodeReviewService.java:112-116 | a null content or null usage total throws a non-RestClient NullPointerException; a successful parse reports the usage total narrowed to 32 bits |
| Analysis.NullReplyIsUnexpected | src/main/java/com/codereview/assistant/service/CodeReviewService.java:112-127 | a final reply without content or usage total ends in the generic handler with an empty result and the unexpected-error summary |
| Analysis.ReplyTokensNarrowed | src/main/java/com/codereview/assistant/service/CodeReviewService.java:112-116 | a parsed reply's result carries `getTotalTokens().intValue()` |
| Analysis.TransientFailureRecovered | src/main/java/com/codereview/assistant/config/OpenAiClientConfig.java:47-57 | a retryable first failure followed by a reply yields the parse of that reply |
| Analysis.PromptCarriesReducedDiff | src/main/java/com/codereview/assistant/service/CodeReviewService.java:157-163 | the reduced diff is recovered exactly from the prompt, and the rule text is appended after the base prompt |
| Analysis.NoRulesIsPlainAnalysis | src/main/java/com/codereview/assistant/service/CodeReviewService.java:133-209 | with an empty rule list both entry points return the same result |
| RetryPolicy.BuildClassifier | src/main/java/com/codereview/assistant/config/OpenAiClientConfig.java:47-54 | the builder accepts the calls exactly when all share the first call's polarity, and then lists each call's class in order |
| RetryPolicy.ConfiguredCallsRejected | src/main/java/com/codereview/assistant/config/OpenAiClientConfig.java:50-53 | the configured mix of retryOn and notRetryOn is refused by the builder |
| RetryPolicy.IntendedClassifier | src/main/java/com/codereview/assistant/config/OpenAiClientConfig.java:50-53 | the two retryOn calls alone retry exactly network failures and 5xx responses, never a 4xx |
| RetryPolicy.RetryFrom | src/main/java/com/codereview/assistant/config/OpenAiClientConfig.java:47-51 | from attempt k: every attempt but the last was retryable, the last is the outcome, one second of pause per retry, and an early stop means the outcome is final |
| RetryPolicy.Retry | src/main/java/com/codereview/assistant/config/OpenAiClientConfig.java:47-51 | one or two attempts; the outcome is the last attempt's; a second attempt happens only after a retryable failure, one second later |
| RetryPolicy.FirstFinalOutcome | src/main/java/com/codereview/assistant/config/OpenAiClientConfig.java:50-53 | a reply or a non-retryable failure on the first attempt ends the call at once without pause |
| RetryPolicy.RetriedOnce | src/main/java/com/codereview/assistant/config/OpenAiClientConfig.java:48-51 | a retryable first failure leads to exactly one more attempt after 1000 ms, whose outcome is final |
| ApiKeys.FormatValidIsPresentWithPrefix | src/main/java/com/codereview/assistant/config/OpenAiConfig.java:60-72 | the format check is exactly the presence check plus the "sk-" prefix, and configured means format-valid |
| ApiKeys.PlaceholderRejected | src/main/java/com/codereview/assistant/config/OpenAiConfig.java:70-72 | the unresolved placeholder has text but is not accepted as a key |
| ApiKeys.BlankKeyRejected | src/main/java/com/codereview/assistant/config/OpenAiConfig.java:64-72 | a key made only of whitespace is neither present nor configured |
| ApiKeys.MaskForLog | src/main/java/com/codereview/assistant/config/OpenAiConfig.java:53-58 | "***" exactly for a null key or one of at most 7 characters; otherwise the key's first 7 characters |
| ApiKeys.StartupAgreesWithPredicates | src/main/java/com/codereview/assistant/config/OpenAiConfig.java:27-47 | the startup verdict is "missing" exactly when no key is present, "invalid format" exactly when present without the prefix, "ready" exactly when configured |
| Exceptions.CauseIsChain | src/main/java/com/codereview/assistant/service/CodeReviewService.java:419-428 | the recursive cause test holds exactly when some exception on the cause chain is an instance of the class |
| Exceptions.ContainsCauseType | src/main/java/com/codereview/assistant/service/CodeReviewService.java:419-428 | the loop answers true exactly when some exception on the cause chain is an instance of the class |
| DiffReducer.KeptLinePrefix | src/main/java/com/codereview/assistant/service/CodeReviewService.java:225-257 | a line that is not context starts with "diff --git", "@@", "+" or "-" |
| DiffReducer.DocsClauseRedundant | src/main/java/com/codereview/assistant/service/CodeReviewService.java:348-352 | the documentation-image clause never changes the skip decision, since its extensions are already binary extensions |
| DiffReducer.SkipIsCaseInsensitive | src/main/java/com/codereview/assistant/service/CodeReviewService.java:276 | the skip decision ignores the case of ASCII letters |
| DiffReducer.SkipPatternsHaveMarks | src/main/java/com/codereview/assistant/service/CodeReviewService.java:275-355 | a skipped header contains a '.' or a '/' |
| DiffReducer.SoliditySourceIsSkipped | src/main/java/com/codereview/assistant/service/CodeReviewService.java:323 | the ".so" test is a substring test: a header for Token.sol is skipped |
| DiffReducer.ReviewableKinds | src/main/java/com/codereview/assistant/service/CodeReviewService.java:223-265 | only file headers, path headers, hunk headers and changed lines survive the reduction |
| DiffReducer.ReviewableIsSubsequence | src/main/java/com/codereview/assistant/service/CodeReviewService.java:223-266 | the surviving lines are a subsequence of the input lines, in order |
| DiffReducer.ReviewableBySections | src/main/java/com/codereview/assistant/service/CodeReviewService.java:223-257 | file by file: a skipped file contributes nothing, header included; other files contribute their header and non-context lines; lines before the first header keep their non-context lines |
| DiffReducer.CutKeepsPrefix | src/main/java/com/codereview/assistant/service/CodeReviewService.java:257-264 | the budget keeps a prefix of the surviving lines, and all of them unless it stops |
| DiffReducer.CutEndsAtBudget | src/main/java/com/codereview/assistant/service/CodeReviewService.java:257-264 | a truncated reduction ends on a changed line that brought the counter, in UTF-16 units, to 2500 or more |
| DiffReducer.CutKeepsUnderBudget | src/main/java/com/codereview/assistant/service/CodeReviewService.java:257-264 | every earlier kept changed line left the counter, in UTF-16 units, below 2500 |
| DiffReducer.UnlinesLength | src/main/java/com/codereview/assistant/service/CodeReviewService.java:229-260 | the counter equals the Java (UTF-16) length of the text emitted: each line plus its newline |
| Text.Utf16LengthExact | src/main/java/com/codereview/assistant/service/CodeReviewService.java:257 | `line.length()` equals the number of characters exactly when none lies outside the Basic Multilingual Plane; otherwise it is larger |
| DiffReducer.AstralCountsTwice | src/main/java/com/codereview/assistant/service/CodeReviewService.java:257 | a character outside the Basic Multilingual Plane, such as an emoji, costs two units of the budget |
| DiffReducer.NoOutputBound | src/main/java/com/codereview/assistant/service/CodeReviewService.java:229-253 | header lines count but never stop the stream, so for every bound some diff reduces to a longer text with no marker |
| DiffReducer.StreamIsTwoStage | src/main/java/com/codereview/assistant/service/CodeReviewService.java:215-269 | the single pass equals line selection followed by the budget cut and the marker |
| DiffReducer.SkipFile | src/main/java/com/codereview/assistant/service/CodeReviewService.java:275-355 | the clause-by-clause early returns compute the skip predicate |
| DiffReducer.StreamStep | src/main/java/com/codereview/assistant/service/CodeReviewService.java:224-262 | one pass of the loop body appends exactly what the single-pass reduction emits for that line, and stops only on the changed line that reaches the budget |
| DiffReducer.ReduceDiff | src/main/java/com/codereview/assistant/service/CodeReviewService.java:215-269 | the loop with skip flag and counter returns exactly the two-stage reduction |
| DiffReducer.StreamIsTruncateDiff | src/main/java/com/codereview/assistant/service/CodeReviewService.java:215-269 | the pass over all lines of the split diff, with its UTF-16 counter, is the two-stage reduction with the line count in the marker |
| Prompts.Guideline | src/main/java/com/codereview/assistant/service/LanguageSpecificPromptService.java:127-130 | a table language gets its own guideline block; any other name, including a different capitalisation, gets "General code review guidelines apply." |
| Prompts.DefaultIffUnsupported | src/main/java/com/codereview/assistant/service/LanguageSpecificPromptService.java:127-130 | the default text is used exactly for languages outside the table |
| Prompts.SupportedLanguages | src/main/java/com/codereview/assistant/service/LanguageSpecificPromptService.java:177-186 | the listed languages are exactly those the support test accepts |
| Prompts.SevenLanguages | src/main/java/com/codereview/assistant/service/LanguageSpecificPromptService.java:18-108 | the table holds seven languages |
| Prompts.BuildPrompt | src/main/java/com/codereview/assistant/service/LanguageSpecificPromptService.java:132-171 | the prompt opens with the role line, focus list, guideline and diff fence, and ends with the JSON output contract |
| Prompts.DiffRecoverable | src/main/java/com/codereview/assistant/service/LanguageSpecificPromptService.java:144-147 | the diff is embedded verbatim and is recovered exactly from between the fence and the output contract |
| Prompts.PromptNamesLanguage | src/main/java/com/codereview/assistant/service/LanguageSpecificPromptService.java:133 | the prompt names the language it was built for |
| Prompts.PromptCarriesGuideline | src/main/java/com/codereview/assistant/service/LanguageSpecificPromptService.java:142 | the prompt carries the guideline chosen for its language |
| Prompts.PromptListsSeverities | src/main/java/com/codereview/assistant/service/LanguageSpecificPromptService.java:165 | every prompt asks for the severities info, warning and error |
| ResponseParser.JsonFenceHasFence | src/main/java/com/codereview/assistant/service/CodeReviewService.java:435-440 | a reply containing the "```json" fence also contains "```" |
| ResponseParser.ExtractJson | src/main/java/com/codereview/assistant/service/CodeReviewService.java:433-445 | extraction fails only on out-of-order substring bounds |
| ResponseParser.UnfencedIsWhole | src/main/java/com/codereview/assistant/service/CodeReviewService.java:434-445 | a reply without backticks is handed to the parser whole |
| ResponseParser.JsonFenceStart | src/main/java/com/codereview/assistant/service/CodeReviewService.java:435-440 | a "```json" in text that contains a bare fence starts before it only over a backtick, on it only when "json" follows, just after it only when a backtick follows, and otherwise lies wholly after it |
| ResponseParser.FirstJsonFence | src/main/java/com/codereview/assistant/service/CodeReviewService.java:437 | with no backtick before it, the opening fence is the first one found |
| ResponseParser.LastFence | src/main/java/com/codereview/assistant/service/CodeReviewService.java:438 | with no backtick after it, a fence is the last one found |
| ResponseParser.ExtractBetween | src/main/java/com/codereview/assistant/service/CodeReviewService.java:435-439 | with known opening and closing fences the parser receives the trimmed text between them |
| ResponseParser.FencedRoundTrip | src/main/java/com/codereview/assistant/service/CodeReviewService.java:433-445 | the trimmed payload of a fenced reply without stray backticks is exactly what reaches the parser |
| ResponseParser.UnclosedFenceFails | src/main/java/com/codereview/assistant/service/CodeReviewService.java:436-439 | an opening "```json" with no closing fence makes the substring call throw |
| ResponseParser.PlainFencedRoundTrip | src/main/java/com/codereview/assistant/service/CodeReviewService.java:440-445 | the trimmed payload of a reply fenced by a plain "```" pair, without stray backticks, is exactly what reaches the parser |
| ResponseParser.LoneFenceFails | src/main/java/com/codereview/assistant/service/CodeReviewService.java:440-445 | a single plain "```" is both the first and the last fence, so the substring call throws with its begin index past its end index |
| ResponseParser.ParseEntry | src/main/java/com/codereview/assistant/service/CodeReviewService.java:462-478 | an entry yields a comment exactly when filePath, severity, category and message are present; the fields are those texts; the line number is null exactly when absent and otherwise the field read by `asInt`; suggestion and example are null when absent |
| ResponseParser.LineNumberAsText | src/main/java/com/codereview/assistant/service/CodeReviewService.java:465-466 | a line number written as decimal text is read as that number |
| Json.TextAsIntReadsIntegers | src/main/java/com/codereview/assistant/service/CodeReviewService.java:465-466 | the decimal text of every 32-bit integer, padded or with a '+' sign, is read back as that integer by `asInt` |
| Json.TextWithoutDigitsIsZero | src/main/java/com/codereview/assistant/service/CodeReviewService.java:465-466 | text with no digit is read by `asInt` as 0 |
| Json.DoubleTruncates | src/main/java/com/codereview/assistant/service/CodeReviewService.java:465-466 | a fractional number is cast to int by truncation toward zero, on both signs |
| ResponseParser.CollectAppend | src/main/java/com/codereview/assistant/service/CodeReviewService.java:461-479 | entries are read independently: the comments of a concatenation are the concatenated comments |
| ResponseParser.CollectMembers | src/main/java/com/codereview/assistant/service/CodeReviewService.java:461-479 | a comment appears exactly when some entry parses to it |
| ResponseParser.CollectAllWellFormed | src/main/java/com/codereview/assistant/service/CodeReviewService.java:461-479 | with only well-formed entries nothing is dropped and the k-th comment comes from the k-th entry |
| ResponseParser.CollectSingle | src/main/java/com/codereview/assistant/service/CodeReviewService.java:462-478 | a single entry gives its comment when well formed and nothing otherwise |
| ResponseParser.SkipMalformed | src/main/java/com/codereview/assistant/service/CodeReviewService.java:476-478 | a malformed entry vanishes without disturbing its neighbours |
| ResponseParser.ParseComments | src/main/java/com/codereview/assistant/service/CodeReviewService.java:461-479 | the loop appends exactly the comments of the well-formed entries, in order |
| ResponseParser.ParseResponse | src/main/java/com/codereview/assistant/service/CodeReviewService.java:430-492 | the parse succeeds exactly when extraction and JSON parsing do, and keeps the token count |
| ResponseParser.ParseDefaults | src/main/java/com/codereview/assistant/service/CodeReviewService.java:452-482 | a missing or non-array "comments" gives no comments; a missing "summary" gives "No summary provided"; never more comments than entries |
| ResponseParser.CollectLength | src/main/java/com/codereview/assistant/service/CodeReviewService.java:461-479 | never more comments than entries |
| Rules.JavaGlobMatchesSources | src/test/java/com/codereview/assistant/service/ReviewRuleServiceTest.java:74-87 | "**/*.java" matches every path of the form dirs/name.java with a plain file name |
| Rules.JavaGlobRejectsOthers | src/test/java/com/codereview/assistant/service/ReviewRuleServiceTest.java:89-101 | "**/*.java" matches no path that does not end in ".java" |
| Rules.GlobSelf | src/main/java/com/codereview/assistant/service/ReviewRuleService.java:79-81 | a pattern without wildcards matches itself |
| Rules.LiteralPrefix | src/main/java/com/codereview/assistant/service/ReviewRuleService.java:79-81 | a literal character in front of a pattern matches the same character in front of a path |
| Rules.StarPrefix | src/main/java/com/codereview/assistant/service/ReviewRuleService.java:79-81 | a single star absorbs any run of characters within one path element |
| Rules.DoubleStarPrefix | src/main/java/com/codereview/assistant/service/ReviewRuleService.java:79-81 | a double star absorbs any run of characters, separators included |
| Rules.GlobLiteral | src/main/java/com/codereview/assistant/service/ReviewRuleService.java:79-81 | a pattern without wildcards matches only itself |
| Rules.GlobSuffix | src/main/java/com/codereview/assistant/service/ReviewRuleService.java:79-81 | a pattern ending in a literal suffix matches only paths ending in it |
| Rules.StarBeforeSuffix | src/main/java/com/codereview/assistant/service/ReviewRuleService.java:79-81 | a star at index 1 lies before a literal suffix of the pattern |
| Rules.FirstMatchShift | src/main/java/com/codereview/assistant/service/ReviewRuleService.java:78-84 | a first match at a later pattern means the first pattern answered no and the match is first in the rest |
| Rules.MatchesAnySpec | src/main/java/com/codereview/assistant/service/ReviewRuleService.java:75-90 | a pattern list matches exactly when some pattern matches and every pattern before it was tried without error and did not match |
| Rules.MatchesPatternLoop | src/main/java/com/codereview/assistant/service/ReviewRuleService.java:75-90 | the loop with its early returns and catch computes the pattern-list verdict |
| Rules.ApplicabilityCases | src/main/java/com/codereview/assistant/service/ReviewRuleService.java:54-70 | a rule without file lists applies everywhere; a matching exclusion always excludes; a non-matching target list always excludes |
| Rules.ApplicableRules | src/main/java/com/codereview/assistant/service/ReviewRuleService.java:45-49 | the applicable rules are an order-preserving subsequence of the input, and exactly the input rules that apply to the path |
| Rules.FilterKeepsOrder | src/main/java/com/codereview/assistant/service/ReviewRuleService.java:32-36 | selecting from a priority-ordered list keeps the priority order |
| Rules.ActiveRulesSpec | src/main/java/com/codereview/assistant/service/ReviewRuleService.java:28-40 | the repository's enabled rules come first and the enabled global rules after them, each part exactly its selection and in priority order |
| Rules.RenderRulesSpec | src/main/java/com/codereview/assistant/service/ReviewRuleService.java:95-127 | the rendering is "" exactly for no rules; rendering a longer list only appends lines |
| Rules.RuleLineByType | src/main/java/com/codereview/assistant/service/ReviewRuleService.java:104-123 | a custom prompt rule shows its prompt, a code pattern rule names its patterns, any other type only its name, with the custom message in parentheses |
| Rules.BuildCustomPrompt | src/main/java/com/codereview/assistant/service/ReviewRuleService.java:95-127 | the StringBuilder loop yields the header followed by one line per rule, in input order |
| Rules.CreateRule | src/main/java/com/codereview/assistant/service/ReviewRuleService.java:133-149 | the new rule gets the next id, is global, defaults to enabled and priority 0, and is added without touching other rules; a null name, type or configuration is refused, and so is a value wider than its column (name 200, type 50, minimum severity 20), with the table unchanged |
| Rules.UpdateRule | src/main/java/com/codereview/assistant/service/ReviewRuleService.java:155-172 | a missing id is reported as not found; an update that leaves a value wider than its column is refused with the table unchanged; otherwise only the rule with that id changes, and it fits its columns |
| Rules.UpdateFieldwise | src/main/java/com/codereview/assistant/service/ReviewRuleService.java:159-168 | a non-null DTO value replaces the field, a null one keeps it; id and repository never change |
| Rules.UpdateIdempotent | src/main/java/com/codereview/assistant/service/ReviewRuleService.java:155-172 | an all-null DTO changes nothing (it is refused only when the stored rule is already too wide), and applying the same accepted update twice equals applying it once |
| Reviews.DetectLanguage | src/main/java/com/codereview/assistant/service/ReviewService.java:144-152 | the result is one of six names; "Java" exactly when the diff mentions ".java"; "Unknown" only when it mentions neither ".js" nor ".ts" |
| Reviews.JsonCountsAsScript | src/main/java/com/codereview/assistant/service/ReviewService.java:148 | a diff mentioning only ".json" (no ".java", no ".py") is taken for JavaScript/TypeScript, since ".js" is a substring of ".json" |
| Reviews.DetectedGuideline | src/main/java/com/codereview/assistant/service/ReviewService.java:65-67 | only Java, Python and Go diffs get a language guideline; the combined script name, "Ruby" and "Unknown" get the general text |
| Reviews.Severities | src/main/java/com/codereview/assistant/service/ReviewService.java:160-162 | the severities of the comments, one per comment, in order |
| Reviews.SeverityCounts | src/main/java/com/codereview/assistant/service/ReviewService.java:154-165 | the keys are info, warning, error plus every severity seen; each count is that severity's number of occurrences |
| Reviews.SeverityCountsSum | src/main/java/com/codereview/assistant/service/ReviewService.java:154-165 | over any duplicate-free list of its keys the counts sum to the number of comments |
| Reviews.Stored | src/main/java/com/codereview/assistant/service/ReviewService.java:71-84 | one stored comment per finding, in order, carrying every field of the finding |
| Reviews.Requests | src/main/java/com/codereview/assistant/service/ReviewService.java:87-98 | one posting request per finding, in order |
| Reviews.ObservedBy | src/main/java/com/codereview/assistant/service/ReviewService.java:50-68 | the analysis is missing exactly when fetching the diff failed |
| Reviews.Started | src/main/java/com/codereview/assistant/service/ReviewService.java:41-47 | the first saved row is "in_progress", never "pending", for the given pull request and commit |
| Reviews.MatchIndices | src/main/java/com/codereview/assistant/service/ReviewService.java:135 | exactly the positions of the rows for the pull request and commit, ascending |
| Reviews.FindByPrAndSha | src/main/java/com/codereview/assistant/service/ReviewService.java:135 | the single matching row, none when no row matches, and an exception only when two rows match |
| Reviews.Recover | src/main/java/com/codereview/assistant/service/ReviewService.java:131-141 | when the lookup throws everything is rolled back; otherwise comments stay and no row is added or removed |
| Reviews.MatchIndicesSnoc | src/main/java/com/codereview/assistant/service/ReviewService.java:135 | an appended row adds its position to the matches exactly when it is for the pull request and commit |
| Reviews.LookupAfterStart | src/main/java/com/codereview/assistant/service/ReviewService.java:135-140 | after the new row is saved the lookup finds it, and throws exactly when an older row of the same commit exists |
| Reviews.RecoverAfterStart | src/main/java/com/codereview/assistant/service/ReviewService.java:131-141 | a failure after the start marks the new row failed with the exception's message, or rolls back when an older row exists |
| Reviews.PerformReview | src/main/java/com/codereview/assistant/service/ReviewService.java:32-142 | the method's database and escaping exception equal the reference outcome of the run, including the rollback when a commit SHA is wider than 40 characters |
| Reviews.SaveAndPost | src/main/java/com/codereview/assistant/service/ReviewService.java:70-126 | storing, posting, summarising and completing equal the reference outcome, including the rollback when `saveAll` refuses a finding |
| Reviews.CaughtOutcome | src/main/java/com/codereview/assistant/service/ReviewService.java:131-141 | a failing step leads to the catch block applied to the writes made so far |
| Reviews.EscapeIsRollback | src/main/java/com/codereview/assistant/service/ReviewService.java:131-141 | an exception escapes, with all writes rolled back, exactly when the database refuses a row, or a step failed and an older row of the same commit exists; a refused row escapes as UnexpectedRollbackException |
| Reviews.StoredFits | src/main/java/com/codereview/assistant/domain/Comment.java:32-35 | the findings fit exactly when each stored comment fits its severity and category columns |
| Reviews.RowsStayFitting | src/main/java/com/codereview/assistant/service/ReviewService.java:47-84 | a run the database accepts leaves every stored review and comment within its column widths |
| Reviews.WideSeverityRollsBack | src/main/java/com/codereview/assistant/service/ReviewService.java:84 | a 21-character severity rolls back even a run whose every step succeeded |
| Reviews.OneReviewAdded | src/main/java/com/codereview/assistant/service/ReviewService.java:32-142 | otherwise exactly one row is added, older rows are unchanged and comments are only appended |
| Reviews.TerminalStatus | src/main/java/com/codereview/assistant/service/ReviewService.java:119-140 | the new row ends "completed" or "failed", never pending or in progress, and is completed exactly when every step succeeded |
| Reviews.CompletedRecordsAnalysis | src/main/java/com/codereview/assistant/service/ReviewService.java:119-126 | a completed row records the comment count, tokens, severity counts of the stored comments and the elapsed time narrowed to int, whenever the database accepts the rows |
| Reviews.FailureKeepsStoredComments | src/main/java/com/codereview/assistant/service/ReviewService.java:131-141 | a failed row carries the failure's message and no counts; comments stored before a posting failure stay, whenever the database accepts the rows |
| Reviews.AiFailureStillCompletes | src/main/java/com/codereview/assistant/service/ReviewService.java:62-68 | an unconfigured key still lets the run complete, with the fixed key-missing result as analysis |
| Tally.Merge | src/main/java/com/codereview/assistant/service/StatisticsService.java:165 | merging adds the key and raises its count by the amount; every other key keeps its count |
| Tally.MergeAllSpec | src/main/java/com/codereview/assistant/service/StatisticsService.java:164-166 | merging a list adds exactly its keys, and each key grows by the sum of that key's amounts |
| Tally.SumAtMerge | src/main/java/com/codereview/assistant/service/StatisticsService.java:165 | summed over duplicate-free keys, one merge adds its amount exactly when its key is among them |
| Tally.SumAtMergeAll | src/main/java/com/codereview/assistant/service/StatisticsService.java:252-255 | summed over duplicate-free keys covering the entries, merging adds exactly the entries' total |
| Tally.SumAtZero | src/main/java/com/codereview/assistant/service/StatisticsService.java:158-161 | a map seeded with zeros sums to zero |
| Tally.OnesCount | src/main/java/com/codereview/assistant/service/StatisticsService.java:252-255 | counting one per item totals the item count, and gives each key its number of occurrences |
| Tally.CountSpec | src/main/java/com/codereview/assistant/service/StatisticsService.java:157-169 | a zero-seeded tally holds the seed and counted keys, each at its occurrence count, and sums to the item count |
| Statistics.SeverityDistribution | src/main/java/com/codereview/assistant/service/StatisticsService.java:157-169 | info, warning and error are always keys; every severity maps to its number of comments |
| Statistics.CategoryDistribution | src/main/java/com/codereview/assistant/service/StatisticsService.java:171-180 | only the categories that occur are keys, each mapped to its number of comments |
| Statistics.DistributionsSumToCount | src/main/java/com/codereview/assistant/service/StatisticsService.java:157-180 | both distributions sum to the number of comments over any duplicate-free list of their keys |
| Statistics.SeedDays | src/main/java/com/codereview/assistant/service/StatisticsService.java:247-249 | the seeded days are exactly the days after today minus days, through today, all at zero |
| Statistics.Insert | src/main/java/com/codereview/assistant/service/StatisticsService.java:262 | inserting into a date-sorted list keeps it sorted and adds the date once |
| Statistics.SortedPoints | src/main/java/com/codereview/assistant/service/StatisticsService.java:257-263 | the points are strictly ascending by date and list each map entry exactly once, with its count |
| Statistics.ListedSum | src/main/java/com/codereview/assistant/service/StatisticsService.java:257-263 | sorted points listing a map cover its keys without repeats, and their counts sum to its values |
| Statistics.Series | src/main/java/com/codereview/assistant/service/StatisticsService.java:243-263 | every seeded day and entry day appears once, ascending, with the sum of its amounts; counts total the entries |
| Statistics.DailyReviews | src/main/java/com/codereview/assistant/service/StatisticsService.java:243-264 | each day counts the reviews created on it, and the series sums to the number of reviews |
| Statistics.DailyComments | src/main/java/com/codereview/assistant/service/StatisticsService.java:266-285 | exactly the last `days` days and the days of the reviews are listed, ascending; each day sums its reviews' comment counts, and the series sums to all of them |
| Statistics.IssueEntries | src/main/java/com/codereview/assistant/service/StatisticsService.java:294-300 | each entry is the day and recorded error count of some review |
| Statistics.IssuesIgnoreUncounted | src/main/java/com/codereview/assistant/service/StatisticsService.java:296-299 | a review without counts, or without an "error" key, leaves the issue series unchanged |
| Statistics.DailyIssues | src/main/java/com/codereview/assistant/service/StatisticsService.java:287-309 | exactly the last `days` days and the days of reviews with a recorded error count are listed, ascending; each day sums those counts, and the series sums to their total |
| Statistics.TotalTokensUsed | src/main/java/com/codereview/assistant/service/StatisticsService.java:141-144 | the total is a 32-bit int congruent, modulo 2^32, to the tokens of completed reviews that recorded them |
| Statistics.TokensSkipUnfinished | src/main/java/com/codereview/assistant/service/StatisticsService.java:126-144 | a review that is not completed, or recorded no tokens, does not change the total |
| Statistics.OverallOf | src/main/java/com/codereview/assistant/service/StatisticsService.java:120-155 | the totals are the sizes of the repository, pull request, review and comment tables, and the token total is the int (32-bit wrapped) sum of the completed reviews' tokens |
| Statistics.RepoReviewsSum | src/main/java/com/codereview/assistant/service/StatisticsService.java:204-207 | with distinct pull request ids, flattening per pull request counts each review of the repository exactly once |
| Statistics.RepositoryStatsSpec | src/main/java/com/codereview/assistant/service/StatisticsService.java:204-224 | the review count is the number of the repository's reviews; the comment total matches their sum modulo 2^32 |
| GitHub.ApiFailure | src/main/java/com/codereview/assistant/service/GitHubClientService.java:51-56 | the wrapped failure is a runtime exception with a message, outside the RestClient family |
| GitHub.ApiFailureNamesPr | src/main/java/com/codereview/assistant/service/GitHubClientService.java:53-55 | the failure message names owner/repo#number of the pull request |
| GitHub.BlocksInOrder | src/main/java/com/codereview/assistant/service/GitHubClientService.java:40-48 | the diff is the files' blocks in listing order: the blocks before file i, file i's block, then the rest |
| GitHub.BlockShape | src/main/java/com/codereview/assistant/service/GitHubClientService.java:41-47 | each block opens with a line the diff reducer reads as a file header, and carries the patch verbatim |
| GitHub.FetchDiff | src/main/java/com/codereview/assistant/service/GitHubClientService.java:30-58 | the diff is produced exactly when the listing was reachable; otherwise the wrapped "fetch diff" failure |
| GitHub.EmojiIdentifiesSeverity | src/main/java/com/codereview/assistant/service/GitHubClientService.java:177-181 | two severities get the same emoji exactly when they agree on being "error" and on being "warning" |
| GitHub.SectionsIffPresent | src/main/java/com/codereview/assistant/service/GitHubClientService.java:186-194 | the suggestion and example sections appear exactly when their field is non-null and non-empty |
| GitHub.BodyOpensWithHeading | src/main/java/com/codereview/assistant/service/GitHubClientService.java:183-184 | the body opens with emoji and upper-cased category, followed at once by the message verbatim |
| GitHub.SuggestionCarried | src/main/java/com/codereview/assistant/service/GitHubClientService.java:186-188 | a present suggestion appears verbatim in the body |
| GitHub.ExampleCarried | src/main/java/com/codereview/assistant/service/GitHubClientService.java:190-194 | a present code example appears verbatim in the body |
| GitHub.PostFor | src/main/java/com/codereview/assistant/service/GitHubClientService.java:90-100 | a comment is posted on a line exactly when it has a line and a path, on the given commit, with the formatted body |
| GitHub.Successes | src/main/java/com/codereview/assistant/service/GitHubClientService.java:87-104 | the success count never exceeds the number of posts |
| GitHub.PostsForAt | src/main/java/com/codereview/assistant/service/GitHubClientService.java:88-105 | the i-th post is the i-th comment's post |
| GitHub.PostEach | src/main/java/com/codereview/assistant/service/GitHubClientService.java:87-105 | the loop posts one request per comment, in order, and counts exactly the posts that did not throw |
| GitHub.PostReviewComments | src/main/java/com/codereview/assistant/service/GitHubClientService.java:63-115 | an empty list makes no call; a session failure is rethrown wrapped; otherwise every comment is posted in order and failed posts are only not counted |
| GitHub.PostedInOrder | src/main/java/com/codereview/assistant/service/GitHubClientService.java:88-105 | comment i is posted in position i with its own body, inline exactly when it has line and path |
| GitHub.SummaryTemplate | src/main/java/com/codereview/assistant/service/GitHubClientService.java:135-144 | the summary text sits verbatim after the heading and the count just before the fixed footer |
| GitHub.PostSummary | src/main/java/com/codereview/assistant/service/GitHubClientService.java:120-155 | one general comment with the template, exactly when the post succeeds; otherwise the wrapped "post summary comment" failure |
| Sessions.Thrown | src/main/java/com/codereview/assistant/service/GitLabClientService.java:52-57 | an exchange that throws raises a RestClient exception: a client error for 4xx, a server error for 5xx, an access error when no reply came |
| Sessions.Attempts | src/main/java/com/codereview/assistant/service/GitLabClientService.java:196-222 | a line comment takes one exchange when accepted, three only when neither it nor its fallback note was accepted and it did not throw, otherwise two |
| Sessions.Copies | src/main/java/com/codereview/assistant/service/GitLabClientService.java:216-218 | n copies of the fallback note |
| Sessions.Segment | src/main/java/com/codereview/assistant/service/GitLabClientService.java:167-222 | every item makes at least one exchange, and only a failed general note stops the loop, after a single exchange |
| Sessions.PostItem | src/main/java/com/codereview/assistant/service/GitLabClientService.java:196-222 | one pass makes the primary exchange, then the fallback note as often as the replies call for it |
| Sessions.PostItems | src/main/java/com/codereview/assistant/service/GitLabWebhookService.java:103-149 | the loop stops at the first failure that escapes, and otherwise runs over every item |
| Sessions.RunAppend | src/main/java/com/codereview/assistant/service/GitLabWebhookService.java:103-144 | running over two lists runs over the first, then over the second |
| Sessions.StoppedStays | src/main/java/com/codereview/assistant/service/GitLabWebhookService.java:146-149 | once a failure has escaped, later comments post nothing |
| Sessions.RunExtends | src/main/java/com/codereview/assistant/service/GitLabWebhookService.java:103-149 | the loop only appends exchanges, and a stop always follows a general note whose exchange failed |
| Sessions.LineNotesOfPlaced | src/main/java/com/codereview/assistant/service/GitLabWebhookService.java:130-138 | items with lines call for one line comment each, in order |
| Sessions.FallbacksAreNotLineNotes | src/main/java/com/codereview/assistant/service/GitLabClientService.java:209-218 | fallback notes are never line comments |
| Sessions.SegmentLineNotes | src/main/java/com/codereview/assistant/service/GitLabClientService.java:167-222 | an item's exchanges include its line comment once, and only if it has a line |
| Sessions.RunLineNotes | src/main/java/com/codereview/assistant/service/GitLabWebhookService.java:103-144 | unless a failure escapes, each item's line comment is made exactly once, in order, whatever the replies |
| Sessions.PlacedNeverStop | src/main/java/com/codereview/assistant/service/GitLabClientService.java:213-221 | line comments swallow their own failures, so items that all have lines run to the end |
| Sessions.ExchangeBounds | src/main/java/com/codereview/assistant/service/GitLabClientService.java:167-222 | a run that does not stop makes between one and three exchanges per item |
| Sessions.AllAcceptedRun | src/main/java/com/codereview/assistant/service/GitLabWebhookService.java:103-144 | when every reply is a success each item makes exactly one exchange, its first request, in order |
| Publishing.CountSeverity | src/main/java/com/codereview/assistant/service/GitLabWebhookService.java:89-94 | the count of comments with exactly that severity never exceeds the number of comments |
| Publishing.CountsWithinTotal | src/main/java/com/codereview/assistant/service/GitLabWebhookService.java:89-98 | the three severity counts sum to at most the comment count, and to it exactly when every severity is spelled "error", "warning" or "info" |
| Publishing.SummaryRows | src/main/java/com/codereview/assistant/service/GitLabWebhookService.java:85-98 | the summary lists the comment count, the tokens, then the error, warning and info counts |
| Publishing.SummaryText | src/main/java/com/codereview/assistant/service/GitLabWebhookService.java:82-84 | the summary note opens with the heading and the review's summary |
| Publishing.BadgeAndCountDisagreeOnCase | src/main/java/com/codereview/assistant/service/GitLabWebhookService.java:89-111 | an "ERROR" comment gets the red badge but is not counted among the errors |
| Publishing.CommentText | src/main/java/com/codereview/assistant/service/GitLabWebhookService.java:113-117 | the body opens with badge, upper-cased severity, category and the message |
| Publishing.CommentTextSections | src/main/java/com/codereview/assistant/service/GitLabWebhookService.java:119-127 | the suggestion and example sections appear exactly when present, carrying their text verbatim; the message is always carried |
| Publishing.FileNoteBody | src/main/java/com/codereview/assistant/service/GitLabWebhookService.java:141-142 | a comment without a line is posted as a note that names its file, followed by its body |
| Publishing.FallbackBody | src/main/java/com/codereview/assistant/service/GitLabClientService.java:209-210 | the fallback note names the file and line, followed by the body |
| Publishing.ItemOf | src/main/java/com/codereview/assistant/service/GitLabWebhookService.java:130-143 | a comment is posted as a line comment exactly when it has a line number, with the file-and-line fallback note |
| Publishing.Items | src/main/java/com/codereview/assistant/service/GitLabWebhookService.java:103 | one item per comment, in order |
| Publishing.Opening | src/main/java/com/codereview/assistant/service/GitLabWebhookService.java:100 | the summary note is exchange 0, and its failure stops the session |
| Publishing.PostReviewComments | src/main/java/com/codereview/assistant/service/GitLabWebhookService.java:78-150 | the method posts the summary and then the comment loop, exactly as the session model says |
| Publishing.PublishStopsAtFailedNote | src/main/java/com/codereview/assistant/service/GitLabWebhookService.java:80-149 | the summary always goes first, and the session stops early only right after a failed general note |
| Publishing.SummaryFailureStops | src/main/java/com/codereview/assistant/service/GitLabWebhookService.java:100-149 | a failed summary ends the session before any comment is posted |
| Publishing.InlineReviewPublished | src/main/java/com/codereview/assistant/service/GitLabWebhookService.java:100-144 | after an accepted summary, a review whose comments all have lines gets every line comment, in order, with its body |
| Publishing.AllAcceptedPublish | src/main/java/com/codereview/assistant/service/GitLabWebhookService.java:78-144 | when every exchange succeeds the session is the summary and then exactly one post per comment, in order |
| GitLab.ModeLinePriority | src/main/java/com/codereview/assistant/service/GitLabClientService.java:94-101 | a new file wins over a deleted one, which wins over a rename; no flag, no mode line |
| GitLab.BlockShape | src/main/java/com/codereview/assistant/service/GitLabClientService.java:91-103 | each block opens with a line the diff reducer reads as a file header and ends with the change's diff and a newline |
| GitLab.AppendChanges | src/main/java/com/codereview/assistant/service/GitLabClientService.java:83-106 | the builder loop yields the changes' blocks concatenated in order |
| GitLab.ParseDiffFromChanges | src/main/java/com/codereview/assistant/service/GitLabClientService.java:74-112 | text is returned exactly when a body is present and parses; otherwise the "Failed to parse GitLab changes" failure |
| GitLab.ListingDiff | src/main/java/com/codereview/assistant/service/GitLabClientService.java:77-81 | a missing or non-array "changes" field gives the empty diff; an array gives its blocks |
| GitLab.FetchMrDiff | src/main/java/com/codereview/assistant/service/GitLabClientService.java:39-69 | only a 200 reply with a parsable body gives a diff; every other case is "Failed to fetch GitLab MR diff" wrapping the cause |
| GitLab.DetectLanguageFromProject | src/main/java/com/codereview/assistant/service/GitLabWebhookService.java:156-177 | the guess is one of the seven prompt languages or "Unknown" |
| GitLab.FirstHintedIsListed | src/main/java/com/codereview/assistant/service/GitLabWebhookService.java:156-177 | the table search answers with a row's language or "Unknown" |
| GitLab.FirstHintedAt | src/main/java/com/codereview/assistant/service/GitLabWebhookService.java:159-174 | row i wins exactly when one of its fragments occurs and no fragment of an earlier row does |
| GitLab.FirstHintedUnknown | src/main/java/com/codereview/assistant/service/GitLabWebhookService.java:176 | "Unknown" exactly when no fragment occurs in the name |
| GitLab.DetectIsFirstHinted | src/main/java/com/codereview/assistant/service/GitLabWebhookService.java:156-177 | the if-chain equals the first-match search over the hint table |
| GitLab.JavaScriptNamesAreJava | src/main/java/com/codereview/assistant/service/GitLabWebhookService.java:159-165 | a project named with "javascript" is reviewed as Java, because "java" is checked first |
| GitLab.HandleMergeRequestEvent | src/main/java/com/codereview/assistant/service/GitLabWebhookService.java:26-73 | every failure surfaces as "Failed to process GitLab MR webhook" |
| GitLab.IgnoredIffFiltered | src/main/java/com/codereview/assistant/service/GitLabWebhookService.java:34-44 | the event is skipped exactly when the action is not open or update, or the merge request is marked work in progress |
| GitLab.NoDiffIffBlank | src/main/java/com/codereview/assistant/service/GitLabWebhookService.java:49-54 | handling stops without analysis exactly when a reviewable event fetches a blank diff |
| GitLab.ReviewedSpec | src/main/java/com/codereview/assistant/service/GitLabWebhookService.java:47-64 | a reviewed event was analysed with the fetched diff and the project-name language, and posted against the last commit |
| GitLab.PostingNeverFailsTheEvent | src/main/java/com/codereview/assistant/service/GitLabWebhookService.java:146-149 | the posting replies never change whether the event is reviewed or failed |
| Base64.Digit | src/main/java/com/codereview/assistant/service/BitbucketClientService.java:195 | every six-bit value has a character of the alphabet that stands for it |
| Base64.DigitOfValue | src/main/java/com/codereview/assistant/service/BitbucketClientService.java:195 | every alphabet character is the digit of its own value |
| Base64.Encode | src/main/java/com/codereview/assistant/service/BitbucketClientService.java:195 | the text is four characters for every started group of three bytes |
| Base64.DecodeEncode | src/main/java/com/codereview/assistant/service/BitbucketClientService.java:195-196 | decoding the encoded text gives back exactly the bytes, for every byte sequence |
| Base64.EncodeAlphabet | src/main/java/com/codereview/assistant/service/BitbucketClientService.java:195 | the encoded text uses only the alphabet and "=", and pads only its last two places |
| Bitbucket.Authorization | src/main/java/com/codereview/assistant/service/BitbucketClientService.java:188-201 | the header is set exactly when both username and app password are non-empty, and then starts with "Basic " |
| Bitbucket.CredentialsRecoverable | src/main/java/com/codereview/assistant/service/BitbucketClientService.java:194-196 | the header is "Basic " followed by base-64 text that decodes to the bytes of "username:password" |
| Bitbucket.HeaderDeterminesCredentials | src/main/java/com/codereview/assistant/service/BitbucketClientService.java:194-197 | with an injective charset and a colon-free username, equal headers mean equal credentials |
| Bitbucket.ColonSplit | src/main/java/com/codereview/assistant/service/BitbucketClientService.java:194 | "user:password" splits back into its parts when the username has no colon |
| Bitbucket.FetchPrDiff | src/main/java/com/codereview/assistant/service/BitbucketClientService.java:44-72 | only a 200 reply yields its body, possibly null; every other case is "Failed to fetch Bitbucket PR diff" wrapping the cause |
| Bitbucket.DetectLanguage | src/main/java/com/codereview/assistant/service/BitbucketWebhookService.java:155-177 | a null or empty language gives "Unknown"; the result is never empty |
| Bitbucket.DetectListed | src/main/java/com/codereview/assistant/service/BitbucketWebhookService.java:160-174 | a listed spelling, in any letter case, gives its row's normalised name |
| Bitbucket.DetectUnlisted | src/main/java/com/codereview/assistant/service/BitbucketWebhookService.java:175 | a language in no row is returned unchanged |
| Bitbucket.NamesAreOwnAliases | src/main/java/com/codereview/assistant/service/BitbucketWebhookService.java:162-174 | each normalised name, lower-cased, is one of its own row's spellings |
| Bitbucket.DetectIdempotent | src/main/java/com/codereview/assistant/service/BitbucketWebhookService.java:155-177 | normalising a normalised language changes nothing |
| Bitbucket.HandlePullRequestEvent | src/main/java/com/codereview/assistant/service/BitbucketWebhookService.java:26-73 | every failure surfaces as "Failed to process Bitbucket PR webhook" |
| Bitbucket.IgnoredIffFiltered | src/main/java/com/codereview/assistant/service/BitbucketWebhookService.java:33-44 | the event is skipped exactly when the state is not "OPEN" or the full name does not split into two parts |
| Bitbucket.NoDiffIffBlank | src/main/java/com/codereview/assistant/service/BitbucketWebhookService.java:50-55 | handling stops without analysis exactly when an accepted event fetches a null or blank diff |
| Bitbucket.ReviewedSpec | src/main/java/com/codereview/assistant/service/BitbucketWebhookService.java:46-64 | a reviewed event was analysed with the fetched diff and the normalised language, and posted without an anchor |
| Bitbucket.PostingNeverFailsTheEvent | src/main/java/com/codereview/assistant/service/BitbucketWebhookService.java:146-149 | the posting replies never change whether the event is reviewed or failed |
| Bitbucket.FullNameParts | src/main/java/com/codereview/assistant/service/BitbucketWebhookService.java:39-47 | "workspace/slug", with or without a trailing slash, splits into the workspace and the slug |
| Bitbucket.EmptySlugIgnored | src/main/java/com/codereview/assistant/service/BitbucketWebhookService.java:40-43 | "workspace/" has fewer than two parts, so the event is skipped |
| Health.CheckHealth | src/main/java/com/codereview/assistant/service/OpenAiHealthCheckService.java:37-169 | the configuration flags and model are always reported; healthy needs test mode or a well-formed key; the connection succeeded exactly when a healthy live test gave a time; a reported token count lies in the 32-bit range |
| Health.LiveReplyReport | src/main/java/com/codereview/assistant/service/OpenAiHealthCheckService.java:104-114 | a live reply is healthy with its time, its usage total narrowed by `intValue()` (unchanged when it fits 32 bits) and the content, or "null", after the status prefix |
| Health.TokensWrapAt32Bits | src/main/java/com/codereview/assistant/service/OpenAiHealthCheckService.java:105 | a usage total of 2^31 is reported as -2^31 |
| Health.NullUsageIsUnexpected | src/main/java/com/codereview/assistant/service/OpenAiHealthCheckService.java:104-168 | a reply without a usage total throws a NullPointerException that the last catch reports as "Unexpected error: " with status "Health check failed" |
| Health.NoCallUnlessTested | src/main/java/com/codereview/assistant/service/OpenAiHealthCheckService.java:52-87 | without a live test (test mode, a bad key, or no test requested) the report does not depend on the service's reply |
| Health.TestModeFirst | src/main/java/com/codereview/assistant/service/OpenAiHealthCheckService.java:52-58 | test mode reports healthy with no connection verdict, whatever the key |
| Health.BadKeyUnhealthy | src/main/java/com/codereview/assistant/service/OpenAiHealthCheckService.java:61-78 | outside test mode a missing key, then a malformed one, is reported unhealthy and unsuccessful with its own message |
| Health.SkippedTestHealthy | src/main/java/com/codereview/assistant/service/OpenAiHealthCheckService.java:81-87 | a valid key with no live test is healthy, with no connection verdict |
| Health.ProbeFailureReports | src/main/java/com/codereview/assistant/service/OpenAiHealthCheckService.java:118-168 | every failed live test is unhealthy and unsuccessful with an error message: the fixed texts for 401 and 429, "Client error: " for other client errors |
| Health.ProbeFailureByKind | src/main/java/com/codereview/assistant/service/OpenAiHealthCheckService.java:138-168 | a 5xx, a network failure and any other exception each get their own status text and an error message with their own prefix |
| Health.MaskKey | src/main/java/com/codereview/assistant/health/AIServiceHealthIndicator.java:55-60 | a short key is masked entirely; a longer one shows only its first and last four characters around "..." |
| Health.EightCharKeyDisclosed | src/main/java/com/codereview/assistant/health/AIServiceHealthIndicator.java:55-60 | an eight-character key is fully disclosed by its mask |
| Health.MaskEqualsKeyIff | src/main/java/com/codereview/assistant/health/AIServiceHealthIndicator.java:55-60 | the mask equals the key only for "****" itself and for 11-character keys with "..." in the middle |
| Health.IndicatorHealth | src/main/java/com/codereview/assistant/health/AIServiceHealthIndicator.java:25-50 | down exactly when the key is missing or empty; otherwise up with the masked key and the model |
| PullRequests.FirstWhere | src/main/java/com/codereview/assistant/service/PullRequestService.java:30-32 | the index found satisfies the query and no earlier row does; none is found only when no row does |
| PullRequests.FirstWhereAppended | src/main/java/com/codereview/assistant/service/PullRequestService.java:53 | a row saved after rows that do not match is the one a later lookup finds |
| PullRequests.FirstWhereReplaced | src/main/java/com/codereview/assistant/service/PullRequestService.java:39 | saving a found row back in place keeps it the first match |
| PullRequests.GetOrCreateRepository | src/main/java/com/codereview/assistant/service/PullRequestService.java:42-55 | the pull request table is untouched, and the repository has the payload's GitHub id |
| PullRequests.GetOrCreateRepositorySpec | src/main/java/com/codereview/assistant/service/PullRequestService.java:42-55 | a stored repository is reused unchanged; only an unknown GitHub id appends a new row, with the installation id or null |
| PullRequests.HandlePullRequestEvent | src/main/java/com/codereview/assistant/service/PullRequestService.java:22-40 | a saved pull request implies the payload had a pull request, a repository and a title, and a state of at most 50 characters; a longer state is refused |
| PullRequests.HandleSpec | src/main/java/com/codereview/assistant/service/PullRequestService.java:22-40 | the saved row belongs to the payload's repository with its number, title, body and state; an existing row keeps its author, a new one takes the payload user's login |
| PullRequests.HandlePreservesValid | src/main/java/com/codereview/assistant/service/PullRequestService.java:22-40 | ids stay positions, and GitHub ids and (repository, number) pairs stay unique |
| PullRequests.ReplayIsIdempotent | src/main/java/com/codereview/assistant/service/PullRequestService.java:22-40 | replaying a payload that was just applied changes nothing and returns the same row |
| Webhooks.XorZero | src/main/java/com/codereview/assistant/service/GitHubWebhookService.java:69 | the exclusive or of two character codes is zero exactly when they are equal |
| Webhooks.BitOrZero | src/main/java/com/codereview/assistant/service/GitHubWebhookService.java:69-71 | the accumulated or is zero exactly when every accumulated value is zero |
| Webhooks.MessageDigestEquals | src/main/java/com/codereview/assistant/service/GitHubWebhookService.java:62-72 | the comparison answers true exactly when the two strings are equal |
| Webhooks.HexShape | src/main/java/com/codereview/assistant/service/GitHubWebhookService.java:56 | the hex text has two lower-case hexadecimal digits per byte |
| Webhooks.VerifySignature | src/main/java/com/codereview/assistant/service/GitHubWebhookService.java:29-42 | accepted exactly when a signature is present and equals "sha256=" followed by the hex HMAC of the payload |
| Webhooks.UpperCaseHexRejected | src/main/java/com/codereview/assistant/service/GitHubWebhookService.java:36-37 | a signature with an upper-case hex digit is rejected, because the comparison is exact |
| Webhooks.HandleGitHubWebhook | src/main/java/com/codereview/assistant/controller/WebhookController.java:35-70 | the answer is 200, 401 or 500, and a review is queued only with a 200 |
| Webhooks.BadSignatureStopsEverything | src/main/java/com/codereview/assistant/controller/WebhookController.java:46-51 | the answer is 401 exactly when the signature is bad, and then the payload is never read and nothing changes |
| Webhooks.QueuedIffOpenedOrSynchronized | src/main/java/com/codereview/assistant/controller/WebhookController.java:53-87 | a review is queued exactly for a signed, readable "pull_request" event whose action is "opened" or "synchronize" and that is stored, with the stored pull request and the head commit |
| Webhooks.OtherEventsChangeNothing | src/main/java/com/codereview/assistant/controller/WebhookController.java:58-63 | any other signed, readable event is answered as processed, with the tables unchanged and nothing queued |
| Webhooks.GitLabWebhook | src/main/java/com/codereview/assistant/controller/GitLabWebhookController.java:31-71 | background handling is started exactly when the event is accepted |
| Webhooks.GitLabAnswerIgnoresOutcome | src/main/java/com/codereview/assistant/controller/GitLabWebhookController.java:38-62 | the answer depends only on the event header and object kind, and is "accepted" exactly for a merge request event |
| Webhooks.BitbucketWebhook | src/main/java/com/codereview/assistant/controller/BitbucketWebhookController.java:31-70 | background handling is started exactly when the event is accepted |
| Webhooks.BitbucketAnswerIgnoresOutcome | src/main/java/com/codereview/assistant/controller/BitbucketWebhookController.java:38-61 | the answer depends only on the event key, and is "accepted" exactly when the key starts with "pullrequest:" |
| Dashboard.EscapeChar | src/main/resources/static/js/dashboard.js:352-359 | a markup character becomes a character reference starting with "&"; every other character is kept as it is |
| Dashboard.UnescapeChar | src/main/resources/static/js/dashboard.js:352-358 | reading back one escaped character gives that character, whatever follows |
| Dashboard.UnescapeEscape | src/main/resources/static/js/dashboard.js:351-360 | reading the escaped text back gives the original text, so escaping loses nothing |
| Dashboard.EscapedIsInert | src/main/resources/static/js/dashboard.js:352-359 | the escaped text contains none of the characters < > " ' |
| Dashboard.PlainTextUnchanged | src/main/resources/static/js/dashboard.js:359 | text without markup characters is returned unchanged |
| Dashboard.EscapeAppend | src/main/resources/static/js/dashboard.js:359 | escaping distributes over concatenation, as a global per-character replace does |
| Dashboard.FormatSeverityCounts | src/main/resources/static/js/dashboard.js:199-200 | missing counts give the empty text |
| Dashboard.BadgesFollowSeverityOrder | src/main/resources/static/js/dashboard.js:202-211 | the badges are those of the positive counts, in the order error, warning, info, each showing its count |
| Dashboard.EmptyIffNothingPositive | src/main/resources/static/js/dashboard.js:199-214 | the text is empty exactly when no count is positive |
| Dashboard.SingleBadge | src/main/resources/static/js/dashboard.js:213 | with a single positive count the text is that badge alone, with no separator |
| Dashboard.FormatTime | src/main/resources/static/js/dashboard.js:217-221 | null or zero gives "0" with the seconds suffix; other durations under a second end in "ms"; longer ones use the one-decimal seconds text |
| Text.DecimalRoundTrip | src/main/resources/static/js/dashboard.js:219 | a natural number's decimal digits read back as that number |
| Dashboard.MillisecondsReadBack | src/main/resources/static/js/dashboard.js:219 | a positive duration under a second is shown as its own digits followed by "ms" |
| Dashboard.MillisecondsDistinct | src/main/resources/static/js/dashboard.js:219 | different durations under a second get different labels |
| Text.TrimSpec | src/main/java/com/codereview/assistant/service/GitLabWebhookService.java:51 | trimming drops exactly a leading and a trailing run of characters up to U+0020 and leaves a trimmed middle slice |
| Text.TrimOfTrimmed | src/main/java/com/codereview/assistant/service/GitLabWebhookService.java:51 | trimming a trimmed string changes nothing |
| Text.JavaSplit | src/main/java/com/codereview/assistant/service/BitbucketWebhookService.java:40 | the pieces contain no separator, a string without the separator is its own single piece, and the pieces are the full split with trailing empty pieces removed |
| Text.JoinSplitAll | src/main/java/com/codereview/assistant/service/BitbucketWebhookService.java:40 | joining the full split with the separator gives back the string |
| Text.TrimEmpty | src/main/java/com/codereview/assistant/service/GitLabWebhookService.java:51 | a string is blank exactly when every character is at most U+0020 |

## Left out

- HTTP, language-model and GitHub-library calls are parameters of the operations that make them: the reply, status or thrown exception of each exchange is given, not computed. RestTemplate's default error handler is modelled only as "a 4xx/5xx status or no reply throws".
- Jackson parsing is an oracle: JSON is the `Json` datatype, and the parse from text is a parameter. JsonIntegerMapConverter is left out for the same reason.
- Java's PathMatcher glob is replaced by a simplified glob with `*`, `**` and `?` only. Character classes, brace alternatives and `Paths.get` normalisation are not modelled. An invalid pattern is still a non-match that stops the search.
- HMAC-SHA256 and the platform default charset are parameters. Only their hex form and the comparison are modelled.
- Case mapping is ASCII only, with no locale rules.
- Strings are sequences of Unicode scalar values, not of UTF-16 units. Where Java's `length()` decides something, the model counts UTF-16 units with `Text.Utf16Length`: the diff budget in `DiffReducer` does. Lone surrogates cannot be written.
- ApiKeys.MaskForLog: the length test and the first seven characters count Unicode characters; Java counts UTF-16 units, so a key holding characters outside the Basic Multilingual Plane is masked differently. This is not modelled because a cut through a surrogate pair cannot be represented.
- Health.MaskKey: the length test and the first and last four characters count Unicode characters; Java counts UTF-16 units, so a key holding characters outside the Basic Multilingual Plane is masked differently. This is not modelled because a cut through a surrogate pair cannot be represented.
- ResponseParser.ParseEntry: a "lineNumber" text that is not a sign and decimal digits, such as "42.0" or "1e3", goes through Java's double parsing in Jackson's `asInt`. That parsing is not modelled, and the model reads 0 there, as Jackson does for text that is no number at all. A JSON number with a fraction is modelled: it is truncated toward zero.
- Threads are not modelled: the `new Thread` processing in the GitLab and Bitbucket controllers, `@Async` on the review, the thread-pool settings and the message broker. Only the synchronous decisions are kept.
- bucket4j rate limiting is not modelled.
- Averages in StatisticsService and the health indicator's 10% rate-limit threshold are floating point and are left out. So is the model temperature.
- Clocks are parameters: dates are day numbers and "now" is given. Recent activity in StatisticsService and the dashboard's `formatDate` are left out.
- Framework plumbing is not modelled: security, CORS, OpenAPI, actuator configuration, the global exception handler, and the home, health-check and dashboard controllers that only project entities into maps.
- Repository interfaces are maps or lists. Rule deletion, listing and DTO conversion are plain repository calls and are not modelled.
- JPA transaction rollback is modelled only as "an exception escaping the transaction leaves the tables unchanged". A repository call that throws inside `performReview` marks the shared transaction rollback-only; the model takes the commit's UnexpectedRollbackException as the exception that escapes, and does not model which of the catch block's lookup, a flush or the commit throws first.
- Declared column widths are enforced: the review's commit SHA (40), the pull request's status (50), the comment's severity (20) and category (50), and the rule's name (200), type (50) and minimum severity (20). String columns without a declared length are not bounded. The review status and model columns only receive short constants.
- Logging is left out.
- Guideline and prompt prose are constants whose wording is not checked. Only their structure and position are.
- Null `Integer`/`Long` identifiers, the JVM's detail messages of null-pointer exceptions and the driver's messages of constraint violations (a null in a non-null column, or a value wider than its column) are not modelled: such an exception carries a null message, so the webhook's 500 body reads "Error processing webhook: null" where the application would show the driver's text. A null reply content or null usage total from the chat model is modelled. HTTP reason phrases are not modelled either.
- The GitLab and Bitbucket webhook controllers' 500 branches cannot be reached, because processing happens on another thread. They are not modelled.
- GitLab line notes carry the commit id given to them. A missing commit id is modelled as an absent anchor.
- Bitbucket inline comments are modelled by path and line only.
- Statistics.DailyReviews: daily counts are unbounded integers; Java's `int` wrap-around in `Integer::sum` is not modelled.
- Statistics.DailyComments: daily counts are unbounded integers; Java's `int` wrap-around in `Integer::sum` is not modelled.
- Statistics.DailyIssues: daily counts are unbounded integers; Java's `int` wrap-around in `Integer::sum` is not modelled.
- Statistics.Series: daily counts are unbounded integers; Java's `int` wrap-around in `Integer::sum` is not modelled.
- Dashboard.FormatTime: the text that `toFixed(1)` gives for whole seconds is a parameter, because it is floating-point formatting.

## Findings

| source | as written | input that shows it | evidently intended | confidence | as-written member | corrected member |
|---|---|---|---|---|---|---|
| src/main/java/com/codereview/assistant/config/OpenAiClientConfig.java:47-54 | the retry template builder gets `retryOn` twice and then `notRetryOn` | the configured call sequence itself: the builder refuses to mix retry and no-retry classes, so the template bean cannot be built | retry network failures and 5xx responses only, never a 4xx | not executed | RetryPolicy.ConfiguredCallsRejected | RetryPolicy.IntendedClassifier |

=== FILE: analysis.dfy ===
/**
 * `CodeReviewService.analyzeCode` and `analyzeCodeWithRules`: the key gate,
 * the test-mode shortcut, the prompt sent to the chat model, and how every
 * failure is turned into an empty result with a readable summary.
 */
module Analysis {
  import opened Wrappers
  import opened Text
  import opened Json
  import opened Exceptions
  import opened ApiKeys
  import opened ResponseParser
  import opened RetryPolicy
  import DiffReducer
  import Prompts
  import Rules

  const NotConfiguredMessage: string :=
    "OpenAI API Key is not configured. Please set OPENAI_API_KEY environment variable."

  /** The token count reported for the canned test-mode reply. */
  const TestTokens: int := 100

  const UnexpectedPrefix: string := "Unexpected error occurred during code analysis: "

  /** What the service depends on: the configured key, the test-mode flag
      with its canned reply, the chat model (the outcome of attempt `k` of a
      call with a given prompt) and the JSON parser. */
  datatype AiEnv = AiEnv(
    apiKey: Option<string>,
    testMode: bool,
    testResponse: string,
    attempt: (string, nat) -> CallOutcome,
    parse: Parser)

  /** A result without comments or tokens, carrying only a summary. */
  function Failed(summary: string): CodeReviewResult {
    CodeReviewResult([], summary, 0)
  }

  // ---------------------------------------------------------------------
  // The try block
  // ---------------------------------------------------------------------

  /** The exception thrown by a failed parse: an out-of-range substring or
      Jackson's processing exception. Neither is a RestClientException. */
  function ParseException(f: ParseFailure): (e: Exn)
    ensures !InstanceOf(e.kind, RestClientClass)
    ensures e.message == f.Message()
  {
    match f
    case BadBounds(_, _, _) => Exn(IndexOutOfBounds, f.Message(), None)
    case Malformed(m) => Exn(JsonProcessing, m, None)
  }

  /** The prefix put in front of the message of a call failure that is
      rethrown as a plain RuntimeException. */
  function RewrapPrefix(k: ExnKind): Option<string> {
    match k
    case HttpClientError(_) => Some("OpenAI API authentication or request error: ")
    case HttpServerError(_) => Some("OpenAI API server error: ")
    case ResourceAccess => Some("Network error connecting to OpenAI API: ")
    case _ => None
  }

  /** The three catch clauses around the model call: 4xx, 5xx and network
      failures become RuntimeExceptions caused by the original; any other
      exception passes through unchanged. */
  function Rewrap(e: Exn): (r: Exn)
    ensures !r.kind.HttpClientError? && !r.kind.HttpServerError? && !r.kind.ResourceAccess?
      <== !e.kind.RestClient?
    ensures e in Chain(Some(r))
    ensures RewrapPrefix(e.kind).None? ==> r == e
  {
    match RewrapPrefix(e.kind)
    case Some(prefix) =>
      var r := Exn(Runtime, Some(prefix + OrNull(e.message)), Some(e));
      assert Chain(Some(r)) == [r] + Chain(Some(e));
      r
    case None => e
  }

  /** The parse of a reply, with its failure as the exception it throws. */
  function ParseReply(content: string, tokens: int, parse: Parser): Result<CodeReviewResult, Exn> {
    match ParseResponse(content, tokens, parse)
    case Ok(res) => Ok(res)
    case Err(f) => Err(ParseException(f))
  }

  /** Reading a reply and parsing it. `getTotalTokens().intValue()` throws
      on a null usage total, and the parse's first `contains` throws on a
      null content: both are NullPointerExceptions. Otherwise the total is
      narrowed to 32 bits and the content parsed. */
  function ReadReply(content: Option<string>, tokens: Option<int>, parse: Parser): (r: Result<CodeReviewResult, Exn>)
    ensures content.None? || tokens.None? ==> r == Err(NullDereference)
    ensures r.Ok? ==> tokens.Some? && r.value.tokensUsed == Int32(tokens.value)
    ensures r.Err? ==> !InstanceOf(r.error.kind, RestClientClass)
  {
    if tokens.None? || content.None? then Err(NullDereference)
    else ParseReply(content.value, Int32(tokens.value), parse)
  }

  /** The attempts of the model call with `prompt`. */
  function Calls(prompt: string, env: AiEnv): nat -> CallOutcome {
    (k: nat) => env.attempt(prompt, k)
  }

  /** The body of the `try` for a configured key: the canned reply in test
      mode, otherwise the model call under the retry policy and the parse
      of its reply. */
  function Attempt(prompt: string, env: AiEnv): (r: Result<CodeReviewResult, Exn>)
    ensures r.Err? ==> !r.error.kind.HttpClientError? && !r.error.kind.HttpServerError?
    ensures r.Err? ==> !r.error.kind.ResourceAccess?
  {
    if env.testMode then ParseReply(env.testResponse, TestTokens, env.parse)
    else
      var run := Retry(Calls(prompt, env));
      match run.outcome
      case Threw(e) => Err(Rewrap(e))
      case Replied(content, tokens) => ReadReply(content, tokens, env.parse)
  }

  // ---------------------------------------------------------------------
  // handleRestClientException
  // ---------------------------------------------------------------------

  /** The six verdicts of `handleRestClientException`, in priority order. */
  datatype ApiError =
    | RetryAuthFailure   // an HttpRetryException somewhere in the cause chain
    | AuthFailure        // "authentication", "Unauthorized" or "401"
    | RateLimited        // "429" or "rate limit"
    | QuotaExceeded      // "quota" or "insufficient_quota"
    | NetworkFailure     // a ResourceAccessException
    | OtherApiError

  predicate MentionsAuth(m: string) {
    Contains(m, "authentication") || Contains(m, "Unauthorized") || Contains(m, "401")
  }

  predicate MentionsRateLimit(m: string) {
    Contains(m, "429") || Contains(m, "rate limit")
  }

  predicate MentionsQuota(m: string) {
    Contains(m, "quota") || Contains(m, "insufficient_quota")
  }

  /** The substring tests run only on a non-null message. */
  function ClassifyRestClient(e: Exn): ApiError {
    if CauseIs(Some(e), HttpRetryClass) then RetryAuthFailure
    else if e.message.Some? && MentionsAuth(e.message.value) then AuthFailure
    else if e.message.Some? && MentionsRateLimit(e.message.value) then RateLimited
    else if e.message.Some? && MentionsQuota(e.message.value) then QuotaExceeded
    else if InstanceOf(e.kind, ResourceAccessClass) then NetworkFailure
    else OtherApiError
  }

  function ApiErrorSummary(c: ApiError, e: Exn): string {
    match c
    case RetryAuthFailure =>
      "OpenAI API Authentication Failed. This usually indicates an invalid or missing API key. "
      + "Please verify your OPENAI_API_KEY environment variable is set correctly. "
      + "Make sure the API key starts with 'sk-' and is valid."
    case AuthFailure =>
      "OpenAI API Authentication Failed. "
      + "Please verify your OPENAI_API_KEY environment variable is set correctly. "
      + "Make sure the API key starts with 'sk-' and is valid."
    case RateLimited => "OpenAI API rate limit exceeded. Please try again later."
    case QuotaExceeded => "OpenAI API quota exceeded. Please check your OpenAI account billing and usage."
    case NetworkFailure => "Failed to connect to OpenAI API. Please check your network connection."
    case OtherApiError => "OpenAI API error: " + OrNull(e.message)
  }

  /** "insufficient_quota" contains "quota", so the second test of the
      quota clause never decides anything. */
  lemma QuotaClauseRedundant(m: string)
    ensures MentionsQuota(m) <==> Contains(m, "quota")
  {
    if Contains(m, "insufficient_quota") {
      assert "insufficient_quota" == "insufficient_" + "quota" + "";
      ContainsSelf("insufficient_", "quota", "");
      ContainsWithin(m, "insufficient_quota", "quota");
    }
  }

  /** The priority order of the verdicts: an HttpRetryException in the
      chain wins over any message; a null message skips every text test;
      a message test wins over the exception type; a network verdict needs
      a ResourceAccessException whose message names none of the cases. */
  lemma ClassificationOrder(e: Exn)
    ensures CauseIs(Some(e), HttpRetryClass) ==> ClassifyRestClient(e) == RetryAuthFailure
    ensures e.message.None? ==> ClassifyRestClient(e) in {RetryAuthFailure, NetworkFailure, OtherApiError}
    ensures ClassifyRestClient(e) in {AuthFailure, RateLimited, QuotaExceeded} ==> e.message.Some?
    ensures ClassifyRestClient(e) == NetworkFailure <==>
      && !CauseIs(Some(e), HttpRetryClass) && e.kind.ResourceAccess?
      && (e.message.Some? ==> !MentionsAuth(e.message.value) && !MentionsRateLimit(e.message.value)
                              && !Contains(e.message.value, "quota"))
  {
    if e.message.Some? {
      QuotaClauseRedundant(e.message.value);
    }
  }

  /** `handleRestClientException(e)` */
  function HandleRestClient(e: Exn): (r: CodeReviewResult)
    ensures r.comments == [] && r.tokensUsed == 0
  {
    Failed(ApiErrorSummary(ClassifyRestClient(e), e))
  }

  /** The two outer catch clauses. */
  function Catch(e: Exn): (r: CodeReviewResult)
    ensures r.comments == [] && r.tokensUsed == 0
    ensures !InstanceOf(e.kind, RestClientClass) ==> StartsWith(r.summary, UnexpectedPrefix)
  {
    if InstanceOf(e.kind, RestClientClass) then HandleRestClient(e)
    else
      StartsWithConcat(UnexpectedPrefix, OrNull(e.message));
      Failed(UnexpectedPrefix + OrNull(e.message))
  }

  // ---------------------------------------------------------------------
  // The two entry points
  // ---------------------------------------------------------------------

  /** The shared control flow of both entry points for a built prompt. */
  function Run(prompt: string, env: AiEnv): (r: CodeReviewResult)
    ensures !IsConfigured(env.apiKey) ==> r == Failed(NotConfiguredMessage)
    ensures r.comments != [] || r.tokensUsed != 0 ==> IsConfigured(env.apiKey) && Attempt(prompt, env) == Ok(r)
  {
    if !IsConfigured(env.apiKey) then Failed(NotConfiguredMessage)
    else
      match Attempt(prompt, env)
      case Ok(res) => res
      case Err(e) => Catch(e)
  }

  /** The prompt of `analyzeCode`: the reduced diff in the template. */
  function PromptFor(diff: string, language: string): string {
    Prompts.BuildPrompt(DiffReducer.TruncateDiff(diff), language)
  }

  /** The prompt of `analyzeCodeWithRules`: the same, followed by the
      rendered rules. */
  function PromptWithRules(diff: string, language: string, rules: seq<Rules.Rule>): string {
    PromptFor(diff, language) + Rules.RenderRules(rules)
  }

  function AnalyzeCode(diff: string, language: string, env: AiEnv): CodeReviewResult {
    Run(PromptFor(diff, language), env)
  }

  function AnalyzeCodeWithRules(diff: string, language: string, rules: seq<Rules.Rule>, env: AiEnv): CodeReviewResult {
    Run(PromptWithRules(diff, language, rules), env)
  }

  // ---------------------------------------------------------------------
  // Properties
  // ---------------------------------------------------------------------

  /** Without a configured key the fixed summary is returned and neither the
      model, the test mode nor the parser is consulted. */
  lemma NoCallWhenUnconfigured(prompt: string, env: AiEnv, other: AiEnv)
    requires !IsConfigured(env.apiKey) && other.apiKey == env.apiKey
    ensures Run(prompt, env) == Run(prompt, other) == Failed(NotConfiguredMessage)
  {
  }

  /** In test mode the canned reply is parsed with 100 tokens and the model
      is never called: the result does not depend on it nor on the prompt. */
  lemma TestModeMakesNoCall(prompt: string, prompt': string, env: AiEnv, model: (string, nat) -> CallOutcome)
    requires IsConfigured(env.apiKey) && env.testMode
    ensures Run(prompt, env) == Run(prompt', env.(attempt := model))
    ensures Run(prompt, env).tokensUsed == (if ParseResponse(env.testResponse, TestTokens, env.parse).Ok? then TestTokens else 0)
  {
  }

  /** A 4xx, 5xx or network failure that survives the retries is rethrown
      as a plain RuntimeException, so it reaches the generic handler and
      never `handleRestClientException`. */
  lemma CallErrorsAreUnexpected(prompt: string, env: AiEnv)
    requires IsConfigured(env.apiKey) && !env.testMode
    requires var o := Retry(Calls(prompt, env)).outcome;
      o.Threw? && RewrapPrefix(o.error.kind).Some?
    ensures var e := Retry(Calls(prompt, env)).outcome.error;
      Run(prompt, env) == Failed(UnexpectedPrefix + RewrapPrefix(e.kind).value + OrNull(e.message))
  {
  }

  /** Hence the network verdict of `handleRestClientException` is never
      reached from either entry point. */
  lemma NetworkVerdictUnreachable(prompt: string, env: AiEnv)
    requires Attempt(prompt, env).Err?
    ensures ClassifyRestClient(Attempt(prompt, env).error) != NetworkFailure
  {
    ClassificationOrder(Attempt(prompt, env).error);
  }

  /** A failure of the first attempt that the policy retries is forgotten
      when the second attempt replies: the result is the parse of that
      reply. */
  lemma TransientFailureRecovered(prompt: string, env: AiEnv)
    requires IsConfigured(env.apiKey) && !env.testMode
    requires Retries(env.attempt(prompt, 0)) && env.attempt(prompt, 1).Replied?
    requires ReadReply(env.attempt(prompt, 1).content, env.attempt(prompt, 1).tokens, env.parse).Ok?
    ensures Run(prompt, env)
         == ReadReply(env.attempt(prompt, 1).content, env.attempt(prompt, 1).tokens, env.parse).value
  {
    RetriedOnce(Calls(prompt, env));
  }

  /** A reply without content or without a usage total, whether first or
      after a retry, ends in the generic handler: the result is empty and
      carries the unexpected-error summary. */
  lemma NullReplyIsUnexpected(prompt: string, env: AiEnv)
    requires IsConfigured(env.apiKey) && !env.testMode
    requires var o := Retry(Calls(prompt, env)).outcome;
      o.Replied? && (o.content.None? || o.tokens.None?)
    ensures Run(prompt, env) == Failed(UnexpectedPrefix + OrNull(NullDereference.message))
  {
  }

  /** A reply with both parts reports its usage total narrowed to 32 bits,
      whenever the parse succeeds. */
  lemma ReplyTokensNarrowed(prompt: string, env: AiEnv)
    requires IsConfigured(env.apiKey) && !env.testMode
    requires var o := Retry(Calls(prompt, env)).outcome;
      o.Replied? && o.content.Some? && o.tokens.Some?
    ensures var o := Retry(Calls(prompt, env)).outcome;
      Attempt(prompt, env).Ok? ==> Run(prompt, env).tokensUsed == Int32(o.tokens.value)
  {
  }

  /** The model sees the reduced diff verbatim: it is recovered exactly
      from the prompt, and the rendered rules are only appended after it. */
  lemma PromptCarriesReducedDiff(diff: string, language: string, rules: seq<Rules.Rule>)
    ensures Prompts.FencedDiff(PromptFor(diff, language), language) == Some(DiffReducer.TruncateDiff(diff))
    ensures StartsWith(PromptWithRules(diff, language, rules), PromptFor(diff, language))
  {
    Prompts.DiffRecoverable(DiffReducer.TruncateDiff(diff), language);
    StartsWithConcat(PromptFor(diff, language), Rules.RenderRules(rules));
  }

  /** With no rules both entry points send the same prompt and so return
      the same result. */
  lemma NoRulesIsPlainAnalysis(diff: string, language: string, env: AiEnv)
    ensures AnalyzeCodeWithRules(diff, language, [], env) == AnalyzeCode(diff, language, env)
  {
    assert PromptWithRules(diff, language, []) == PromptFor(diff, language);
  }
}

=== FILE: api_keys.dfy ===
/**
 * `OpenAiConfig`: the predicates that decide whether the OpenAI API key is
 * usable, the startup verdict logged from them, and the key mask used in
 * that log.
 */
module ApiKeys {
  import opened Wrappers
  import opened Text

  /** The unresolved property placeholder left in place when the
      environment variable is missing. */
  const Placeholder: string := "${OPENAI_API_KEY}"

  const KeyPrefix: string := "sk-"

  /** `hasApiKey()`: the key has a non-whitespace character and is not the
      unresolved placeholder. `None` is Java's null. */
  predicate HasApiKey(key: Option<string>) {
    key.Some? && HasText(key.value) && key.value != Placeholder
  }

  /** `isApiKeyFormatValid()` */
  predicate IsApiKeyFormatValid(key: Option<string>) {
    key.Some? && HasText(key.value) && key.value != Placeholder && StartsWith(key.value, KeyPrefix)
  }

  /** `isConfigured()`, the gate in front of every model call. */
  predicate IsConfigured(key: Option<string>) {
    IsApiKeyFormatValid(key)
  }

  /** A key in a valid format is, in particular, present: the format check
      is the presence check plus the "sk-" prefix. */
  lemma FormatValidIsPresentWithPrefix(key: Option<string>)
    ensures IsApiKeyFormatValid(key) <==> HasApiKey(key) && StartsWith(key.value, KeyPrefix)
    ensures IsConfigured(key) <==> IsApiKeyFormatValid(key)
  {
  }

  /** The placeholder itself is never accepted, although it has text. */
  lemma PlaceholderRejected()
    ensures HasText(Placeholder) && !HasApiKey(Some(Placeholder))
  {
    assert !IsJavaWhitespace(Placeholder[0]);
  }

  /** A key made only of whitespace is not a key. */
  lemma BlankKeyRejected(key: string)
    requires forall i | 0 <= i < |key| :: IsJavaWhitespace(key[i])
    ensures !HasApiKey(Some(key)) && !IsConfigured(Some(key))
  {
  }

  /** `maskApiKey(key)` from the startup log: "***" for a null key or one of
      at most 7 characters, otherwise its first 7 characters. */
  function MaskForLog(key: Option<string>): (r: string)
    ensures |r| <= 7
    ensures r == "***" <==> key.None? || |key.value| <= 7
    ensures key.Some? && |key.value| > 7 ==> |r| == 7 && StartsWith(key.value, r)
  {
    if key.None? || |key.value| <= 7 then "***"
    else
      StartsWithSlice(key.value, key.value[..7]);
      key.value[..7]
  }

  /** The three outcomes of `validateConfiguration()` at startup. */
  datatype StartupVerdict = KeyMissing | FormatInvalid | KeyReady

  function ValidateConfiguration(key: Option<string>): StartupVerdict {
    if !(key.Some? && HasText(key.value)) || key.value == Placeholder then KeyMissing
    else if !StartsWith(key.value, KeyPrefix) then FormatInvalid
    else KeyReady
  }

  /** The startup log agrees with the predicates used later: "missing"
      exactly when there is no key, "ready" exactly when it is configured. */
  lemma StartupAgreesWithPredicates(key: Option<string>)
    ensures ValidateConfiguration(key) == KeyMissing <==> !HasApiKey(key)
    ensures ValidateConfiguration(key) == FormatInvalid <==> HasApiKey(key) && !IsApiKeyFormatValid(key)
    ensures ValidateConfiguration(key) == KeyReady <==> IsConfigured(key)
  {
  }
}

=== FILE: base64.dfy ===
/**
 * The basic base 64 encoding of section 4 of RFC 4648, which
 * `java.util.Base64.getEncoder()` writes: each group of three bytes
 * becomes four characters of the 64-character alphabet, and a final group
 * of one or two bytes is completed with "=" padding. The decoder is the
 * reference the encoder is proved against.
 */
module Base64 {
  import opened Wrappers

  type Byte = b: int | 0 <= b < 256
  type Sextet = d: int | 0 <= d < 64

  const Pad: char := '='

  predicate InAlphabet(c: char) {
    'A' <= c <= 'Z' || 'a' <= c <= 'z' || '0' <= c <= '9' || c == '+' || c == '/'
  }

  /** The value a character of the alphabet stands for (Table 1 of RFC 4648). */
  function Value(c: char): (d: Sextet)
    requires InAlphabet(c)
  {
    if 'A' <= c <= 'Z' then c as int - 'A' as int
    else if 'a' <= c <= 'z' then c as int - 'a' as int + 26
    else if '0' <= c <= '9' then c as int - '0' as int + 52
    else if c == '+' then 62
    else 63
  }

  /** The character for a six-bit value: A-Z, a-z, 0-9, '+', '/'. */
  function Digit(d: Sextet): (c: char)
    ensures InAlphabet(c) && Value(c) == d
  {
    if d < 26 then ('A' as int + d) as char
    else if d < 52 then ('a' as int + (d - 26)) as char
    else if d < 62 then ('0' as int + (d - 52)) as char
    else if d == 62 then '+'
    else '/'
  }

  /** Every character of the alphabet is the digit of its value, so the
      alphabet and the six-bit values are in one-to-one correspondence. */
  lemma DigitOfValue(c: char)
    requires InAlphabet(c)
    ensures Digit(Value(c)) == c
  {
  }

  /** Three bytes as four characters: the 24 bits cut into four sextets,
      most significant first. */
  function Quad(a: Byte, b: Byte, c: Byte): string {
    [Digit(a / 4), Digit(a % 4 * 16 + b / 16), Digit(b % 16 * 4 + c / 64), Digit(c % 64)]
  }

  /** `Base64.getEncoder().encode(bytes)`. */
  function Encode(bs: seq<Byte>): (s: string)
    ensures |s| == (|bs| + 2) / 3 * 4
    decreases |bs|
  {
    if |bs| == 0 then ""
    else if |bs| == 1 then [Digit(bs[0] / 4), Digit(bs[0] % 4 * 16), Pad, Pad]
    else if |bs| == 2 then [Digit(bs[0] / 4), Digit(bs[0] % 4 * 16 + bs[1] / 16), Digit(bs[1] % 16 * 4), Pad]
    else
      assert (|bs| + 2) / 3 == (|bs| - 1) / 3 + 1;
      Quad(bs[0], bs[1], bs[2]) + Encode(bs[3..])
  }

  /** Decoding per section 4 of RFC 4648: groups of four characters, the
      last of which may end in one or two pad characters; anything else is
      rejected. */
  function Decode(s: string): (r: Option<seq<Byte>>)
    decreases |s|
  {
    if |s| == 0 then Some([])
    else if |s| < 4 || !InAlphabet(s[0]) || !InAlphabet(s[1]) then None
    else
      var v0, v1 := Value(s[0]), Value(s[1]);
      if |s| == 4 && s[2] == Pad && s[3] == Pad then Some([v0 * 4 + v1 / 16])
      else if !InAlphabet(s[2]) then None
      else
        var v2 := Value(s[2]);
        if |s| == 4 && s[3] == Pad then Some([v0 * 4 + v1 / 16, v1 % 16 * 16 + v2 / 4])
        else if !InAlphabet(s[3]) then None
        else
          var v3 := Value(s[3]);
          match Decode(s[4..])
          case None => None
          case Some(rest) => Some([v0 * 4 + v1 / 16, v1 % 16 * 16 + v2 / 4, v2 % 4 * 64 + v3] + rest)
  }

  /** Reassembling the sextets of a group gives back its bytes. */
  lemma Regather(a: Byte, b: Byte, c: Byte)
    ensures a / 4 * 4 + (a % 4 * 16 + b / 16) / 16 == a
    ensures (a % 4 * 16 + b / 16) % 16 * 16 + (b % 16 * 4 + c / 64) / 4 == b
    ensures (b % 16 * 4 + c / 64) % 4 * 64 + c % 64 == c
  {
  }

  /** The four sextets of a group are six-bit values. */
  lemma Split(a: Byte, b: Byte, c: Byte)
    ensures 0 <= a / 4 < 64 && 0 <= a % 4 * 16 + b / 16 < 64
    ensures 0 <= b % 16 * 4 + c / 64 < 64 && 0 <= c % 64 < 64
  {
  }

  /** A final group of one byte comes back. */
  lemma DecodeOne(a: Byte)
    ensures Decode(Encode([a])) == Some([a])
  {
    Regather(a, 0, 0);
  }

  /** A final group of two bytes comes back. */
  lemma DecodeTwo(a: Byte, b: Byte)
    ensures Decode(Encode([a, b])) == Some([a, b])
  {
    Regather(a, b, 0);
  }

  /** A full group is decoded to its three bytes, ahead of whatever the
      rest of the text decodes to. */
  lemma DecodeQuad(a: Byte, b: Byte, c: Byte, t: string)
    ensures Decode(Quad(a, b, c) + t)
         == match Decode(t) case None => None case Some(rest) => Some([a, b, c] + rest)
  {
    Regather(a, b, c);
    var d0: int, d1: int, d2: int, d3: int := a / 4, a % 4 * 16 + b / 16, b % 16 * 4 + c / 64, c % 64;
    Split(a, b, c);
    var s := Quad(a, b, c) + t;
    assert s[0] == Digit(d0) && s[1] == Digit(d1) && s[2] == Digit(d2) && s[3] == Digit(d3);
    assert s[4..] == t;
    DecodeGroup(s);
    var v0: int, v1: int, v2: int, v3: int := Value(s[0]), Value(s[1]), Value(s[2]), Value(s[3]);
    assert v0 == d0 && v1 == d1 && v2 == d2 && v3 == d3;
    assert [v0 * 4 + v1 / 16, v1 % 16 * 16 + v2 / 4, v2 % 4 * 64 + v3] == [a, b, c];
  }

  /** Four characters of the alphabet decode to the three bytes their
      sextets spell, ahead of the rest. */
  lemma DecodeGroup(s: string)
    requires |s| >= 4 && InAlphabet(s[0]) && InAlphabet(s[1]) && InAlphabet(s[2]) && InAlphabet(s[3])
    ensures var v0, v1, v2, v3 := Value(s[0]), Value(s[1]), Value(s[2]), Value(s[3]);
      Decode(s) == match Decode(s[4..])
        case None => None
        case Some(rest) => Some([v0 * 4 + v1 / 16, v1 % 16 * 16 + v2 / 4, v2 % 4 * 64 + v3] + rest)
  {
  }

  /** Decoding undoes encoding, for every byte sequence. */
  lemma {:induction false} DecodeEncode(bs: seq<Byte>)
    ensures Decode(Encode(bs)) == Some(bs)
    decreases |bs|
  {
    if |bs| == 0 {
    } else if |bs| == 1 {
      DecodeOne(bs[0]);
      assert bs == [bs[0]];
    } else if |bs| == 2 {
      DecodeTwo(bs[0], bs[1]);
      assert bs == [bs[0], bs[1]];
    } else {
      assert bs == [bs[0], bs[1], bs[2]] + bs[3..];
      DecodeEncode(bs[3..]);
      DecodeQuad(bs[0], bs[1], bs[2], Encode(bs[3..]));
    }
  }

  /** Encoded text uses only the alphabet and the pad character, and pads
      only its last two positions. */
  lemma {:induction false} EncodeAlphabet(bs: seq<Byte>)
    ensures forall i | 0 <= i < |Encode(bs)| :: InAlphabet(Encode(bs)[i]) || Encode(bs)[i] == Pad
    ensures forall i | 0 <= i < |Encode(bs)| - 2 :: InAlphabet(Encode(bs)[i])
    decreases |bs|
  {
    if |bs| > 2 {
      EncodeAlphabet(bs[3..]);
      var s := Encode(bs);
      assert forall i | 4 <= i < |s| :: s[i] == Encode(bs[3..])[i - 4];
    }
  }
}

=== FILE: bitbucket.dfy ===
/**
 * Bitbucket: `BitbucketWebhookService.handlePullRequestEvent` with the
 * parts of `BitbucketClientService` it relies on. Only open pull requests
 * of a repository named "workspace/slug" are reviewed; the diff is
 * fetched as plain text, the language is normalised from the
 * repository's declared language, and the review is posted with the same
 * session as GitLab's, with line comments anchored to nothing. Requests
 * carry HTTP Basic credentials when both are configured.
 */
module Bitbucket {
  import opened Wrappers
  import opened Text
  import opened Exceptions
  import opened ResponseParser
  import opened Sessions
  import opened Publishing
  import Base64
  import GitHub

  // ---------------------------------------------------------------------
  // createHeaders
  // ---------------------------------------------------------------------

  /** `String.getBytes()` in the platform's default charset. */
  type Charset = string -> seq<Base64.Byte>

  const BasicScheme: string := "Basic "

  /** The value of the Authorization header, set only when both the user
      name and the app password are non-null and non-empty. */
  function Authorization(username: Option<string>, password: Option<string>, bytes: Charset): (h: Option<string>)
    ensures h.Some? <==> GitHub.Present(username) && GitHub.Present(password)
    ensures h.Some? ==> StartsWith(h.value, BasicScheme)
  {
    if GitHub.Present(username) && GitHub.Present(password) then
      var token := Base64.Encode(bytes(username.value + ":" + password.value));
      StartsWithConcat(BasicScheme, token);
      Some(BasicScheme + token)
    else None
  }

  /** The credentials travel as "Basic " followed by the base 64 text of
      the bytes of "user:password", which decodes back to those bytes. */
  lemma CredentialsRecoverable(username: Option<string>, password: Option<string>, bytes: Charset)
    requires GitHub.Present(username) && GitHub.Present(password)
    ensures var h := Authorization(username, password, bytes).value;
            Base64.Decode(h[|BasicScheme|..]) == Some(bytes(username.value + ":" + password.value))
  {
    var token := Base64.Encode(bytes(username.value + ":" + password.value));
    assert (BasicScheme + token)[|BasicScheme|..] == token;
    Base64.DecodeEncode(bytes(username.value + ":" + password.value));
  }

  /** With a charset that keeps strings apart, the header determines the
      credentials when the user name has no colon: two configurations
      that send the same header are the same configuration. */
  lemma HeaderDeterminesCredentials(u1: string, p1: string, u2: string, p2: string, bytes: Charset)
    requires forall x, y :: bytes(x) == bytes(y) ==> x == y
    requires u1 != "" && p1 != "" && u2 != "" && p2 != ""
    requires ':' !in u1 && ':' !in u2
    requires Authorization(Some(u1), Some(p1), bytes) == Authorization(Some(u2), Some(p2), bytes)
    ensures u1 == u2 && p1 == p2
  {
    CredentialsRecoverable(Some(u1), Some(p1), bytes);
    CredentialsRecoverable(Some(u2), Some(p2), bytes);
    ColonSplit(u1, p1, u2, p2);
  }

  /** "u:p" splits at its first colon when `u` has none. */
  lemma ColonSplit(u1: string, p1: string, u2: string, p2: string)
    requires ':' !in u1 && ':' !in u2
    requires u1 + ":" + p1 == u2 + ":" + p2
    ensures u1 == u2 && p1 == p2
  {
    var s := u1 + ":" + p1;
    FirstColon(u1, p1);
    FirstColon(u2, p2);
    assert |u1| == |u2|;
    assert u1 == s[..|u1|] == u2;
    assert p1 == s[|u1| + 1..] == p2;
  }

  /** In "u:p" the first colon is the one after `u` when `u` has none. */
  lemma FirstColon(u: string, p: string)
    requires ':' !in u
    ensures (u + ":" + p)[|u|] == ':'
    ensures forall i | 0 <= i < |u| :: (u + ":" + p)[i] != ':'
  {
    assert forall i | 0 <= i < |u| :: (u + ":" + p)[i] == u[i];
  }

  // ---------------------------------------------------------------------
  // getPullRequestDiff
  // ---------------------------------------------------------------------

  const FetchFailureMessage: string := "Failed to fetch Bitbucket PR diff"

  /** `getPullRequestDiff`: only a 200 reply is read, and its body is
      returned as it is, possibly null. Every failure, including a reply
      with another status, is rethrown as a `BitbucketApiException`. */
  function FetchPrDiff(reply: Reply, body: Option<string>): (r: Result<Option<string>, Exn>)
    ensures r.Ok? <==> reply == Status(200)
    ensures r.Ok? ==> r.value == body
    ensures r.Err? ==> r.error.kind == Runtime && r.error.message == Some(FetchFailureMessage)
    ensures r.Err? && Throws(reply) ==> r.error.cause == Some(Thrown(reply))
  {
    if reply == Status(200) then Ok(body)
    else if Throws(reply) then Err(Exn(Runtime, Some(FetchFailureMessage), Some(Thrown(reply))))
    else
      Err(Exn(Runtime, Some(FetchFailureMessage),
              Some(Exn(Runtime, Some("Failed to fetch PR diff: " + IntToString(reply.code)), None))))
  }

  // ---------------------------------------------------------------------
  // detectLanguage
  // ---------------------------------------------------------------------

  /** The switch on the lower-cased repository language: each row lists
      the spellings that map to one name. */
  const Aliases: seq<(seq<string>, string)> := [
    (["java"], "Java"),
    (["python"], "Python"),
    (["javascript", "js"], "JavaScript"),
    (["typescript", "ts"], "TypeScript"),
    (["go", "golang"], "Go"),
    (["rust"], "Rust"),
    (["c++", "cpp"], "C++"),
    (["c#", "csharp"], "C#"),
    (["ruby"], "Ruby"),
    (["php"], "PHP"),
    (["swift"], "Swift"),
    (["kotlin"], "Kotlin")
  ]

  /** `detectLanguage`: "Unknown" for a null or empty language, the
      normalised name for a known spelling in any case, and the language
      as given otherwise. */
  function DetectLanguage(repositoryLanguage: Option<string>): (language: string)
    ensures repositoryLanguage.None? || repositoryLanguage.value == "" ==> language == "Unknown"
    ensures language != ""
  {
    if repositoryLanguage.None? || repositoryLanguage.value == "" then "Unknown"
    else
      var n := ToLower(repositoryLanguage.value);
      if n == "java" then "Java"
      else if n == "python" then "Python"
      else if n == "javascript" || n == "js" then "JavaScript"
      else if n == "typescript" || n == "ts" then "TypeScript"
      else if n == "go" || n == "golang" then "Go"
      else if n == "rust" then "Rust"
      else if n == "c++" || n == "cpp" then "C++"
      else if n == "c#" || n == "csharp" then "C#"
      else if n == "ruby" then "Ruby"
      else if n == "php" then "PHP"
      else if n == "swift" then "Swift"
      else if n == "kotlin" then "Kotlin"
      else repositoryLanguage.value
  }

  /** A spelling listed in row `i`, in any letter case, gives that row's
      name. */
  lemma DetectListed(language: string, i: nat)
    requires i < |Aliases| && ToLower(language) in Aliases[i].0
    ensures DetectLanguage(Some(language)) == Aliases[i].1
  {
    var n := ToLower(language);
    assert |n| == |language| && n != "";
    var row := Aliases[i];
    assert n in row.0;
  }

  /** A language whose lower-cased form is in no row is returned as it is. */
  lemma DetectUnlisted(language: string)
    requires language != ""
    requires forall i | 0 <= i < |Aliases| :: ToLower(language) !in Aliases[i].0
    ensures DetectLanguage(Some(language)) == language
  {
    assert ToLower(language) !in Aliases[0].0 && ToLower(language) !in Aliases[1].0;
    assert ToLower(language) !in Aliases[2].0 && ToLower(language) !in Aliases[3].0;
    assert ToLower(language) !in Aliases[4].0 && ToLower(language) !in Aliases[5].0;
    assert ToLower(language) !in Aliases[6].0 && ToLower(language) !in Aliases[7].0;
    assert ToLower(language) !in Aliases[8].0 && ToLower(language) !in Aliases[9].0;
    assert ToLower(language) !in Aliases[10].0 && ToLower(language) !in Aliases[11].0;
  }

  /** Each normalised name is itself one of its row's spellings once
      lower-cased. */
  lemma NamesAreOwnAliases()
    ensures forall i | 0 <= i < |Aliases| :: ToLower(Aliases[i].1) in Aliases[i].0
  {
    assert ToLower("Java") == "java" && ToLower("Python") == "python";
    assert ToLower("JavaScript") == "javascript" && ToLower("TypeScript") == "typescript";
    assert ToLower("Go") == "go" && ToLower("Rust") == "rust";
    assert ToLower("C++") == "c++" && ToLower("C#") == "c#";
    assert ToLower("Ruby") == "ruby" && ToLower("PHP") == "php";
    assert ToLower("Swift") == "swift" && ToLower("Kotlin") == "kotlin";
  }

  /** Normalising a normalised language changes nothing. */
  lemma DetectIdempotent(repositoryLanguage: Option<string>)
    ensures DetectLanguage(Some(DetectLanguage(repositoryLanguage))) == DetectLanguage(repositoryLanguage)
  {
    var l := DetectLanguage(repositoryLanguage);
    if repositoryLanguage.None? || repositoryLanguage.value == "" {
      assert ToLower("Unknown") == "unknown";
    } else if exists i | 0 <= i < |Aliases| :: ToLower(repositoryLanguage.value) in Aliases[i].0 {
      var i :| 0 <= i < |Aliases| && ToLower(repositoryLanguage.value) in Aliases[i].0;
      DetectListed(repositoryLanguage.value, i);
      NamesAreOwnAliases();
      DetectListed(l, i);
    } else {
      DetectUnlisted(repositoryLanguage.value);
      DetectUnlisted(l);
    }
  }

  // ---------------------------------------------------------------------
  // handlePullRequestEvent
  // ---------------------------------------------------------------------

  /** The parts of the pull request payload the service reads; `None` is
      null. */
  datatype PullRequest = PullRequest(id: int, state: Option<string>)
  datatype Repository = Repository(fullName: Option<string>, language: Option<string>)
  datatype PrEvent = PrEvent(pullRequest: Option<PullRequest>, repository: Option<Repository>)

  /** The Bitbucket side: the reply to the diff request with its body, and
      the replies to the posting exchanges that follow. */
  datatype BitbucketEnv = BitbucketEnv(diffReply: Reply, diffBody: Option<string>, api: Api)

  const ProcessingFailureMessage: string := "Failed to process Bitbucket PR webhook"

  /** The `WebhookProcessingException` every escaping exception becomes. */
  function ProcessingFailure(cause: Exn): Exn {
    Exn(Runtime, Some(ProcessingFailureMessage), Some(cause))
  }

  /** The full name splits into exactly a workspace and a slug. */
  predicate WorkspaceAndSlug(fullName: string) {
    |JavaSplit(fullName, '/')| == 2
  }

  /** `handlePullRequestEvent`. The opening log line dereferences both the
      pull request and the repository; a null full name fails at the
      split. */
  function HandlePullRequestEvent(event: PrEvent, bb: BitbucketEnv, analyze: Analyzer): (h: Handling)
    ensures h.Failed? ==> h.error.kind == Runtime && h.error.message == Some(ProcessingFailureMessage)
  {
    if event.pullRequest.None? || event.repository.None? then Failed(ProcessingFailure(NullDereference))
    else
      var pr := event.pullRequest.value;
      var repo := event.repository.value;
      if pr.state != Some("OPEN") then Ignored
      else if repo.fullName.None? then Failed(ProcessingFailure(NullDereference))
      else if !WorkspaceAndSlug(repo.fullName.value) then Ignored
      else
        match FetchPrDiff(bb.diffReply, bb.diffBody)
        case Err(e) => Failed(ProcessingFailure(e))
        case Ok(body) =>
          if body.None? || IsBlank(body.value) then NoDiff
          else
            var language := DetectLanguage(repo.language);
            var review := analyze(body.value, language);
            Reviewed(language, review, Publish(bb.api, None, review))
  }

  /** Only open pull requests of a "workspace/slug" repository get as far
      as fetching; the state test is exact and case-sensitive. */
  lemma IgnoredIffFiltered(event: PrEvent, bb: BitbucketEnv, analyze: Analyzer)
    ensures HandlePullRequestEvent(event, bb, analyze).Ignored?
        <==> event.pullRequest.Some? && event.repository.Some?
             && (event.pullRequest.value.state != Some("OPEN")
                 || (event.repository.value.fullName.Some?
                     && !WorkspaceAndSlug(event.repository.value.fullName.value)))
  {
  }

  /** A null or blank diff ends the handling before any analysis or post. */
  lemma NoDiffIffBlank(event: PrEvent, bb: BitbucketEnv, analyze: Analyzer)
    ensures HandlePullRequestEvent(event, bb, analyze).NoDiff?
        <==> event.pullRequest.Some? && event.repository.Some?
             && event.pullRequest.value.state == Some("OPEN")
             && event.repository.value.fullName.Some?
             && WorkspaceAndSlug(event.repository.value.fullName.value)
             && bb.diffReply == Status(200)
             && (bb.diffBody.None? || IsBlank(bb.diffBody.value))
  {
  }

  /** A reviewed pull request was analysed with the fetched diff and the
      normalised language, and the review was posted with unanchored line
      comments. */
  lemma ReviewedSpec(event: PrEvent, bb: BitbucketEnv, analyze: Analyzer)
    requires HandlePullRequestEvent(event, bb, analyze).Reviewed?
    ensures event.pullRequest.Some? && event.repository.Some?
    ensures event.pullRequest.value.state == Some("OPEN")
    ensures event.repository.value.fullName.Some? && WorkspaceAndSlug(event.repository.value.fullName.value)
    ensures bb.diffReply == Status(200) && bb.diffBody.Some? && !IsBlank(bb.diffBody.value)
    ensures var h := HandlePullRequestEvent(event, bb, analyze);
            h.language == DetectLanguage(event.repository.value.language)
            && h.review == analyze(bb.diffBody.value, h.language)
            && h.posted == Publish(bb.api, None, h.review)
  {
  }

  /** Posting failures are swallowed: the replies to the posting exchanges
      never decide whether the event is reviewed, ignored or failed. */
  lemma PostingNeverFailsTheEvent(event: PrEvent, bb: BitbucketEnv, analyze: Analyzer, api': Api)
    ensures HandlePullRequestEvent(event, bb.(api := api'), analyze).Reviewed?
        == HandlePullRequestEvent(event, bb, analyze).Reviewed?
    ensures HandlePullRequestEvent(event, bb.(api := api'), analyze).Failed?
        == HandlePullRequestEvent(event, bb, analyze).Failed?
  {
  }

  /** "workspace/slug" splits into its two parts, with or without a
      trailing slash, when neither part has a slash and the slug is not
      empty. */
  lemma FullNameParts(workspace: string, slug: string)
    requires '/' !in workspace && '/' !in slug && slug != ""
    ensures JavaSplit(workspace + "/" + slug, '/') == [workspace, slug]
    ensures JavaSplit(workspace + "/" + slug + "/", '/') == [workspace, slug]
  {
    var plain := workspace + "/" + slug;
    SplitAllHead(workspace, slug, '/');
    assert plain[|workspace|] == '/';
    assert SplitAll(plain, '/') == [workspace, slug];
    var trailing := workspace + "/" + (slug + "/");
    assert trailing == plain + "/";
    SplitAllHead(workspace, slug + "/", '/');
    SplitAllHead(slug, "", '/');
    assert slug + "/" == slug + "/" + "";
    assert SplitAll(trailing, '/') == [workspace, slug, ""];
    assert trailing[|workspace|] == '/';
    assert [workspace, slug, ""][..2] == [workspace, slug];
  }

  /** A name without a slug is ignored: "workspace/" has at most one part. */
  lemma EmptySlugIgnored(workspace: string)
    requires '/' !in workspace
    ensures !WorkspaceAndSlug(workspace + "/")
  {
    var s := workspace + "/";
    SplitAllHead(workspace, "", '/');
    assert s == workspace + "/" + "";
    assert s[|workspace|] == '/';
    assert SplitAll(s, '/') == [workspace, ""];
    assert [workspace, ""][..1] == [workspace];
  }
}

=== FILE: dashboard.dfy ===
/**
 * The text helpers of the dashboard page: escaping review text for HTML,
 * the severity badges of a review row, and the processing-time label.
 */
module Dashboard {
  import opened Wrappers
  import opened Text
  import Seqs

  // ---------------------------------------------------------------------
  // escapeHtml
  // ---------------------------------------------------------------------

  predicate IsMarkup(c: char) {
    c == '&' || c == '<' || c == '>' || c == '"' || c == '\''
  }

  /** The replacement table: the five markup characters become character
      references, every other character stands for itself. */
  function EscapeChar(c: char): (e: string)
    ensures |e| >= 1
    ensures IsMarkup(c) <==> e[0] == '&'
    ensures !IsMarkup(c) ==> e == [c]
  {
    if c == '&' then "&amp;"
    else if c == '<' then "&lt;"
    else if c == '>' then "&gt;"
    else if c == '"' then "&quot;"
    else if c == '\'' then "&#039;"
    else [c]
  }

  /** `text.replace(/[&<>"']/g, m => map[m])`: every character is
      replaced through the table, independently of its neighbours. */
  function EscapeHtml(text: string): string {
    ConcatMap(EscapeChar, text)
  }

  /** `s` begins with the reference `r`. */
  predicate Opens(s: string, r: string) {
    |r| <= |s| && s[..|r|] == r
  }

  /** Reads character references back: the inverse the escaping is
      proved against. An `&` that starts none of the five references
      stands for itself. */
  function Unescape(s: string): string
    decreases |s|
  {
    if |s| == 0 then ""
    else if Opens(s, "&amp;") then "&" + Unescape(s[5..])
    else if Opens(s, "&lt;") then "<" + Unescape(s[4..])
    else if Opens(s, "&gt;") then ">" + Unescape(s[4..])
    else if Opens(s, "&quot;") then "\"" + Unescape(s[6..])
    else if Opens(s, "&#039;") then "'" + Unescape(s[6..])
    else [s[0]] + Unescape(s[1..])
  }

  /** A text does not open a reference it differs from at position `k`. */
  lemma DiffersAt(s: string, r: string, k: nat)
    requires k < |r| && k < |s| && s[k] != r[k]
    ensures !Opens(s, r)
  {
    if |r| <= |s| {
      assert s[..|r|][k] == s[k];
    }
  }

  lemma OpensConcat(e: string, rest: string)
    ensures Opens(e + rest, e)
  {
    assert (e + rest)[..|e|] == e;
  }

  /** One escaped character in front of any text reads back as itself. */
  lemma UnescapeChar(c: char, rest: string)
    ensures Unescape(EscapeChar(c) + rest) == [c] + Unescape(rest)
  {
    var e := EscapeChar(c);
    var s := e + rest;
    assert s[|e|..] == rest;
    OpensConcat(e, rest);
    assert s[0] == e[0];
    if c == '&' {
    } else if c == '<' {
      assert s[1] == 'l';
      DiffersAt(s, "&amp;", 1);
    } else if c == '>' {
      assert s[1] == 'g';
      DiffersAt(s, "&amp;", 1);
      DiffersAt(s, "&lt;", 1);
    } else if c == '"' {
      assert s[1] == 'q';
      DiffersAt(s, "&amp;", 1);
      DiffersAt(s, "&lt;", 1);
      DiffersAt(s, "&gt;", 1);
    } else if c == '\'' {
      assert s[1] == '#';
      DiffersAt(s, "&amp;", 1);
      DiffersAt(s, "&lt;", 1);
      DiffersAt(s, "&gt;", 1);
      DiffersAt(s, "&quot;", 1);
    } else {
      DiffersAt(s, "&amp;", 0);
      DiffersAt(s, "&lt;", 0);
      DiffersAt(s, "&gt;", 0);
      DiffersAt(s, "&quot;", 0);
      DiffersAt(s, "&#039;", 0);
    }
  }

  /** Unescaping undoes escaping, for every text. */
  lemma {:induction false} UnescapeEscape(text: string)
    ensures Unescape(EscapeHtml(text)) == text
    decreases |text|
  {
    if text != [] {
      UnescapeEscape(text[1..]);
      UnescapeChar(text[0], EscapeHtml(text[1..]));
      assert [text[0]] + text[1..] == text;
    }
  }

  /** The escaped text contains no `<`, `>`, `"` or `'`, and every `&`
      in it opens one of the five references. */
  lemma {:induction false} EscapedIsInert(text: string)
    ensures forall i | 0 <= i < |EscapeHtml(text)| ::
      EscapeHtml(text)[i] !in "<>\"'"
    decreases |text|
  {
    if text != [] {
      EscapedIsInert(text[1..]);
      var e := EscapeChar(text[0]);
      var s := EscapeHtml(text);
      assert forall i | 0 <= i < |e| :: e[i] !in "<>\"'";
      assert forall i | |e| <= i < |s| :: s[i] == EscapeHtml(text[1..])[i - |e|];
    }
  }

  /** A text without markup characters is left exactly as it was. */
  lemma {:induction false} PlainTextUnchanged(text: string)
    requires forall i | 0 <= i < |text| :: !IsMarkup(text[i])
    ensures EscapeHtml(text) == text
    decreases |text|
  {
    if text != [] {
      PlainTextUnchanged(text[1..]);
      assert [text[0]] + text[1..] == text;
    }
  }

  /** Escaping is compositional: the escape of two texts in a row is the
      two escapes in a row, so no replacement spans a boundary. */
  lemma EscapeAppend(a: string, b: string)
    ensures EscapeHtml(a + b) == EscapeHtml(a) + EscapeHtml(b)
  {
    ConcatMapAppend(EscapeChar, a, b);
  }

  // ---------------------------------------------------------------------
  // formatSeverityCounts
  // ---------------------------------------------------------------------

  datatype Severity = Error | Warning | Info

  /** The severities in badge order. */
  const BadgeOrder: seq<Severity> := [Error, Warning, Info]

  /** The `severityCounts` object of a review row; a missing field is
      `None` (`undefined > 0` is false in JavaScript). */
  datatype Counts = Counts(error: Option<int>, warning: Option<int>, info: Option<int>)

  function CountOf(c: Counts, s: Severity): Option<int> {
    match s
    case Error => c.error
    case Warning => c.warning
    case Info => c.info
  }

  predicate Positive(c: Counts, s: Severity) {
    CountOf(c, s).Some? && CountOf(c, s).value > 0
  }

  function ClassOf(s: Severity): string {
    match s
    case Error => "badge-error"
    case Warning => "badge-warning"
    case Info => "badge-info"
  }

  function LabelOf(s: Severity): string {
    match s
    case Error => "Error"
    case Warning => "Warning"
    case Info => "Info"
  }

  const BadgeOpen := "<span class=\"badge "
  const BadgeClose := "</span>"

  /** `<span class="badge badge-x">Label: n</span>` */
  function Badge(s: Severity, n: int): string {
    BadgeOpen + ClassOf(s) + "\">" + LabelOf(s) + ": " + IntToString(n) + BadgeClose
  }

  function BadgeFor(c: Counts, s: Severity): string
    requires Positive(c, s)
  {
    Badge(s, CountOf(c, s).value)
  }

  /** The badges pushed one severity after the other. */
  function Badges(c: Counts): seq<string> {
    (if Positive(c, Error) then [BadgeFor(c, Error)] else [])
    + (if Positive(c, Warning) then [BadgeFor(c, Warning)] else [])
    + (if Positive(c, Info) then [BadgeFor(c, Info)] else [])
  }

  /** `formatSeverityCounts(counts)`; `None` is a null or undefined
      object. */
  function FormatSeverityCounts(counts: Option<Counts>): (r: string)
    ensures counts.None? ==> r == ""
  {
    match counts
    case None => ""
    case Some(c) => JoinWith(Badges(c), " ")
  }

  /** The badges are those of the positive severities, taken in the order
      error, warning, info, each showing its own count. */
  lemma BadgesFollowSeverityOrder(c: Counts)
    ensures var shown := Seqs.Filter(BadgeOrder, s => Positive(c, s));
            Badges(c) == seq(|shown|, i requires 0 <= i < |shown| => Badge(shown[i], CountOf(c, shown[i]).value))
  {
    var keep := s => Positive(c, s);
    var tail2 := Seqs.Filter([Info], keep);
    assert tail2 == (if keep(Info) then [Info] else []) + Seqs.Filter([], keep);
    var tail1 := Seqs.Filter([Warning, Info], keep);
    assert [Warning, Info][1..] == [Info];
    assert tail1 == (if keep(Warning) then [Warning] else []) + tail2;
    assert BadgeOrder[1..] == [Warning, Info];
    assert Seqs.Filter(BadgeOrder, keep) == (if keep(Error) then [Error] else []) + tail1;
  }

  /** The text is empty exactly when no count is positive: every badge is
      a non-empty string. */
  lemma EmptyIffNothingPositive(c: Counts)
    ensures FormatSeverityCounts(Some(c)) == ""
        <==> !Positive(c, Error) && !Positive(c, Warning) && !Positive(c, Info)
  {
    var bs := Badges(c);
    if bs != [] {
      assert |bs[0]| > 0;
      if |bs| > 1 {
        assert JoinWith(bs, " ") == bs[0] + " " + JoinWith(bs[1..], " ");
      }
    }
  }

  /** With a single positive count the text is that one badge, with no
      separator. */
  lemma SingleBadge(c: Counts, s: Severity)
    requires Positive(c, s)
    requires forall t: Severity | t != s :: !Positive(c, t)
    ensures FormatSeverityCounts(Some(c)) == Badge(s, CountOf(c, s).value)
  {
    assert !Positive(c, Error) || !Positive(c, Warning);
    match s {
      case Error => assert !Positive(c, Warning) && !Positive(c, Info);
      case Warning => assert !Positive(c, Error) && !Positive(c, Info);
      case Info => assert !Positive(c, Error) && !Positive(c, Warning);
    }
  }

  // ---------------------------------------------------------------------
  // formatTime
  // ---------------------------------------------------------------------

  /** The suffix for seconds, U+CD08. */
  const SecondsSuffix := "\U{CD08}"
  const MillisSuffix := "ms"

  /** `(ms / 1000).toFixed(1)`: floating-point rounding to one decimal,
      supplied by the caller. */
  type OneDecimal = int -> string

  /** `formatTime(ms)` for integer durations; `None` is null or
      undefined. */
  function FormatTime(ms: Option<int>, seconds: OneDecimal): (r: string)
    ensures (ms.None? || ms.value == 0) ==> r == "0" + SecondsSuffix
    ensures ms.Some? && ms.value != 0 && ms.value < 1000 ==> EndsWith(r, MillisSuffix)
    ensures ms.Some? && ms.value >= 1000 ==> r == seconds(ms.value) + SecondsSuffix
  {
    if ms.None? || ms.value == 0 then "0" + SecondsSuffix
    else if ms.value < 1000 then IntToString(ms.value) + MillisSuffix
    else seconds(ms.value) + SecondsSuffix
  }

  /** A positive duration under a second is shown as its digits followed
      by "ms", and those digits read back as the duration. */
  lemma MillisecondsReadBack(ms: int, seconds: OneDecimal)
    requires 0 < ms < 1000
    ensures var r := FormatTime(Some(ms), seconds);
            |r| > |MillisSuffix| && DecimalValue(r[..|r| - |MillisSuffix|]) == ms
            && forall i | 0 <= i < |r| - |MillisSuffix| :: IsDigit(r[i])
  {
    var r := FormatTime(Some(ms), seconds);
    assert r[..|r| - |MillisSuffix|] == NatToString(ms);
    DecimalRoundTrip(ms);
  }

  /** Distinct durations under a second get distinct labels. */
  lemma MillisecondsDistinct(a: int, b: int, seconds: OneDecimal)
    requires 0 < a < 1000 && 0 < b < 1000
    requires FormatTime(Some(a), seconds) == FormatTime(Some(b), seconds)
    ensures a == b
  {
    MillisecondsReadBack(a, seconds);
    MillisecondsReadBack(b, seconds);
  }
}

=== FILE: diff_reducer.dfy ===
/** Token-saving reduction of a unified diff before it is sent to the
    language model (`CodeReviewService.truncateDiff` / `shouldSkipFile`).

    The reduction is described here in two independent stages:
    `Reviewable` decides which lines survive (whole files are dropped on a
    substring skip-list, context lines are dropped everywhere), and `Cut`
    decides where the stream is cut off once the character budget is spent.
    `ReduceDiff` is the single streaming loop of the service; it is proved
    to compute exactly the composition of the two stages. */
module DiffReducer {
  import opened Text
  import opened Seqs

  /** `MAX_DIFF_LENGTH` */
  const MaxDiffLength: nat := 2500

  datatype LineKind = FileHeader | PathHeader | HunkHeader | Change | Other

  /** Classification in the order the service tests the prefixes: a
      "+++"/"---" line is a path header, never a change. */
  function KindOf(line: string): LineKind {
    if StartsWith(line, "diff --git") then FileHeader
    else if StartsWith(line, "+++") || StartsWith(line, "---") then PathHeader
    else if StartsWith(line, "@@") then HunkHeader
    else if StartsWith(line, "+") || StartsWith(line, "-") then Change
    else Other
  }

  lemma KeptLinePrefix(line: string)
    requires KindOf(line) != Other
    ensures StartsWith(line, "diff --git") || StartsWith(line, "@@")
         || StartsWith(line, "+") || StartsWith(line, "-")
  {
  }

  // ---------------------------------------------------------------------
  // The skip-list
  // ---------------------------------------------------------------------

  const LockFiles: seq<string> := [
    "package-lock.json", "yarn.lock", "pnpm-lock.yaml", "composer.lock",
    "gemfile.lock", "poetry.lock", "cargo.lock", "go.sum", "go.mod"]

  const BuildOutputs: seq<string> := [
    "/build/", "/dist/", "/target/", "/.gradle/", "/node_modules/", "/vendor/",
    "/__pycache__/", ".min.js", ".min.css", ".bundle.js", ".bundle.css"]

  const BinaryExtensions: seq<string> := [
    ".png", ".jpg", ".jpeg", ".gif", ".svg", ".ico", ".webp", ".pdf", ".zip",
    ".tar", ".gz", ".jar", ".war", ".ear", ".exe", ".dll", ".so", ".dylib",
    ".a", ".o"]

  const TestData: seq<string> := ["/__snapshots__/", "/fixtures/", "/test-data/", ".snap"]

  const ConfigSuffixes: seq<string> := [".lock", ".sum", ".cache"]

  const ConfigNames: seq<string> := [".env.example", ".gitignore", ".dockerignore"]

  const DocDirs: seq<string> := ["/docs/", "/documentation/"]

  const DocImages: seq<string> := [".png", ".jpg", ".gif"]

  predicate ContainsAny(s: string, ps: seq<string>) {
    exists k | 0 <= k < |ps| :: Contains(s, ps[k])
  }

  predicate EndsWithAny(s: string, ps: seq<string>) {
    exists k | 0 <= k < |ps| :: EndsWith(s, ps[k])
  }

  /** `shouldSkipFile`: the six clauses of the service over the lower-cased
      header line, in source order. */
  predicate ShouldSkipFile(header: string) {
    SkipsLowered(ToLower(header))
  }

  predicate SkipsLowered(lower: string) {
    || ContainsAny(lower, LockFiles)
    || ContainsAny(lower, BuildOutputs)
    || ContainsAny(lower, BinaryExtensions)
    || ContainsAny(lower, TestData)
    || EndsWithAny(lower, ConfigSuffixes) || ContainsAny(lower, ConfigNames)
    || (ContainsAny(lower, DocDirs) && ContainsAny(lower, DocImages))
  }

  /** The same decision without the documentation-image clause. */
  predicate SkipWithoutDocsClause(header: string) {
    var lower := ToLower(header);
    || ContainsAny(lower, LockFiles)
    || ContainsAny(lower, BuildOutputs)
    || ContainsAny(lower, BinaryExtensions)
    || ContainsAny(lower, TestData)
    || EndsWithAny(lower, ConfigSuffixes) || ContainsAny(lower, ConfigNames)
  }

  /** The documentation-image clause never changes the decision: each of
      its image extensions is already a binary extension. */
  lemma DocsClauseRedundant(header: string)
    ensures ShouldSkipFile(header) == SkipWithoutDocsClause(header)
  {
    var lower := ToLower(header);
    if ContainsAny(lower, DocImages) {
      var k :| 0 <= k < |DocImages| && Contains(lower, DocImages[k]);
      var b := if k == 0 then 0 else if k == 1 then 1 else 3;
      assert BinaryExtensions[b] == DocImages[k];
      assert ContainsAny(lower, BinaryExtensions);
    }
  }

  /** The decision ignores the case of ASCII letters. */
  lemma SkipIsCaseInsensitive(header: string)
    ensures ShouldSkipFile(ToLower(header)) == ShouldSkipFile(header)
  {
    ToLowerIdempotent(header);
  }

  /** Every pattern in `ps` starts with a dot or a slash. */
  predicate LeadsWithMark(ps: seq<string>) {
    forall k | 0 <= k < |ps| :: ps[k] != "" && (ps[k][0] == '.' || ps[k][0] == '/')
  }

  lemma ContainsMarked(s: string, ps: seq<string>)
    requires LeadsWithMark(ps)
    requires ContainsAny(s, ps)
    ensures '.' in s || '/' in s
  {
    var k :| 0 <= k < |ps| && Contains(s, ps[k]);
    ContainsChar(s, ps[k], ps[k][0]);
  }

  lemma LockFilesHaveDots(s: string)
    requires ContainsAny(s, LockFiles)
    ensures '.' in s
  {
    var k :| 0 <= k < |LockFiles| && Contains(s, LockFiles[k]);
    assert '.' in LockFiles[k];
    ContainsChar(s, LockFiles[k], '.');
  }

  lemma ListsLeadWithMarks()
    ensures LeadsWithMark(BuildOutputs) && LeadsWithMark(BinaryExtensions)
    ensures LeadsWithMark(TestData) && LeadsWithMark(ConfigSuffixes)
    ensures LeadsWithMark(ConfigNames) && LeadsWithMark(DocDirs)
  {
  }

  lemma SkipPatternsHaveMarks(s: string)
    requires ShouldSkipFile(s)
    ensures '.' in ToLower(s) || '/' in ToLower(s)
  {
    var lower := ToLower(s);
    ListsLeadWithMarks();
    if ContainsAny(lower, LockFiles) {
      LockFilesHaveDots(lower);
    } else if ContainsAny(lower, BuildOutputs) {
      ContainsMarked(lower, BuildOutputs);
    } else if ContainsAny(lower, BinaryExtensions) {
      ContainsMarked(lower, BinaryExtensions);
    } else if ContainsAny(lower, TestData) {
      ContainsMarked(lower, TestData);
    } else if EndsWithAny(lower, ConfigSuffixes) {
      var k :| 0 <= k < |ConfigSuffixes| && EndsWith(lower, ConfigSuffixes[k]);
      assert lower[|lower| - |ConfigSuffixes[k]|] == ConfigSuffixes[k][0] == '.';
    } else if ContainsAny(lower, ConfigNames) {
      ContainsMarked(lower, ConfigNames);
    } else {
      ContainsMarked(lower, DocDirs);
    }
  }

  /** The binary-extension test is a substring test, not a suffix test:
      a Solidity source file is dropped because its name contains ".so". */
  lemma SoliditySourceIsSkipped()
    ensures ShouldSkipFile("diff --git a/Token.sol b/Token.sol")
  {
    var h := "diff --git a/Token.sol b/Token.sol";
    var lower := ToLower(h);
    assert lower[18..21] == ".so";
    assert OccursAt(lower, ".so", 18);
    assert BinaryExtensions[16] == ".so";
  }

  // ---------------------------------------------------------------------
  // Stage 1: which lines are reviewable
  // ---------------------------------------------------------------------

  /** The lines the service keeps, before any budget is applied. `skip`
      is the decision taken at the most recent "diff --git" line; lines
      before the first such header are treated as not skipped. */
  function Reviewable(lines: seq<string>, skip: bool): seq<string>
    decreases |lines|
  {
    if lines == [] then []
    else
      var l := lines[0];
      if KindOf(l) == FileHeader then
        if ShouldSkipFile(l) then Reviewable(lines[1..], true)
        else [l] + Reviewable(lines[1..], false)
      else if skip || KindOf(l) == Other then Reviewable(lines[1..], skip)
      else [l] + Reviewable(lines[1..], skip)
  }

  /** Only header, path, hunk and changed lines survive. */
  lemma {:induction false} ReviewableKinds(lines: seq<string>, skip: bool)
    ensures forall k | 0 <= k < |Reviewable(lines, skip)| ::
      KindOf(Reviewable(lines, skip)[k]) != Other
    decreases |lines|
  {
    if lines != [] {
      var l := lines[0];
      var skip' := if KindOf(l) == FileHeader then ShouldSkipFile(l) else skip;
      ReviewableKinds(lines[1..], skip');
      var r := Reviewable(lines, skip);
      var rest := Reviewable(lines[1..], skip');
      var emitted := if KindOf(l) == FileHeader then !skip' else !skip && KindOf(l) != Other;
      if emitted {
        assert r == [l] + rest;
        forall k | 0 <= k < |r|
          ensures KindOf(r[k]) != Other
        {
          if k > 0 {
            assert r[k] == rest[k - 1];
            assert KindOf(rest[k - 1]) != Other;
          }
        }
      } else {
        assert r == rest;
        forall k | 0 <= k < |r|
          ensures KindOf(r[k]) != Other
        {
          assert KindOf(rest[k]) != Other;
        }
      }
    }
  }

  lemma {:induction false} ReviewableIsSubsequence(lines: seq<string>, skip: bool)
    ensures IsSubsequence(Reviewable(lines, skip), lines)
    decreases |lines|
  {
    if lines != [] {
      var l := lines[0];
      var skip' := if KindOf(l) == FileHeader then ShouldSkipFile(l) else skip;
      ReviewableIsSubsequence(lines[1..], skip');
      var r := Reviewable(lines, skip);
      var rest := Reviewable(lines[1..], skip');
      if r == rest {
        SubsequenceDropHead(rest, lines);
      } else {
        assert r == [l] + rest;
        assert r[1..] == rest;
      }
    }
  }

  /** One file of a diff: its "diff --git" line and the lines up to the next. */
  datatype FileDiff = FileDiff(header: string, body: seq<string>)

  predicate NoFileHeader(lines: seq<string>) {
    forall k | 0 <= k < |lines| :: KindOf(lines[k]) != FileHeader
  }

  predicate WellFormedFile(f: FileDiff) {
    KindOf(f.header) == FileHeader && NoFileHeader(f.body)
  }

  function FileLines(files: seq<FileDiff>): seq<string> {
    if files == [] then [] else [files[0].header] + files[0].body + FileLines(files[1..])
  }

  /** Cuts a line sequence into the lines before the first file header and
      the files that follow. */
  function SplitFiles(lines: seq<string>): (r: (seq<string>, seq<FileDiff>))
    ensures r.0 + FileLines(r.1) == lines
    ensures NoFileHeader(r.0)
    ensures forall k | 0 <= k < |r.1| :: WellFormedFile(r.1[k])
  {
    if lines == [] then ([], [])
    else
      var (pre, files) := SplitFiles(lines[1..]);
      if KindOf(lines[0]) == FileHeader then
        assert [lines[0]] + pre + FileLines(files) == lines;
        var none: seq<string> := [];
        (none, [FileDiff(lines[0], pre)] + files)
      else
        assert [lines[0]] + (pre + FileLines(files)) == lines;
        ([lines[0]] + pre, files)
  }

  /** The header, path, hunk and changed lines of a file body. */
  function ChangedLines(lines: seq<string>): (r: seq<string>) {
    if lines == [] then []
    else if KindOf(lines[0]) == Other then ChangedLines(lines[1..])
    else [lines[0]] + ChangedLines(lines[1..])
  }

  /** Reference description of stage 1, file by file: a skipped file
      contributes nothing, header included; any other file contributes its
      header and its non-context lines. */
  function ReviewedFiles(files: seq<FileDiff>): seq<string> {
    if files == [] then []
    else
      var f := files[0];
      (if ShouldSkipFile(f.header) then [] else [f.header] + ChangedLines(f.body))
      + ReviewedFiles(files[1..])
  }

  lemma {:induction false} ReviewableBody(body: seq<string>, rest: seq<string>, skip: bool)
    requires NoFileHeader(body)
    ensures Reviewable(body + rest, skip)
         == (if skip then [] else ChangedLines(body)) + Reviewable(rest, skip)
    decreases |body|
  {
    if body == [] {
      assert body + rest == rest;
    } else {
      assert (body + rest)[0] == body[0];
      assert (body + rest)[1..] == body[1..] + rest;
      ReviewableBody(body[1..], rest, skip);
    }
  }

  lemma {:induction false} ReviewableFiles(files: seq<FileDiff>, skip: bool)
    requires forall k | 0 <= k < |files| :: WellFormedFile(files[k])
    ensures Reviewable(FileLines(files), skip) == ReviewedFiles(files)
    decreases |files|
  {
    if files != [] {
      var f := files[0];
      var tail := FileLines(files[1..]);
      var sk := ShouldSkipFile(f.header);
      assert FileLines(files) == [f.header] + (f.body + tail);
      ReviewableBody(f.body, tail, sk);
      ReviewableFiles(files[1..], sk);
      if !sk {
        assert Reviewable(FileLines(files), skip)
            == [f.header] + (ChangedLines(f.body) + ReviewedFiles(files[1..]));
      }
    }
  }

  /** Stage 1 agrees with the file-by-file description on every input. */
  lemma ReviewableBySections(lines: seq<string>)
    ensures var (pre, files) := SplitFiles(lines);
      Reviewable(lines, false) == ChangedLines(pre) + ReviewedFiles(files)
  {
    var (pre, files) := SplitFiles(lines);
    ReviewableBody(pre, FileLines(files), false);
    ReviewableFiles(files, false);
  }

  // ---------------------------------------------------------------------
  // Stage 2: the character budget
  // ---------------------------------------------------------------------

  /** What a sequence of lines adds to the counter: each line's Java
      length (UTF-16 code units) plus its newline. */
  function Cost(lines: seq<string>): nat {
    if lines == [] then 0 else Utf16Length(lines[0]) + 1 + Cost(lines[1..])
  }

  datatype Reduction = Reduction(kept: seq<string>, truncated: bool)

  /** The stop rule: the budget is only checked after a changed line. */
  function Cut(lines: seq<string>, count: nat): Reduction
    decreases |lines|
  {
    if lines == [] then Reduction([], false)
    else
      var l := lines[0];
      var count' := count + Utf16Length(l) + 1;
      if KindOf(l) == Change && count' >= MaxDiffLength then Reduction([l], true)
      else
        var r := Cut(lines[1..], count');
        Reduction([l] + r.kept, r.truncated)
  }

  /** `Cut` keeps a prefix of its input, and all of it unless it stops. */
  lemma {:induction false} CutKeepsPrefix(lines: seq<string>, count: nat)
    ensures var r := Cut(lines, count);
      |r.kept| <= |lines| && r.kept == lines[..|r.kept|] && (!r.truncated ==> r.kept == lines)
    decreases |lines|
  {
    if lines != [] {
      var l := lines[0];
      var count' := count + Utf16Length(l) + 1;
      if !(KindOf(l) == Change && count' >= MaxDiffLength) {
        var t := Cut(lines[1..], count');
        CutKeepsPrefix(lines[1..], count');
        assert Cut(lines, count).kept == [l] + t.kept;
        assert lines == [l] + lines[1..];
      }
    }
  }

  lemma CostCons(l: string, rest: seq<string>)
    ensures Cost([l] + rest) == Utf16Length(l) + 1 + Cost(rest)
  {
    assert ([l] + rest)[1..] == rest;
  }

  /** When `Cut` truncates, it ends on a changed line that brought the
      counter to the budget. */
  lemma {:induction false} CutEndsAtBudget(lines: seq<string>, count: nat)
    ensures var r := Cut(lines, count);
      r.truncated ==> |r.kept| > 0 && KindOf(r.kept[|r.kept| - 1]) == Change
                      && count + Cost(r.kept) >= MaxDiffLength
    decreases |lines|
  {
    if lines != [] {
      var l := lines[0];
      var count' := count + Utf16Length(l) + 1;
      if KindOf(l) == Change && count' >= MaxDiffLength {
        assert Cut(lines, count) == Reduction([l], true);
        CostCons(l, []);
      } else {
        var t := Cut(lines[1..], count');
        var r := Cut(lines, count);
        assert r == Reduction([l] + t.kept, t.truncated);
        if t.truncated {
          CutEndsAtBudget(lines[1..], count');
          CostCons(l, t.kept);
          assert r.kept[|r.kept| - 1] == t.kept[|t.kept| - 1];
        }
      }
    }
  }

  /** `Cut` does not stop earlier: every changed line it keeps before the
      last one left the counter below the budget. */
  lemma {:induction false} CutKeepsUnderBudget(lines: seq<string>, count: nat, j: nat)
    requires var r := Cut(lines, count);
      j < |r.kept| && !(r.truncated && j == |r.kept| - 1) && KindOf(r.kept[j]) == Change
    ensures count + Cost(Cut(lines, count).kept[..j + 1]) < MaxDiffLength
    decreases |lines|
  {
    var l := lines[0];
    var count' := count + Utf16Length(l) + 1;
    var t := Cut(lines[1..], count');
    var kept := [l] + t.kept;
    assert Cut(lines, count).kept == kept;
    assert kept[..j + 1] == [l] + t.kept[..j];
    CostCons(l, t.kept[..j]);
    if j > 0 {
      assert kept[j] == t.kept[j - 1];
      CutKeepsUnderBudget(lines[1..], count', j - 1);
    }
  }

  // ---------------------------------------------------------------------
  // Rendering
  // ---------------------------------------------------------------------

  /** Each kept line followed by a newline. */
  function Unlines(lines: seq<string>): string {
    if lines == [] then "" else lines[0] + "\n" + Unlines(lines[1..])
  }

  /** The counter tracks the Java length of the emitted text. */
  lemma {:induction false} UnlinesLength(lines: seq<string>)
    ensures Utf16Length(Unlines(lines)) == Cost(lines)
    decreases |lines|
  {
    if lines != [] {
      UnlinesLength(lines[1..]);
      Utf16LengthAppend(lines[0], "\n");
      Utf16LengthAppend(lines[0] + "\n", Unlines(lines[1..]));
    }
  }

  /** A character outside the Basic Multilingual Plane, such as an emoji,
      costs two units of the budget, as `String.length()` counts it. */
  lemma AstralCountsTwice()
    ensures Cost(["+\U{1F534}"]) == 4
  {
    var l := "+\U{1F534}";
    assert l[1..][1..] == [];
    assert Utf16Length(l) == 3;
  }

  function Marker(totalLines: nat): string {
    "\n... (truncated - " + NatToString(totalLines) + " total lines) ...\n"
  }

  function Render(r: Reduction, totalLines: nat): string {
    Unlines(r.kept) + (if r.truncated then Marker(totalLines) else "")
  }

  /** `truncateDiff`: the two stages over the lines of the diff; the marker
      names the number of lines the split produced. */
  function TruncateDiff(diff: string): string {
    var lines := JavaSplit(diff, '\n');
    Render(Cut(Reviewable(lines, false), 0), |lines|)
  }

  /** Header lines count towards the budget but never stop the stream, so
      there is no bound on the reduced size: for every bound there is a
      diff whose reduction is longer, with no marker. */
  lemma NoOutputBound(bound: nat)
    ensures exists diff :: |TruncateDiff(diff)| > bound && !Contains(TruncateDiff(diff), "(truncated")
  {
    var line := "diff --git " + seq(bound, _ => 'x');
    StartsWithConcat("diff --git", " " + seq(bound, _ => 'x'));
    assert line == "diff --git" + (" " + seq(bound, _ => 'x'));
    assert KindOf(line) == FileHeader;
    assert forall k | 0 <= k < |line| :: line[k] != '.' && line[k] != '/' && line[k] != '\n' && line[k] != '(';
    if ShouldSkipFile(line) {
      SkipPatternsHaveMarks(line);
      assert false;
    }
    assert '\n' !in line;
    HeaderAlone(line);
    var out := TruncateDiff(line);
    assert '(' !in out by {
      assert forall k | 0 <= k < |out| :: out[k] == (line + "\n")[k];
    }
    if Contains(out, "(truncated") {
      ContainsChar(out, "(truncated", '(');
      assert false;
    }
  }

  /** A diff of one kept header line comes back as that line. */
  lemma HeaderAlone(line: string)
    requires '\n' !in line && KindOf(line) == FileHeader && !ShouldSkipFile(line)
    ensures TruncateDiff(line) == line + "\n"
  {
    var lines := JavaSplit(line, '\n');
    assert lines == [line];
    assert Reviewable(lines, false) == [line];
    assert Cut([line], 0) == Reduction([line], false);
    assert Unlines([line]) == line + "\n";
  }

  // ---------------------------------------------------------------------
  // The streaming loop of the service
  // ---------------------------------------------------------------------

  /** A dropped head line leaves the rendered reduction of the rest. */
  lemma StepDrop(here: seq<string>, skip: bool, skip': bool, count: nat, total: nat)
    requires here != []
    requires skip' == if KindOf(here[0]) == FileHeader then ShouldSkipFile(here[0]) else skip
    requires KindOf(here[0]) == Other || skip'
    ensures Reviewable(here, skip) == Reviewable(here[1..], skip')
  {
  }

  /** A kept head line is emitted in front of the reduction of the rest. */
  lemma StepKeep(here: seq<string>, skip: bool, skip': bool)
    requires here != []
    requires skip' == if KindOf(here[0]) == FileHeader then ShouldSkipFile(here[0]) else skip
    requires KindOf(here[0]) != Other && !skip'
    ensures Reviewable(here, skip) == [here[0]] + Reviewable(here[1..], skip')
  {
  }

  /** Rendering after a kept line: either the stop, or the line followed by
      the rendering of the rest. */
  lemma RenderCons(l: string, rest: seq<string>, count: nat, total: nat)
    ensures KindOf(l) == Change && count + Utf16Length(l) + 1 >= MaxDiffLength ==>
      Render(Cut([l] + rest, count), total) == l + "\n" + Marker(total)
    ensures !(KindOf(l) == Change && count + Utf16Length(l) + 1 >= MaxDiffLength) ==>
      Render(Cut([l] + rest, count), total) == l + "\n" + Render(Cut(rest, count + Utf16Length(l) + 1), total)
  {
    assert ([l] + rest)[0] == l && ([l] + rest)[1..] == rest;
    if KindOf(l) == Change && count + Utf16Length(l) + 1 >= MaxDiffLength {
      assert Unlines([l]) == l + "\n";
    } else {
      UnlinesCons(l, Cut(rest, count + Utf16Length(l) + 1), total);
    }
  }

  lemma UnlinesCons(line: string, r: Reduction, total: nat)
    ensures Render(Reduction([line] + r.kept, r.truncated), total)
         == line + "\n" + Render(r, total)
  {
    assert ([line] + r.kept)[1..] == r.kept;
  }

  /** The single pass of the service as a function: what it still emits
      from line `i` on, given the skip flag and the counter. */
  function Stream(lines: seq<string>, i: nat, skip: bool, count: nat): string
    requires i <= |lines|
    decreases |lines| - i
  {
    if i == |lines| then ""
    else
      var l := lines[i];
      var kind := KindOf(l);
      var count' := count + Utf16Length(l) + 1;
      if kind == FileHeader then
        if ShouldSkipFile(l) then Stream(lines, i + 1, true, count)
        else l + "\n" + Stream(lines, i + 1, false, count')
      else if skip || kind == Other then Stream(lines, i + 1, skip, count)
      else if kind == Change && count' >= MaxDiffLength then l + "\n" + Marker(|lines|)
      else l + "\n" + Stream(lines, i + 1, skip, count')
  }

  /** A skipped header line emits nothing and starts skipping. */
  lemma StreamSkipsHeader(lines: seq<string>, i: nat, skip: bool, count: nat)
    requires i < |lines| && KindOf(lines[i]) == FileHeader && ShouldSkipFile(lines[i])
    ensures Stream(lines, i, skip, count) == Stream(lines, i + 1, true, count)
  {
  }

  /** A kept header line is emitted and stops any skipping. */
  lemma StreamKeepsHeader(lines: seq<string>, i: nat, skip: bool, count: nat)
    requires i < |lines| && KindOf(lines[i]) == FileHeader && !ShouldSkipFile(lines[i])
    ensures Stream(lines, i, skip, count)
         == lines[i] + "\n" + Stream(lines, i + 1, false, count + Utf16Length(lines[i]) + 1)
  {
  }

  /** One step of `Stream` on a line other than a file header. */
  lemma StreamAt(lines: seq<string>, i: nat, skip: bool, count: nat)
    requires i < |lines|
    ensures var l := lines[i];
      var count' := count + Utf16Length(l) + 1;
      var here := Stream(lines, i, skip, count);
      && (KindOf(l) != FileHeader && (skip || KindOf(l) == Other) ==> here == Stream(lines, i + 1, skip, count))
      && (KindOf(l) == Change && !skip && count' >= MaxDiffLength ==> here == l + "\n" + Marker(|lines|))
      && (KindOf(l) == Change && !skip && count' < MaxDiffLength ==> here == l + "\n" + Stream(lines, i + 1, skip, count'))
  {
  }

  ghost function TwoStage(lines: seq<string>, i: nat, skip: bool, count: nat): string
    requires i <= |lines|
  {
    Render(Cut(Reviewable(lines[i..], skip), count), |lines|)
  }

  /** The skip flag after line `l`. */
  function NextSkip(l: string, skip: bool): bool {
    if KindOf(l) == FileHeader then ShouldSkipFile(l) else skip
  }

  /** Line `l` is emitted under the flag it leaves behind. */
  predicate Emits(l: string, skip': bool) {
    KindOf(l) != Other && !skip'
  }

  /** Emitting line `l` on top of `count` characters stops the stream. */
  predicate Stops(l: string, count: nat) {
    KindOf(l) == Change && count + Utf16Length(l) + 1 >= MaxDiffLength
  }

  lemma DropStep(lines: seq<string>, i: nat, skip: bool, count: nat)
    requires i < |lines| && !Emits(lines[i], NextSkip(lines[i], skip))
    ensures Stream(lines, i, skip, count) == Stream(lines, i + 1, NextSkip(lines[i], skip), count)
    ensures TwoStage(lines, i, skip, count) == TwoStage(lines, i + 1, NextSkip(lines[i], skip), count)
  {
    assert lines[i..][0] == lines[i] && lines[i..][1..] == lines[i + 1..];
    StepDrop(lines[i..], skip, NextSkip(lines[i], skip), count, |lines|);
  }

  lemma StopStep(lines: seq<string>, i: nat, skip: bool, count: nat)
    requires i < |lines| && Emits(lines[i], NextSkip(lines[i], skip)) && Stops(lines[i], count)
    ensures Stream(lines, i, skip, count) == lines[i] + "\n" + Marker(|lines|)
    ensures TwoStage(lines, i, skip, count) == lines[i] + "\n" + Marker(|lines|)
  {
    var l := lines[i];
    assert lines[i..][0] == l && lines[i..][1..] == lines[i + 1..];
    StepKeep(lines[i..], skip, NextSkip(l, skip));
    RenderCons(l, Reviewable(lines[i + 1..], NextSkip(l, skip)), count, |lines|);
  }

  lemma KeepStep(lines: seq<string>, i: nat, skip: bool, count: nat)
    requires i < |lines| && Emits(lines[i], NextSkip(lines[i], skip)) && !Stops(lines[i], count)
    ensures Stream(lines, i, skip, count)
         == lines[i] + "\n" + Stream(lines, i + 1, NextSkip(lines[i], skip), count + Utf16Length(lines[i]) + 1)
    ensures TwoStage(lines, i, skip, count)
         == lines[i] + "\n" + TwoStage(lines, i + 1, NextSkip(lines[i], skip), count + Utf16Length(lines[i]) + 1)
  {
    var l := lines[i];
    assert lines[i..][0] == l && lines[i..][1..] == lines[i + 1..];
    StepKeep(lines[i..], skip, NextSkip(l, skip));
    RenderCons(l, Reviewable(lines[i + 1..], NextSkip(l, skip)), count, |lines|);
  }

  /** The single pass computes the two-stage reduction. */
  lemma {:induction false} StreamIsTwoStage(lines: seq<string>, i: nat, skip: bool, count: nat)
    requires i <= |lines|
    ensures Stream(lines, i, skip, count) == TwoStage(lines, i, skip, count)
    decreases |lines| - i
  {
    if i == |lines| {
      assert lines[i..] == [];
    } else {
      var l := lines[i];
      var skip' := NextSkip(l, skip);
      if !Emits(l, skip') {
        DropStep(lines, i, skip, count);
        StreamIsTwoStage(lines, i + 1, skip', count);
      } else if Stops(l, count) {
        StopStep(lines, i, skip, count);
      } else {
        KeepStep(lines, i, skip, count);
        StreamIsTwoStage(lines, i + 1, skip', count + Utf16Length(l) + 1);
      }
    }
  }

  /** `shouldSkipFile` as the service writes it: one early return per
      clause. */
  method SkipFile(header: string) returns (skip: bool)
    ensures skip == ShouldSkipFile(header)
  {
    var lower := ToLower(header);
    if ContainsAny(lower, LockFiles) { return true; }
    if ContainsAny(lower, BuildOutputs) { return true; }
    if ContainsAny(lower, BinaryExtensions) { return true; }
    if ContainsAny(lower, TestData) { return true; }
    if EndsWithAny(lower, ConfigSuffixes) || ContainsAny(lower, ConfigNames) { return true; }
    if ContainsAny(lower, DocDirs) && ContainsAny(lower, DocImages) { return true; }
    return false;
  }

  /** `truncateDiff` as the service writes it: one pass with a skip flag
      and a character counter, stopping right after the changed line that
      reaches the budget. */
  method ReduceDiff(diff: string) returns (out: string)
    ensures out == TruncateDiff(diff)
  {
    var lines := JavaSplit(diff, '\n');
    out := "";
    var count: nat := 0;
    var skip := false;
    var i := 0;
    while i < |lines|
      invariant 0 <= i <= |lines|
      invariant out + Stream(lines, i, skip, count) == Stream(lines, 0, false, 0)
    {
      var stop;
      out, skip, count, stop := StreamStep(lines, i, out, skip, count);
      if stop {
        StreamIsTruncateDiff(diff);
        return;
      }
      i := i + 1;
    }
    StreamIsTruncateDiff(diff);
  }

  /** One line of the service's loop: the output grows by what `Stream`
      emits for the line, and either the state moves on to the next line
      or the line ends the stream. */
  method StreamStep(lines: seq<string>, i: nat, out: string, skip: bool, count: nat)
    returns (out': string, skip': bool, count': nat, stop: bool)
    requires i < |lines|
    ensures stop ==> out' == out + Stream(lines, i, skip, count)
    ensures !stop ==> out' + Stream(lines, i + 1, skip', count') == out + Stream(lines, i, skip, count)
  {
    var line := lines[i];
    var kind := KindOf(line);
    var next := count + Utf16Length(line) + 1;
    out', skip', count', stop := out, skip, count, false;
    if kind == FileHeader {
      skip' := SkipFile(line);
      if !skip' {
        StreamKeepsHeader(lines, i, skip, count);
        Reassociate(out, line, Stream(lines, i + 1, false, next));
        out', count' := out + line + "\n", next;
      } else {
        StreamSkipsHeader(lines, i, skip, count);
      }
    } else if skip || kind == Other {
      StreamAt(lines, i, skip, count);
      assert Stream(lines, i, skip, count) == Stream(lines, i + 1, skip, count);
    } else if kind == Change && next >= MaxDiffLength {
      StreamAt(lines, i, skip, count);
      Reassociate(out, line, Marker(|lines|));
      out', stop := out + line + "\n" + Marker(|lines|), true;
    } else {
      StreamAt(lines, i, skip, count);
      var tail := Stream(lines, i + 1, skip, next);
      assert Stream(lines, i, skip, count) == line + "\n" + tail;
      Reassociate(out, line, tail);
      out', count' := out + line + "\n", next;
    }
  }

  /** The single pass over all lines is `truncateDiff`. */
  lemma StreamIsTruncateDiff(diff: string)
    ensures Stream(JavaSplit(diff, '\n'), 0, false, 0) == TruncateDiff(diff)
  {
    var lines := JavaSplit(diff, '\n');
    StreamIsTwoStage(lines, 0, false, 0);
    assert lines[0..] == lines;
  }

  lemma Reassociate(out: string, line: string, tail: string)
    ensures out + (line + "\n" + tail) == out + line + "\n" + tail
  {
  }
}

=== FILE: domain.dfy ===
/**
 * The persisted entities: repositories, pull requests, reviews and their
 * comments. Identifiers are assigned by the database on first save; here a
 * table is a sequence whose `i`-th row has id `i`. Timestamps are reduced
 * to the day number of their creation, supplied by the caller.
 */
module Domain {
  import opened Wrappers

  // ---------------------------------------------------------------------
  // Review status values
  // ---------------------------------------------------------------------

  const Pending: string := "pending"
  const InProgress: string := "in_progress"
  const Completed: string := "completed"
  const FailedStatus: string := "failed"

  /** The model recorded on every review. */
  const ReviewModel: string := "gpt-4o-mini"

  // ---------------------------------------------------------------------
  // Entities
  // ---------------------------------------------------------------------

  /** `Repository`: the GitHub id is the natural key. */
  datatype Repository = Repository(
    id: nat,
    githubId: int,
    owner: string,
    name: string,
    installationId: Option<int>)

  /** `PullRequest`, unique per repository and number. */
  datatype PullRequest = PullRequest(
    id: nat,
    repositoryId: nat,
    prNumber: int,
    title: string,
    description: Option<string>,
    author: string,
    status: Option<string>)

  /** `Review`; `None` is a null column. */
  datatype Review = Review(
    id: nat,
    pullRequestId: nat,
    commitSha: string,
    status: string,
    totalComments: int,
    severityCounts: Option<map<string, int>>,
    aiModel: Option<string>,
    tokensUsed: Option<int>,
    processingTimeMs: Option<int>,
    errorMessage: Option<string>,
    createdDay: int)

  /** A review as the builder makes it: status "pending" and no comments
      unless the caller says otherwise, every other column null. */
  function NewReview(id: nat, pullRequestId: nat, commitSha: string, createdDay: int): (r: Review)
    ensures r.status == Pending && r.totalComments == 0
    ensures r.severityCounts.None? && r.tokensUsed.None? && r.errorMessage.None?
  {
    Review(id, pullRequestId, commitSha, Pending, 0, None, None, None, None, None, createdDay)
  }

  /** `Comment`, a finding stored against its review. */
  datatype Comment = Comment(
    reviewId: nat,
    filePath: string,
    lineNumber: Option<int>,
    severity: string,
    category: string,
    message: string,
    suggestion: Option<string>,
    codeExample: Option<string>)

  // ---------------------------------------------------------------------
  // Column widths
  // ---------------------------------------------------------------------

  /** The declared widths of the length-limited text columns, in
      characters. The database refuses a row with a longer value (a
      `DataIntegrityViolationException`). The status and model columns only
      ever receive the short constants above. */
  const CommitShaWidth: nat := 40
  const PrStatusWidth: nat := 50
  const SeverityWidth: nat := 20
  const CategoryWidth: nat := 50

  predicate CommentFits(c: Comment) {
    |c.severity| <= SeverityWidth && |c.category| <= CategoryWidth
  }

  // ---------------------------------------------------------------------
  // Tables
  // ---------------------------------------------------------------------

  predicate IdsArePositions(reviews: seq<Review>) {
    forall i | 0 <= i < |reviews| :: reviews[i].id == i
  }

  /** The review and comment tables. */
  datatype Db = Db(reviews: seq<Review>, comments: seq<Comment>)

  predicate ValidDb(db: Db) {
    IdsArePositions(db.reviews)
  }

  /** Every stored row respects the declared column widths. */
  predicate RowsFit(db: Db) {
    && (forall i | 0 <= i < |db.reviews| :: |db.reviews[i].commitSha| <= CommitShaWidth)
    && (forall i | 0 <= i < |db.comments| :: CommentFits(db.comments[i]))
  }
}

=== FILE: exceptions.dfy ===
/**
 * The Java exceptions the services catch and classify, with their cause
 * chains, and the outcome of a call to the chat model.
 */
module Exceptions {
  import opened Wrappers

  /** The concrete exception types that matter to the catch clauses. */
  datatype ExnKind =
    | HttpClientError(status: int)   // HttpClientErrorException (4xx)
    | HttpServerError(status: int)   // HttpServerErrorException (5xx)
    | ResourceAccess                 // ResourceAccessException (network)
    | RestClient                     // any other RestClientException
    | HttpRetry                      // java.net.HttpRetryException
    | IndexOutOfBounds               // StringIndexOutOfBoundsException
    | JsonProcessing                 // Jackson's JsonProcessingException
    | Runtime                        // a plain RuntimeException
    | Checked                        // any other checked exception

  /** A thrown exception: its type, its (nullable) message and its cause. */
  datatype Exn = Exn(kind: ExnKind, message: Option<string>, cause: Option<Exn>)

  /** A `NullPointerException` from dereferencing an absent field of a
      payload (the JVM's detail message is not modelled). */
  const NullDereference: Exn := Exn(Runtime, None, None)

  /** The classes named in catch clauses and retry policies. */
  datatype ExnClass =
    | RestClientClass
    | HttpClientErrorClass
    | HttpServerErrorClass
    | ResourceAccessClass
    | HttpRetryClass
    | RuntimeClass
    | ExceptionClass

  /** `cls.isInstance(e)`, following the Spring and JDK class hierarchy:
      the three HTTP/network exceptions are RestClientExceptions, which are
      RuntimeExceptions; HttpRetryException and Jackson's exception are
      checked (IOException) types. */
  predicate InstanceOf(k: ExnKind, cls: ExnClass) {
    match cls
    case RestClientClass => IsRestClient(k)
    case HttpClientErrorClass => k.HttpClientError?
    case HttpServerErrorClass => k.HttpServerError?
    case ResourceAccessClass => k.ResourceAccess?
    case HttpRetryClass => k.HttpRetry?
    case RuntimeClass => IsRestClient(k) || k.IndexOutOfBounds? || k.Runtime?
    case ExceptionClass => true
  }

  predicate IsRestClient(k: ExnKind) {
    k.HttpClientError? || k.HttpServerError? || k.ResourceAccess? || k.RestClient?
  }

  /** The cause chain starting at `e`: `e`, its cause, the cause's cause, ... */
  function Chain(e: Option<Exn>): seq<Exn>
    decreases e
  {
    match e
    case None => []
    case Some(x) => [x] + Chain(x.cause)
  }

  /** Some exception on the chain from `e` is an instance of `cls`. */
  predicate CauseIs(e: Option<Exn>, cls: ExnClass)
    decreases e
  {
    match e
    case None => false
    case Some(x) => InstanceOf(x.kind, cls) || CauseIs(x.cause, cls)
  }

  /** The walk agrees with membership in the listed chain. */
  lemma {:induction false} CauseIsChain(e: Option<Exn>, cls: ExnClass)
    ensures CauseIs(e, cls) <==> exists x | x in Chain(e) :: InstanceOf(x.kind, cls)
    decreases e
  {
    match e
    case None =>
    case Some(x) =>
      CauseIsChain(x.cause, cls);
      assert Chain(e) == [x] + Chain(x.cause);
      assert x in Chain(e);
  }

  /** CodeReviewService.containsCauseType: walk the cause chain until an
      instance of `cls` is found or the chain ends. */
  method ContainsCauseType(e: Exn, cls: ExnClass) returns (found: bool)
    ensures found <==> exists x | x in Chain(Some(e)) :: InstanceOf(x.kind, cls)
  {
    CauseIsChain(Some(e), cls);
    var current := Some(e);
    while current.Some?
      invariant CauseIs(Some(e), cls) <==> CauseIs(current, cls)
      decreases current
    {
      if InstanceOf(current.value.kind, cls) {
        return true;
      }
      current := current.value.cause;
    }
    return false;
  }

  /** The outcome of one call to the chat model: the reply content with its
      total token count, or the exception the call threw. `None` stands for
      a null `getContent()` or a null `getTotalTokens()`. */
  datatype CallOutcome = Replied(content: Option<string>, tokens: Option<int>) | Threw(error: Exn)
}

=== FILE: github.dfy ===
/**
 * `GitHubClientService`: the diff text synthesised from a pull request's
 * file listing, the per-comment posting loop, the comment body format and
 * the summary comment template. The GitHub API itself is a parameter:
 * whether the session could be opened, and whether each post failed.
 */
module GitHub {
  import opened Wrappers
  import opened Text
  import opened Exceptions
  import opened ResponseParser
  import DiffReducer

  /** Owner, name and number of the pull request being reviewed. */
  datatype PrRef = PrRef(owner: string, repo: string, number: int)

  function Describe(pr: PrRef): string {
    pr.owner + "/" + pr.repo + "#" + IntToString(pr.number)
  }

  /** The `GitHubApiException` thrown when the session fails: a runtime
      exception whose message names the action and the pull request. */
  function ApiFailure(action: string, pr: PrRef, ioMessage: Option<string>): (e: Exn)
    ensures e.kind == Runtime && e.message.Some? && !InstanceOf(e.kind, RestClientClass)
  {
    Exn(Runtime, Some("Failed to " + action + " for PR " + Describe(pr) + ": " + OrNull(ioMessage)), None)
  }

  /** The message names the pull request, so a review marked failed
      with it says which one. */
  lemma ApiFailureNamesPr(action: string, pr: PrRef, ioMessage: Option<string>)
    ensures Contains(ApiFailure(action, pr, ioMessage).message.value, Describe(pr))
  {
    var m := ApiFailure(action, pr, ioMessage).message.value;
    assert m == ("Failed to " + action + " for PR ") + Describe(pr) + (": " + OrNull(ioMessage));
    ContainsSelf("Failed to " + action + " for PR ", Describe(pr), ": " + OrNull(ioMessage));
  }

  // ---------------------------------------------------------------------
  // getPullRequestDiff
  // ---------------------------------------------------------------------

  /** `GHPullRequestFileDetail`: the changed file, its counts and its
      (possibly null) patch. */
  datatype PrFile = PrFile(filename: string, additions: int, deletions: int, patch: Option<string>)

  function HeaderLine(f: PrFile): string {
    "diff --git a/" + f.filename + " b/" + f.filename
  }

  /** The block written for one file: the three header lines, a hunk line
      with the deletion and addition counts, the patch and a blank line. */
  function FileBlock(f: PrFile): string {
    HeaderLine(f) + "\n" + PathLines(f) + HunkLine(f) + f.patch.GetOr("") + "\n\n"
  }

  function PathLines(f: PrFile): string {
    "--- a/" + f.filename + "\n" + "+++ b/" + f.filename + "\n"
  }

  function HunkLine(f: PrFile): string {
    "@@ -" + IntToString(f.deletions) + " +" + IntToString(f.additions) + " @@\n"
  }

  /** The diff text built from the file listing, one block per file. */
  function SynthesizeDiff(files: seq<PrFile>): string {
    ConcatMap(FileBlock, files)
  }

  /** The blocks appear in listing order: the diff is the blocks of the
      files before `i`, then the block of file `i`, then the rest. */
  lemma BlocksInOrder(files: seq<PrFile>, i: nat)
    requires i < |files|
    ensures SynthesizeDiff(files)
         == SynthesizeDiff(files[..i]) + FileBlock(files[i]) + SynthesizeDiff(files[i + 1..])
  {
    ConcatMapAt(FileBlock, files, i);
  }

  /** Each block opens with a line the diff reducer reads as a file
      header, and carries the file's patch verbatim. */
  lemma BlockShape(f: PrFile)
    ensures StartsWith(FileBlock(f), HeaderLine(f) + "\n")
    ensures DiffReducer.KindOf(HeaderLine(f)) == DiffReducer.FileHeader
    ensures Contains(FileBlock(f), f.patch.GetOr(""))
  {
    BlockStarts(HeaderLine(f) + "\n", PathLines(f), HunkLine(f), f.patch.GetOr(""));
    HeaderKind(f.filename);
  }

  lemma BlockStarts(h: string, a: string, b: string, p: string)
    ensures StartsWith(h + a + b + p + "\n\n", h)
    ensures Contains(h + a + b + p + "\n\n", p)
  {
    assert h + a + b + p + "\n\n" == h + (a + b + p + "\n\n");
    StartsWithConcat(h, a + b + p + "\n\n");
    ContainsSelf(h + a + b, p, "\n\n");
  }

  lemma HeaderKind(name: string)
    ensures DiffReducer.KindOf("diff --git a/" + name + " b/" + name) == DiffReducer.FileHeader
  {
    assert "diff --git a/" + name + " b/" + name == "diff --git" + (" a/" + name + " b/" + name);
    StartsWithConcat("diff --git", " a/" + name + " b/" + name);
  }

  /** `getPullRequestDiff`: the listing, or the IOException message when
      the API could not be reached. */
  function FetchDiff(pr: PrRef, listing: Result<seq<PrFile>, Option<string>>): (r: Result<string, Exn>)
    ensures r.Ok? <==> listing.Ok?
    ensures r.Ok? ==> r.value == SynthesizeDiff(listing.value)
    ensures r.Err? ==> r.error == ApiFailure("fetch diff", pr, listing.error)
  {
    match listing
    case Ok(files) => Ok(SynthesizeDiff(files))
    case Err(m) => Err(ApiFailure("fetch diff", pr, m))
  }

  // ---------------------------------------------------------------------
  // formatCommentBody
  // ---------------------------------------------------------------------

  /** `ReviewCommentRequest`; `None` is null. */
  datatype CommentRequest = CommentRequest(
    filePath: Option<string>,
    lineNumber: Option<int>,
    severity: string,
    category: string,
    message: string,
    suggestion: Option<string>,
    codeExample: Option<string>)

  /** The request built from a parsed comment, field by field. */
  function RequestOf(c: ReviewComment): CommentRequest {
    CommentRequest(Some(c.filePath), c.lineNumber, c.severity, c.category, c.message,
                   c.suggestion, c.codeExample)
  }

  const ErrorEmoji: string := "\U{1F534}"
  const WarningEmoji: string := "\U{26A0}\U{FE0F}"
  const InfoEmoji: string := "\U{2139}\U{FE0F}"

  /** The switch on the exact severity text. */
  function Emoji(severity: string): string {
    if severity == "error" then ErrorEmoji
    else if severity == "warning" then WarningEmoji
    else InfoEmoji
  }

  /** The three emojis are different, so the emoji tells which of "error",
      "warning" or anything else the severity was. */
  lemma EmojiIdentifiesSeverity(a: string, b: string)
    ensures Emoji(a) == Emoji(b) <==>
      (a == "error") == (b == "error") && (a == "warning") == (b == "warning")
  {
    assert ErrorEmoji[0] != WarningEmoji[0] && WarningEmoji[0] != InfoEmoji[0] && ErrorEmoji[0] != InfoEmoji[0];
  }

  /** Java's `s != null && !s.isEmpty()` */
  predicate Present(s: Option<string>) {
    s.Some? && s.value != ""
  }

  function SuggestionSection(s: Option<string>): string {
    if Present(s) then "\n**Suggestion:**\n" + s.value + "\n" else ""
  }

  function ExampleSection(s: Option<string>): string {
    if Present(s) then "\n**Example:**\n```\n" + s.value + "\n```\n" else ""
  }

  function Lead(c: CommentRequest): string {
    Emoji(c.severity) + " **" + ToUpper(c.category) + "**\n\n"
  }

  /** `formatCommentBody(comment)` */
  function FormatCommentBody(c: CommentRequest): string {
    Lead(c) + c.message + "\n" + SuggestionSection(c.suggestion) + ExampleSection(c.codeExample)
  }

  /** A section is written exactly when its field is non-null and
      non-empty. */
  lemma SectionsIffPresent(c: CommentRequest)
    ensures SuggestionSection(c.suggestion) != "" <==> Present(c.suggestion)
    ensures ExampleSection(c.codeExample) != "" <==> Present(c.codeExample)
  {
  }

  /** The body opens with the emoji and the upper-cased category, and
      carries the message verbatim right after them. */
  lemma BodyOpensWithHeading(c: CommentRequest)
    ensures StartsWith(FormatCommentBody(c), Lead(c))
    ensures FormatCommentBody(c)[|Lead(c)|..|Lead(c)| + |c.message|] == c.message
  {
    var sug := SuggestionSection(c.suggestion);
    var ex := ExampleSection(c.codeExample);
    Regroup5(Lead(c), c.message, "\n", sug, ex);
    Framed(Lead(c), c.message, "\n" + sug + ex);
  }

  /** A present suggestion is carried verbatim. */
  lemma SuggestionCarried(c: CommentRequest)
    requires Present(c.suggestion)
    ensures Contains(FormatCommentBody(c), c.suggestion.value)
  {
    SectionCarried(Lead(c) + c.message + "\n", "\n**Suggestion:**\n", c.suggestion.value, "\n",
                   ExampleSection(c.codeExample));
  }

  lemma SectionCarried(head: string, k: string, s: string, e: string, tail: string)
    ensures Contains(head + (k + s + e) + tail, s)
  {
    assert head + (k + s + e) + tail == (head + k) + s + (e + tail);
    ContainsSelf(head + k, s, e + tail);
  }

  /** A present code example is carried verbatim. */
  lemma ExampleCarried(c: CommentRequest)
    requires Present(c.codeExample)
    ensures Contains(FormatCommentBody(c), c.codeExample.value)
  {
    var head := Lead(c) + c.message + "\n" + SuggestionSection(c.suggestion);
    var e := c.codeExample.value;
    assert ExampleSection(c.codeExample) == "\n**Example:**\n```\n" + e + "\n```\n";
    assert FormatCommentBody(c) == head + ("\n**Example:**\n```\n" + e + "\n```\n");
    assert head + ("\n**Example:**\n```\n" + e + "\n```\n") == (head + "\n**Example:**\n```\n") + e + "\n```\n";
    ContainsSelf(head + "\n**Example:**\n```\n", e, "\n```\n");
  }

  // ---------------------------------------------------------------------
  // postReviewComments
  // ---------------------------------------------------------------------

  /** One API call: a line comment on the commit, or a general comment. */
  datatype Post =
    | Inline(body: string, commitSha: string, path: string, line: int)
    | General(body: string)

  /** A comment goes inline exactly when it has both a line and a path. */
  function PostFor(c: CommentRequest, commitSha: string): (p: Post)
    ensures p.Inline? <==> c.lineNumber.Some? && c.filePath.Some?
    ensures p.body == FormatCommentBody(c)
    ensures p.Inline? ==> p.commitSha == commitSha && p.path == c.filePath.value && p.line == c.lineNumber.value
  {
    if c.lineNumber.Some? && c.filePath.Some? then
      Inline(FormatCommentBody(c), commitSha, c.filePath.value, c.lineNumber.value)
    else General(FormatCommentBody(c))
  }

  /** The API as seen by the service: the message of the IOException that
      stops the session from opening (if any), which posts fail with an
      IOException, and the outcome of the summary post. */
  datatype GitHubEnv = GitHubEnv(
    session: Option<Option<string>>,
    postFails: nat -> bool,
    summaryFails: Option<Option<string>>)

  /** The posts the loop sent and how many of them went through. */
  datatype PostReport = PostReport(sent: seq<Post>, successCount: nat)

  /** The number of the first `n` posts that did not fail. */
  function Successes(fails: nat -> bool, n: nat): (r: nat)
    ensures r <= n
  {
    if n == 0 then 0 else Successes(fails, n - 1) + (if fails(n - 1) then 0 else 1)
  }

  /** The posts for a list of comments, one each, in order. */
  function PostsFor(comments: seq<CommentRequest>, commitSha: string): (r: seq<Post>)
    ensures |r| == |comments|
  {
    if comments == [] then []
    else PostsFor(comments[..|comments| - 1], commitSha) + [PostFor(comments[|comments| - 1], commitSha)]
  }

  lemma {:induction false} PostsForAt(comments: seq<CommentRequest>, commitSha: string, i: nat)
    requires i < |comments|
    ensures PostsFor(comments, commitSha)[i] == PostFor(comments[i], commitSha)
    decreases |comments|
  {
    if i < |comments| - 1 {
      PostsForAt(comments[..|comments| - 1], commitSha, i);
    }
  }

  /** `postReviewComments`: nothing at all for an empty list; otherwise
      every comment is posted in order, a failed post is only counted out,
      and a failure to open the session is rethrown. */
  method PostReviewComments(pr: PrRef, commitSha: string, comments: seq<CommentRequest>, gh: GitHubEnv)
    returns (r: Result<PostReport, Exn>)
    ensures comments == [] ==> r == Ok(PostReport([], 0))
    ensures r.Err? <==> comments != [] && gh.session.Some?
    ensures r.Err? ==> r.error == ApiFailure("post review comments", pr, gh.session.value)
    ensures r.Ok? ==>
      && r.value.sent == PostsFor(comments, commitSha)
      && r.value.successCount == Successes(gh.postFails, |comments|)
      && r.value.successCount <= |comments|
  {
    if comments == [] {
      return Ok(PostReport([], 0));
    }
    if gh.session.Some? {
      return Err(ApiFailure("post review comments", pr, gh.session.value));
    }
    var sent, successCount := PostEach(comments, commitSha, gh.postFails);
    return Ok(PostReport(sent, successCount));
  }

  /** The loop of `postReviewComments`: each comment is posted in turn and
      the successful posts are counted. */
  method PostEach(comments: seq<CommentRequest>, commitSha: string, postFails: nat -> bool)
    returns (sent: seq<Post>, successCount: nat)
    ensures sent == PostsFor(comments, commitSha)
    ensures successCount == Successes(postFails, |comments|)
  {
    sent := [];
    successCount := 0;
    var i := 0;
    while i < |comments|
      invariant 0 <= i <= |comments|
      invariant sent == PostsFor(comments[..i], commitSha)
      invariant successCount == Successes(postFails, i)
    {
      PostsForStep(comments, commitSha, i);
      sent := sent + [PostFor(comments[i], commitSha)];
      if !postFails(i) {
        successCount := successCount + 1;
      }
      i := i + 1;
    }
    assert comments[..i] == comments;
  }

  lemma PostsForStep(comments: seq<CommentRequest>, commitSha: string, i: nat)
    requires i < |comments|
    ensures PostsFor(comments[..i + 1], commitSha)
         == PostsFor(comments[..i], commitSha) + [PostFor(comments[i], commitSha)]
  {
    var prefix := comments[..i + 1];
    assert prefix[..i] == comments[..i] && prefix[i] == comments[i];
  }

  /** Every comment of a non-empty list is posted, in order, whether or
      not earlier posts failed. */
  lemma PostedInOrder(pr: PrRef, commitSha: string, comments: seq<CommentRequest>, i: nat)
    requires i < |comments|
    ensures |PostsFor(comments, commitSha)| == |comments|
    ensures PostsFor(comments, commitSha)[i].body == FormatCommentBody(comments[i])
    ensures PostsFor(comments, commitSha)[i].Inline? <==> comments[i].lineNumber.Some? && comments[i].filePath.Some?
  {
    PostsForAt(comments, commitSha, i);
  }

  // ---------------------------------------------------------------------
  // postSummaryComment
  // ---------------------------------------------------------------------

  const SummaryHeading: string := "## \U{1F916} AI Code Review Summary\n\n"
  const TotalLabel: string := "\n\n**Total Issues Found:** "
  const SummaryFooter: string := "\n\n---\n*Powered by CodeReview AI Assistant*\n"

  /** The text block with the summary and the count filled in. */
  function SummaryBody(summary: string, totalComments: int): string {
    SummaryHeading + summary + TotalLabel + IntToString(totalComments) + SummaryFooter
  }

  /** The summary sits verbatim right after the heading, and the count
      right before the fixed footer. */
  lemma SummaryTemplate(summary: string, totalComments: int)
    ensures var b := SummaryBody(summary, totalComments);
      && StartsWith(b, SummaryHeading)
      && b[|SummaryHeading|..|SummaryHeading| + |summary|] == summary
      && EndsWith(b, TotalLabel + IntToString(totalComments) + SummaryFooter)
  {
    var n := IntToString(totalComments);
    Regroup5(SummaryHeading, summary, TotalLabel, n, SummaryFooter);
    Framed(SummaryHeading, summary, TotalLabel + n + SummaryFooter);
  }

  lemma Regroup5(a: string, b: string, c: string, d: string, e: string)
    ensures a + b + c + d + e == a + b + (c + d + e)
    ensures a + b + c + d + e == a + (b + c + d + e)
  {
  }

  /** `postSummaryComment`: one general comment, or the wrapped failure. */
  function PostSummary(pr: PrRef, summary: string, totalComments: int, gh: GitHubEnv): (r: Result<Post, Exn>)
    ensures r.Ok? <==> gh.summaryFails.None?
    ensures r.Ok? ==> r.value == General(SummaryBody(summary, totalComments))
    ensures r.Err? ==> r.error == ApiFailure("post summary comment", pr, gh.summaryFails.value)
  {
    match gh.summaryFails
    case Some(m) => Err(ApiFailure("post summary comment", pr, m))
    case None => Ok(General(SummaryBody(summary, totalComments)))
  }
}

=== FILE: gitlab.dfy ===
/**
 * GitLab: `GitLabWebhookService.handleMergeRequestEvent` with the parts of
 * `GitLabClientService` it relies on. The diff text is rebuilt from the
 * merge request's "changes" listing. The language is guessed from the
 * project name. Filters decide whether a review is made and posted. The
 * GitLab API is a parameter: the reply and body of the changes request,
 * the JSON parser, and the replies to the posting exchanges.
 */
module GitLab {
  import opened Wrappers
  import opened Text
  import opened Json
  import opened Exceptions
  import opened ResponseParser
  import opened Sessions
  import opened Publishing
  import Prompts
  import DiffReducer

  // ---------------------------------------------------------------------
  // parseDiffFromChanges
  // ---------------------------------------------------------------------

  const NewFileLine: string := "new file mode 100644\n"
  const DeletedFileLine: string := "deleted file mode 100644\n"

  /** Fields of one change; a missing field reads as "". */
  function OldPath(change: Json): string { TextOr(change, "old_path", "") }
  function NewPath(change: Json): string { TextOr(change, "new_path", "") }
  function DiffText(change: Json): string { TextOr(change, "diff", "") }

  function HeaderLine(change: Json): string {
    "diff --git a/" + OldPath(change) + " b/" + NewPath(change)
  }

  function RenameLines(change: Json): string {
    "rename from " + OldPath(change) + "\n" + "rename to " + NewPath(change) + "\n"
  }

  /** The lines that say how the file changed. */
  function ModeLines(change: Json): string {
    if FlagSet(change, "new_file") then NewFileLine
    else if FlagSet(change, "deleted_file") then DeletedFileLine
    else if FlagSet(change, "renamed_file") then RenameLines(change)
    else ""
  }

  /** The text appended for one change. */
  function ChangeBlock(change: Json): string {
    HeaderLine(change) + "\n" + ModeLines(change) + DiffText(change) + "\n"
  }

  /** The diff text for a listing: one block per change, in order. */
  function DiffFromChanges(changes: seq<Json>): string {
    ConcatMap(ChangeBlock, changes)
  }

  /** At most one kind of mode line is written. A new file wins over a
      deleted one, which wins over a rename, and a change with no flag set
      gets none. */
  lemma ModeLinePriority(change: Json)
    ensures ModeLines(change) == NewFileLine <==> FlagSet(change, "new_file")
    ensures ModeLines(change) == DeletedFileLine
        <==> !FlagSet(change, "new_file") && FlagSet(change, "deleted_file")
    ensures ModeLines(change) == RenameLines(change)
        <==> !FlagSet(change, "new_file") && !FlagSet(change, "deleted_file") && FlagSet(change, "renamed_file")
    ensures ModeLines(change) == ""
        <==> !FlagSet(change, "new_file") && !FlagSet(change, "deleted_file") && !FlagSet(change, "renamed_file")
  {
    var rename := RenameLines(change);
    assert rename[0] == 'r' && rename[7] == 'f';
    assert NewFileLine[0] == 'n' && DeletedFileLine[0] == 'd';
    assert |NewFileLine| > 0 && |DeletedFileLine| > 0 && |rename| > 0;
  }

  /** Each block starts with a line the diff reducer reads as a file
      header, and ends with the change's diff text and a newline. */
  lemma BlockShape(change: Json)
    ensures StartsWith(ChangeBlock(change), HeaderLine(change) + "\n")
    ensures DiffReducer.KindOf(HeaderLine(change)) == DiffReducer.FileHeader
    ensures EndsWith(ChangeBlock(change), DiffText(change) + "\n")
  {
    var h := HeaderLine(change) + "\n";
    var m := ModeLines(change);
    var d := DiffText(change) + "\n";
    Regroup(h, m, DiffText(change), "\n");
    StartsWithConcat(h, m + d);
    EndsWithConcat(h + m, d);
    HeaderIsFileHeader(OldPath(change), NewPath(change));
  }

  lemma Regroup(h: string, m: string, t: string, e: string)
    ensures h + m + t + e == h + (m + (t + e))
    ensures h + m + t + e == (h + m) + (t + e)
  {
  }

  lemma HeaderIsFileHeader(a: string, b: string)
    ensures DiffReducer.KindOf("diff --git a/" + a + " b/" + b) == DiffReducer.FileHeader
  {
    assert "diff --git a/" + a + " b/" + b == "diff --git" + (" a/" + a + " b/" + b);
    StartsWithConcat("diff --git", " a/" + a + " b/" + b);
  }

  /** The `StringBuilder` loop over the changes. */
  method AppendChanges(changes: seq<Json>) returns (out: string)
    ensures out == DiffFromChanges(changes)
  {
    out := "";
    var i := 0;
    while i < |changes|
      invariant 0 <= i <= |changes|
      invariant out == DiffFromChanges(changes[..i])
    {
      ConcatMapSnoc(ChangeBlock, changes, i);
      out := out + ChangeBlock(changes[i]);
      i := i + 1;
    }
    assert changes[..i] == changes;
  }

  const ParseFailureMessage: string := "Failed to parse GitLab changes"
  const FetchFailureMessage: string := "Failed to fetch GitLab MR diff"

  /** `parseDiffFromChanges`. A null body makes `readTree` throw an
      `IllegalArgumentException`; a body that does not parse throws a
      `JsonProcessingException`. Both become a `GitLabApiException`. */
  function ParseDiffFromChanges(body: Option<string>, parse: Parser): (r: Result<string, Exn>)
    ensures r.Ok? <==> body.Some? && parse(body.value).Ok?
    ensures r.Err? ==> r.error.kind == Runtime && r.error.message == Some(ParseFailureMessage)
    ensures r.Ok? ==> r.value == ListingDiff(parse(body.value).value)
  {
    match body
    case None => Err(Exn(Runtime, Some(ParseFailureMessage), Some(Exn(Runtime, None, None))))
    case Some(text) =>
      match parse(text)
      case Err(m) => Err(Exn(Runtime, Some(ParseFailureMessage), Some(Exn(JsonProcessing, m, None))))
      case Ok(root) => Ok(ListingDiff(root))
  }

  /** A missing or non-array "changes" field reads as no changes. */
  function ListingDiff(root: Json): (d: string)
    ensures !(Has(root, "changes") && IsArray(Get(root, "changes").value)) ==> d == ""
    ensures Has(root, "changes") && IsArray(Get(root, "changes").value)
            ==> d == DiffFromChanges(Get(root, "changes").value.items)
  {
    var changes := Get(root, "changes");
    if changes.None? || !IsArray(changes.value) then ""
    else DiffFromChanges(changes.value.items)
  }

  /** `getMergeRequestDiff`: only a 200 reply is read; every failure,
      including a reply with another status, is rethrown as a
      `GitLabApiException` with the same message. */
  function FetchMrDiff(reply: Reply, body: Option<string>, parse: Parser): (r: Result<string, Exn>)
    ensures r.Ok? <==> reply == Status(200) && ParseDiffFromChanges(body, parse).Ok?
    ensures r.Ok? ==> r == ParseDiffFromChanges(body, parse)
    ensures r.Err? ==> r.error.kind == Runtime && r.error.message == Some(FetchFailureMessage)
    ensures r.Err? && reply == Status(200) ==> r.error.cause == Some(ParseDiffFromChanges(body, parse).error)
    ensures r.Err? && Throws(reply) ==> r.error.cause == Some(Thrown(reply))
  {
    if reply == Status(200) then
      match ParseDiffFromChanges(body, parse)
      case Ok(d) => Ok(d)
      case Err(e) => Err(Exn(Runtime, Some(FetchFailureMessage), Some(e)))
    else if Throws(reply) then
      Err(Exn(Runtime, Some(FetchFailureMessage), Some(Thrown(reply))))
    else
      Err(Exn(Runtime, Some(FetchFailureMessage),
              Some(Exn(Runtime, Some("Failed to fetch MR changes: " + IntToString(reply.code)), None))))
  }

  // ---------------------------------------------------------------------
  // detectLanguageFromProject
  // ---------------------------------------------------------------------

  /** The first-match substring test on the lower-cased project name. */
  function DetectLanguageFromProject(projectName: string): (language: string)
    ensures language in Prompts.Languages || language == "Unknown"
  {
    var n := ToLower(projectName);
    if Contains(n, "java") || Contains(n, "spring") then "Java"
    else if Contains(n, "python") || Contains(n, "py") then "Python"
    else if Contains(n, "javascript") || Contains(n, "js") || Contains(n, "react") || Contains(n, "node") then "JavaScript"
    else if Contains(n, "typescript") || Contains(n, "ts") then "TypeScript"
    else if Contains(n, "go") || Contains(n, "golang") then "Go"
    else if Contains(n, "rust") then "Rust"
    else if Contains(n, "cpp") || Contains(n, "c++") then "C++"
    else "Unknown"
  }

  /** The hint table: each language with the name fragments that select it,
      in the order they are tried. */
  const NameHints: seq<(string, seq<string>)> := [
    ("Java", ["java", "spring"]),
    ("Python", ["python", "py"]),
    ("JavaScript", ["javascript", "js", "react", "node"]),
    ("TypeScript", ["typescript", "ts"]),
    ("Go", ["go", "golang"]),
    ("Rust", ["rust"]),
    ("C++", ["cpp", "c++"])
  ]

  predicate Hinted(name: string, hints: seq<string>) {
    exists h | h in hints :: Contains(name, h)
  }

  /** The language of the first row with a fragment in `name`. */
  function FirstHinted(rows: seq<(string, seq<string>)>, name: string): string
    decreases |rows|
  {
    if rows == [] then "Unknown"
    else if Hinted(name, rows[0].1) then rows[0].0
    else FirstHinted(rows[1..], name)
  }

  /** The search answers with a row's language or "Unknown". */
  lemma {:induction false} FirstHintedIsListed(rows: seq<(string, seq<string>)>, name: string)
    ensures FirstHinted(rows, name) == "Unknown"
         || exists k | 0 <= k < |rows| :: FirstHinted(rows, name) == rows[k].0
    decreases |rows|
  {
    if rows != [] && !Hinted(name, rows[0].1) {
      FirstHintedIsListed(rows[1..], name);
      assert forall k | 0 <= k < |rows[1..]| :: rows[1..][k] == rows[k + 1];
    }
  }

  /** A table-driven search: row `i` wins exactly when one of its fragments
      occurs and no fragment of an earlier row does. */
  lemma {:induction false} FirstHintedAt(rows: seq<(string, seq<string>)>, name: string, i: nat)
    requires i < |rows|
    requires forall k | 0 <= k < |rows| :: rows[k].0 != "Unknown"
    requires forall k, j | 0 <= k < j < |rows| :: rows[k].0 != rows[j].0
    ensures FirstHinted(rows, name) == rows[i].0
        <==> Hinted(name, rows[i].1) && forall j | 0 <= j < i :: !Hinted(name, rows[j].1)
    decreases |rows|
  {
    if i == 0 && !Hinted(name, rows[0].1) {
      FirstHintedIsListed(rows[1..], name);
      assert forall k | 0 <= k < |rows[1..]| :: rows[1..][k] == rows[k + 1];
    } else if i > 0 && !Hinted(name, rows[0].1) {
      var tail := rows[1..];
      assert forall k | 0 <= k < |tail| :: tail[k] == rows[k + 1];
      FirstHintedAt(tail, name, i - 1);
      assert (forall j | 0 <= j < i - 1 :: !Hinted(name, tail[j].1))
         <==> (forall j | 0 <= j < i :: !Hinted(name, rows[j].1));
    }
  }

  /** "Unknown" exactly when no fragment of any row occurs. */
  lemma {:induction false} FirstHintedUnknown(rows: seq<(string, seq<string>)>, name: string)
    requires forall k | 0 <= k < |rows| :: rows[k].0 != "Unknown"
    ensures FirstHinted(rows, name) == "Unknown" <==> forall i | 0 <= i < |rows| :: !Hinted(name, rows[i].1)
    decreases |rows|
  {
    if rows != [] {
      var tail := rows[1..];
      assert forall k | 0 <= k < |tail| :: tail[k] == rows[k + 1];
      FirstHintedUnknown(tail, name);
    }
  }

  /** The if-chain is the table search over `NameHints`. */
  lemma DetectIsFirstHinted(projectName: string)
    ensures DetectLanguageFromProject(projectName) == FirstHinted(NameHints, ToLower(projectName))
  {
    var n := ToLower(projectName);
    var r := NameHints;
    HintedAmong(n, r[0].1);
    r := r[1..];
    HintedAmong(n, r[0].1);
    r := r[1..];
    HintedAmong(n, r[0].1);
    r := r[1..];
    HintedAmong(n, r[0].1);
    r := r[1..];
    HintedAmong(n, r[0].1);
    r := r[1..];
    HintedAmong(n, r[0].1);
    r := r[1..];
    HintedAmong(n, r[0].1);
    assert r[1..] == [];
  }

  /** `Hinted` spelled out for lists of up to four fragments. */
  lemma HintedAmong(n: string, hints: seq<string>)
    requires 1 <= |hints| <= 4
    ensures |hints| == 1 ==> (Hinted(n, hints) <==> Contains(n, hints[0]))
    ensures |hints| == 2 ==> (Hinted(n, hints) <==> Contains(n, hints[0]) || Contains(n, hints[1]))
    ensures |hints| == 4 ==>
              (Hinted(n, hints) <==> (Contains(n, hints[0]) || Contains(n, hints[1])
                                      || Contains(n, hints[2]) || Contains(n, hints[3])))
  {
  }

  /** "java" is checked first and occurs inside "javascript", so a
      JavaScript project whose name says so is reviewed as Java. */
  lemma JavaScriptNamesAreJava(projectName: string)
    requires Contains(ToLower(projectName), "javascript")
    ensures DetectLanguageFromProject(projectName) == "Java"
  {
    assert "javascript" == "java" + "script";
    ContainsHead("java", "script");
    ContainsWithin(ToLower(projectName), "javascript", "java");
  }

  // ---------------------------------------------------------------------
  // handleMergeRequestEvent
  // ---------------------------------------------------------------------

  /** The parts of the merge request payload the service reads; `None` is
      null. */
  datatype Commit = Commit(id: Option<string>)
  datatype Project = Project(id: int, name: Option<string>)
  datatype MrAttributes = MrAttributes(
    iid: int,
    action: Option<string>,
    workInProgress: Option<bool>,
    lastCommit: Option<Commit>)
  datatype MrEvent = MrEvent(objectKind: Option<string>, objectAttributes: Option<MrAttributes>, project: Option<Project>)

  /** The GitLab side: the reply to the changes request with its body, the
      parser the client reads it with, and the replies to the posting
      exchanges that follow. */
  datatype GitLabEnv = GitLabEnv(changesReply: Reply, changesBody: Option<string>, parse: Parser, api: Api)

  const ProcessingFailureMessage: string := "Failed to process GitLab MR webhook"

  /** The `WebhookProcessingException` every escaping exception becomes. */
  function ProcessingFailure(cause: Exn): Exn {
    Exn(Runtime, Some(ProcessingFailureMessage), Some(cause))
  }

  predicate Reviewable(a: MrAttributes) {
    (a.action == Some("open") || a.action == Some("update")) && a.workInProgress != Some(true)
  }

  /** `handleMergeRequestEvent`. The opening log line dereferences both
      the attributes and the project. The project name is read only after
      a non-blank diff, and the last commit only after the analysis. */
  function HandleMergeRequestEvent(event: MrEvent, gl: GitLabEnv, analyze: Analyzer): (h: Handling)
    ensures h.Failed? ==> h.error.kind == Runtime && h.error.message == Some(ProcessingFailureMessage)
  {
    if event.objectAttributes.None? || event.project.None? then Failed(ProcessingFailure(NullDereference))
    else
      var attrs := event.objectAttributes.value;
      var project := event.project.value;
      if !Reviewable(attrs) then Ignored
      else
        match FetchMrDiff(gl.changesReply, gl.changesBody, gl.parse)
        case Err(e) => Failed(ProcessingFailure(e))
        case Ok(diff) =>
          if IsBlank(diff) then NoDiff
          else if project.name.None? then Failed(ProcessingFailure(NullDereference))
          else
            var language := DetectLanguageFromProject(project.name.value);
            var review := analyze(diff, language);
            if attrs.lastCommit.None? then Failed(ProcessingFailure(NullDereference))
            else Reviewed(language, review, Publish(gl.api, attrs.lastCommit.value.id, review))
  }

  /** Only "open" and "update" actions that are not marked work in
      progress get as far as fetching; a null work-in-progress flag does
      not skip. */
  lemma IgnoredIffFiltered(event: MrEvent, gl: GitLabEnv, analyze: Analyzer)
    ensures HandleMergeRequestEvent(event, gl, analyze).Ignored?
        <==> event.objectAttributes.Some? && event.project.Some?
             && ((event.objectAttributes.value.action != Some("open")
                  && event.objectAttributes.value.action != Some("update"))
                 || event.objectAttributes.value.workInProgress == Some(true))
  {
  }

  /** A blank diff (including the "" of a listing without changes) ends
      the handling before any analysis or post. */
  lemma NoDiffIffBlank(event: MrEvent, gl: GitLabEnv, analyze: Analyzer)
    ensures HandleMergeRequestEvent(event, gl, analyze).NoDiff?
        <==> event.objectAttributes.Some? && event.project.Some?
             && Reviewable(event.objectAttributes.value)
             && FetchMrDiff(gl.changesReply, gl.changesBody, gl.parse).Ok?
             && IsBlank(FetchMrDiff(gl.changesReply, gl.changesBody, gl.parse).value)
  {
  }

  /** A reviewed merge request was analysed with the fetched diff and the
      language guessed from the project name, and the review was posted
      against the last commit. */
  lemma ReviewedSpec(event: MrEvent, gl: GitLabEnv, analyze: Analyzer)
    requires HandleMergeRequestEvent(event, gl, analyze).Reviewed?
    ensures event.objectAttributes.Some? && event.project.Some?
    ensures Reviewable(event.objectAttributes.value)
    ensures FetchMrDiff(gl.changesReply, gl.changesBody, gl.parse).Ok?
    ensures !IsBlank(FetchMrDiff(gl.changesReply, gl.changesBody, gl.parse).value)
    ensures event.project.value.name.Some? && event.objectAttributes.value.lastCommit.Some?
    ensures var h := HandleMergeRequestEvent(event, gl, analyze);
            var diff := FetchMrDiff(gl.changesReply, gl.changesBody, gl.parse).value;
            h.language == DetectLanguageFromProject(event.project.value.name.value)
            && h.review == analyze(diff, h.language)
            && h.posted == Publish(gl.api, event.objectAttributes.value.lastCommit.value.id, h.review)
  {
  }

  /** Posting failures are swallowed: the replies to the posting exchanges
      never decide whether the event is reviewed, ignored or failed. */
  lemma PostingNeverFailsTheEvent(event: MrEvent, gl: GitLabEnv, analyze: Analyzer, api': Api)
    ensures HandleMergeRequestEvent(event, gl.(api := api'), analyze).Reviewed?
        == HandleMergeRequestEvent(event, gl, analyze).Reviewed?
    ensures HandleMergeRequestEvent(event, gl.(api := api'), analyze).Failed?
        == HandleMergeRequestEvent(event, gl, analyze).Failed?
  {
  }
}

=== FILE: health.dfy ===
/**
 * The two health reports about the AI service: the OpenAI health check with
 * its optional live connection test, and the actuator indicator that
 * reports the key in masked form.
 */
module Health {
  import opened Wrappers
  import opened Text
  import opened Exceptions
  import opened ApiKeys
  import Json

  const Model: string := "gpt-4o-mini"
  const TestModeStatus: string := "Test mode is enabled. OpenAI API calls are bypassed with mock responses."
  const MissingKeyError: string := "OpenAI API key is not configured. Please set OPENAI_API_KEY environment variable."
  const InvalidKeyError: string := "OpenAI API key format is invalid. Valid keys should start with 'sk-'."
  const SkippedTestStatus: string := "API key is configured correctly. Connection test was not performed."
  const HealthyPrefix: string := "OpenAI API is healthy and responding correctly. Response: "

  /** `OpenAiHealthCheckResult`; `None` stands for a null field. */
  datatype HealthReport = HealthReport(
    healthy: bool,
    apiKeyConfigured: bool,
    apiKeyFormatValid: bool,
    testModeEnabled: bool,
    connectionSuccessful: Option<bool>,
    responseTimeMs: Option<int>,
    model: string,
    tokensUsed: Option<int>,
    errorMessage: Option<string>,
    statusMessage: Option<string>)

  /** The fields every path fills in from the configuration. */
  function Base(key: Option<string>, testMode: bool): HealthReport {
    HealthReport(false, HasApiKey(key), IsApiKeyFormatValid(key), testMode,
                 None, None, Model, None, None, None)
  }

  function Failed(base: HealthReport, error: string, status: string): HealthReport {
    base.(healthy := false, connectionSuccessful := Some(false),
          errorMessage := Some(error), statusMessage := Some(status))
  }

  /** The error message for a failed connection test, by exception type. */
  function ProbeFailure(base: HealthReport, e: Exn): HealthReport {
    match e.kind
    case HttpClientError(status) =>
      var msg :=
        if status == 401 then "Authentication failed. API key is invalid or expired."
        else if status == 429 then "Rate limit exceeded. Please try again later."
        else "Client error: " + OrNull(e.message);
      Failed(base, msg, "OpenAI API connection test failed")
    case HttpServerError(_) =>
      Failed(base, "OpenAI API server error: " + OrNull(e.message), "OpenAI API is experiencing issues")
    case ResourceAccess =>
      Failed(base, "Network error: " + OrNull(e.message), "Cannot connect to OpenAI API")
    case _ =>
      Failed(base, "Unexpected error: " + OrNull(e.message), "Health check failed")
  }

  /** `checkHealth(performConnectionTest)`. The test prompt's reply is the
      `probe` parameter and the measured round-trip time is `elapsedMs`. */
  function CheckHealth(key: Option<string>, testMode: bool, performConnectionTest: bool,
                       probe: CallOutcome, elapsedMs: int): (r: HealthReport)
    ensures r.apiKeyConfigured == HasApiKey(key)
    ensures r.apiKeyFormatValid == IsApiKeyFormatValid(key)
    ensures r.testModeEnabled == testMode && r.model == Model
    ensures r.healthy ==> testMode || IsApiKeyFormatValid(key)
    ensures r.connectionSuccessful == Some(true) <==> r.healthy && r.responseTimeMs.Some?
    ensures r.tokensUsed.Some? ==> -0x8000_0000 <= r.tokensUsed.value < 0x8000_0000
  {
    var base := Base(key, testMode);
    if testMode then
      base.(healthy := true,
            statusMessage := Some(TestModeStatus))
    else if !HasApiKey(key) then
      Failed(base, MissingKeyError,
             "API key not configured")
    else if !IsApiKeyFormatValid(key) then
      Failed(base, InvalidKeyError,
             "API key format invalid")
    else if !performConnectionTest then
      base.(healthy := true,
            statusMessage := Some(SkippedTestStatus))
    else
      match probe
      case Replied(content, None) => ProbeFailure(base, NullDereference)
      case Replied(content, Some(tokens)) =>
        base.(healthy := true, connectionSuccessful := Some(true), responseTimeMs := Some(elapsedMs),
              tokensUsed := Some(Json.Int32(tokens)),
              statusMessage := Some(HealthyPrefix + OrNull(content)))
      case Threw(e) => ProbeFailure(base, e)
  }

  /** The report depends on the probe only when a live probe is requested:
      test mode, a bad key, or a skipped test never touch the API. */
  lemma NoCallUnlessTested(key: Option<string>, testMode: bool, performConnectionTest: bool,
                           p1: CallOutcome, t1: int, p2: CallOutcome, t2: int)
    requires testMode || !IsApiKeyFormatValid(key) || !performConnectionTest
    ensures CheckHealth(key, testMode, performConnectionTest, p1, t1)
         == CheckHealth(key, testMode, performConnectionTest, p2, t2)
  {
  }

  /** Test mode is decided before any key check: it reports healthy
      without a connection verdict, whatever the key. */
  lemma TestModeFirst(key: Option<string>, performConnectionTest: bool, probe: CallOutcome, elapsedMs: int)
    ensures var r := CheckHealth(key, true, performConnectionTest, probe, elapsedMs);
      r.healthy && r.connectionSuccessful.None? && r.errorMessage.None?
  {
  }

  /** Outside test mode a missing key, then a malformed one, is reported
      unhealthy and unsuccessful. */
  lemma BadKeyUnhealthy(key: Option<string>, performConnectionTest: bool, probe: CallOutcome, elapsedMs: int)
    requires !IsApiKeyFormatValid(key)
    ensures var r := CheckHealth(key, false, performConnectionTest, probe, elapsedMs);
      && !r.healthy && r.connectionSuccessful == Some(false)
      && r.statusMessage == Some(if HasApiKey(key) then "API key format invalid" else "API key not configured")
  {
  }

  /** A valid key with the live test skipped is healthy without a verdict. */
  lemma SkippedTestHealthy(key: Option<string>, probe: CallOutcome, elapsedMs: int)
    requires IsApiKeyFormatValid(key)
    ensures var r := CheckHealth(key, false, false, probe, elapsedMs);
      r.healthy && r.connectionSuccessful.None? && r.tokensUsed.None?
  {
  }

  /** Every failure of a live test reports unhealthy and unsuccessful, and
      the status code picks the client-error message. */
  lemma ProbeFailureReports(key: Option<string>, e: Exn, elapsedMs: int)
    requires IsApiKeyFormatValid(key)
    ensures var r := CheckHealth(key, false, true, Threw(e), elapsedMs);
      && !r.healthy && r.connectionSuccessful == Some(false) && r.errorMessage.Some?
      && (e.kind == HttpClientError(401) ==> r.errorMessage == Some("Authentication failed. API key is invalid or expired."))
      && (e.kind == HttpClientError(429) ==> r.errorMessage == Some("Rate limit exceeded. Please try again later."))
      && (e.kind.HttpClientError? && e.kind.status != 401 && e.kind.status != 429 ==>
            StartsWith(r.errorMessage.value, "Client error: "))
  {
    ThrownProbe(key, e, elapsedMs);
    if e.kind.HttpClientError? && e.kind.status != 401 && e.kind.status != 429 {
      StartsWithConcat("Client error: ", OrNull(e.message));
    }
  }

  /** With a well-formed key, a live test that throws is reported by the
      catch clauses alone. */
  lemma ThrownProbe(key: Option<string>, e: Exn, elapsedMs: int)
    requires IsApiKeyFormatValid(key)
    ensures CheckHealth(key, false, true, Threw(e), elapsedMs) == ProbeFailure(Base(key, false), e)
  {
  }

  /** A live test that replies is healthy: the usage total is narrowed to
      32 bits as `intValue()` does, and a null content is shown as "null". */
  lemma LiveReplyReport(key: Option<string>, content: Option<string>, tokens: int, elapsedMs: int)
    requires IsApiKeyFormatValid(key)
    ensures var r := CheckHealth(key, false, true, Replied(content, Some(tokens)), elapsedMs);
      && r.healthy && r.connectionSuccessful == Some(true) && r.responseTimeMs == Some(elapsedMs)
      && r.tokensUsed == Some(Json.Int32(tokens))
      && (-0x8000_0000 <= tokens < 0x8000_0000 ==> r.tokensUsed == Some(tokens))
      && (content.Some? ==> r.statusMessage == Some(HealthyPrefix + content.value))
      && (content.None? ==> r.statusMessage == Some(HealthyPrefix + "null"))
  {
  }

  /** A usage total of 2^31 tokens is reported as -2^31. */
  lemma TokensWrapAt32Bits(key: Option<string>, elapsedMs: int)
    requires IsApiKeyFormatValid(key)
    ensures CheckHealth(key, false, true, Replied(Some("OK"), Some(0x8000_0000)), elapsedMs).tokensUsed
         == Some(-0x8000_0000)
  {
    LiveReplyReport(key, Some("OK"), 0x8000_0000, elapsedMs);
  }

  /** A reply without a usage total makes `getTotalTokens().intValue()`
      throw a NullPointerException, which the last catch clause reports. */
  lemma NullUsageIsUnexpected(key: Option<string>, content: Option<string>, elapsedMs: int)
    requires IsApiKeyFormatValid(key)
    ensures var r := CheckHealth(key, false, true, Replied(content, None), elapsedMs);
      && !r.healthy && r.connectionSuccessful == Some(false) && r.tokensUsed.None?
      && r.errorMessage == Some("Unexpected error: " + OrNull(NullDereference.message))
      && r.statusMessage == Some("Health check failed")
  {
  }

  // ---------------------------------------------------------------------
  // AIServiceHealthIndicator
  // ---------------------------------------------------------------------

  /** The other catch clauses: a 5xx response, a network failure and any
      other exception each get their own status text and an error message
      that starts with their own prefix. */
  lemma ProbeFailureByKind(key: Option<string>, e: Exn, elapsedMs: int)
    requires IsApiKeyFormatValid(key)
    ensures var r := CheckHealth(key, false, true, Threw(e), elapsedMs);
      && (e.kind.HttpServerError? ==>
            StartsWith(r.errorMessage.value, "OpenAI API server error: ")
            && r.statusMessage == Some("OpenAI API is experiencing issues"))
      && (e.kind.ResourceAccess? ==>
            StartsWith(r.errorMessage.value, "Network error: ")
            && r.statusMessage == Some("Cannot connect to OpenAI API"))
      && (!e.kind.HttpClientError? && !e.kind.HttpServerError? && !e.kind.ResourceAccess? ==>
            StartsWith(r.errorMessage.value, "Unexpected error: ")
            && r.statusMessage == Some("Health check failed"))
  {
    ThrownProbe(key, e, elapsedMs);
    var m := OrNull(e.message);
    StartsWithConcat("OpenAI API server error: ", m);
    StartsWithConcat("Network error: ", m);
    StartsWithConcat("Unexpected error: ", m);
  }

  /** The indicator's mask: "****" below 8 characters, otherwise the first
      four, "..." and the last four. */
  function MaskKey(key: string): (r: string)
    ensures |key| < 8 ==> r == "****"
    ensures |key| >= 8 ==> |r| == 11 && r[..4] == key[..4] && r[7..] == key[|key| - 4..]
  {
    if |key| < 8 then "****" else key[..4] + "..." + key[|key| - 4..]
  }

  /** A key of exactly eight characters is fully disclosed by its mask. */
  lemma EightCharKeyDisclosed(key: string)
    requires |key| == 8
    ensures MaskKey(key)[..4] + MaskKey(key)[7..] == key
  {
    assert key[..4] + key[4..] == key;
  }

  /** The mask equals the raw key only for the key "****" itself and for
      eleven-character keys with "..." in the middle. */
  lemma MaskEqualsKeyIff(key: string)
    ensures MaskKey(key) == key <==> key == "****" || (|key| == 11 && key[4..7] == "...")
  {
    var r := MaskKey(key);
    if |key| == 11 && key[4..7] == "..." {
      assert key == key[..4] + key[4..7] + key[7..];
    }
    if |key| >= 8 && r == key {
      assert key[4..7] == r[4..7];
    }
  }

  datatype Indicator =
    | Down(reason: string)
    | Up(status: string, model: string, apiKey: string)

  /** `health()` */
  function IndicatorHealth(key: Option<string>, model: string): (r: Indicator)
    ensures r.Down? <==> key.None? || key.value == ""
    ensures r.Up? ==> r.apiKey == MaskKey(key.value) && |r.apiKey| <= 11 && r.model == model
  {
    if key.None? || key.value == "" then Down("OpenAI API key not configured")
    else Up("configured", model, MaskKey(key.value))
  }
}

=== FILE: json.dfy ===
/**
 * The slice of a Jackson `JsonNode` tree that the services read: field
 * lookup, presence tests and the lenient `asText` / `asInt` / `asBoolean`
 * conversions. Parsing itself is not modelled: callers receive the parser
 * as a function parameter.
 */
module Json {
  import opened Wrappers
  import opened Text

  /** A JSON value, as Jackson's tree model keeps it. An integral number is
      `JInt`; a number with a fraction or exponent is `JDouble`, the binary
      double `m * 2^e` together with the text `asText` gives for it (Java's
      `Double.toString`, which the parser supplies). An object maps each
      field name to its (last) value. */
  datatype Json =
    | JNull
    | JBool(b: bool)
    | JInt(n: int)
    | JDouble(m: int, e: int, text: string)
    | JStr(s: string)
    | JArr(items: seq<Json>)
    | JObj(fields: map<string, Json>)

  /** The outcome of `ObjectMapper.readTree`: a tree, or the message of the
      `JsonProcessingException` it throws (which may be null). */
  type Parser = string -> Result<Json, Option<string>>

  /** `node.get(name)`: `None` stands for Java's null, returned for a
      missing field and for every node that is not an object. */
  function Get(j: Json, name: string): Option<Json> {
    match j
    case JObj(fields) => if name in fields then Some(fields[name]) else None
    case _ => None
  }

  /** `node.has(name)`: true for a present field even when its value is an
      explicit JSON null. */
  predicate Has(j: Json, name: string) {
    Get(j, name).Some?
  }

  predicate IsArray(j: Json) {
    j.JArr?
  }

  /** `asText()`: scalars render as text, containers as "". */
  function AsText(j: Json): string {
    match j
    case JNull => "null"
    case JBool(b) => if b then "true" else "false"
    case JInt(n) => IntToString(n)
    case JDouble(_, _, text) => text
    case JStr(s) => s
    case JArr(_) => ""
    case JObj(_) => ""
  }

  /** Java's `(int)` narrowing of an integral value: keep the low 32 bits,
      read as two's complement. */
  function Int32(n: int): (r: int)
    ensures -0x8000_0000 <= r < 0x8000_0000
    ensures -0x8000_0000 <= n < 0x8000_0000 ==> r == n
    ensures (r - n) % 0x1_0000_0000 == 0
  {
    var m := n % 0x1_0000_0000;
    if m < 0x8000_0000 then m else m - 0x1_0000_0000
  }

  /** 2 to the power `k`. */
  function Pow2(k: nat): (r: nat)
    ensures r >= 1
  {
    if k == 0 then 1 else 2 * Pow2(k - 1)
  }

  /** Java's `(int)` cast of the double `m * 2^e`: the value truncated
      toward zero, then clamped to the 32-bit range. */
  function DoubleToInt(m: int, e: int): (r: int)
    ensures -0x8000_0000 <= r < 0x8000_0000
  {
    var t := if e >= 0 then m * Pow2(e)
             else if m >= 0 then m / Pow2(-e) else -((-m) / Pow2(-e));
    if t < -0x8000_0000 then -0x8000_0000
    else if t >= 0x8000_0000 then 0x7FFF_FFFF
    else t
  }

  predicate AllDigits(s: string) {
    forall k | 0 <= k < |s| :: IsDigit(s[k])
  }

  /** The digits `Integer.parseInt` reads from the trimmed text `t` after
      Jackson's sign handling: a leading '+' is removed, a leading '-' is
      kept as the sign. */
  function UnsignedPart(t: string): string {
    if t != [] && (t[0] == '+' || t[0] == '-') then t[1..] else t
  }

  /** `TextNode.asInt()`, i.e. Jackson's `NumberInput.parseAsInt(text, 0)`:
      the text is trimmed; an optional sign followed by decimal digits is
      read by `Integer.parseInt`, whose failure (no digits, or a value
      outside 32 bits) gives the default 0. Any other text is read as a
      double, which the model does not do; it gives 0 here (see README). */
  function TextAsInt(s: string): (r: int)
    ensures -0x8000_0000 <= r < 0x8000_0000
  {
    var t := Trim(s);
    var digits := UnsignedPart(t);
    if digits == [] || !AllDigits(digits) then 0
    else
      var v := if t[0] == '-' then -DecimalValue(digits) else DecimalValue(digits);
      if -0x8000_0000 <= v < 0x8000_0000 then v else 0
  }

  /** `asInt()`: integral numbers narrow to 32 bits, doubles are cast,
      booleans are 1/0, text is parsed, and every other node gives 0. */
  function AsInt(j: Json): int {
    match j
    case JInt(n) => Int32(n)
    case JDouble(m, e, _) => DoubleToInt(m, e)
    case JBool(b) => if b then 1 else 0
    case JStr(s) => TextAsInt(s)
    case _ => 0
  }

  /** Padding around trimmed text does not change what `asInt` reads. */
  lemma TextAsIntPadded(pre: string, t: string, post: string)
    requires IsTrimmed(t)
    requires forall k | 0 <= k < |pre| :: IsTrimChar(pre[k])
    requires forall k | 0 <= k < |post| :: IsTrimChar(post[k])
    ensures TextAsInt(pre + t + post) == TextAsInt(t)
  {
    TrimPadded(pre, t, post);
    TrimOfTrimmed(t);
  }

  /** Decimal digits in trimmed text: what `asInt` reads from them. */
  lemma TextAsIntOfDigits(sign: string, n: nat)
    requires sign == "" || sign == "+" || sign == "-"
    ensures var t := sign + NatToString(n);
      && Trim(t) == t && UnsignedPart(t) == NatToString(n) && AllDigits(NatToString(n))
      && DecimalValue(NatToString(n)) == n
  {
    var d := NatToString(n);
    var t := sign + d;
    assert t[|t| - 1] == d[|d| - 1];
    assert IsDigit(t[|t| - 1]) && IsTrimChar(t[0]) == IsTrimChar(t[0]);
    assert !IsTrimChar(t[0]) by {
      if sign == "" { assert t[0] == d[0]; }
    }
    TrimOfTrimmed(t);
    assert t[1..] == d || sign == "";
    DecimalRoundTrip(n);
  }

  /** Unsigned or '+'-signed digits read back as their value. */
  lemma TextAsIntUnsigned(sign: string, n: nat)
    requires sign == "" || sign == "+"
    requires n < 0x8000_0000
    ensures TextAsInt(sign + NatToString(n)) == n
  {
    TextAsIntOfDigits(sign, n);
  }

  /** '-'-signed digits read back as the negated value. */
  lemma TextAsIntNegative(n: nat)
    requires n <= 0x8000_0000
    ensures TextAsInt("-" + NatToString(n)) == -(n as int)
  {
    TextAsIntOfDigits("-", n);
  }

  /** The decimal text of every 32-bit integer, with or without padding and
      a '+' sign, reads back as that integer: a model that writes the line
      number as a string is understood. */
  lemma TextAsIntReadsIntegers(n: int, pre: string, post: string)
    requires -0x8000_0000 <= n < 0x8000_0000
    requires forall k | 0 <= k < |pre| :: IsTrimChar(pre[k])
    requires forall k | 0 <= k < |post| :: IsTrimChar(post[k])
    ensures AsInt(JStr(pre + IntToString(n) + post)) == n
    ensures n >= 0 ==> AsInt(JStr(pre + "+" + IntToString(n) + post)) == n
  {
    if n < 0 {
      NegativeTextAsInt(n, pre, post);
    } else {
      NonNegativeTextAsInt(n, pre, post);
    }
  }

  lemma NegativeTextAsInt(n: int, pre: string, post: string)
    requires -0x8000_0000 <= n < 0
    requires forall k | 0 <= k < |pre| :: IsTrimChar(pre[k])
    requires forall k | 0 <= k < |post| :: IsTrimChar(post[k])
    ensures TextAsInt(pre + IntToString(n) + post) == n
  {
    var m: nat := -n;
    var digits := NatToString(m);
    var text := "-" + digits;
    assert IntToString(n) == text;
    assert IsTrimmed(text) by {
      assert text[0] == '-' && text[|text| - 1] == digits[|digits| - 1];
    }
    TextAsIntNegative(m);
    TextAsIntPadded(pre, text, post);
  }

  lemma NonNegativeTextAsInt(n: int, pre: string, post: string)
    requires 0 <= n < 0x8000_0000
    requires forall k | 0 <= k < |pre| :: IsTrimChar(pre[k])
    requires forall k | 0 <= k < |post| :: IsTrimChar(post[k])
    ensures TextAsInt(pre + IntToString(n) + post) == n
    ensures TextAsInt(pre + "+" + IntToString(n) + post) == n
  {
    var text := IntToString(n);
    assert text == "" + NatToString(n);
    TextAsIntUnsigned("", n);
    TextAsIntPadded(pre, text, post);
    TextAsIntUnsigned("+", n);
    TextAsIntPadded(pre, "+" + text, post);
    Assoc(pre, "+", text);
  }

  /** Text without any digit, or with a digit-free sign only, reads as 0. */
  lemma TextWithoutDigitsIsZero(s: string)
    requires forall k | 0 <= k < |s| :: !IsDigit(s[k])
    ensures AsInt(JStr(s)) == 0
  {
    var t := Trim(s);
    TrimSpec(s);
    var a: nat, b: nat :| a <= b <= |s| && t == s[a..b];
    var digits := UnsignedPart(t);
    if digits != [] {
      var k := |t| - |digits|;
      assert digits[0] == t[k] == s[a + k];
    }
  }

  /** A double is cast by truncation toward zero: 42.75 gives 42 and
      -42.75 gives -42. */
  lemma DoubleTruncates()
    ensures AsInt(JDouble(171, -2, "42.75")) == 42
    ensures AsInt(JDouble(-171, -2, "-42.75")) == -42
  {
    assert Pow2(2) == 4;
  }

  /** `asBoolean()`: booleans as themselves, integral numbers by non-zero,
      text by being "true" after trimming; everything else, doubles
      included, is false. */
  function AsBoolean(j: Json): bool {
    match j
    case JBool(b) => b
    case JInt(n) => n != 0
    case JStr(s) => Trim(s) == "true"
    case _ => false
  }

  /** `node.has(name) ? node.get(name).asText() : dflt` */
  function TextOr(j: Json, name: string, dflt: string): string {
    if Has(j, name) then AsText(Get(j, name).value) else dflt
  }

  /** `node.has(name) && node.get(name).asBoolean()` */
  predicate FlagSet(j: Json, name: string) {
    Has(j, name) && AsBoolean(Get(j, name).value)
  }
}

=== FILE: prompts.dfy ===
/**
 * `LanguageSpecificPromptService`: a fixed table of per-language review
 * guidelines with a default, and the review prompt template that embeds
 * the language, the guideline and the diff.
 */
module Prompts {
  import opened Wrappers
  import opened Text
  import Tally

  /** The table's keys; the lookup is an exact, case-sensitive match. */
  const Languages: seq<string> := ["Java", "Python", "JavaScript", "TypeScript", "Go", "Rust", "C++"]

  const DefaultGuideline: string := "General code review guidelines apply."

  /** The guideline text of a table language. Each entry is a text block
      opening with "<language>-specific review guidelines:"; only that
      heading line is kept here, the bullet prose is not modelled. */
  function GuidelineOf(language: string): string {
    language + "-specific review guidelines:\n"
  }

  predicate IsLanguageSupported(language: string) {
    language in Languages
  }

  /** `getOrDefault(language, DefaultGuideline)` */
  function Guideline(language: string): (g: string)
    ensures IsLanguageSupported(language) ==> g == GuidelineOf(language)
    ensures !IsLanguageSupported(language) ==> g == DefaultGuideline
  {
    if IsLanguageSupported(language) then GuidelineOf(language) else DefaultGuideline
  }

  /** No table entry coincides with the default text, so the default is
      used exactly for the languages outside the table. */
  lemma DefaultIffUnsupported(language: string)
    ensures Guideline(language) == DefaultGuideline <==> !IsLanguageSupported(language)
  {
    if IsLanguageSupported(language) {
      var g := GuidelineOf(language);
      assert g[|g| - 1] == '\n';
      assert DefaultGuideline[|DefaultGuideline| - 1] == '.';
    }
  }

  /** `getSupportedLanguages()`, as a set (the source returns the key set
      of a hash map, in no particular order). */
  function SupportedLanguages(): (r: set<string>)
    ensures forall l :: l in r <==> IsLanguageSupported(l)
  {
    set l | l in Languages
  }

  lemma SevenLanguages()
    ensures |SupportedLanguages()| == 7
  {
    var r := SupportedLanguages();
    assert Tally.Distinct(Languages) by {
      forall i, j | 0 <= i < j < |Languages|
        ensures Languages[i] != Languages[j]
      {
        var a, b := Languages[i], Languages[j];
        assert |a| != |b| || a[0] != b[0];
      }
    }
    DistinctCard(Languages);
  }

  /** A list without repeats has as many members as entries. */
  lemma {:induction false} DistinctCard(xs: seq<string>)
    requires Tally.Distinct(xs)
    ensures |set l | l in xs| == |xs|
    decreases |xs|
  {
    if xs != [] {
      var rest := xs[1..];
      assert Tally.Distinct(rest) by {
        forall i, j | 0 <= i < j < |rest|
          ensures rest[i] != rest[j]
        {
          assert rest[i] == xs[i + 1] && rest[j] == xs[j + 1];
        }
      }
      DistinctCard(rest);
      assert (set l | l in xs) == {xs[0]} + (set l | l in rest);
      assert xs[0] !in rest;
    }
  }

  // ---------------------------------------------------------------------
  // The template
  // ---------------------------------------------------------------------

  const FocusList: string :=
    "Focus on:\n1. Bugs and potential errors\n2. Performance issues\n3. Security vulnerabilities\n"
    + "4. Code style and best practices\n5. Maintainability concerns\n\n"

  /** Everything after the diff: the closing fence and the JSON output
      contract the response parser expects. */
  const OutputContract: string := JsonFormat + SeverityLine + Closing

  const SeverityLine: string := "Severity levels: info, warning, error\n"

  const JsonFormat: string :=
    "\n```\n\nProvide your review in the following JSON format:\n{\n"
    + "  \"summary\": \"Overall summary of the code review (2-3 sentences)\",\n"
    + "  \"comments\": [\n    {\n"
    + "      \"filePath\": \"path/to/file\",\n"
    + "      \"lineNumber\": 10,\n"
    + "      \"severity\": \"warning\",\n"
    + "      \"category\": \"performance\",\n"
    + "      \"message\": \"Brief description of the issue\",\n"
    + "      \"suggestion\": \"How to fix or improve\",\n"
    + "      \"codeExample\": \"Example of improved code (optional)\"\n"
    + "    }\n  ]\n}\n\n"

  const Closing: string :=
    "Categories: bug, performance, security, style, best-practice, maintainability\n\n"
    + "Only include meaningful comments. Skip trivial formatting issues.\n"
    + "Prioritize security and correctness over style.\n"
    + "Be specific and actionable in your suggestions.\n"

  const Intro: string := "You are an expert code reviewer specializing in "

  const Lead: string :=
    ". Analyze the following code diff and provide detailed feedback.\n\n" + FocusList

  const DiffOpening: string := "\n\nCode Diff:\n```\n"

  /** Everything before the diff. */
  function Head(language: string): string {
    Intro + language + Lead + Guideline(language) + DiffOpening
  }

  /** `buildCodeReviewPrompt(diff, language)` */
  function BuildPrompt(diff: string, language: string): (p: string)
    ensures StartsWith(p, Head(language))
    ensures EndsWith(p, OutputContract)
  {
    Framed(Head(language), diff, OutputContract);
    Head(language) + diff + OutputContract
  }

  /** Reads the diff back out of a prompt built for `language`: the text
      between the known head and the known contract. */
  function FencedDiff(prompt: string, language: string): Option<string> {
    var h := |Head(language)|;
    var t := |OutputContract|;
    if h + t <= |prompt| && prompt[..h] == Head(language) && prompt[|prompt| - t..] == OutputContract
    then Some(prompt[h..|prompt| - t])
    else None
  }

  /** The diff is embedded verbatim: it is recovered exactly from the prompt. */
  lemma DiffRecoverable(diff: string, language: string)
    ensures FencedDiff(BuildPrompt(diff, language), language) == Some(diff)
  {
    var h := Head(language);
    var p := BuildPrompt(diff, language);
    Framed(h, diff, OutputContract);
    StartsWithSlice(p, h);
  }

  /** Regrouping a seven-part concatenation around each part. */
  lemma Regroup(a: string, b: string, c: string, d: string, e: string, f: string, g: string)
    ensures a + b + c + d + e + f + g == a + b + (c + d + e + f + g)
    ensures a + b + c + d + e + f + g == (a + b + c) + d + (e + f + g)
  {
  }

  lemma RegroupTail(a: string, b: string, c: string, d: string, e: string)
    ensures a + b + (c + d + e) == (a + b + c) + d + e
  {
  }

  /** The prompt names the language it was built for. */
  lemma PromptNamesLanguage(diff: string, language: string)
    ensures Contains(BuildPrompt(diff, language), language)
  {
    var g := Guideline(language);
    Regroup(Intro, language, Lead, g, DiffOpening, diff, OutputContract);
    ContainsSelf(Intro, language, Lead + g + DiffOpening + diff + OutputContract);
  }

  /** The prompt carries the guideline chosen for its language. */
  lemma PromptCarriesGuideline(diff: string, language: string)
    ensures Contains(BuildPrompt(diff, language), Guideline(language))
  {
    var g := Guideline(language);
    Regroup(Intro, language, Lead, g, DiffOpening, diff, OutputContract);
    ContainsSelf(Intro + language + Lead, g, DiffOpening + diff + OutputContract);
  }

  /** Every prompt asks for the three severities the pipeline counts. */
  lemma PromptListsSeverities(diff: string, language: string)
    ensures Contains(BuildPrompt(diff, language), SeverityLine)
  {
    var h := Head(language);
    RegroupTail(h, diff, JsonFormat, SeverityLine, Closing);
    ContainsSelf(h + diff + JsonFormat, SeverityLine, Closing);
  }
}

=== FILE: publishing.dfy ===
/**
 * Posting a review to GitLab or Bitbucket: the two webhook services share
 * the same `postReviewComments` (a summary note, then one post per
 * comment) and their clients share the same fallback from an inline
 * comment to a general one. The platform is seen only through the reply
 * to each HTTP exchange, numbered from 0 in the order they are made.
 */
module Publishing {
  import opened Wrappers
  import opened Text
  import opened Exceptions
  import opened ResponseParser
  import GitHub
  import Seqs
  import opened Sessions

  // ---------------------------------------------------------------------
  // The summary note
  // ---------------------------------------------------------------------

  const RedCircle: string := "\U{1F534}"
  const YellowCircle: string := "\U{1F7E1}"
  const BlueCircle: string := "\U{1F535}"

  /** The number of comments whose severity is exactly `severity`. */
  function CountSeverity(comments: seq<ReviewComment>, severity: string): (n: nat)
    ensures n <= |comments|
    decreases |comments|
  {
    if comments == [] then 0
    else (if comments[0].severity == severity then 1 else 0) + CountSeverity(comments[1..], severity)
  }

  /** The three counts are exact-text matches, so together they never
      exceed the number of comments, and they reach it exactly when every
      severity is spelled "error", "warning" or "info". */
  lemma {:induction false} CountsWithinTotal(comments: seq<ReviewComment>)
    ensures CountSeverity(comments, "error") + CountSeverity(comments, "warning") + CountSeverity(comments, "info")
            <= |comments|
    ensures CountSeverity(comments, "error") + CountSeverity(comments, "warning") + CountSeverity(comments, "info")
            == |comments|
        <==> forall i | 0 <= i < |comments| :: comments[i].severity in {"error", "warning", "info"}
    decreases |comments|
  {
    if comments != [] {
      CountsWithinTotal(comments[1..]);
      assert forall i | 1 <= i < |comments| :: comments[i] == comments[1..][i - 1];
    }
  }

  /** Labelled numbers, one per line. */
  function Lines(rows: seq<(string, int)>): string
    decreases |rows|
  {
    if rows == [] then ""
    else rows[0].0 + IntToString(rows[0].1) + "\n" + Lines(rows[1..])
  }

  /** The counts under the summary: comments, tokens, then the three
      severities. */
  function SummaryRows(r: CodeReviewResult): (rows: seq<(string, int)>)
    ensures |rows| == 5
    ensures rows[0].1 == |r.comments| && rows[1].1 == r.tokensUsed
    ensures rows[2].1 == CountSeverity(r.comments, "error")
    ensures rows[3].1 == CountSeverity(r.comments, "warning")
    ensures rows[4].1 == CountSeverity(r.comments, "info")
  {
    [("**Total Comments:** ", |r.comments|),
     ("**Tokens Used:** ", r.tokensUsed),
     ("\n- " + RedCircle + " Errors: ", CountSeverity(r.comments, "error")),
     ("- " + YellowCircle + " Warnings: ", CountSeverity(r.comments, "warning")),
     ("- " + BlueCircle + " Info: ", CountSeverity(r.comments, "info"))]
  }

  /** The summary note: the heading, the summary, then the counts. */
  function SummaryText(r: CodeReviewResult): (t: string)
    ensures StartsWith(t, GitHub.SummaryHeading + r.summary + "\n\n")
  {
    var lead := GitHub.SummaryHeading + r.summary + "\n\n";
    StartsWithConcat(lead, Lines(SummaryRows(r)));
    lead + Lines(SummaryRows(r))
  }

  // ---------------------------------------------------------------------
  // The comment body
  // ---------------------------------------------------------------------

  /** The emoji switch on the lower-cased severity. */
  function Badge(severity: string): string {
    var s := ToLower(severity);
    if s == "error" then RedCircle else if s == "warning" then YellowCircle else BlueCircle
  }

  /** The badge ignores case but the summary counts do not: an "ERROR"
      comment is shown red yet is not counted among the errors. */
  lemma BadgeAndCountDisagreeOnCase(c: ReviewComment)
    requires c.severity == "ERROR"
    ensures Badge(c.severity) == RedCircle
    ensures CountSeverity([c], "error") == 0
  {
    assert ToLower("ERROR") == "error";
  }

  function SuggestionPart(s: Option<string>): string {
    if GitHub.Present(s) then "**Suggestion:**\n" + s.value + "\n\n" else ""
  }

  function ExamplePart(e: Option<string>): string {
    if GitHub.Present(e) then "**Example:**\n```\n" + e.value + "\n```\n" else ""
  }

  function CommentHead(c: ReviewComment): string {
    Badge(c.severity) + " **" + ToUpper(c.severity) + " - " + c.category + "**\n\n"
  }

  /** The body posted for one comment. */
  function CommentText(c: ReviewComment): (t: string)
    ensures StartsWith(t, CommentHead(c) + c.message + "\n\n")
  {
    var lead := CommentHead(c) + c.message + "\n\n";
    var sug := SuggestionPart(c.suggestion);
    var ex := ExamplePart(c.codeExample);
    StartsWithConcat(lead, sug + ex);
    assert lead + (sug + ex) == lead + sug + ex;
    lead + sug + ex
  }

  /** A section is written exactly when its field is non-null and
      non-empty, and then the body carries the field verbatim; the message
      is always carried. */
  lemma CommentTextSections(c: ReviewComment)
    ensures SuggestionPart(c.suggestion) != "" <==> GitHub.Present(c.suggestion)
    ensures ExamplePart(c.codeExample) != "" <==> GitHub.Present(c.codeExample)
    ensures GitHub.Present(c.suggestion) ==> Contains(CommentText(c), c.suggestion.value)
    ensures GitHub.Present(c.codeExample) ==> Contains(CommentText(c), c.codeExample.value)
    ensures Contains(CommentText(c), c.message)
  {
    MessageInText(c);
    if GitHub.Present(c.suggestion) {
      SuggestionInText(c);
    }
    if GitHub.Present(c.codeExample) {
      ExampleInText(c);
    }
  }

  lemma MessageInText(c: ReviewComment)
    ensures Contains(CommentText(c), c.message)
  {
    var lead := CommentHead(c) + c.message + "\n\n";
    var sug := SuggestionPart(c.suggestion);
    var ex := ExamplePart(c.codeExample);
    ContainsSelf(CommentHead(c), c.message, "\n\n");
    ContainsHead(lead, sug);
    ContainsHead(lead + sug, ex);
    ContainsWithin(lead + sug, lead, c.message);
    ContainsWithin(lead + sug + ex, lead + sug, c.message);
  }

  lemma SuggestionInText(c: ReviewComment)
    requires GitHub.Present(c.suggestion)
    ensures Contains(CommentText(c), c.suggestion.value)
  {
    var lead := CommentHead(c) + c.message + "\n\n";
    var sug := SuggestionPart(c.suggestion);
    var ex := ExamplePart(c.codeExample);
    ContainsSelf("**Suggestion:**\n", c.suggestion.value, "\n\n");
    ContainsInfix(lead, sug, ex, c.suggestion.value);
  }

  lemma ExampleInText(c: ReviewComment)
    requires GitHub.Present(c.codeExample)
    ensures Contains(CommentText(c), c.codeExample.value)
  {
    var lead := CommentHead(c) + c.message + "\n\n";
    var sug := SuggestionPart(c.suggestion);
    var ex := ExamplePart(c.codeExample);
    ContainsSelf("**Example:**\n```\n", c.codeExample.value, "\n```\n");
    ContainsTail(lead + sug, ex);
    ContainsWithin(lead + sug + ex, ex, c.codeExample.value);
  }

  /** The general note for a comment without a line: the file, then the
      body. */
  function FileNoteBody(path: string, body: string): (t: string)
    ensures StartsWith(t, "**File: " + path + "**\n\n") && EndsWith(t, body)
  {
    StartsWithConcat("**File: " + path + "**\n\n", body);
    EndsWithConcat("**File: " + path + "**\n\n", body);
    "**File: " + path + "**\n\n" + body
  }

  /** The general note a line comment falls back to: "path:line", then the
      body. */
  function FallbackBody(path: string, line: int, body: string): (t: string)
    ensures StartsWith(t, "**" + path + ":" + IntToString(line) + "**\n\n") && EndsWith(t, body)
  {
    StartsWithConcat("**" + path + ":" + IntToString(line) + "**\n\n", body);
    EndsWithConcat("**" + path + ":" + IntToString(line) + "**\n\n", body);
    "**" + path + ":" + IntToString(line) + "**\n\n" + body
  }

  // ---------------------------------------------------------------------
  // postReviewComments
  // ---------------------------------------------------------------------

  /** A comment with a line number goes to the line-comment call, falling
      back to a note naming its file and line; any other comment is posted
      as a note naming its file. */
  function ItemOf(anchor: Option<string>, c: ReviewComment): (it: Item)
    ensures it.Placed? <==> c.lineNumber.Some?
    ensures it.Placed? ==>
      && Primary(it) == LineNote(CommentText(c), anchor, c.filePath, c.lineNumber.value)
      && it.fallbackBody == FallbackBody(c.filePath, c.lineNumber.value, CommentText(c))
    ensures it.Loose? ==> it.noteBody == FileNoteBody(c.filePath, CommentText(c))
  {
    var body := CommentText(c);
    if c.lineNumber.Some? then
      Placed(body, anchor, c.filePath, c.lineNumber.value, FallbackBody(c.filePath, c.lineNumber.value, body))
    else Loose(FileNoteBody(c.filePath, body))
  }

  function Items(anchor: Option<string>, comments: seq<ReviewComment>): (r: seq<Item>)
    ensures |r| == |comments|
    ensures forall i | 0 <= i < |comments| :: r[i] == ItemOf(anchor, comments[i])
  {
    if comments == [] then [] else [ItemOf(anchor, comments[0])] + Items(anchor, comments[1..])
  }

  function SummaryNote(r: CodeReviewResult): Request {
    Note(SummaryText(r))
  }

  /** The state after the summary note, made at exchange 0: its failure
      escapes at once. */
  function Opening(api: Api, r: CodeReviewResult): (t: Trace)
    ensures StopsAtFailedNote(api, t)
  {
    Trace([SummaryNote(r)], !Ok2xx(api(0)))
  }

  /** The whole session: the summary, then the comments in order. */
  function Publish(api: Api, anchor: Option<string>, r: CodeReviewResult): Trace {
    Run(api, Opening(api, r), Items(anchor, r.comments))
  }

  /** `postReviewComments`: the summary, then the comment loop. */
  method PostReviewComments(api: Api, anchor: Option<string>, r: CodeReviewResult) returns (t: Trace)
    ensures t == Publish(api, anchor, r)
  {
    t := PostItems(api, Opening(api, r), Items(anchor, r.comments));
  }

  /** The summary always goes first, and a session stops early only right
      after a general note whose exchange failed: the summary, or the note
      of a comment without a line. */
  lemma PublishStopsAtFailedNote(api: Api, anchor: Option<string>, r: CodeReviewResult)
    ensures Publish(api, anchor, r).sent != []
    ensures Publish(api, anchor, r).sent[0] == SummaryNote(r)
    ensures StopsAtFailedNote(api, Publish(api, anchor, r))
  {
    var t0 := Opening(api, r);
    var t := Run(api, t0, Items(anchor, r.comments));
    assert t == Publish(api, anchor, r);
    RunExtends(api, t0, Items(anchor, r.comments));
    assert t.sent[0] == t.sent[..1][0] == t0.sent[0];
  }

  /** A failed summary ends the session before any comment is posted. */
  lemma SummaryFailureStops(api: Api, anchor: Option<string>, r: CodeReviewResult)
    requires !Ok2xx(api(0))
    ensures Publish(api, anchor, r) == Trace([SummaryNote(r)], true)
  {
    var items := Items(anchor, r.comments);
    StoppedStays(api, Opening(api, r), [], items);
    assert [] + items == items;
  }

  /** Once the summary is posted, a review whose comments all carry line
      numbers is published in full: nothing escapes, and every comment
      gets its line comment, in order, with its formatted body. */
  lemma InlineReviewPublished(api: Api, anchor: Option<string>, r: CodeReviewResult)
    requires Ok2xx(api(0))
    requires forall i | 0 <= i < |r.comments| :: r.comments[i].lineNumber.Some?
    ensures !Publish(api, anchor, r).stopped
    ensures var lines := Seqs.Filter(Publish(api, anchor, r).sent, IsLineNote);
      && |lines| == |r.comments|
      && forall i | 0 <= i < |r.comments| ::
           lines[i] == LineNote(CommentText(r.comments[i]), anchor, r.comments[i].filePath, r.comments[i].lineNumber.value)
  {
    var items := Items(anchor, r.comments);
    var t0 := Opening(api, r);
    var t := Run(api, t0, items);
    assert t == Publish(api, anchor, r);
    PlacedNeverStop(api, t0, items);
    RunLineNotes(api, t0, items);
    LineNotesOfPlaced(items);
    OpeningHasNoLineNotes(api, r);
    assert Seqs.Filter(t.sent, IsLineNote) == LineNotes(items);
    forall i | 0 <= i < |r.comments|
      ensures LineNotes(items)[i]
        == LineNote(CommentText(r.comments[i]), anchor, r.comments[i].filePath, r.comments[i].lineNumber.value)
    {
      assert items[i] == ItemOf(anchor, r.comments[i]);
    }
  }

  lemma OpeningHasNoLineNotes(api: Api, r: CodeReviewResult)
    ensures Seqs.Filter(Opening(api, r).sent, IsLineNote) == []
  {
    var t0 := Opening(api, r);
    FallbacksAreNotLineNotes([]);
    Seqs.FilterAppend([], t0.sent, IsLineNote);
    assert [] + t0.sent == t0.sent;
  }

  /** When every exchange succeeds, the session is the summary followed by
      exactly one post per comment, in order: the line comment for a
      comment with a line, the file note otherwise. */
  lemma AllAcceptedPublish(api: Api, anchor: Option<string>, r: CodeReviewResult)
    requires forall k: nat :: Ok2xx(api(k))
    ensures !Publish(api, anchor, r).stopped
    ensures |Publish(api, anchor, r).sent| == 1 + |r.comments|
    ensures forall i | 0 <= i < |r.comments| ::
      Publish(api, anchor, r).sent[1 + i]
      == if r.comments[i].lineNumber.Some?
         then LineNote(CommentText(r.comments[i]), anchor, r.comments[i].filePath, r.comments[i].lineNumber.value)
         else Note(FileNoteBody(r.comments[i].filePath, CommentText(r.comments[i])))
  {
    var t0 := Opening(api, r);
    var items := Items(anchor, r.comments);
    var t := Run(api, t0, items);
    assert t == Publish(api, anchor, r);
    assert Ok2xx(api(0));
    AllAcceptedRun(api, t0, items);
    forall i | 0 <= i < |r.comments|
      ensures t.sent[1 + i]
        == if r.comments[i].lineNumber.Some?
           then LineNote(CommentText(r.comments[i]), anchor, r.comments[i].filePath, r.comments[i].lineNumber.value)
           else Note(FileNoteBody(r.comments[i].filePath, CommentText(r.comments[i])))
    {
      assert t.sent[|t0.sent| + i] == FirstRequest(items[i]);
      assert items[i] == ItemOf(anchor, r.comments[i]);
    }
  }

  // ---------------------------------------------------------------------
  // What a webhook service made of one event
  // ---------------------------------------------------------------------

  /** `codeReviewService.analyzeCode(diff, language)`. In the application
      this is `(d, l) => Analysis.AnalyzeCode(d, l, ai)` for the service's
      AI environment `ai`; the webhook services take it as a parameter so
      that their proofs do not unfold the analysis. */
  type Analyzer = (string, string) -> CodeReviewResult

  /** The outcome of `handleMergeRequestEvent` / `handlePullRequestEvent`:
      returned early before fetching a diff, returned because the diff was
      blank, reviewed and posted (however the posting went, since its
      failures are swallowed), or a `WebhookProcessingException`. */
  datatype Handling =
    | Ignored
    | NoDiff
    | Reviewed(language: string, review: CodeReviewResult, posted: Trace)
    | Failed(error: Exn)
}

=== FILE: pull_requests.dfy ===
/**
 * `PullRequestService.handlePullRequestEvent`: get-or-create of the
 * repository (keyed by its GitHub id) and of the pull request (keyed by
 * repository id and number), then an update of the pull request's
 * title, description and state from the payload. The method is
 * transactional: when it throws, neither table changes.
 */
module PullRequests {
  import opened Wrappers
  import opened Exceptions
  import opened Domain

  // ---------------------------------------------------------------------
  // The GitHub pull_request payload (None is null)
  // ---------------------------------------------------------------------

  datatype Owner = Owner(login: Option<string>)
  datatype RepositoryDto = RepositoryDto(id: int, name: Option<string>, owner: Option<Owner>)
  datatype User = User(login: Option<string>)
  datatype Head = Head(sha: Option<string>)
  datatype PullRequestDto = PullRequestDto(
    number: int,
    title: Option<string>,
    body: Option<string>,
    state: Option<string>,
    user: Option<User>,
    head: Option<Head>)
  datatype Installation = Installation(id: int)
  datatype Payload = Payload(
    action: Option<string>,
    pullRequest: Option<PullRequestDto>,
    repository: Option<RepositoryDto>,
    installation: Option<Installation>)

  // ---------------------------------------------------------------------
  // The two tables
  // ---------------------------------------------------------------------

  /** The repository and pull request tables; row `i` has id `i`. */
  datatype Store = Store(repositories: seq<Repository>, pullRequests: seq<PullRequest>)

  /** Ids are positions, the GitHub id is unique among repositories, and
      (repository id, number) is unique among pull requests. */
  predicate ValidStore(s: Store) {
    && (forall i | 0 <= i < |s.repositories| :: s.repositories[i].id == i)
    && (forall i | 0 <= i < |s.pullRequests| :: s.pullRequests[i].id == i)
    && (forall i, j | 0 <= i < j < |s.repositories| ::
          s.repositories[i].githubId != s.repositories[j].githubId)
    && (forall i, j | 0 <= i < j < |s.pullRequests| ::
          PrKey(s.pullRequests[i]) != PrKey(s.pullRequests[j]))
  }

  function PrKey(pr: PullRequest): (nat, int) {
    (pr.repositoryId, pr.prNumber)
  }

  /** The saving of a row with a null in a non-null column, or with a
      value wider than its column, fails (a
      `DataIntegrityViolationException`; its message is not modelled). */
  const ConstraintViolation: Exn := Exn(Runtime, None, None)

  /** The payload's state fits the pull request's status column. */
  predicate StateFits(dto: PullRequestDto) {
    dto.state.Some? ==> |dto.state.value| <= PrStatusWidth
  }

  /** The first row satisfying `p`: the `Optional` a derived query returns. */
  function FirstWhere<T>(rows: seq<T>, p: T -> bool): (k: Option<nat>)
    ensures k.Some? ==> k.value < |rows| && p(rows[k.value])
    ensures k.Some? ==> forall i | 0 <= i < k.value :: !p(rows[i])
    ensures k.None? ==> forall i | 0 <= i < |rows| :: !p(rows[i])
    decreases |rows|
  {
    if rows == [] then None
    else if p(rows[0]) then Some(0)
    else
      match FirstWhere(rows[1..], p)
      case None => None
      case Some(k) => Some(k + 1)
  }

  /** `findByGithubId` */
  function FindRepository(rows: seq<Repository>, githubId: int): Option<nat> {
    FirstWhere(rows, (r: Repository) => r.githubId == githubId)
  }

  /** `findByRepositoryIdAndPrNumber` */
  function FindPullRequest(rows: seq<PullRequest>, repositoryId: nat, prNumber: int): Option<nat> {
    FirstWhere(rows, (pr: PullRequest) => PrKey(pr) == (repositoryId, prNumber))
  }

  /** A row appended after rows none of which satisfy `p` is the first to
      satisfy it. */
  lemma FirstWhereAppended<T>(rows: seq<T>, x: T, p: T -> bool)
    requires FirstWhere(rows, p).None? && p(x)
    ensures FirstWhere(rows + [x], p) == Some(|rows|)
  {
    assert (rows + [x])[|rows|] == x;
    assert forall i | 0 <= i < |rows| :: (rows + [x])[i] == rows[i];
  }

  /** Replacing row `j`, the first to satisfy `p`, by another row that
      satisfies `p` keeps it first. */
  lemma FirstWhereReplaced<T>(rows: seq<T>, j: nat, x: T, p: T -> bool)
    requires FirstWhere(rows, p) == Some(j) && p(x)
    ensures FirstWhere(rows[j := x], p) == Some(j)
  {
    assert rows[j := x][j] == x;
    assert forall i | 0 <= i < j :: rows[j := x][i] == rows[i];
  }

  // ---------------------------------------------------------------------
  // getOrCreateRepository
  // ---------------------------------------------------------------------

  /** `getOrCreateRepository`: the stored row with the payload's GitHub id,
      or a new row built from the payload, whose owner must be present. */
  function GetOrCreateRepository(s: Store, dto: RepositoryDto, installation: Option<Installation>)
    : (r: Result<(Store, Repository), Exn>)
    ensures r.Ok? ==> r.value.0.pullRequests == s.pullRequests
    ensures r.Ok? ==> r.value.1.githubId == dto.id
  {
    match FindRepository(s.repositories, dto.id)
    case Some(i) => Ok((s, s.repositories[i]))
    case None =>
      if dto.owner.None? then Err(NullDereference)
      else if dto.owner.value.login.None? || dto.name.None? then Err(ConstraintViolation)
      else
        var installationId := if installation.Some? then Some(installation.value.id) else None;
        var repo := Repository(|s.repositories|, dto.id, dto.owner.value.login.value, dto.name.value, installationId);
        Ok((s.(repositories := s.repositories + [repo]), repo))
  }

  /** A stored repository is reused untouched; only an unknown GitHub id
      adds a row, at the end, carrying the payload's installation id or
      none. */
  lemma GetOrCreateRepositorySpec(s: Store, dto: RepositoryDto, installation: Option<Installation>)
    requires ValidStore(s)
    ensures var r := GetOrCreateRepository(s, dto, installation);
      && (FindRepository(s.repositories, dto.id).Some? ==>
            r.Ok? && r.value.0 == s && r.value.1 in s.repositories)
      && (FindRepository(s.repositories, dto.id).None? && r.Ok? ==>
            && r.value.0.repositories == s.repositories + [r.value.1]
            && r.value.1.id == |s.repositories|
            && r.value.1.installationId == (if installation.Some? then Some(installation.value.id) else None))
  {
  }

  // ---------------------------------------------------------------------
  // handlePullRequestEvent
  // ---------------------------------------------------------------------

  /** The fields every save overwrites from the payload. */
  function Refreshed(pr: PullRequest, dto: PullRequestDto): PullRequest
    requires dto.title.Some?
  {
    pr.(title := dto.title.value, description := dto.body, status := dto.state)
  }

  /** `handlePullRequestEvent`. The opening log line dereferences the pull
      request, the repository lookup dereferences the repository, and a
      new pull request takes its author from the payload's user. */
  function HandlePullRequestEvent(s: Store, p: Payload): (r: Result<(Store, PullRequest), Exn>)
    ensures r.Ok? ==> p.pullRequest.Some? && p.repository.Some? && p.pullRequest.value.title.Some?
    ensures r.Ok? ==> StateFits(p.pullRequest.value)
    ensures p.pullRequest.Some? && p.repository.Some? && !StateFits(p.pullRequest.value) ==>
      r.Err? && (r.error == ConstraintViolation || r.error == NullDereference)
  {
    if p.pullRequest.None? || p.repository.None? then Err(NullDereference)
    else
      var dto := p.pullRequest.value;
      match GetOrCreateRepository(s, p.repository.value, p.installation)
      case Err(e) => Err(e)
      case Ok((s1, repo)) =>
        match FindPullRequest(s1.pullRequests, repo.id, dto.number)
        case Some(j) =>
          if dto.title.None? || !StateFits(dto) then Err(ConstraintViolation)
          else
            var pr := Refreshed(s1.pullRequests[j], dto);
            Ok((s1.(pullRequests := s1.pullRequests[j := pr]), pr))
        case None =>
          if dto.user.None? then Err(NullDereference)
          else if dto.title.None? || dto.user.value.login.None? || !StateFits(dto) then Err(ConstraintViolation)
          else
            var pr := PullRequest(|s1.pullRequests|, repo.id, dto.number, dto.title.value, dto.body,
                                  dto.user.value.login.value, dto.state);
            Ok((s1.(pullRequests := s1.pullRequests + [pr]), pr))
  }

  /** The saved pull request belongs to the payload's repository and
      number, and carries the payload's title, description and state; an
      existing row keeps its id and author, and a new one is appended with
      the payload user's login as author. */
  lemma HandleSpec(s: Store, p: Payload)
    requires ValidStore(s)
    requires HandlePullRequestEvent(s, p).Ok?
    ensures var (s', pr) := HandlePullRequestEvent(s, p).value;
      var dto := p.pullRequest.value;
      var repo := s'.repositories[pr.repositoryId];
      && pr.repositoryId < |s'.repositories| && repo.githubId == p.repository.value.id
      && pr.prNumber == dto.number
      && pr.title == dto.title.value && pr.description == dto.body && pr.status == dto.state
      && pr.id < |s'.pullRequests| && s'.pullRequests[pr.id] == pr
      && (pr.id < |s.pullRequests| ==> pr.author == s.pullRequests[pr.id].author)
      && (pr.id == |s.pullRequests| ==> dto.user.Some? && dto.user.value.login == Some(pr.author))
  {
    var dto := p.pullRequest.value;
    var (s1, repo) := GetOrCreateRepository(s, p.repository.value, p.installation).value;
    GetOrCreateRepositorySpec(s, p.repository.value, p.installation);
    if FindRepository(s.repositories, p.repository.value.id).Some? {
      var i := FindRepository(s.repositories, p.repository.value.id).value;
      assert repo == s.repositories[i] && repo.id == i;
    }
  }

  /** The tables stay consistent: ids remain positions and both natural
      keys remain unique. */
  lemma HandlePreservesValid(s: Store, p: Payload)
    requires ValidStore(s)
    requires HandlePullRequestEvent(s, p).Ok?
    ensures ValidStore(HandlePullRequestEvent(s, p).value.0)
  {
    var dto := p.pullRequest.value;
    var (s1, repo) := GetOrCreateRepository(s, p.repository.value, p.installation).value;
    GetOrCreateRepositorySpec(s, p.repository.value, p.installation);
    assert ValidStore(s1) by {
      if FindRepository(s.repositories, p.repository.value.id).None? {
        assert forall i | 0 <= i < |s.repositories| :: s.repositories[i].githubId != repo.githubId;
      }
    }
    match FindPullRequest(s1.pullRequests, repo.id, dto.number)
    case Some(j) =>
      RefreshKeepsValid(s1, j, Refreshed(s1.pullRequests[j], dto));
    case None =>
      var pr := PullRequest(|s1.pullRequests|, repo.id, dto.number, dto.title.value, dto.body,
                            dto.user.value.login.value, dto.state);
      assert forall i | 0 <= i < |s1.pullRequests| :: PrKey(s1.pullRequests[i]) != PrKey(pr);
      AppendKeepsValid(s1, pr);
  }

  /** Rewriting a row in place, keeping its id and its key, keeps the
      tables consistent. */
  lemma RefreshKeepsValid(s: Store, j: nat, pr: PullRequest)
    requires ValidStore(s) && j < |s.pullRequests|
    requires pr.id == s.pullRequests[j].id && PrKey(pr) == PrKey(s.pullRequests[j])
    ensures ValidStore(s.(pullRequests := s.pullRequests[j := pr]))
  {
    var rows := s.pullRequests[j := pr];
    assert forall i | 0 <= i < |rows| :: rows[i].id == s.pullRequests[i].id && PrKey(rows[i]) == PrKey(s.pullRequests[i]);
  }

  /** Appending a row whose id is its position and whose key is new keeps
      the tables consistent. */
  lemma AppendKeepsValid(s: Store, pr: PullRequest)
    requires ValidStore(s) && pr.id == |s.pullRequests|
    requires forall i | 0 <= i < |s.pullRequests| :: PrKey(s.pullRequests[i]) != PrKey(pr)
    ensures ValidStore(s.(pullRequests := s.pullRequests + [pr]))
  {
  }

  /** Replaying a payload that was just applied changes nothing and
      returns the same pull request. */
  lemma ReplayIsIdempotent(s: Store, p: Payload)
    requires ValidStore(s)
    requires HandlePullRequestEvent(s, p).Ok?
    ensures var (s', pr) := HandlePullRequestEvent(s, p).value;
            HandlePullRequestEvent(s', p) == Ok((s', pr))
  {
    var dto := p.pullRequest.value;
    var rdto := p.repository.value;
    var (s1, repo) := GetOrCreateRepository(s, rdto, p.installation).value;
    var (s2, pr) := HandlePullRequestEvent(s, p).value;
    var isRepo := (r: Repository) => r.githubId == rdto.id;
    var isPr := (q: PullRequest) => PrKey(q) == (repo.id, dto.number);
    // the second lookup of the repository finds the same row
    match FindRepository(s.repositories, rdto.id) {
      case Some(i) =>
        assert s2.repositories == s.repositories;
      case None =>
        FirstWhereAppended(s.repositories, repo, isRepo);
        assert s2.repositories == s.repositories + [repo];
    }
    assert GetOrCreateRepository(s2, rdto, p.installation) == Ok((s2, repo));
    // the second lookup of the pull request finds the row just saved
    match FindPullRequest(s1.pullRequests, repo.id, dto.number) {
      case Some(j) =>
        FirstWhereReplaced(s1.pullRequests, j, pr, isPr);
        assert Refreshed(pr, dto) == pr;
        assert s2.pullRequests[j := pr] == s2.pullRequests;
      case None =>
        FirstWhereAppended(s1.pullRequests, pr, isPr);
        assert s2.pullRequests[|s1.pullRequests| := pr] == s2.pullRequests;
    }
  }
}

=== FILE: response_parser.dfy ===
/**
 * `CodeReviewService.parseCodeReviewResponse`: cut the JSON out of the
 * model's reply (CodeReviewService.java:433-445) and read each comment
 * entry on its own, skipping the malformed ones (CodeReviewService.java:449-488).
 */
module ResponseParser {
  import opened Wrappers
  import opened Text
  import opened Json

  /** `CodeReviewResult.ReviewComment`; `None` is Java's null. */
  datatype ReviewComment = ReviewComment(
    filePath: string,
    lineNumber: Option<int>,
    severity: string,
    category: string,
    message: string,
    suggestion: Option<string>,
    codeExample: Option<string>)

  /** `CodeReviewResult` */
  datatype CodeReviewResult = CodeReviewResult(
    comments: seq<ReviewComment>,
    summary: string,
    tokensUsed: int)

  /** Why `parseCodeReviewResponse` throws. */
  datatype ParseFailure =
    | BadBounds(begin: nat, end: nat, length: nat)
    | Malformed(message: Option<string>)
  {
    /** `getMessage()` of the exception; `None` is null. */
    function Message(): Option<string> {
      match this
      case BadBounds(b, e, l) =>
        Some("begin " + NatToString(b) + ", end " + NatToString(e) + ", length " + NatToString(l))
      case Malformed(m) => m
    }
  }

  const Fence: string := "```"
  const JsonFence: string := "```json"
  const NoSummary: string := "No summary provided"

  // ---------------------------------------------------------------------
  // Extracting the JSON text
  // ---------------------------------------------------------------------

  /** Whatever contains "```json" contains "```". */
  lemma JsonFenceHasFence(s: string)
    requires Contains(s, JsonFence)
    ensures Contains(s, Fence)
  {
    var i: nat :| i <= |s| && OccursAt(s, JsonFence, i);
    assert s[i..i + 3] == s[i..i + 7][..3];
    assert OccursAt(s, Fence, i);
  }

  /** `s.substring(begin, end).trim()`, throwing when begin > end. */
  function TrimmedSlice(s: string, begin: nat, end: nat): Result<string, ParseFailure>
    requires end <= |s|
  {
    if begin <= end then Ok(Trim(s[begin..end])) else Err(BadBounds(begin, end, |s|))
  }

  /** Bounds out of order make the substring call throw. */
  lemma ReversedBounds(s: string, begin: nat, end: nat)
    requires end < begin && end <= |s|
    ensures TrimmedSlice(s, begin, end) == Err(BadBounds(begin, end, |s|))
  {
  }

  /** The text handed to the JSON parser (CodeReviewService.java:434-445). */
  function ExtractJson(response: string): (r: Result<string, ParseFailure>)
    ensures r.Err? ==> r.error.BadBounds?
  {
    if Contains(response, JsonFence) then
      JsonFenceHasFence(response);
      TrimmedSlice(response, IndexOf(response, JsonFence).value + |JsonFence|,
                   LastIndexOf(response, Fence).value)
    else if Contains(response, Fence) then
      TrimmedSlice(response, IndexOf(response, Fence).value + |Fence|,
                   LastIndexOf(response, Fence).value)
    else Ok(response)
  }

  /** Any occurrence of a fence starts with a backtick. */
  lemma FenceStartsWithBacktick(s: string, p: string, j: nat)
    requires p == Fence || p == JsonFence
    requires OccursAt(s, p, j)
    ensures j < |s| && s[j] == '`'
  {
    assert s[j] == s[j..j + |p|][0];
  }

  /** A reply with no backtick at all is parsed as a whole. */
  lemma UnfencedIsWhole(response: string)
    requires '`' !in response
    ensures ExtractJson(response) == Ok(response)
  {
    if Contains(response, JsonFence) {
      var j: nat :| j <= |response| && OccursAt(response, JsonFence, j);
      FenceStartsWithBacktick(response, JsonFence, j);
    }
    if Contains(response, Fence) {
      var j: nat :| j <= |response| && OccursAt(response, Fence, j);
      FenceStartsWithBacktick(response, Fence, j);
    }
  }

  lemma Middle(x: string, m: string, y: string)
    ensures (x + m + y)[|x|..|x| + |m|] == m
  {
  }

  /** The layout of a fenced reply: prose, the opening fence, a newline, the
      payload, a newline, the closing fence, prose. */
  function FencedReply(pre: string, payload: string, post: string): string {
    pre + JsonFence + "\n" + payload + "\n" + Fence + post
  }

  /** With no backtick before it, an opening fence is the first one. */
  lemma FirstOccurrence(pre: string, p: string, rest: string)
    requires p == Fence || p == JsonFence
    requires '`' !in pre
    ensures IndexOf(pre + p + rest, p) == Some(|pre|)
  {
    var s := pre + p + rest;
    Middle(pre, p, rest);
    assert OccursAt(s, p, |pre|);
    OccursAtContains(s, p, |pre|);
    var first := IndexOf(s, p).value;
    if first < |pre| {
      FenceStartsWithBacktick(s, p, first);
    }
  }

  /** With no backtick before it, the opening fence is the first one. */
  lemma FirstJsonFence(pre: string, rest: string)
    requires '`' !in pre
    ensures IndexOf(pre + JsonFence + rest, JsonFence) == Some(|pre|)
  {
    FirstOccurrence(pre, JsonFence, rest);
  }

  /** With no backtick after it, a fence is the last one. */
  lemma LastFence(front: string, post: string)
    requires '`' !in post
    ensures LastIndexOf(front + Fence + post, Fence) == Some(|front|)
  {
    var s := front + Fence + post;
    Middle(front, Fence, post);
    OccursAtContains(s, Fence, |front|);
    var last := LastIndexOf(s, Fence).value;
    assert s[last + 2] == s[last..last + 3][2];
  }

  /** Where the opening "```json" and the last "```" are known, the parser
      receives the trimmed text between them. */
  lemma ExtractBetween(s: string, open: nat, close: nat)
    requires IndexOf(s, JsonFence) == Some(open)
    requires LastIndexOf(s, Fence) == Some(close)
    requires open + |JsonFence| <= close
    ensures ExtractJson(s) == Ok(Trim(s[open + |JsonFence|..close]))
  {
    OccursAtContains(s, JsonFence, open);
  }

  /** Fencing is undone by the extraction: the payload of a fenced reply
      whose prose and payload contain no backtick, and whose payload has no
      surrounding blanks, is exactly what reaches the parser. */
  lemma FencedRoundTrip(pre: string, payload: string, post: string)
    requires '`' !in pre && '`' !in payload && '`' !in post
    requires IsTrimmed(payload)
    ensures ExtractJson(FencedReply(pre, payload, post)) == Ok(payload)
  {
    var mid := "\n" + payload + "\n";
    var s := FencedReply(pre, payload, post);
    var front := pre + JsonFence + mid;
    assert s == front + Fence + post;
    assert s == pre + JsonFence + (mid + Fence + post);
    FirstJsonFence(pre, mid + Fence + post);
    LastFence(front, post);
    assert s[|pre| + 7..|front|] == mid by {
      Middle(pre + JsonFence, mid, Fence + post);
    }
    TrimPadded("\n", payload, "\n");
    ExtractBetween(s, |pre|, |front|);
  }

  /** An opening "```json" that is never closed leaves the end index before
      the begin index, so the substring call throws. */
  lemma UnclosedFenceFails(pre: string, rest: string)
    requires '`' !in pre && '`' !in rest
    ensures ExtractJson(pre + JsonFence + rest).Err?
  {
    var s := pre + JsonFence + rest;
    FirstJsonFence(pre, rest);
    OccursAtContains(s, JsonFence, |pre|);
    assert s == pre + Fence + ("json" + rest);
    assert '`' !in "json" + rest;
    LastFence(pre, "json" + rest);
  }

  /** Text right after a "```" that turns it into a "```json" fence. */
  predicate TagsFence(s: string) {
    |s| >= 4 && s[..4] == "json"
  }

  /** Where a "```json" in `pre + "```" + rest` can start: inside `pre`
      only over a backtick of `pre`, on the fence itself only when `rest`
      opens with "json", just after it only when `rest` opens with a
      backtick, and otherwise inside `rest`. */
  lemma JsonFenceStart(pre: string, rest: string, j: nat)
    requires OccursAt(pre + Fence + rest, JsonFence, j)
    ensures j < |pre| ==> '`' in pre
    ensures j == |pre| ==> TagsFence(rest)
    ensures |pre| < j < |pre| + 3 ==> rest != [] && rest[0] == '`'
    ensures j >= |pre| + 3 ==> OccursAt(rest, JsonFence, j - |pre| - 3)
  {
    var s := pre + Fence + rest;
    var w := s[j..j + 7];
    assert w == JsonFence;
    if j < |pre| {
      assert s[j] == pre[j] && s[j] == w[0];
    } else if j == |pre| {
      assert rest[..4] == s[j + 3..j + 7] == w[3..];
    } else if j < |pre| + 3 {
      assert s[|pre| + 3] == w[|pre| + 3 - j] == rest[0];
    } else {
      var k := j - |pre| - 3;
      assert rest[k..k + 7] == w;
    }
  }

  /** A "```json" in `pre + "```" + rest`, where `pre` has no backtick and
      `rest` opens neither with a backtick nor with "json", lies in `rest`. */
  lemma JsonFenceInRest(pre: string, rest: string)
    requires '`' !in pre
    requires !TagsFence(rest) && (rest == [] || rest[0] != '`')
    ensures Contains(pre + Fence + rest, JsonFence) ==> Contains(rest, JsonFence)
  {
    var s := pre + Fence + rest;
    if Contains(s, JsonFence) {
      var j: nat :| j <= |s| && OccursAt(s, JsonFence, j);
      JsonFenceStart(pre, rest, j);
      OccursAtContains(rest, JsonFence, j - |pre| - 3);
    }
  }

  /** Text without a backtick holds no fence. */
  lemma NoFenceWithoutBacktick(s: string, p: string)
    requires p == Fence || p == JsonFence
    requires '`' !in s
    ensures !Contains(s, p)
  {
    if Contains(s, p) {
      var j: nat :| j <= |s| && OccursAt(s, p, j);
      FenceStartsWithBacktick(s, p, j);
    }
  }

  /** The layout of a reply fenced without a language tag. */
  function PlainFencedReply(pre: string, payload: string, post: string): string {
    pre + Fence + "\n" + payload + "\n" + Fence + post
  }

  /** Where "```json" is absent and the first and last "```" are known, the
      parser receives the trimmed text between them, or the substring call
      throws when the two are the same fence. */
  lemma ExtractBetweenPlain(s: string, open: nat, close: nat)
    requires !Contains(s, JsonFence)
    requires IndexOf(s, Fence) == Some(open)
    requires LastIndexOf(s, Fence) == Some(close)
    ensures close <= |s|
    ensures ExtractJson(s) == TrimmedSlice(s, open + |Fence|, close)
  {
    OccursAtContains(s, Fence, open);
  }

  /** Where the fences of a plainly fenced reply are. */
  lemma PlainFences(pre: string, payload: string, post: string)
    requires '`' !in pre && '`' !in payload && '`' !in post
    requires !TagsFence(post)
    ensures var s := PlainFencedReply(pre, payload, post);
      && !Contains(s, JsonFence)
      && IndexOf(s, Fence) == Some(|pre|)
      && LastIndexOf(s, Fence) == Some(|pre| + |payload| + 5)
      && s[|pre| + 3..|pre| + |payload| + 5] == "\n" + payload + "\n"
  {
    var mid := "\n" + payload + "\n";
    var s := PlainFencedReply(pre, payload, post);
    var front := pre + Fence + mid;
    var rest := mid + Fence + post;
    assert s == front + Fence + post;
    assert s == pre + Fence + rest;
    assert '`' !in mid;
    NoFenceWithoutBacktick(post, JsonFence);
    JsonFenceInRest(mid, post);
    assert rest[0] == '\n';
    JsonFenceInRest(pre, rest);
    FirstOccurrence(pre, Fence, rest);
    LastFence(front, post);
    Middle(pre + Fence, mid, Fence + post);
  }

  /** The plain-fence case of the extraction undoes plain fencing: the
      payload of such a reply is exactly what reaches the parser, provided
      no part holds a backtick and the closing fence is not followed by
      "json" (which would make it a "```json" fence). */
  lemma PlainFencedRoundTrip(pre: string, payload: string, post: string)
    requires '`' !in pre && '`' !in payload && '`' !in post
    requires !TagsFence(post)
    requires IsTrimmed(payload)
    ensures ExtractJson(PlainFencedReply(pre, payload, post)) == Ok(payload)
  {
    var s := PlainFencedReply(pre, payload, post);
    PlainFences(pre, payload, post);
    ExtractBetweenPlain(s, |pre|, |pre| + |payload| + 5);
    TrimPadded("\n", payload, "\n");
  }

  /** Where the only fence of a reply with a lone "```" is. */
  lemma LoneFence(pre: string, rest: string)
    requires '`' !in pre && '`' !in rest
    requires !TagsFence(rest)
    ensures var s := pre + Fence + rest;
      && !Contains(s, JsonFence)
      && IndexOf(s, Fence) == Some(|pre|)
      && LastIndexOf(s, Fence) == Some(|pre|)
  {
    NoFenceWithoutBacktick(rest, JsonFence);
    JsonFenceInRest(pre, rest);
    FirstOccurrence(pre, Fence, rest);
    LastFence(pre, rest);
  }

  /** A lone "```" (not followed by "json") is both the first and the last
      fence, so the end index lies before the begin index and the substring
      call throws. */
  lemma LoneFenceFails(pre: string, rest: string)
    requires '`' !in pre && '`' !in rest
    requires !TagsFence(rest)
    ensures ExtractJson(pre + Fence + rest) == Err(BadBounds(|pre| + 3, |pre|, |pre| + 3 + |rest|))
  {
    var s := pre + Fence + rest;
    LoneFence(pre, rest);
    ExtractBetweenPlain(s, |pre|, |pre|);
    ReversedBounds(s, |pre| + 3, |pre|);
  }

  // ---------------------------------------------------------------------
  // Reading the comment entries
  // ---------------------------------------------------------------------

  const RequiredFields: seq<string> := ["filePath", "severity", "category", "message"]

  /** An entry yields a comment only when all four required fields are
      present; otherwise `get(..).asText()` throws and the entry is skipped. */
  predicate WellFormedEntry(entry: Json) {
    forall k | 0 <= k < |RequiredFields| :: Has(entry, RequiredFields[k])
  }

  /** `node.has(name) ? node.get(name).asText() : null` */
  function OptText(entry: Json, name: string): Option<string> {
    if Has(entry, name) then Some(AsText(Get(entry, name).value)) else None
  }

  /** One entry of the "comments" array (CodeReviewService.java:462-478). */
  function ParseEntry(entry: Json): (r: Option<ReviewComment>)
    ensures r.Some? <==> WellFormedEntry(entry)
    ensures r.Some? ==>
      && OptText(entry, "filePath") == Some(r.value.filePath)
      && OptText(entry, "severity") == Some(r.value.severity)
      && OptText(entry, "category") == Some(r.value.category)
      && OptText(entry, "message") == Some(r.value.message)
      && r.value.suggestion == OptText(entry, "suggestion")
      && r.value.codeExample == OptText(entry, "codeExample")
    ensures r.Some? ==> (r.value.lineNumber.None? <==> !Has(entry, "lineNumber"))
    ensures r.Some? && Has(entry, "lineNumber") ==>
      r.value.lineNumber == Some(AsInt(Get(entry, "lineNumber").value))
  {
    if Has(entry, "filePath") && Has(entry, "severity") && Has(entry, "category") && Has(entry, "message") then
      Some(ReviewComment(
        AsText(Get(entry, "filePath").value),
        if Has(entry, "lineNumber") then Some(AsInt(Get(entry, "lineNumber").value)) else None,
        AsText(Get(entry, "severity").value),
        AsText(Get(entry, "category").value),
        AsText(Get(entry, "message").value),
        OptText(entry, "suggestion"),
        OptText(entry, "codeExample")))
    else
      assert !Has(entry, RequiredFields[0]) || !Has(entry, RequiredFields[1])
        || !Has(entry, RequiredFields[2]) || !Has(entry, RequiredFields[3]);
      None
  }

  /** A line number the model writes as decimal text is read as that
      number, as Jackson's `asInt` parses numeric text. */
  lemma LineNumberAsText(entry: Json, n: int)
    requires WellFormedEntry(entry)
    requires -0x8000_0000 <= n < 0x8000_0000
    requires Get(entry, "lineNumber") == Some(JStr(IntToString(n)))
    ensures ParseEntry(entry).Some? && ParseEntry(entry).value.lineNumber == Some(n)
  {
    TextAsIntReadsIntegers(n, "", "");
    assert "" + IntToString(n) + "" == IntToString(n);
  }

  /** The comments read from the array entries, in order. */
  function Collect(entries: seq<Json>): seq<ReviewComment>
    decreases |entries|
  {
    if entries == [] then []
    else
      match ParseEntry(entries[0])
      case Some(c) => [c] + Collect(entries[1..])
      case None => Collect(entries[1..])
  }

  /** Entries are read independently: the comments of a concatenation are
      the concatenation of the comments. */
  lemma {:induction false} CollectAppend(a: seq<Json>, b: seq<Json>)
    ensures Collect(a + b) == Collect(a) + Collect(b)
    decreases |a|
  {
    if a == [] {
      assert a + b == b;
    } else {
      assert (a + b)[0] == a[0];
      assert (a + b)[1..] == a[1..] + b;
      CollectAppend(a[1..], b);
    }
  }

  /** A comment is produced exactly for each well-formed entry. */
  lemma {:induction false} CollectMembers(entries: seq<Json>, c: ReviewComment)
    ensures c in Collect(entries) <==>
      exists k | 0 <= k < |entries| :: ParseEntry(entries[k]) == Some(c)
    decreases |entries|
  {
    if entries != [] {
      CollectMembers(entries[1..], c);
      if exists k | 0 <= k < |entries[1..]| :: ParseEntry(entries[1..][k]) == Some(c) {
        var k :| 0 <= k < |entries[1..]| && ParseEntry(entries[1..][k]) == Some(c);
        assert ParseEntry(entries[k + 1]) == Some(c);
      }
      if exists k | 0 <= k < |entries| :: ParseEntry(entries[k]) == Some(c) {
        var k :| 0 <= k < |entries| && ParseEntry(entries[k]) == Some(c);
        if k > 0 {
          assert ParseEntry(entries[1..][k - 1]) == Some(c);
        }
      }
    }
  }

  /** When every entry is well formed, nothing is dropped and the order is
      kept: the k-th comment comes from the k-th entry. */
  lemma {:induction false} CollectAllWellFormed(entries: seq<Json>)
    requires forall k | 0 <= k < |entries| :: WellFormedEntry(entries[k])
    ensures |Collect(entries)| == |entries|
    ensures forall k | 0 <= k < |entries| :: Some(Collect(entries)[k]) == ParseEntry(entries[k])
    decreases |entries|
  {
    if entries != [] {
      CollectAllWellFormed(entries[1..]);
      var c := ParseEntry(entries[0]).value;
      assert Collect(entries) == [c] + Collect(entries[1..]);
      forall k | 0 <= k < |entries|
        ensures Some(Collect(entries)[k]) == ParseEntry(entries[k])
      {
        if k > 0 {
          assert entries[k] == entries[1..][k - 1];
        }
      }
    }
  }

  lemma CollectSingle(entry: Json)
    ensures Collect([entry]) == if WellFormedEntry(entry) then [ParseEntry(entry).value] else []
  {
    assert [entry][1..] == [];
  }

  /** A malformed entry vanishes without disturbing its neighbours. */
  lemma SkipMalformed(before: seq<Json>, bad: Json, after: seq<Json>)
    requires !WellFormedEntry(bad)
    ensures Collect(before + [bad] + after) == Collect(before) + Collect(after)
  {
    CollectAppend(before + [bad], after);
    CollectAppend(before, [bad]);
    CollectSingle(bad);
  }

  /** The loop of CodeReviewService.java:461-479, appending to a list. */
  method ParseComments(entries: seq<Json>) returns (comments: seq<ReviewComment>)
    ensures comments == Collect(entries)
  {
    comments := [];
    var i := 0;
    while i < |entries|
      invariant 0 <= i <= |entries|
      invariant comments == Collect(entries[..i])
    {
      var entry := entries[i];
      CollectAppend(entries[..i], [entry]);
      assert entries[..i + 1] == entries[..i] + [entry];
      CollectSingle(entry);
      match ParseEntry(entry) {
        case Some(c) => comments := comments + [c];
        case None =>
      }
      i := i + 1;
    }
    assert entries[..i] == entries;
  }

  // ---------------------------------------------------------------------
  // The whole response
  // ---------------------------------------------------------------------

  /** The "comments" array, or nothing when it is missing or not an array. */
  function CommentsOf(root: Json): seq<ReviewComment> {
    match Get(root, "comments")
    case Some(JArr(entries)) => Collect(entries)
    case _ => []
  }

  function SummaryOf(root: Json): string {
    TextOr(root, "summary", NoSummary)
  }

  /** `parseCodeReviewResponse(response, tokensUsed)` */
  function ParseResponse(response: string, tokensUsed: int, parse: Parser): (r: Result<CodeReviewResult, ParseFailure>)
    ensures r.Ok? ==> r.value.tokensUsed == tokensUsed
    ensures r.Ok? <==> ExtractJson(response).Ok? && parse(ExtractJson(response).value).Ok?
  {
    var text :- ExtractJson(response);
    match parse(text)
    case Err(m) => Err(Malformed(m))
    case Ok(root) => Ok(CodeReviewResult(CommentsOf(root), SummaryOf(root), tokensUsed))
  }

  /** The defensive defaults: a missing or non-array "comments" gives no
      comments, a missing "summary" gives the fixed placeholder. */
  lemma ParseDefaults(response: string, tokensUsed: int, parse: Parser)
    requires ExtractJson(response).Ok?
    requires parse(ExtractJson(response).value).Ok?
    ensures var root := parse(ExtractJson(response).value).value;
      var r := ParseResponse(response, tokensUsed, parse).value;
      && (Get(root, "comments").None? || !IsArray(Get(root, "comments").value) ==> r.comments == [])
      && (!Has(root, "summary") ==> r.summary == NoSummary)
      && (Has(root, "summary") ==> r.summary == AsText(Get(root, "summary").value))
      && |r.comments| <= (if Get(root, "comments").Some? && IsArray(Get(root, "comments").value)
                          then |Get(root, "comments").value.items| else 0)
  {
    var root := parse(ExtractJson(response).value).value;
    match Get(root, "comments") {
      case Some(JArr(entries)) => CollectLength(entries);
      case _ =>
    }
  }

  lemma {:induction false} CollectLength(entries: seq<Json>)
    ensures |Collect(entries)| <= |entries|
    decreases |entries|
  {
    if entries != [] {
      CollectLength(entries[1..]);
    }
  }
}

=== FILE: retry_policy.dfy ===
/**
 * `OpenAiClientConfig`: the retry template wrapped around every call to
 * the chat model. At most two attempts, a fixed one-second pause between
 * them, and only network failures and 5xx responses are retried.
 */
module RetryPolicy {
  import opened Wrappers
  import opened Exceptions

  const MaxAttempts: nat := 2
  const BackoffMs: nat := 1000

  // ---------------------------------------------------------------------
  // The exception classifier and its builder
  // ---------------------------------------------------------------------

  /** One `retryOn(cls)` or `notRetryOn(cls)` call on the builder. */
  datatype ClassifierCall = RetryOn(cls: ExnClass) | NotRetryOn(cls: ExnClass)

  /** A binary classifier: with `retryListed`, exactly the instances of the
      listed classes are retried; without it, exactly the others are. */
  datatype Classifier = Classifier(retryListed: bool, classes: seq<ExnClass>)

  predicate Listed(c: Classifier, k: ExnKind) {
    exists i | 0 <= i < |c.classes| :: InstanceOf(k, c.classes[i])
  }

  predicate RetriesOn(c: Classifier, k: ExnKind) {
    Listed(c, k) == c.retryListed
  }

  function ClassOf(call: ClassifierCall): ExnClass {
    match call
    case RetryOn(cls) => cls
    case NotRetryOn(cls) => cls
  }

  /** The builder fixes its polarity with the first call and refuses a call
      of the other polarity ("use only retryOn() or only notRetryOn()").
      Without any call every exception is retried. */
  function BuildClassifier(calls: seq<ClassifierCall>): (r: Result<Classifier, string>)
    ensures r.Ok? <==> forall i | 0 <= i < |calls| :: calls[i].RetryOn? == calls[0].RetryOn?
    ensures r.Ok? && calls != [] ==>
      && r.value.retryListed == calls[0].RetryOn?
      && |r.value.classes| == |calls|
      && forall i | 0 <= i < |calls| :: r.value.classes[i] == ClassOf(calls[i])
  {
    if calls == [] then Ok(Classifier(false, []))
    else if exists i | 0 <= i < |calls| :: calls[i].RetryOn? != calls[0].RetryOn? then
      Err("Please use only retryOn() or only notRetryOn()")
    else Ok(Classifier(calls[0].RetryOn?, seq(|calls|, i requires 0 <= i < |calls| => ClassOf(calls[i]))))
  }

  /** The builder calls as written in the configuration. */
  const ConfiguredCalls: seq<ClassifierCall> :=
    [RetryOn(ResourceAccessClass), RetryOn(HttpServerErrorClass), NotRetryOn(HttpClientErrorClass)]

  /** The same policy without the redundant `notRetryOn`: a list of classes
      to retry already leaves client errors out. */
  const IntendedCalls: seq<ClassifierCall> := [RetryOn(ResourceAccessClass), RetryOn(HttpServerErrorClass)]

  /** Mixing the two polarities makes the builder refuse the configuration. */
  lemma ConfiguredCallsRejected()
    ensures BuildClassifier(ConfiguredCalls).Err?
  {
    assert ConfiguredCalls[2].RetryOn? != ConfiguredCalls[0].RetryOn?;
  }

  /** The intended classifier retries network failures and 5xx responses,
      and nothing else: in particular never a 4xx response. */
  lemma IntendedClassifier(k: ExnKind)
    ensures BuildClassifier(IntendedCalls).Ok?
    ensures RetriesOn(BuildClassifier(IntendedCalls).value, k) <==> k.ResourceAccess? || k.HttpServerError?
    ensures k.HttpClientError? ==> !RetriesOn(BuildClassifier(IntendedCalls).value, k)
  {
    var c := BuildClassifier(IntendedCalls).value;
    assert c.classes == [ResourceAccessClass, HttpServerErrorClass];
    if k.ResourceAccess? {
      assert InstanceOf(k, c.classes[0]);
    } else if k.HttpServerError? {
      assert InstanceOf(k, c.classes[1]);
    }
  }

  /** The classifier the model calls go through. */
  predicate Retryable(e: Exn) {
    e.kind.ResourceAccess? || e.kind.HttpServerError?
  }

  predicate Retries(o: CallOutcome) {
    o.Threw? && Retryable(o.error)
  }

  // ---------------------------------------------------------------------
  // Running a call under the policy
  // ---------------------------------------------------------------------

  /** The outcome the caller sees, after how many attempts and how long a
      total pause. */
  datatype RetryRun = RetryRun(outcome: CallOutcome, attempts: nat, waitedMs: nat)

  /** Attempts `k`, `k + 1`, ... of a call whose attempt `j` would end as
      `attempt(j)`. */
  function RetryFrom(attempt: nat -> CallOutcome, k: nat): (r: RetryRun)
    requires k < MaxAttempts
    ensures k < r.attempts <= MaxAttempts
    ensures r.outcome == attempt(r.attempts - 1)
    ensures r.waitedMs == (r.attempts - 1 - k) * BackoffMs
    ensures forall j | k <= j < r.attempts - 1 :: Retries(attempt(j))
    ensures r.attempts < MaxAttempts ==> !Retries(r.outcome)
    decreases MaxAttempts - k
  {
    if Retries(attempt(k)) && k + 1 < MaxAttempts then
      var r := RetryFrom(attempt, k + 1);
      r.(waitedMs := r.waitedMs + BackoffMs)
    else
      RetryRun(attempt(k), k + 1, 0)
  }

  /** The retry template's `execute`: the first attempt that does not end in
      a retryable failure, or the last allowed attempt. */
  function Retry(attempt: nat -> CallOutcome): (r: RetryRun)
    ensures 1 <= r.attempts <= MaxAttempts
    ensures r.outcome == attempt(r.attempts - 1)
    ensures r.waitedMs == (r.attempts - 1) * BackoffMs
    ensures forall j | 0 <= j < r.attempts - 1 :: Retries(attempt(j))
    ensures r.attempts < MaxAttempts ==> !Retries(r.outcome)
  {
    RetryFrom(attempt, 0)
  }

  /** A reply, a 4xx response or any other non-retryable failure on the
      first attempt ends the call at once, without a pause. */
  lemma FirstFinalOutcome(attempt: nat -> CallOutcome)
    requires !Retries(attempt(0))
    ensures Retry(attempt) == RetryRun(attempt(0), 1, 0)
  {
  }

  /** A network failure or 5xx response on the first attempt is followed by
      exactly one more attempt, one second later, whose outcome is final
      even when it fails the same way. */
  lemma RetriedOnce(attempt: nat -> CallOutcome)
    requires Retries(attempt(0))
    ensures Retry(attempt) == RetryRun(attempt(1), 2, BackoffMs)
  {
  }
}

=== FILE: review.dfy ===
/**
 * `ReviewService.performReview`: one review of a pull request at a commit.
 * The review row is created "in_progress", the diff is fetched, the code
 * is analysed (with the repository's active rules when there are any), the
 * findings are stored and posted, and the row is completed with its
 * counts. Any exception marks the row found by (pull request, commit) as
 * "failed". The whole call is one transaction: an exception that escapes
 * the catch block rolls every write back.
 */
module Reviews {
  import opened Wrappers
  import opened Text
  import opened Exceptions
  import opened Domain
  import opened ResponseParser
  import Tally
  import Json
  import GitHub
  import Rules
  import Prompts
  import Analysis
  import ApiKeys

  // ---------------------------------------------------------------------
  // detectLanguage
  // ---------------------------------------------------------------------

  const DetectedLanguages: set<string> := {"Java", "Python", "JavaScript/TypeScript", "Go", "Ruby", "Unknown"}

  /** The first extension the diff mentions, in a fixed order. */
  function DetectLanguage(diff: string): (lang: string)
    ensures lang in DetectedLanguages
    ensures lang == "Java" <==> Contains(diff, ".java")
    ensures lang == "Unknown" ==> !Contains(diff, ".js") && !Contains(diff, ".ts")
  {
    if Contains(diff, ".java") then "Java"
    else if Contains(diff, ".py") then "Python"
    else if Contains(diff, ".js") || Contains(diff, ".ts") then "JavaScript/TypeScript"
    else if Contains(diff, ".go") then "Go"
    else if Contains(diff, ".rb") then "Ruby"
    else "Unknown"
  }

  /** A diff that touches only a JSON file is taken for script code: the
      test for ".js" also finds ".json". */
  lemma JsonCountsAsScript(diff: string)
    requires Contains(diff, ".json") && !Contains(diff, ".java") && !Contains(diff, ".py")
    ensures DetectLanguage(diff) == "JavaScript/TypeScript"
  {
    ContainsSelf([], ".js", "on");
    assert [] + ".js" + "on" == ".json";
    ContainsWithin(diff, ".json", ".js");
  }

  /** Only Java, Python and Go diffs get their own guideline: the combined
      script name, "Ruby" and "Unknown" are not keys of the guideline table
      and fall back to the general text. */
  lemma DetectedGuideline(diff: string)
    ensures var lang := DetectLanguage(diff);
      Prompts.IsLanguageSupported(lang) <==> lang == "Java" || lang == "Python" || lang == "Go"
    ensures var lang := DetectLanguage(diff);
      lang != "Java" && lang != "Python" && lang != "Go" ==> Prompts.Guideline(lang) == Prompts.DefaultGuideline
  {
    Prompts.DefaultIffUnsupported(DetectLanguage(diff));
  }

  // ---------------------------------------------------------------------
  // calculateSeverityCounts
  // ---------------------------------------------------------------------

  const SeveritySeed: map<string, int> := map["info" := 0, "warning" := 0, "error" := 0]

  function Severities(comments: seq<Comment>): (r: seq<string>)
    ensures |r| == |comments|
    ensures forall i | 0 <= i < |comments| :: r[i] == comments[i].severity
  {
    seq(|comments|, i requires 0 <= i < |comments| => comments[i].severity)
  }

  /** The three levels seeded with zero, then one added per comment at its
      severity. */
  function SeverityCounts(comments: seq<Comment>): (counts: map<string, int>)
    ensures counts.Keys == {"info", "warning", "error"} + (set i | 0 <= i < |comments| :: comments[i].severity)
    ensures forall s :: Tally.Lookup(counts, s) == Tally.Occurrences(Severities(comments), s)
  {
    var severities := Severities(comments);
    Tally.CountSpec(SeveritySeed, severities, []);
    assert (set i | 0 <= i < |severities| :: severities[i]) == (set i | 0 <= i < |comments| :: comments[i].severity);
    Tally.MergeAll(SeveritySeed, Tally.Ones(severities))
  }

  /** Summed over any duplicate-free list of its keys, the counts add up to
      the number of comments. */
  lemma SeverityCountsSum(comments: seq<Comment>, ks: seq<string>)
    requires Tally.Distinct(ks) && Tally.Covers(SeverityCounts(comments), ks)
    ensures Tally.SumAt(SeverityCounts(comments), ks) == |comments|
  {
    Tally.CountSpec(SeveritySeed, Severities(comments), ks);
  }

  // ---------------------------------------------------------------------
  // The steps of performReview
  // ---------------------------------------------------------------------

  /** What the review depends on besides the database: the file listing
      of the pull request (or the message of the failure to get it), the
      stored rules, the AI service, the GitHub API, the elapsed time and
      the current day. */
  datatype ReviewEnv = ReviewEnv(
    listing: Result<seq<GitHub.PrFile>, Option<string>>,
    ruleStore: seq<Rules.Rule>,
    ai: Analysis.AiEnv,
    gh: GitHub.GitHubEnv,
    elapsedMs: int,
    today: int)

  function RefOf(pr: PullRequest, repo: Repository): GitHub.PrRef {
    GitHub.PrRef(repo.owner, repo.name, pr.prNumber)
  }

  /** The analysis of the fetched diff: the plain prompt without active
      rules, the prompt with rules otherwise. */
  function AnalysisOf(diff: string, repo: Repository, env: ReviewEnv): CodeReviewResult {
    var rules := Rules.ActiveRules(env.ruleStore, repo.id);
    if rules == [] then Analysis.AnalyzeCode(diff, DetectLanguage(diff), env.ai)
    else Analysis.AnalyzeCodeWithRules(diff, DetectLanguage(diff), rules, env.ai)
  }

  /** The stored findings, one per parsed comment, in order. */
  function Stored(reviewId: nat, cs: seq<ReviewComment>): (r: seq<Comment>)
    ensures |r| == |cs|
    ensures forall i | 0 <= i < |cs| ::
      r[i] == Comment(reviewId, cs[i].filePath, cs[i].lineNumber, cs[i].severity, cs[i].category,
                      cs[i].message, cs[i].suggestion, cs[i].codeExample)
  {
    seq(|cs|, i requires 0 <= i < |cs| =>
      Comment(reviewId, cs[i].filePath, cs[i].lineNumber, cs[i].severity, cs[i].category,
              cs[i].message, cs[i].suggestion, cs[i].codeExample))
  }

  /** The posting requests, one per parsed comment, in order. */
  function Requests(cs: seq<ReviewComment>): (r: seq<GitHub.CommentRequest>)
    ensures |r| == |cs|
    ensures forall i | 0 <= i < |cs| :: r[i] == GitHub.RequestOf(cs[i])
  {
    seq(|cs|, i requires 0 <= i < |cs| => GitHub.RequestOf(cs[i]))
  }

  /** What one run observes: the pull request and commit, the analysis of
      the fetched diff (or the fetch failure), the GitHub API, the elapsed
      time and the day. */
  datatype Observed = Observed(
    pr: PullRequest,
    commitSha: string,
    ref: GitHub.PrRef,
    analysed: Result<CodeReviewResult, Exn>,
    gh: GitHub.GitHubEnv,
    elapsedMs: int,
    today: int)

  function ObservedBy(pr: PullRequest, repo: Repository, commitSha: string, env: ReviewEnv): (o: Observed)
    ensures o.analysed.Err? <==> env.listing.Err?
  {
    var ref := RefOf(pr, repo);
    var analysed := match GitHub.FetchDiff(ref, env.listing)
      case Ok(diff) => Ok(AnalysisOf(diff, repo, env))
      case Err(e) => Err(e);
    Observed(pr, commitSha, ref, analysed, env.gh, env.elapsedMs, env.today)
  }

  /** The posting loop throws only when there is something to post and the
      GitHub session cannot be opened. */
  predicate PostingFails(cs: seq<ReviewComment>, gh: GitHub.GitHubEnv) {
    cs != [] && gh.session.Some?
  }

  /** The exception of the first failing step after the row was started:
      the fetch, the posting loop, the summary post. */
  function FailureOf(o: Observed): Option<Exn> {
    match o.analysed
    case Err(e) => Some(e)
    case Ok(result) =>
      if PostingFails(result.comments, o.gh) then
        Some(GitHub.ApiFailure("post review comments", o.ref, o.gh.session.value))
      else if o.gh.summaryFails.Some? then
        Some(GitHub.ApiFailure("post summary comment", o.ref, o.gh.summaryFails.value))
      else None
  }

  /** The comments a run stores: none when the fetch failed, one per
      finding otherwise. */
  function StoredFor(id: nat, o: Observed): seq<Comment> {
    match o.analysed
    case Err(_) => []
    case Ok(result) => Stored(id, result.comments)
  }

  /** The row written before the diff is fetched: "in_progress", never the
      entity's default "pending". */
  function Started(id: nat, o: Observed): (r: Review)
    ensures r.status == InProgress && r.status != Pending
    ensures r.pullRequestId == o.pr.id && r.commitSha == o.commitSha
  {
    NewReview(id, o.pr.id, o.commitSha, o.today).(status := InProgress, aiModel := Some(ReviewModel))
  }

  /** The row as the last save leaves it when every step succeeded. */
  function Completion(started: Review, comments: seq<Comment>, tokensUsed: int, elapsedMs: int): Review {
    started.(
      status := Completed,
      totalComments := |comments|,
      tokensUsed := Some(tokensUsed),
      processingTimeMs := Some(Json.Int32(elapsedMs)),
      severityCounts := Some(SeverityCounts(comments)))
  }

  // ---------------------------------------------------------------------
  // The catch block
  // ---------------------------------------------------------------------

  predicate IsFor(r: Review, pullRequestId: nat, commitSha: string) {
    r.pullRequestId == pullRequestId && r.commitSha == commitSha
  }

  /** The positions of the reviews for a pull request and commit, in
      ascending order. */
  function MatchIndices(reviews: seq<Review>, pullRequestId: nat, commitSha: string): (r: seq<nat>)
    ensures forall k | 0 <= k < |r| :: r[k] < |reviews| && IsFor(reviews[r[k]], pullRequestId, commitSha)
    ensures forall i | 0 <= i < |reviews| && IsFor(reviews[i], pullRequestId, commitSha) :: i in r
    ensures forall a, b | 0 <= a < b < |r| :: r[a] < r[b]
    decreases |reviews|
  {
    if reviews == [] then []
    else
      var last := |reviews| - 1;
      var front := MatchIndices(reviews[..last], pullRequestId, commitSha);
      if IsFor(reviews[last], pullRequestId, commitSha) then front + [last] else front
  }

  /** Thrown by the lookup when several rows match. */
  const NonUniqueResult: Exn := Exn(Runtime, None, None)

  /** `findByPullRequestIdAndCommitSha`: the single matching review, none,
      or the exception Spring Data throws when several rows match. */
  function FindByPrAndSha(reviews: seq<Review>, pullRequestId: nat, commitSha: string): (r: Result<Option<nat>, Exn>)
    ensures r.Ok? && r.value.Some? ==>
      && r.value.value < |reviews| && IsFor(reviews[r.value.value], pullRequestId, commitSha)
      && forall i | 0 <= i < |reviews| && IsFor(reviews[i], pullRequestId, commitSha) :: i == r.value.value
    ensures r.Ok? && r.value.None? ==> forall i | 0 <= i < |reviews| :: !IsFor(reviews[i], pullRequestId, commitSha)
    ensures r.Err? ==> exists i, j | 0 <= i < j < |reviews| ::
      IsFor(reviews[i], pullRequestId, commitSha) && IsFor(reviews[j], pullRequestId, commitSha)
  {
    var ms := MatchIndices(reviews, pullRequestId, commitSha);
    if |ms| == 0 then Ok(None)
    else if |ms| == 1 then Ok(Some(ms[0]))
    else
      assert IsFor(reviews[ms[0]], pullRequestId, commitSha) && IsFor(reviews[ms[1]], pullRequestId, commitSha);
      Err(NonUniqueResult)
  }

  /** The catch block: the matching row becomes "failed" with the
      exception's message. When the lookup itself throws, the exception
      escapes and the transaction is rolled back to `before`. */
  function Recover(before: Db, db: Db, pullRequestId: nat, commitSha: string, e: Exn): (r: (Db, Option<Exn>))
    ensures r.1.Some? ==> r.0 == before
    ensures r.1.None? ==> r.0.comments == db.comments && |r.0.reviews| == |db.reviews|
  {
    match FindByPrAndSha(db.reviews, pullRequestId, commitSha)
    case Err(q) => (before, Some(q))
    case Ok(None) => (db, None)
    case Ok(Some(i)) =>
      (Db(db.reviews[i := db.reviews[i].(status := FailedStatus, errorMessage := e.message)], db.comments), None)
  }

  predicate ReviewedBefore(db: Db, pr: PullRequest, commitSha: string) {
    exists i | 0 <= i < |db.reviews| :: IsFor(db.reviews[i], pr.id, commitSha)
  }

  lemma MatchIndicesSnoc(reviews: seq<Review>, r: Review, pullRequestId: nat, commitSha: string)
    ensures MatchIndices(reviews + [r], pullRequestId, commitSha)
         == MatchIndices(reviews, pullRequestId, commitSha) + (if IsFor(r, pullRequestId, commitSha) then [|reviews|] else [])
  {
    assert (reviews + [r])[..|reviews|] == reviews;
  }

  /** The lookup in the catch block sees the new row plus the older rows
      of the same pull request and commit. */
  lemma LookupAfterStart(db: Db, review: Review, pr: PullRequest, commitSha: string)
    requires IsFor(review, pr.id, commitSha)
    ensures var r := FindByPrAndSha(db.reviews + [review], pr.id, commitSha);
      && (r.Err? <==> ReviewedBefore(db, pr, commitSha))
      && (r.Ok? ==> r.value == Some(|db.reviews|))
  {
    var older := MatchIndices(db.reviews, pr.id, commitSha);
    MatchIndicesSnoc(db.reviews, review, pr.id, commitSha);
    var all := MatchIndices(db.reviews + [review], pr.id, commitSha);
    assert all == older + [|db.reviews|];
    if ReviewedBefore(db, pr, commitSha) {
      var i :| 0 <= i < |db.reviews| && IsFor(db.reviews[i], pr.id, commitSha);
      assert i in older;
    }
    if |older| > 0 {
      assert IsFor(db.reviews[older[0]], pr.id, commitSha);
    }
    assert ReviewedBefore(db, pr, commitSha) <==> |all| > 1;
    assert |all| == 1 ==> all[0] == |db.reviews|;
  }

  /** The catch block after the row was started and `cs` were stored:
      the row becomes "failed", unless an older row makes the lookup throw
      and everything is rolled back. */
  lemma RecoverAfterStart(db: Db, review: Review, cs: seq<Comment>, pr: PullRequest, commitSha: string, e: Exn)
    requires IsFor(review, pr.id, commitSha)
    ensures Recover(db, Db(db.reviews + [review], db.comments + cs), pr.id, commitSha, e)
         == if ReviewedBefore(db, pr, commitSha) then (db, Some(NonUniqueResult))
            else (Db(db.reviews + [review.(status := FailedStatus, errorMessage := e.message)], db.comments + cs), None)
  {
    LookupAfterStart(db, review, pr, commitSha);
    var rs := db.reviews + [review];
    assert rs[|db.reviews| := review.(status := FailedStatus, errorMessage := e.message)]
        == db.reviews + [review.(status := FailedStatus, errorMessage := e.message)];
  }

  /** `UnexpectedRollbackException`: a repository call that threw inside
      the run marked the shared transaction rollback-only, so the commit
      at the end undoes every write and throws this instead. */
  const RollbackOnly: Exn := Exn(Runtime, Some("Transaction silently rolled back because it has been marked as rollback-only"), None)

  /** Every finding's severity and category fit their columns. */
  predicate FindingsFit(cs: seq<ReviewComment>) {
    forall i | 0 <= i < |cs| :: |cs[i].severity| <= SeverityWidth && |cs[i].category| <= CategoryWidth
  }

  /** The database refuses a row of the run: the started review when the
      commit SHA is wider than its column, or, once the analysis is in, a
      finding whose severity or category is too wide for `saveAll`. */
  predicate Rejected(o: Observed) {
    || |o.commitSha| > CommitShaWidth
    || (o.analysed.Ok? && !FindingsFit(o.analysed.value.comments))
  }

  /** The findings fit exactly when every stored comment fits its row. */
  lemma StoredFits(id: nat, cs: seq<ReviewComment>)
    ensures FindingsFit(cs) <==> forall i | 0 <= i < |cs| :: CommentFits(Stored(id, cs)[i])
  {
    var r := Stored(id, cs);
    assert forall i | 0 <= i < |cs| :: r[i].severity == cs[i].severity && r[i].category == cs[i].category;
  }

  // ---------------------------------------------------------------------
  // performReview
  // ---------------------------------------------------------------------

  /** The effect of one run stated without its steps, the reference for the
      method below. Success appends a completed row and its comments; a
      failure appends a failed row and whatever comments were stored before
      it, unless an older row of the same commit makes the lookup in the
      catch block throw, which rolls everything back. A row the database
      refuses rolls everything back too. */
  function Outcome(db: Db, o: Observed): (Db, Option<Exn>) {
    var id := |db.reviews|;
    var stored := StoredFor(id, o);
    if Rejected(o) then (db, Some(RollbackOnly))
    else match FailureOf(o)
    case None =>
      (Db(db.reviews + [Completion(Started(id, o), stored, o.analysed.value.tokensUsed, o.elapsedMs)], db.comments + stored), None)
    case Some(e) =>
      if ReviewedBefore(db, o.pr, o.commitSha) then (db, Some(NonUniqueResult))
      else (Db(db.reviews + [Started(id, o).(status := FailedStatus, errorMessage := e.message)], db.comments + stored), None)
  }

  /** `performReview`: returns the database after the call and the
      exception that escaped it, if any. */
  method PerformReview(db: Db, pr: PullRequest, repo: Repository, commitSha: string, env: ReviewEnv)
    returns (db': Db, escaped: Option<Exn>)
    ensures (db', escaped) == Outcome(db, ObservedBy(pr, repo, commitSha, env))
  {
    var id := |db.reviews|;
    var review := NewReview(id, pr.id, commitSha, env.today).(status := InProgress, aiModel := Some(ReviewModel));
    if |commitSha| > CommitShaWidth {
      return db, Some(RollbackOnly);
    }
    var db1 := Db(db.reviews + [review], db.comments);
    var ref := RefOf(pr, repo);

    var diff := GitHub.FetchDiff(ref, env.listing);
    if diff.Err? {
      ghost var o := ObservedBy(pr, repo, commitSha, env);
      assert db1 == Db(db.reviews + [Started(id, o)], db.comments + StoredFor(id, o));
      CaughtOutcome(db, o, diff.error);
      var rec := Recover(db, db1, pr.id, commitSha, diff.error);
      return rec.0, rec.1;
    }
    var result := AnalysisOf(diff.value, repo, env);
    var o := Observed(pr, commitSha, ref, Ok(result), env.gh, env.elapsedMs, env.today);
    assert o == ObservedBy(pr, repo, commitSha, env);
    db', escaped := SaveAndPost(db, db1, o);
  }

  /** The steps after the analysis: the findings are stored, posted one by
      one, the summary is posted, and the row is completed. */
  method SaveAndPost(db: Db, db1: Db, o: Observed) returns (db': Db, escaped: Option<Exn>)
    requires o.analysed.Ok?
    requires |o.commitSha| <= CommitShaWidth
    requires db1 == Db(db.reviews + [Started(|db.reviews|, o)], db.comments)
    ensures (db', escaped) == Outcome(db, o)
  {
    var id := |db.reviews|;
    var result := o.analysed.value;
    var comments := Stored(id, result.comments);
    if !FindingsFit(result.comments) {
      return db, Some(RollbackOnly);
    }
    var db2 := Db(db1.reviews, db1.comments + comments);

    var posted := GitHub.PostReviewComments(o.ref, o.commitSha, Requests(result.comments), o.gh);
    if posted.Err? {
      CaughtOutcome(db, o, posted.error);
      var rec := Recover(db, db2, o.pr.id, o.commitSha, posted.error);
      return rec.0, rec.1;
    }
    var summary := GitHub.PostSummary(o.ref, result.summary, |result.comments|, o.gh);
    if summary.Err? {
      CaughtOutcome(db, o, summary.error);
      var rec := Recover(db, db2, o.pr.id, o.commitSha, summary.error);
      return rec.0, rec.1;
    }
    var done := Completion(db1.reviews[id], comments, result.tokensUsed, o.elapsedMs);
    assert db2.reviews[id := done] == db.reviews + [done];
    db' := Db(db2.reviews[id := done], db2.comments);
    escaped := None;
  }

  /** A failing step hands its exception to the catch block, once the
      database has accepted the rows written before it. */
  lemma CaughtOutcome(db: Db, o: Observed, e: Exn)
    requires FailureOf(o) == Some(e) && !Rejected(o)
    ensures var id := |db.reviews|;
      Outcome(db, o) == Recover(db, Db(db.reviews + [Started(id, o)], db.comments + StoredFor(id, o)), o.pr.id, o.commitSha, e)
  {
    RecoverAfterStart(db, Started(|db.reviews|, o), StoredFor(|db.reviews|, o), o.pr, o.commitSha, e);
  }

  // ---------------------------------------------------------------------
  // Properties of performReview
  // ---------------------------------------------------------------------

  /** An exception escapes, and every write is rolled back, exactly when the
      database refuses a row, or a step failed and an older review of the
      same commit makes the lookup ambiguous. There is no check for such a
      review up front. */
  lemma EscapeIsRollback(db: Db, o: Observed)
    ensures var (db', escaped) := Outcome(db, o);
      && (escaped.Some? <==> Rejected(o) || (FailureOf(o).Some? && ReviewedBefore(db, o.pr, o.commitSha)))
      && (escaped.Some? ==> db' == db)
      && (Rejected(o) ==> escaped == Some(RollbackOnly))
  {
  }

  /** A run that the database accepts keeps every stored row within its
      column widths. */
  lemma RowsStayFitting(db: Db, o: Observed)
    requires RowsFit(db)
    ensures var (db', escaped) := Outcome(db, o);
      escaped.None? ==> RowsFit(db')
  {
  }

  /** A finding whose severity is one character too wide rolls back even
      a run whose every step succeeded. */
  lemma WideSeverityRollsBack(db: Db, o: Observed, i: nat)
    requires |o.commitSha| <= CommitShaWidth && FailureOf(o).None?
    requires o.analysed.Ok? && i < |o.analysed.value.comments|
    requires |o.analysed.value.comments[i].severity| == SeverityWidth + 1
    ensures Outcome(db, o) == (db, Some(RollbackOnly))
  {
  }

  /** Otherwise exactly one review is added, older rows keep their values
      and ids, and stored comments are only ever appended to. */
  lemma {:induction false} OneReviewAdded(db: Db, o: Observed)
    requires ValidDb(db)
    ensures var (db', escaped) := Outcome(db, o);
      escaped.None? ==>
        && ValidDb(db')
        && |db'.reviews| == |db.reviews| + 1
        && db'.reviews[..|db.reviews|] == db.reviews
        && |db.comments| <= |db'.comments|
        && db'.comments[..|db.comments|] == db.comments
  {
  }

  /** The new review ends "completed" or "failed", never "pending" and never
      left "in_progress", and it is completed exactly when every step
      succeeded. */
  lemma TerminalStatus(db: Db, o: Observed)
    ensures var (db', escaped) := Outcome(db, o);
      escaped.None? ==>
        && |db'.reviews| == |db.reviews| + 1
        && var rv := db'.reviews[|db.reviews|];
        && IsFor(rv, o.pr.id, o.commitSha)
        && rv.aiModel == Some(ReviewModel)
        && (rv.status == Completed || rv.status == FailedStatus)
        && (rv.status == Completed <==> FailureOf(o).None?)
  {
  }

  /** A completed review records the analysis: its comments are stored in
      order, their number, the tokens, the severity counts and the elapsed
      time narrowed to an `int`. Completion needs the comments saved and
      both posts returned, and every row accepted by the database. */
  lemma CompletedRecordsAnalysis(db: Db, o: Observed)
    requires FailureOf(o).None?
    ensures o.analysed.Ok? && !PostingFails(o.analysed.value.comments, o.gh) && o.gh.summaryFails.None?
    ensures !Rejected(o) ==> var (db', escaped) := Outcome(db, o);
      var result := o.analysed.value;
      var saved := Stored(|db.reviews|, result.comments);
      && escaped.None?
      && |db'.reviews| == |db.reviews| + 1
      && var rv := db'.reviews[|db.reviews|];
      && db'.comments == db.comments + saved
      && rv.totalComments == |result.comments|
      && rv.tokensUsed == Some(result.tokensUsed)
      && rv.severityCounts == Some(SeverityCounts(saved))
      && rv.processingTimeMs == Some(Json.Int32(o.elapsedMs))
      && rv.errorMessage.None?
  {
  }

  /** A failed review carries the failure's message and no counts. A fetch
      failure stores no comments; a posting failure comes after the
      comments were stored, and they stay, provided the database accepted
      them. */
  lemma FailureKeepsStoredComments(db: Db, o: Observed)
    requires FailureOf(o).Some? && !ReviewedBefore(db, o.pr, o.commitSha)
    ensures !Rejected(o) ==> var (db', escaped) := Outcome(db, o);
      && escaped.None?
      && |db'.reviews| == |db.reviews| + 1
      && var rv := db'.reviews[|db.reviews|];
      && rv.status == FailedStatus && rv.totalComments == 0 && rv.severityCounts.None?
      && rv.errorMessage == FailureOf(o).value.message
      && (o.analysed.Err? ==> db'.comments == db.comments)
      && (o.analysed.Ok? ==> db'.comments == db.comments + Stored(|db.reviews|, o.analysed.value.comments))
  {
  }

  /** Because the analysis absorbs every AI failure, an unconfigured key
      still lets the run complete once the diff is fetched and the summary
      posted: there are no comments, no tokens, and the fixed key-missing
      summary is what GitHub receives. */
  lemma AiFailureStillCompletes(pr: PullRequest, repo: Repository, commitSha: string, env: ReviewEnv)
    requires env.listing.Ok? && env.gh.summaryFails.None?
    requires !ApiKeys.IsConfigured(env.ai.apiKey)
    ensures var o := ObservedBy(pr, repo, commitSha, env);
      && FailureOf(o).None?
      && o.analysed == Ok(Analysis.Failed(Analysis.NotConfiguredMessage))
  {
  }
}

=== FILE: rules.dfy ===
/**
 * `ReviewRuleService`: which stored rules are active for a repository,
 * which of them apply to a file (comma-separated glob lists), how they are
 * rendered into the review prompt, and how rules are created and updated.
 */
module Rules {
  import opened Wrappers
  import opened Text
  import opened Seqs

  /** `ReviewRule`. `None` stands for a null column; the non-null columns
      (name, type, configuration, enabled, priority) are plain values. The
      configuration values are kept as their `toString()` text. */
  datatype Rule = Rule(
    id: int,
    repositoryId: Option<int>,
    name: string,
    description: Option<string>,
    ruleType: string,
    ruleConfig: map<string, string>,
    enabled: bool,
    priority: int,
    targetFiles: Option<string>,
    excludeFiles: Option<string>,
    minSeverity: Option<string>,
    customMessage: Option<string>)

  // ---------------------------------------------------------------------
  // Glob patterns
  // ---------------------------------------------------------------------

  /** A `PathMatcher` applied to a path: `Some(b)` is its verdict, `None`
      stands for the exception thrown by an invalid pattern or path. */
  type Matcher = (string, string) -> Option<bool>

  /** The glob subset modelled here: `**` crosses directories, `*` and `?`
      stay within one path element, everything else is literal. */
  predicate Glob(pattern: string, path: string)
    decreases |pattern|, |path|
  {
    if pattern == [] then path == []
    else if |pattern| >= 2 && pattern[0] == '*' && pattern[1] == '*' then
      Glob(pattern[2..], path) || (path != [] && Glob(pattern, path[1..]))
    else if pattern[0] == '*' then
      Glob(pattern[1..], path) || (path != [] && path[0] != '/' && Glob(pattern, path[1..]))
    else if pattern[0] == '?' then
      path != [] && path[0] != '/' && Glob(pattern[1..], path[1..])
    else
      path != [] && path[0] == pattern[0] && Glob(pattern[1..], path[1..])
  }

  /** Character classes, brace groups and escapes are outside the modelled
      subset, and a NUL character makes `Paths.get` throw. */
  predicate Unsupported(pattern: string, path: string) {
    '[' in pattern || '{' in pattern || '\\' in pattern || '\0' in path
  }

  /** The matcher used for the concrete examples. */
  function SimpleGlob(pattern: string, path: string): Option<bool> {
    if Unsupported(pattern, path) then None else Some(Glob(pattern, path))
  }

  // The pattern of ReviewRuleServiceTest, "**" + "/*.java", matches a Java
  // source file below any directory ("src/main/java/Test.java") ...
  lemma JavaGlobMatchesSources(dirs: string, name: string)
    requires '/' !in name
    ensures Glob("**/*.java", dirs + "/" + name + ".java")
  {
    SlashStarJava(name);
    DoubleStarPrefix("/*.java", dirs, ['/'] + (name + ".java"));
    assert "**" + "/*.java" == "**/*.java";
    assert dirs + "/" + name + ".java" == dirs + (['/'] + (name + ".java"));
  }

  lemma SlashStarJava(name: string)
    requires '/' !in name
    ensures Glob("/*.java", ['/'] + (name + ".java"))
  {
    GlobSelf(".java");
    StarPrefix(".java", name, ".java");
    assert "*" + ".java" == "*.java";
    LiteralPrefix('/', "*.java", name + ".java");
    assert ['/'] + "*.java" == "/*.java";
  }

  // ... and no path that does not end in ".java"
  // ("src/main/resources/config.yml").
  lemma JavaGlobRejectsOthers(path: string)
    requires !EndsWith(path, ".java")
    ensures !Glob("**/*.java", path)
  {
    if Glob("**/*.java", path) {
      GlobSuffix("**/*.java", path, ".java");
    }
  }

  lemma {:induction false} GlobSelf(p: string)
    requires IsLiteral(p)
    ensures Glob(p, p)
    decreases |p|
  {
    if p != [] {
      assert p[0] in p;
      assert IsLiteral(p[1..]) by {
        assert forall c | c in p[1..] :: c in p;
      }
      GlobSelf(p[1..]);
    }
  }

  lemma LiteralPrefix(c: char, rest: string, s: string)
    requires c != '*' && c != '?' && Glob(rest, s)
    ensures Glob([c] + rest, [c] + s)
  {
    assert ([c] + rest)[1..] == rest;
    assert ([c] + s)[1..] == s;
  }

  /** A single star absorbs any run of characters within one path element. */
  lemma {:induction false} StarPrefix(rest: string, name: string, s: string)
    requires rest == [] || rest[0] != '*'
    requires '/' !in name && Glob(rest, s)
    ensures Glob("*" + rest, name + s)
    decreases |name|
  {
    var p := "*" + rest;
    assert p[1..] == rest;
    if name == [] {
      assert name + s == s;
    } else {
      assert name[1..] + s == (name + s)[1..];
      assert '/' !in name[1..] by {
        assert forall c | c in name[1..] :: c in name;
      }
      StarPrefix(rest, name[1..], s);
      assert name[0] in name;
    }
  }

  /** A double star absorbs any run of characters, separators included. */
  lemma {:induction false} DoubleStarPrefix(rest: string, pre: string, s: string)
    requires Glob(rest, s)
    ensures Glob("**" + rest, pre + s)
    decreases |pre|
  {
    var p := "**" + rest;
    assert p[2..] == rest;
    if pre == [] {
      assert pre + s == s;
    } else {
      assert pre[1..] + s == (pre + s)[1..];
      DoubleStarPrefix(rest, pre[1..], s);
    }
  }

  predicate IsLiteral(s: string) {
    '*' !in s && '?' !in s
  }

  /** A pattern without wildcards matches only itself. */
  lemma {:induction false} GlobLiteral(pattern: string, path: string)
    requires IsLiteral(pattern) && Glob(pattern, path)
    ensures path == pattern
    decreases |pattern|
  {
    if pattern != [] {
      assert pattern[0] != '*' && pattern[0] != '?';
      assert IsLiteral(pattern[1..]) by {
        assert forall c | c in pattern[1..] :: c in pattern;
      }
      GlobLiteral(pattern[1..], path[1..]);
      assert path == [path[0]] + path[1..];
      assert pattern == [pattern[0]] + pattern[1..];
    }
  }

  /** A pattern ending in a literal suffix only matches paths ending in it. */
  lemma {:induction false} GlobSuffix(pattern: string, path: string, suffix: string)
    requires IsLiteral(suffix) && EndsWith(pattern, suffix) && Glob(pattern, path)
    ensures EndsWith(path, suffix)
    decreases |pattern|, |path|
  {
    var n := |pattern| - |suffix|;
    if n == 0 {
      assert pattern == suffix by { assert pattern[n..] == suffix; }
      GlobLiteral(pattern, path);
    } else if |pattern| >= 2 && pattern[0] == '*' && pattern[1] == '*' {
      StarBeforeSuffix(pattern, suffix);
      if Glob(pattern[2..], path) {
        EndsWithDrop(pattern, 2, suffix);
        GlobSuffix(pattern[2..], path, suffix);
      } else {
        GlobSuffix(pattern, path[1..], suffix);
        EndsWithCons(path, suffix);
      }
    } else if pattern[0] == '*' {
      if Glob(pattern[1..], path) {
        EndsWithDrop(pattern, 1, suffix);
        GlobSuffix(pattern[1..], path, suffix);
      } else {
        GlobSuffix(pattern, path[1..], suffix);
        EndsWithCons(path, suffix);
      }
    } else {
      EndsWithDrop(pattern, 1, suffix);
      GlobSuffix(pattern[1..], path[1..], suffix);
      EndsWithCons(path, suffix);
    }
  }

  /** A star at index 1 lies before a literal suffix. */
  lemma StarBeforeSuffix(pattern: string, suffix: string)
    requires IsLiteral(suffix) && EndsWith(pattern, suffix)
    requires |pattern| >= 2 && pattern[1] == '*'
    ensures |pattern| - |suffix| >= 2
  {
  }

  /** `matchesPattern(path, patterns)`: the comma-separated patterns are
      trimmed and tried in order; the first match answers true, and an
      exception answers false without trying the rest. */
  function MatchesAny(parts: seq<string>, path: string, m: Matcher): bool {
    if parts == [] then false
    else
      match m(Trim(parts[0]), path)
      case None => false
      case Some(true) => true
      case Some(false) => MatchesAny(parts[1..], path, m)
  }

  function MatchesPattern(path: string, patterns: string, m: Matcher): bool {
    MatchesAny(JavaSplit(patterns, ','), path, m)
  }

  /** Pattern `k` is the first to answer, and it answers with a match. */
  predicate FirstMatchAt(parts: seq<string>, path: string, m: Matcher, k: nat)
    requires k < |parts|
  {
    && m(Trim(parts[k]), path) == Some(true)
    && forall j | 0 <= j < k :: m(Trim(parts[j]), path) == Some(false)
  }

  lemma FirstMatchShift(parts: seq<string>, path: string, m: Matcher, k: nat)
    requires 0 < k < |parts|
    ensures FirstMatchAt(parts, path, m, k) <==>
      m(Trim(parts[0]), path) == Some(false) && FirstMatchAt(parts[1..], path, m, k - 1)
  {
    var rest := parts[1..];
    assert rest[k - 1] == parts[k];
    if m(Trim(parts[0]), path) == Some(false) && FirstMatchAt(rest, path, m, k - 1) {
      forall j | 0 <= j < k
        ensures m(Trim(parts[j]), path) == Some(false)
      {
        if j > 0 { assert parts[j] == rest[j - 1]; }
      }
    }
    if FirstMatchAt(parts, path, m, k) {
      forall j | 0 <= j < k - 1
        ensures m(Trim(rest[j]), path) == Some(false)
      {
        assert rest[j] == parts[j + 1];
      }
    }
  }

  /** A pattern list matches exactly when some pattern matches and every
      pattern before it was tried without error and did not match. */
  lemma {:induction false} MatchesAnySpec(parts: seq<string>, path: string, m: Matcher)
    ensures MatchesAny(parts, path, m) <==> exists k: nat | k < |parts| :: FirstMatchAt(parts, path, m, k)
    decreases |parts|
  {
    if parts != [] {
      var rest := parts[1..];
      MatchesAnySpec(rest, path, m);
      if MatchesAny(parts, path, m) {
        if m(Trim(parts[0]), path) == Some(false) {
          var k: nat :| k < |rest| && FirstMatchAt(rest, path, m, k);
          FirstMatchShift(parts, path, m, k + 1);
        } else {
          match m(Trim(parts[0]), path) {
            case Some(b) => assert b;
          }
          assert FirstMatchAt(parts, path, m, 0);
        }
      }
      if exists k: nat | k < |parts| :: FirstMatchAt(parts, path, m, k) {
        var k: nat :| k < |parts| && FirstMatchAt(parts, path, m, k);
        if k > 0 {
          FirstMatchShift(parts, path, m, k);
        }
      }
    }
  }

  /** The loop of `matchesPattern`, with its early returns. */
  method MatchesPatternLoop(path: string, patterns: string, m: Matcher) returns (matched: bool)
    ensures matched == MatchesPattern(path, patterns, m)
  {
    var parts := JavaSplit(patterns, ',');
    var i := 0;
    while i < |parts|
      invariant 0 <= i <= |parts|
      invariant MatchesAny(parts, path, m) == MatchesAny(parts[i..], path, m)
    {
      assert parts[i..][1..] == parts[i + 1..];
      match m(Trim(parts[i]), path) {
        case None => return false;
        case Some(true) => return true;
        case Some(false) =>
      }
      i := i + 1;
    }
    return false;
  }

  // ---------------------------------------------------------------------
  // Applicability and selection
  // ---------------------------------------------------------------------

  /** A null or empty pattern list does not restrict anything. */
  predicate Restricts(patterns: Option<string>) {
    patterns.Some? && patterns.value != ""
  }

  /** `isRuleApplicableToFile(rule, path)` */
  predicate IsRuleApplicable(rule: Rule, path: string, m: Matcher) {
    && (Restricts(rule.targetFiles) ==> MatchesPattern(path, rule.targetFiles.value, m))
    && (Restricts(rule.excludeFiles) ==> !MatchesPattern(path, rule.excludeFiles.value, m))
  }

  /** A rule without file lists applies everywhere; a path that matches a
      rule's exclusions never gets the rule, whatever its targets say. */
  lemma ApplicabilityCases(rule: Rule, path: string, m: Matcher)
    ensures !Restricts(rule.targetFiles) && !Restricts(rule.excludeFiles) ==> IsRuleApplicable(rule, path, m)
    ensures Restricts(rule.excludeFiles) && MatchesPattern(path, rule.excludeFiles.value, m) ==>
      !IsRuleApplicable(rule, path, m)
    ensures Restricts(rule.targetFiles) && !MatchesPattern(path, rule.targetFiles.value, m) ==>
      !IsRuleApplicable(rule, path, m)
  {
  }

  /** `getApplicableRules(rules, path)`: the applicable rules keep their
      order, and are exactly the input rules that apply to the path. */
  function ApplicableRules(rules: seq<Rule>, path: string, m: Matcher): (r: seq<Rule>)
    ensures |r| <= |rules| && IsSubsequence(r, rules)
    ensures forall x :: x in r <==> x in rules && IsRuleApplicable(x, path, m)
  {
    FilterSpec(rules, rule => IsRuleApplicable(rule, path, m));
    Filter(rules, rule => IsRuleApplicable(rule, path, m))
  }

  /** The stored rules, listed in the order the priority-descending
      queries return them. */
  predicate PriorityOrdered(rules: seq<Rule>) {
    forall i, j | 0 <= i < j < |rules| :: rules[i].priority >= rules[j].priority
  }

  predicate InRepository(rule: Rule, repositoryId: int) {
    rule.repositoryId == Some(repositoryId) && rule.enabled
  }

  predicate IsGlobal(rule: Rule) {
    rule.repositoryId.None? && rule.enabled
  }

  /** `getActiveRulesForRepository(repositoryId)`: the repository's enabled
      rules followed by the enabled global rules. */
  function ActiveRules(store: seq<Rule>, repositoryId: int): seq<Rule> {
    Filter(store, r => InRepository(r, repositoryId)) + Filter(store, IsGlobal)
  }

  lemma {:induction false} FilterKeepsOrder(s: seq<Rule>, keep: Rule -> bool)
    requires PriorityOrdered(s)
    ensures PriorityOrdered(Filter(s, keep))
    decreases |s|
  {
    if s != [] {
      assert PriorityOrdered(s[1..]) by {
        forall i, j | 0 <= i < j < |s[1..]|
          ensures s[1..][i].priority >= s[1..][j].priority
        {
          assert s[1..][i] == s[i + 1] && s[1..][j] == s[j + 1];
        }
      }
      FilterKeepsOrder(s[1..], keep);
      var rest := Filter(s[1..], keep);
      if keep(s[0]) {
        FilterSpec(s[1..], keep);
        forall y | y in rest
          ensures s[0].priority >= y.priority
        {
          var k :| 0 <= k < |s[1..]| && s[1..][k] == y;
          assert s[k + 1] == y;
        }
        OrderedCons(s[0], rest);
      }
    }
  }

  lemma OrderedCons(x: Rule, rest: seq<Rule>)
    requires PriorityOrdered(rest)
    requires forall y | y in rest :: x.priority >= y.priority
    ensures PriorityOrdered([x] + rest)
  {
    var r := [x] + rest;
    forall i, j | 0 <= i < j < |r|
      ensures r[i].priority >= r[j].priority
    {
      assert r[j] == rest[j - 1];
      if i > 0 { assert r[i] == rest[i - 1]; }
    }
  }

  /** Every active rule is an enabled stored rule; the repository's own
      rules come first, the global ones after them; each part keeps the
      priority order of the store. */
  lemma ActiveRulesSpec(store: seq<Rule>, repositoryId: int)
    requires PriorityOrdered(store)
    ensures var own := Filter(store, r => InRepository(r, repositoryId));
      var a := ActiveRules(store, repositoryId);
      && a[..|own|] == own && PriorityOrdered(own)
      && (forall r :: r in own <==> r in store && InRepository(r, repositoryId))
      && a[|own|..] == Filter(store, IsGlobal) && PriorityOrdered(a[|own|..])
      && (forall r :: r in a[|own|..] <==> r in store && IsGlobal(r))
  {
    var own := Filter(store, r => InRepository(r, repositoryId));
    var global := Filter(store, IsGlobal);
    FilterSpec(store, r => InRepository(r, repositoryId));
    FilterSpec(store, IsGlobal);
    FilterKeepsOrder(store, r => InRepository(r, repositoryId));
    FilterKeepsOrder(store, IsGlobal);
    var a := ActiveRules(store, repositoryId);
    assert a[..|own|] == own;
    assert a[|own|..] == global;
  }

  // ---------------------------------------------------------------------
  // Rendering into the prompt
  // ---------------------------------------------------------------------

  const RulesHeader: string := "\n\nAdditional Custom Rules:\n"

  function ConfigText(rule: Rule, key: string): string {
    if key in rule.ruleConfig then rule.ruleConfig[key] else ""
  }

  /** What follows "name: " for each rule type. */
  function RuleBody(rule: Rule): string {
    if rule.ruleType == "custom_prompt" then ConfigText(rule, "prompt")
    else if rule.ruleType == "code_pattern" then "Check for patterns: " + ConfigText(rule, "patterns")
    else ""
  }

  function RuleLine(rule: Rule): string {
    "- " + rule.name + ": " + RuleBody(rule)
    + (match rule.customMessage case Some(msg) => " (" + msg + ")" case None => "")
    + "\n"
  }

  function RuleLines(rules: seq<Rule>): string {
    ConcatMap(RuleLine, rules)
  }

  /** `buildCustomPromptFromRules(rules)` */
  function RenderRules(rules: seq<Rule>): string {
    if rules == [] then "" else RulesHeader + RuleLines(rules)
  }

  /** The rendering is "" only for no rules; otherwise it is the header
      followed by one line per rule, and rendering a longer list only
      appends lines. */
  lemma RenderRulesSpec(a: seq<Rule>, b: seq<Rule>)
    ensures RenderRules(a) == "" <==> a == []
    ensures a != [] ==> RenderRules(a + b) == RenderRules(a) + RuleLines(b)
  {
    ConcatMapAppend(RuleLine, a, b);
    Assoc(RulesHeader, RuleLines(a), RuleLines(b));
  }

  /** The rendered line of each rule type: a custom prompt rule says its
      prompt, a code pattern rule names its patterns, any other type only
      its name; a custom message is appended in parentheses. */
  lemma RuleLineByType(rule: Rule)
    ensures rule.ruleType == "custom_prompt" && "prompt" in rule.ruleConfig && rule.customMessage.None? ==>
      RuleLine(rule) == "- " + rule.name + ": " + rule.ruleConfig["prompt"] + "\n"
    ensures rule.ruleType == "code_pattern" && "patterns" in rule.ruleConfig && rule.customMessage.None? ==>
      RuleLine(rule) == "- " + rule.name + ": Check for patterns: " + rule.ruleConfig["patterns"] + "\n"
    ensures rule.ruleType != "custom_prompt" && rule.ruleType != "code_pattern" ==>
      RuleLine(rule) == "- " + rule.name + ": "
        + (if rule.customMessage.Some? then " (" + rule.customMessage.value + ")" else "") + "\n"
  {
  }

  /** The `StringBuilder` loop of `buildCustomPromptFromRules`. */
  method BuildCustomPrompt(rules: seq<Rule>) returns (text: string)
    ensures text == RenderRules(rules)
  {
    if rules == [] {
      return "";
    }
    text := RulesHeader;
    var i := 0;
    while i < |rules|
      invariant 0 <= i <= |rules|
      invariant text == RulesHeader + RuleLines(rules[..i])
    {
      ConcatMapSnoc(RuleLine, rules, i);
      Assoc(RulesHeader, RuleLines(rules[..i]), RuleLine(rules[i]));
      text := text + RuleLine(rules[i]);
      i := i + 1;
    }
    assert rules[..i] == rules;
  }

  // ---------------------------------------------------------------------
  // Creating and updating rules
  // ---------------------------------------------------------------------

  /** `ReviewRuleDto` as received by create and update; `None` is null. */
  datatype RuleDto = RuleDto(
    id: Option<int>,
    repositoryId: Option<int>,
    name: Option<string>,
    description: Option<string>,
    ruleType: Option<string>,
    ruleConfig: Option<map<string, string>>,
    enabled: Option<bool>,
    priority: Option<int>,
    targetFiles: Option<string>,
    excludeFiles: Option<string>,
    minSeverity: Option<string>,
    customMessage: Option<string>)

  datatype RuleError =
    | NotFound(id: int)           // ResourceNotFoundException("ReviewRule", "id", id)
    | MissingColumn               // a null NOT NULL column rejected by the database
    | ValueTooLong                // a value wider than its column rejected by the database

  /** The declared widths of the `review_rules` text columns: name 200,
      rule_type 50 and min_severity 20 characters. */
  const NameWidth: nat := 200
  const RuleTypeWidth: nat := 50
  const MinSeverityWidth: nat := 20

  /** The database accepts the rule's length-limited columns. */
  predicate RuleFits(rule: Rule) {
    && |rule.name| <= NameWidth
    && |rule.ruleType| <= RuleTypeWidth
    && (rule.minSeverity.Some? ==> |rule.minSeverity.value| <= MinSeverityWidth)
  }

  /** Some non-null field of the DTO is wider than its column. */
  predicate DtoTooLong(dto: RuleDto) {
    || (dto.name.Some? && |dto.name.value| > NameWidth)
    || (dto.ruleType.Some? && |dto.ruleType.value| > RuleTypeWidth)
    || (dto.minSeverity.Some? && |dto.minSeverity.value| > MinSeverityWidth)
  }

  /** `createRule(dto)`: the new rule gets the next id, is global (the
      DTO's repository and id are not copied), and defaults to enabled with
      priority 0. The save is refused for a null required column or a value
      wider than its column, and the transaction then leaves the table as
      it was. */
  function CreateRule(store: map<int, Rule>, nextId: int, dto: RuleDto): (r: Result<(map<int, Rule>, Rule), RuleError>)
    requires nextId !in store
    ensures r.Ok? <==> dto.name.Some? && dto.ruleType.Some? && dto.ruleConfig.Some? && !DtoTooLong(dto)
    ensures r.Err? ==> (r.error == MissingColumn <==> dto.name.None? || dto.ruleType.None? || dto.ruleConfig.None?)
    ensures r.Err? ==> r.error == MissingColumn || r.error == ValueTooLong
    ensures r.Ok? ==> var (store', rule) := r.value;
      && rule.id == nextId && rule.repositoryId.None? && RuleFits(rule)
      && rule.enabled == dto.enabled.GetOr(true) && rule.priority == dto.priority.GetOr(0)
      && store'.Keys == store.Keys + {nextId} && store'[nextId] == rule
      && forall k | k in store :: store'[k] == store[k]
  {
    if dto.name.None? || dto.ruleType.None? || dto.ruleConfig.None? then Err(MissingColumn)
    else if DtoTooLong(dto) then Err(ValueTooLong)
    else
      var rule := Rule(nextId, None, dto.name.value, dto.description, dto.ruleType.value,
                       dto.ruleConfig.value, dto.enabled.GetOr(true), dto.priority.GetOr(0),
                       dto.targetFiles, dto.excludeFiles, dto.minSeverity, dto.customMessage);
      Ok((store[nextId := rule], rule))
  }

  /** The non-null DTO fields replace the stored ones. */
  function Merge(rule: Rule, dto: RuleDto): Rule {
    rule.(
      name := dto.name.GetOr(rule.name),
      description := if dto.description.Some? then dto.description else rule.description,
      ruleType := dto.ruleType.GetOr(rule.ruleType),
      ruleConfig := dto.ruleConfig.GetOr(rule.ruleConfig),
      enabled := dto.enabled.GetOr(rule.enabled),
      priority := dto.priority.GetOr(rule.priority),
      targetFiles := if dto.targetFiles.Some? then dto.targetFiles else rule.targetFiles,
      excludeFiles := if dto.excludeFiles.Some? then dto.excludeFiles else rule.excludeFiles,
      minSeverity := if dto.minSeverity.Some? then dto.minSeverity else rule.minSeverity,
      customMessage := if dto.customMessage.Some? then dto.customMessage else rule.customMessage)
  }

  /** `updateRule(id, dto)`. The merged row is written when the
      transaction commits, and refused when a column is too wide; the
      table then stays as it was. */
  function UpdateRule(store: map<int, Rule>, id: int, dto: RuleDto): (r: Result<map<int, Rule>, RuleError>)
    ensures r.Err? <==> id !in store || !RuleFits(Merge(store[id], dto))
    ensures r.Err? ==> r.error == (if id !in store then NotFound(id) else ValueTooLong)
    ensures id in store && RuleFits(store[id]) ==> (r.Err? <==> DtoTooLong(dto))
    ensures r.Ok? ==> r.value.Keys == store.Keys && RuleFits(r.value[id])
    ensures r.Ok? ==> forall k | k in store && k != id :: r.value[k] == store[k]
  {
    if id !in store then Err(NotFound(id))
    else if !RuleFits(Merge(store[id], dto)) then Err(ValueTooLong)
    else Ok(store[id := Merge(store[id], dto)])
  }

  /** Field by field: a non-null DTO value is taken, a null one keeps the
      stored value; the id and the repository never change. */
  lemma UpdateFieldwise(store: map<int, Rule>, id: int, dto: RuleDto)
    requires id in store
    ensures var old_ := store[id];
      var r := UpdateRule(store, id, dto);
      r.Ok? ==>
      var new_ := r.value[id];
      && new_.id == old_.id && new_.repositoryId == old_.repositoryId
      && new_.name == (if dto.name.Some? then dto.name.value else old_.name)
      && new_.ruleType == (if dto.ruleType.Some? then dto.ruleType.value else old_.ruleType)
      && new_.enabled == (if dto.enabled.Some? then dto.enabled.value else old_.enabled)
      && new_.priority == (if dto.priority.Some? then dto.priority.value else old_.priority)
      && (dto.targetFiles.None? ==> new_.targetFiles == old_.targetFiles)
      && (dto.customMessage.None? ==> new_.customMessage == old_.customMessage)
  {
  }

  /** An all-null DTO changes nothing, and applying the same update twice
      is the same as applying it once. */
  lemma UpdateIdempotent(store: map<int, Rule>, id: int, dto: RuleDto)
    requires id in store
    ensures UpdateRule(store, id, dto).Ok? ==>
      var once := UpdateRule(store, id, dto).value;
      UpdateRule(once, id, dto) == Ok(once)
    ensures (&& dto.name.None? && dto.description.None? && dto.ruleType.None? && dto.ruleConfig.None?
             && dto.enabled.None? && dto.priority.None? && dto.targetFiles.None? && dto.excludeFiles.None?
             && dto.minSeverity.None? && dto.customMessage.None?) ==>
      UpdateRule(store, id, dto) == if RuleFits(store[id]) then Ok(store) else Err(ValueTooLong)
  {
    if UpdateRule(store, id, dto).Ok? {
      var once := UpdateRule(store, id, dto).value;
      assert Merge(once[id], dto) == once[id];
      assert once[id := Merge(once[id], dto)] == once;
    }
    if dto.name.None? && dto.description.None? && dto.ruleType.None? && dto.ruleConfig.None?
      && dto.enabled.None? && dto.priority.None? && dto.targetFiles.None? && dto.excludeFiles.None?
      && dto.minSeverity.None? && dto.customMessage.None? {
      assert Merge(store[id], dto) == store[id];
      assert store[id := store[id]] == store;
    }
  }
}

=== FILE: seqs.dfy ===
/** Order-preserving selection over sequences, shared by the filters of
    the pipeline (diff lines, review rules, comments). */
module Seqs {
  /** `a` can be obtained from `b` by deleting elements. */
  ghost predicate IsSubsequence<T>(a: seq<T>, b: seq<T>)
    decreases |b|
  {
    if a == [] then true
    else if b == [] then false
    else (a[0] == b[0] && IsSubsequence(a[1..], b[1..])) || IsSubsequence(a, b[1..])
  }

  lemma SubsequenceDropHead<T>(a: seq<T>, b: seq<T>)
    requires b != [] && IsSubsequence(a, b[1..])
    ensures IsSubsequence(a, b)
  {
  }

  /** `list.stream().filter(keep).collect(toList())` */
  function Filter<T>(s: seq<T>, keep: T -> bool): (r: seq<T>)
    ensures |r| <= |s|
  {
    if s == [] then [] else (if keep(s[0]) then [s[0]] else []) + Filter(s[1..], keep)
  }

  /** A filter keeps exactly the elements satisfying the test, in order. */
  lemma {:induction false} FilterSpec<T>(s: seq<T>, keep: T -> bool)
    ensures IsSubsequence(Filter(s, keep), s)
    ensures forall x :: x in Filter(s, keep) <==> x in s && keep(x)
    decreases |s|
  {
    if s != [] {
      FilterSpec(s[1..], keep);
      var r := Filter(s, keep);
      var rest := Filter(s[1..], keep);
      if keep(s[0]) {
        assert r == [s[0]] + rest;
        assert r[1..] == rest;
      } else {
        assert r == rest;
        SubsequenceDropHead(rest, s);
      }
      assert s == [s[0]] + s[1..];
    }
  }

  lemma {:induction false} FilterAppend<T>(a: seq<T>, b: seq<T>, keep: T -> bool)
    ensures Filter(a + b, keep) == Filter(a, keep) + Filter(b, keep)
    decreases |a|
  {
    if a == [] {
      assert a + b == b;
    } else {
      var ab := a + b;
      assert ab[0] == a[0] && ab[1..] == a[1..] + b;
      FilterAppend(a[1..], b, keep);
      var h := if keep(a[0]) then [a[0]] else [];
      SeqAssoc(h, Filter(a[1..], keep), Filter(b, keep));
    }
  }

  lemma SeqAssoc<T>(x: seq<T>, y: seq<T>, z: seq<T>)
    ensures x + (y + z) == x + y + z
  {
  }
}

=== FILE: sessions.dfy ===
/**
 * One publishing session against GitLab or Bitbucket, seen only through
 * the reply to each HTTP exchange, numbered from 0 in the order the
 * exchanges are made. What is posted is fixed in advance; the replies
 * decide how many exchanges each post takes and whether an exception
 * escapes the loop.
 */
module Sessions {
  import opened Wrappers
  import opened Exceptions
  import Seqs

  /** The reply to one exchange: a status code, or an exception before
      any response arrived. */
  datatype Reply = Status(code: int) | Unreachable

  /** `getStatusCode().is2xxSuccessful()` */
  predicate Ok2xx(r: Reply) {
    r.Status? && 200 <= r.code < 300
  }

  /** The exchange throws instead of returning: no reply arrived, or the
      reply is a 4xx or 5xx, which `RestTemplate`'s default error handler
      turns into an exception. */
  predicate Throws(r: Reply) {
    r.Unreachable? || 400 <= r.code < 600
  }

  /** The exception the exchange throws: a `ResourceAccessException`
      when no reply arrived, else the client or server error for the
      status. */
  function Thrown(r: Reply): (e: Exn)
    requires Throws(r)
    ensures IsRestClient(e.kind)
    ensures r.Status? ==> (e.kind == HttpClientError(r.code) <==> r.code < 500)
    ensures r.Status? ==> (e.kind == HttpServerError(r.code) <==> 500 <= r.code)
  {
    if r.Unreachable? then Exn(ResourceAccess, None, None)
    else if r.code < 500 then Exn(HttpClientError(r.code), None, None)
    else Exn(HttpServerError(r.code), None, None)
  }

  /** The reply to the `k`-th exchange. */
  type Api = nat -> Reply

  /** One exchange: a general note, a line comment (GitLab anchors it to
      the commit, Bitbucket to nothing), or the general note a failed line
      comment falls back to. */
  datatype Request =
    | Note(body: string)
    | LineNote(body: string, anchor: Option<string>, path: string, line: int)
    | FallbackNote(body: string)

  /** The exchanges made so far, in order, and whether an exception has
      escaped the loop (it is logged and swallowed by the caller). The
      next exchange is number `|sent|`. */
  datatype Trace = Trace(sent: seq<Request>, stopped: bool)

  /** How many exchanges a line comment made at exchange `k` takes. A
      reply that is returned but is not a success falls back to a general
      note; if that note fails too, the catch clause tries the same note
      once more. An exchange that throws goes straight to the catch
      clause's single attempt. No failure escapes. */
  function Attempts(api: Api, k: nat): (n: nat)
    ensures 1 <= n <= 3
    ensures n == 1 <==> Ok2xx(api(k))
    ensures n == 3 <==> !Ok2xx(api(k)) && !Throws(api(k)) && !Ok2xx(api(k + 1))
  {
    if Ok2xx(api(k)) then 1
    else if Throws(api(k)) || Ok2xx(api(k + 1)) then 2
    else 3
  }

  /** `n` copies of `q`. */
  function Copies(q: Request, n: nat): (r: seq<Request>)
    ensures |r| == n
    ensures forall i | 0 <= i < n :: r[i] == q
  {
    if n == 0 then [] else [q] + Copies(q, n - 1)
  }

  /** What is posted for one comment: a line comment with the body of the
      general note it falls back to, or a general note. */
  datatype Item =
    | Placed(body: string, anchor: Option<string>, path: string, line: int, fallbackBody: string)
    | Loose(noteBody: string)

  /** The line comment an item with a line is posted as. */
  function Primary(it: Item): Request
    requires it.Placed?
  {
    LineNote(it.body, it.anchor, it.path, it.line)
  }

  /** The exchanges for one item made from exchange `k` on, and whether a
      failure escapes; only a failed general note escapes. */
  function Segment(api: Api, k: nat, it: Item): (s: Trace)
    ensures 1 <= |s.sent|
    ensures s.stopped ==> it.Loose? && |s.sent| == 1
  {
    match it
    case Placed(_, _, _, _, fallbackBody) =>
      Trace([Primary(it)] + Copies(FallbackNote(fallbackBody), Attempts(api, k) - 1), false)
    case Loose(noteBody) => Trace([Note(noteBody)], !Ok2xx(api(k)))
  }

  /** One pass of the comment loop; nothing happens once a failure has
      escaped. */
  function Step(api: Api, t: Trace, it: Item): Trace {
    if t.stopped then t
    else
      var s := Segment(api, |t.sent|, it);
      Trace(t.sent + s.sent, s.stopped)
  }

  /** The loop run over `items` from the state `t`. */
  function Run(api: Api, t: Trace, items: seq<Item>): Trace
    decreases |items|
  {
    if items == [] then t
    else Step(api, Run(api, t, items[..|items| - 1]), items[|items| - 1])
  }

  /** One pass of the comment loop, as the services write it. */
  method PostItem(api: Api, t: Trace, it: Item) returns (t': Trace)
    requires !t.stopped
    ensures t' == Step(api, t, it)
  {
    var k := |t.sent|;
    match it {
      case Placed(_, _, _, _, fallbackBody) =>
        var fallback := FallbackNote(fallbackBody);
        var sent := [Primary(it)];
        if !Ok2xx(api(k)) {
          sent := sent + [fallback];
          if !Throws(api(k)) && !Ok2xx(api(k + 1)) {
            sent := sent + [fallback];
          }
        }
        assert sent == [Primary(it)] + Copies(fallback, Attempts(api, k) - 1);
        t' := Trace(t.sent + sent, false);
      case Loose(noteBody) =>
        t' := Trace(t.sent + [Note(noteBody)], !Ok2xx(api(k)));
    }
  }

  /** The comment loop, leaving it at the first failure that escapes. */
  method PostItems(api: Api, t0: Trace, items: seq<Item>) returns (t: Trace)
    ensures t == Run(api, t0, items)
  {
    t := t0;
    var i := 0;
    while i < |items| && !t.stopped
      invariant 0 <= i <= |items|
      invariant t == Run(api, t0, items[..i])
    {
      assert items[..i + 1][..i] == items[..i];
      t := PostItem(api, t, items[i]);
      i := i + 1;
    }
    if i < |items| {
      StoppedStays(api, t0, items[..i], items[i..]);
      assert items[..i] + items[i..] == items;
    } else {
      assert items[..i] == items;
    }
  }

  /** Running over `a + b` runs over `a`, then over `b`. */
  lemma {:induction false} RunAppend(api: Api, t: Trace, a: seq<Item>, b: seq<Item>)
    ensures Run(api, t, a + b) == Run(api, Run(api, t, a), b)
    decreases |b|
  {
    if b == [] {
      assert a + b == a;
    } else {
      assert (a + b)[..|a + b| - 1] == a + b[..|b| - 1];
      RunAppend(api, t, a, b[..|b| - 1]);
    }
  }

  /** Once a failure has escaped nothing more is posted. */
  lemma {:induction false} StoppedStays(api: Api, t: Trace, a: seq<Item>, b: seq<Item>)
    requires Run(api, t, a).stopped
    ensures Run(api, t, a + b) == Run(api, t, a)
    decreases |b|
  {
    if b == [] {
      assert a + b == a;
    } else {
      assert (a + b)[..|a + b| - 1] == a + b[..|b| - 1];
      StoppedStays(api, t, a, b[..|b| - 1]);
    }
  }

  /** The trace keeps its promise about stops: it stops only right after
      a general note whose own exchange failed. */
  predicate StopsAtFailedNote(api: Api, t: Trace) {
    t.stopped ==> t.sent != [] && t.sent[|t.sent| - 1].Note? && !Ok2xx(api(|t.sent| - 1))
  }

  /** The loop only appends, and an escape is always a general note whose
      own exchange failed, made last. */
  lemma {:induction false} RunExtends(api: Api, t: Trace, items: seq<Item>)
    requires StopsAtFailedNote(api, t)
    ensures |t.sent| <= |Run(api, t, items).sent|
    ensures Run(api, t, items).sent[..|t.sent|] == t.sent
    ensures StopsAtFailedNote(api, Run(api, t, items))
    decreases |items|
  {
    if items != [] {
      var u := Run(api, t, items[..|items| - 1]);
      RunExtends(api, t, items[..|items| - 1]);
      if !u.stopped {
        var s := Segment(api, |u.sent|, items[|items| - 1]);
        assert (u.sent + s.sent)[..|t.sent|] == u.sent[..|t.sent|];
      }
    }
  }

  predicate IsLineNote(q: Request) {
    q.LineNote?
  }

  /** The line comments the items call for, in order. */
  function LineNotes(items: seq<Item>): seq<Request>
    decreases |items|
  {
    if items == [] then []
    else
      var last := items[|items| - 1];
      LineNotes(items[..|items| - 1]) + (if last.Placed? then [Primary(last)] else [])
  }

  /** Items with lines call for one line comment each. */
  lemma {:induction false} LineNotesOfPlaced(items: seq<Item>)
    requires forall j | 0 <= j < |items| :: items[j].Placed?
    ensures |LineNotes(items)| == |items|
    ensures forall j | 0 <= j < |items| :: LineNotes(items)[j] == Primary(items[j])
    decreases |items|
  {
    if items != [] {
      var init := items[..|items| - 1];
      assert forall j | 0 <= j < |init| :: init[j] == items[j];
      LineNotesOfPlaced(init);
    }
  }

  lemma {:induction false} FallbacksAreNotLineNotes(qs: seq<Request>)
    requires forall i | 0 <= i < |qs| :: qs[i].FallbackNote?
    ensures Seqs.Filter(qs, IsLineNote) == []
    decreases |qs|
  {
    if qs != [] {
      FallbacksAreNotLineNotes(qs[1..]);
    }
  }

  /** The line comments among one item's exchanges. */
  lemma SegmentLineNotes(api: Api, k: nat, it: Item)
    ensures Seqs.Filter(Segment(api, k, it).sent, IsLineNote) == LineNotes([it])
  {
    var s := Segment(api, k, it);
    assert s.sent == [s.sent[0]] + s.sent[1..];
    Seqs.FilterAppend([s.sent[0]], s.sent[1..], IsLineNote);
    if it.Placed? {
      FallbacksAreNotLineNotes(s.sent[1..]);
    }
    assert [it][..0] == [];
  }

  /** Unless a failure escapes, each item's line comment is made exactly
      once, in the order of the items, whatever the replies. */
  lemma {:induction false} RunLineNotes(api: Api, t: Trace, items: seq<Item>)
    requires !Run(api, t, items).stopped
    ensures Seqs.Filter(Run(api, t, items).sent, IsLineNote) == Seqs.Filter(t.sent, IsLineNote) + LineNotes(items)
    decreases |items|
  {
    if items != [] {
      var init := items[..|items| - 1];
      var last := items[|items| - 1];
      var u := Run(api, t, init);
      RunLineNotes(api, t, init);
      var s := Segment(api, |u.sent|, last);
      Seqs.FilterAppend(u.sent, s.sent, IsLineNote);
      SegmentLineNotes(api, |u.sent|, last);
      assert LineNotes([last]) == if last.Placed? then [Primary(last)] else [];
    }
  }

  /** Line comments never escape: items that all have lines run to the
      end. */
  lemma {:induction false} PlacedNeverStop(api: Api, t: Trace, items: seq<Item>)
    requires !t.stopped
    requires forall j | 0 <= j < |items| :: items[j].Placed?
    ensures !Run(api, t, items).stopped
    decreases |items|
  {
    if items != [] {
      PlacedNeverStop(api, t, items[..|items| - 1]);
    }
  }

  /** A run that does not escape makes between one and three exchanges
      per item. */
  lemma {:induction false} ExchangeBounds(api: Api, t: Trace, items: seq<Item>)
    requires !Run(api, t, items).stopped
    ensures |t.sent| + |items| <= |Run(api, t, items).sent| <= |t.sent| + 3 * |items|
    decreases |items|
  {
    if items != [] {
      var init := items[..|items| - 1];
      ExchangeBounds(api, t, init);
    }
  }

  /** The single request an item takes when every reply is a success. */
  function FirstRequest(it: Item): Request {
    match it
    case Placed(_, _, _, _, _) => Primary(it)
    case Loose(noteBody) => Note(noteBody)
  }

  /** When every exchange succeeds each item is one request, and the run
      never escapes. */
  lemma {:induction false} AllAcceptedRun(api: Api, t: Trace, items: seq<Item>)
    requires forall k: nat :: Ok2xx(api(k))
    requires !t.stopped
    ensures !Run(api, t, items).stopped
    ensures |Run(api, t, items).sent| == |t.sent| + |items|
    ensures Run(api, t, items).sent[..|t.sent|] == t.sent
    ensures forall j | 0 <= j < |items| :: Run(api, t, items).sent[|t.sent| + j] == FirstRequest(items[j])
    decreases |items|
  {
    if items != [] {
      var init := items[..|items| - 1];
      AllAcceptedRun(api, t, init);
      var u := Run(api, t, init);
      var r := Run(api, t, items);
      assert Ok2xx(api(|u.sent|));
      assert r.sent == u.sent + [FirstRequest(items[|items| - 1])];
      assert forall j | 0 <= j < |init| :: init[j] == items[j];
    }
  }
}

=== FILE: statistics.dfy ===
/**
 * `StatisticsService`: the dashboard's severity and category
 * distributions, the daily series of reviews, comments and errors, the
 * per-repository totals and the token total. The tables are given; days
 * are day numbers, so `LocalDate.now().minusDays(i)` is `today - i`.
 */
module Statistics {
  import opened Wrappers
  import opened Domain
  import Tally
  import Json
  import Reviews

  // ---------------------------------------------------------------------
  // Distributions
  // ---------------------------------------------------------------------

  /** `calculateSeverityDistribution`: the three levels seeded with zero,
      then one per stored comment at its severity, exactly as a review
      counts its own comments. */
  function SeverityDistribution(comments: seq<Comment>): (d: map<string, int>)
    ensures d.Keys == {"info", "warning", "error"} + (set i | 0 <= i < |comments| :: comments[i].severity)
    ensures forall s :: Tally.Lookup(d, s) == Tally.Occurrences(Reviews.Severities(comments), s)
  {
    Reviews.SeverityCounts(comments)
  }

  function Categories(comments: seq<Comment>): (r: seq<string>)
    ensures |r| == |comments|
    ensures forall i | 0 <= i < |comments| :: r[i] == comments[i].category
  {
    seq(|comments|, i requires 0 <= i < |comments| => comments[i].category)
  }

  /** `calculateCategoryDistribution`: no seed, so only the categories that
      occur are keys, each mapped to its number of comments. */
  function CategoryDistribution(comments: seq<Comment>): (d: map<string, int>)
    ensures d.Keys == set i | 0 <= i < |comments| :: comments[i].category
    ensures forall c :: Tally.Lookup(d, c) == Tally.Occurrences(Categories(comments), c)
  {
    var categories := Categories(comments);
    Tally.CountSpec(map[], categories, []);
    assert (set i | 0 <= i < |categories| :: categories[i]) == (set i | 0 <= i < |comments| :: comments[i].category);
    Tally.MergeAll(map[], Tally.Ones(categories))
  }

  /** Both distributions add up to the number of comments, summed over any
      duplicate-free list of their keys. */
  lemma DistributionsSumToCount(comments: seq<Comment>, ks: seq<string>)
    requires Tally.Distinct(ks)
    ensures Tally.Covers(SeverityDistribution(comments), ks) ==> Tally.SumAt(SeverityDistribution(comments), ks) == |comments|
    ensures Tally.Covers(CategoryDistribution(comments), ks) ==> Tally.SumAt(CategoryDistribution(comments), ks) == |comments|
  {
    Tally.CountSpec(Reviews.SeveritySeed, Reviews.Severities(comments), ks);
    Tally.CountSpec(map[], Categories(comments), ks);
  }

  // ---------------------------------------------------------------------
  // Daily series
  // ---------------------------------------------------------------------

  /** One point of a trend line. */
  datatype DataPoint = DataPoint(date: int, count: int)

  /** The `days` consecutive days ending today, each at zero. */
  function SeedDays(today: int, days: int): (m: map<int, int>)
    ensures forall d :: d in m <==> today - days < d <= today
    ensures forall d | d in m :: m[d] == 0
    decreases days
  {
    if days <= 0 then map[] else SeedDays(today, days - 1)[today - (days - 1) := 0]
  }

  predicate Ascending(points: seq<DataPoint>) {
    forall i, j | 0 <= i < j < |points| :: points[i].date < points[j].date
  }

  function Dates(points: seq<DataPoint>): (r: seq<int>)
    ensures |r| == |points|
    ensures forall i | 0 <= i < |points| :: r[i] == points[i].date
  {
    seq(|points|, i requires 0 <= i < |points| => points[i].date)
  }

  /** The points list exactly the entries of `m`. */
  predicate Lists(points: seq<DataPoint>, m: map<int, int>) {
    && (forall i | 0 <= i < |points| :: points[i].date in m && points[i].count == m[points[i].date])
    && (forall d | d in m :: d in Dates(points))
  }

  lemma DatesCons(q: DataPoint, points: seq<DataPoint>)
    ensures forall d :: d in Dates([q] + points) <==> d == q.date || d in Dates(points)
  {
    assert Dates([q] + points) == [q.date] + Dates(points);
  }

  lemma AscendingCons(q: DataPoint, points: seq<DataPoint>)
    requires Ascending(points)
    requires forall i | 0 <= i < |points| :: q.date < points[i].date
    ensures Ascending([q] + points)
  {
    forall i, j | 0 <= i < j < |[q] + points|
      ensures ([q] + points)[i].date < ([q] + points)[j].date
    {
      assert ([q] + points)[j] == points[j - 1];
      if i > 0 {
        assert ([q] + points)[i] == points[i - 1];
      }
    }
  }

  /** Adds a point to date-sorted points, unless its date is listed
      already. */
  function Insert(points: seq<DataPoint>, p: DataPoint): (r: seq<DataPoint>)
    requires Ascending(points)
    ensures Ascending(r)
    ensures forall d :: d in Dates(r) <==> d in Dates(points) || d == p.date
    ensures forall i | 0 <= i < |r| :: r[i] in points || r[i] == p
    decreases |points|
  {
    if points == [] then
      DatesCons(p, []);
      [p]
    else if p.date < points[0].date then
      DatesCons(p, points);
      AscendingCons(p, points);
      [p] + points
    else if p.date == points[0].date then
      assert Dates(points)[0] == p.date;
      points
    else
      var rest := Insert(points[1..], p);
      InsertHead(points, p, rest);
      [points[0]] + rest
  }

  /** The recursive case of `Insert`: the head stays in front. */
  lemma InsertHead(points: seq<DataPoint>, p: DataPoint, rest: seq<DataPoint>)
    requires Ascending(points) && points != [] && points[0].date < p.date
    requires forall d :: d in Dates(rest) <==> d in Dates(points[1..]) || d == p.date
    requires forall i | 0 <= i < |rest| :: rest[i] in points[1..] || rest[i] == p
    requires Ascending(rest)
    ensures Ascending([points[0]] + rest)
    ensures forall d :: d in Dates([points[0]] + rest) <==> d in Dates(points) || d == p.date
  {
    forall i | 0 <= i < |rest|
      ensures points[0].date < rest[i].date
    {
      if rest[i] != p {
        var j :| 0 <= j < |points[1..]| && points[1..][j] == rest[i];
        assert points[j + 1] == rest[i];
      }
    }
    AscendingCons(points[0], rest);
    DatesCons(points[0], rest);
    DatesCons(points[0], points[1..]);
    assert [points[0]] + points[1..] == points;
  }

  /** The map's entries as points sorted by date: the stream of entries
      sorted with `Comparator.comparing(getDate)`. The keys are enumerated
      by `ks`, which lists each of them at least once. */
  method SortedPoints(m: map<int, int>, ks: seq<int>) returns (points: seq<DataPoint>)
    requires forall i | 0 <= i < |ks| :: ks[i] in m
    requires forall d | d in m :: d in ks
    ensures Ascending(points) && Lists(points, m)
  {
    points := [];
    var n := 0;
    while n < |ks|
      invariant 0 <= n <= |ks|
      invariant Ascending(points)
      invariant forall i | 0 <= i < |points| :: points[i].date in m && points[i].count == m[points[i].date]
      invariant forall d :: d in Dates(points) <==> d in ks[..n]
    {
      assert ks[..n + 1] == ks[..n] + [ks[n]];
      points := Insert(points, DataPoint(ks[n], m[ks[n]]));
      n := n + 1;
    }
    assert ks[..n] == ks;
  }

  function SumCounts(points: seq<DataPoint>): int
    decreases |points|
  {
    if points == [] then 0 else points[0].count + SumCounts(points[1..])
  }

  lemma {:induction false} SumCountsAt(points: seq<DataPoint>, m: map<int, int>)
    requires forall i | 0 <= i < |points| :: points[i].date in m && points[i].count == m[points[i].date]
    ensures SumCounts(points) == Tally.SumAt(m, Dates(points))
    decreases |points|
  {
    if points != [] {
      SumCountsAt(points[1..], m);
      assert Dates(points)[1..] == Dates(points[1..]);
    }
  }

  /** Sorted points listing a map cover its keys exactly once, and their
      counts add up to the map's values. */
  lemma ListedSum(points: seq<DataPoint>, m: map<int, int>)
    requires Ascending(points) && Lists(points, m)
    ensures forall d :: d in Dates(points) <==> d in m
    ensures Tally.Distinct(Dates(points)) && Tally.Covers(m, Dates(points))
    ensures SumCounts(points) == Tally.SumAt(m, Dates(points))
  {
    SumCountsAt(points, m);
  }

  /** Today and the `days - 1` days before it, latest first. */
  function DayList(today: int, days: int): (r: seq<int>)
    ensures forall i | 0 <= i < |r| :: today - days < r[i] <= today
    ensures days > 0 ==> |r| == days
    ensures forall i | 0 <= i < |r| :: r[i] == today - i
  {
    if days <= 0 then [] else seq(days, i requires 0 <= i < days => today - i)
  }

  function EntryKeys(entries: seq<(int, int)>): (r: seq<int>)
    ensures |r| == |entries|
    ensures forall i | 0 <= i < |entries| :: r[i] == entries[i].0
  {
    seq(|entries|, i requires 0 <= i < |entries| => entries[i].0)
  }

  /** A seeded map with `entries` merged in, listed by date: every seeded
      day and every entry's day appears once, in ascending order, with the
      sum of its entries' amounts, and the counts add up to the entries'
      total. */
  method Series(today: int, days: int, entries: seq<(int, int)>) returns (points: seq<DataPoint>)
    ensures Ascending(points)
    ensures forall d :: d in Dates(points) <==> (today - days < d <= today) || d in Tally.KeysOf(entries)
    ensures forall i | 0 <= i < |points| :: points[i].count == Tally.AmountOf(entries, points[i].date)
    ensures SumCounts(points) == Tally.Total(entries)
  {
    var seed := SeedDays(today, days);
    var m := Tally.MergeAll(seed, entries);
    Tally.MergeAllSpec(seed, entries);
    var ks := DayList(today, days) + EntryKeys(entries);
    forall d | d in m
      ensures d in ks
    {
      if d in seed {
        assert DayList(today, days)[today - d] == d;
      } else {
        var i :| 0 <= i < |entries| && entries[i].0 == d;
        assert EntryKeys(entries)[i] == d;
      }
    }
    points := SortedPoints(m, ks);
    ListedSum(points, m);
    SeriesAmounts(seed, entries, points);
    forall i | 0 <= i < |entries|
      ensures entries[i].0 in Dates(points)
    {
      assert entries[i].0 in Tally.KeysOf(entries);
    }
    SeriesTotal(seed, entries, Dates(points));
  }

  /** Each listed day carries the amounts merged into it. */
  lemma SeriesAmounts(seed: map<int, int>, entries: seq<(int, int)>, points: seq<DataPoint>)
    requires forall d | d in seed :: seed[d] == 0
    requires Lists(points, Tally.MergeAll(seed, entries))
    ensures forall i | 0 <= i < |points| :: points[i].count == Tally.AmountOf(entries, points[i].date)
  {
    var m := Tally.MergeAll(seed, entries);
    Tally.MergeAllSpec(seed, entries);
    forall i | 0 <= i < |points|
      ensures points[i].count == Tally.AmountOf(entries, points[i].date)
    {
      assert Tally.Lookup(m, points[i].date) == points[i].count;
      assert Tally.Lookup(seed, points[i].date) == 0;
    }
  }

  /** Summed over the listed days, the counts are the entries' total. */
  lemma SeriesTotal(seed: map<int, int>, entries: seq<(int, int)>, ks: seq<int>)
    requires forall d | d in seed :: seed[d] == 0
    requires forall i | 0 <= i < |entries| :: entries[i].0 in ks
    requires Tally.Distinct(ks)
    ensures Tally.SumAt(Tally.MergeAll(seed, entries), ks) == Tally.Total(entries)
  {
    Tally.SumAtMergeAll(seed, entries, ks);
    assert forall k | k in seed :: seed[k] == 0;
    Tally.SumAtZero(seed, ks);
  }

  function ReviewDays(reviews: seq<Review>): (r: seq<int>)
    ensures |r| == |reviews|
    ensures forall i | 0 <= i < |reviews| :: r[i] == reviews[i].createdDay
  {
    seq(|reviews|, i requires 0 <= i < |reviews| => reviews[i].createdDay)
  }

  /** `calculateDailyReviews`: one per review at its day. */
  method DailyReviews(reviews: seq<Review>, days: int, today: int) returns (points: seq<DataPoint>)
    ensures Ascending(points)
    ensures forall d :: d in Dates(points) <==> (today - days < d <= today) || d in ReviewDays(reviews)
    ensures forall i | 0 <= i < |points| :: points[i].count == Tally.Occurrences(ReviewDays(reviews), points[i].date)
    ensures SumCounts(points) == |reviews|
  {
    var entries := Tally.Ones(ReviewDays(reviews));
    Tally.OnesCount(ReviewDays(reviews));
    points := Series(today, days, entries);
    assert Tally.KeysOf(entries) == set i | 0 <= i < |reviews| :: ReviewDays(reviews)[i];
  }

  /** Each review's day with its number of comments. */
  function CommentEntries(reviews: seq<Review>): (r: seq<(int, int)>)
    ensures |r| == |reviews|
    ensures forall i | 0 <= i < |reviews| :: r[i] == (reviews[i].createdDay, reviews[i].totalComments)
  {
    seq(|reviews|, i requires 0 <= i < |reviews| => (reviews[i].createdDay, reviews[i].totalComments))
  }

  /** `calculateDailyComments`: each review adds its comment count at its
      day, so the series adds up to all the reviews' comments. */
  method DailyComments(reviews: seq<Review>, days: int, today: int) returns (points: seq<DataPoint>)
    ensures Ascending(points)
    ensures forall d :: d in Dates(points) <==> (today - days < d <= today) || d in ReviewDays(reviews)
    ensures forall i | 0 <= i < |points| :: points[i].count == Tally.AmountOf(CommentEntries(reviews), points[i].date)
    ensures SumCounts(points) == Tally.Total(CommentEntries(reviews))
  {
    points := Series(today, days, CommentEntries(reviews));
    forall d
      ensures d in Tally.KeysOf(CommentEntries(reviews)) <==> d in ReviewDays(reviews)
    {
      if d in ReviewDays(reviews) {
        var i :| 0 <= i < |reviews| && ReviewDays(reviews)[i] == d;
        assert CommentEntries(reviews)[i].0 == d;
      }
    }
  }

  /** The error count a review recorded, if its counts exist and have an
      "error" key. */
  function ErrorCount(r: Review): Option<int> {
    if r.severityCounts.Some? && "error" in r.severityCounts.value then Some(r.severityCounts.value["error"]) else None
  }

  /** The day and error count of each review that recorded one, in order. */
  function IssueEntries(reviews: seq<Review>): (r: seq<(int, int)>)
    ensures |r| <= |reviews|
    ensures forall k | 0 <= k < |r| :: exists i | 0 <= i < |reviews| ::
      reviews[i].createdDay == r[k].0 && ErrorCount(reviews[i]) == Some(r[k].1)
    decreases |reviews|
  {
    if reviews == [] then []
    else
      var rest := IssueEntries(reviews[1..]);
      assert forall k | 0 <= k < |rest| :: exists i | 0 <= i < |reviews| ::
        reviews[i].createdDay == rest[k].0 && ErrorCount(reviews[i]) == Some(rest[k].1) by {
        forall k | 0 <= k < |rest|
          ensures exists i | 0 <= i < |reviews| :: reviews[i].createdDay == rest[k].0 && ErrorCount(reviews[i]) == Some(rest[k].1)
        {
          var i :| 0 <= i < |reviews[1..]| && reviews[1..][i].createdDay == rest[k].0 && ErrorCount(reviews[1..][i]) == Some(rest[k].1);
          assert reviews[i + 1] == reviews[1..][i];
        }
      }
      match ErrorCount(reviews[0])
      case Some(n) => [(reviews[0].createdDay, n)] + rest
      case None => rest
  }

  /** A review without recorded error counts (a failed or unfinished one,
      or one whose counts lack the key) leaves the issue series as it is. */
  lemma {:induction false} IssuesIgnoreUncounted(a: seq<Review>, r: Review, b: seq<Review>)
    requires ErrorCount(r).None?
    ensures IssueEntries(a + [r] + b) == IssueEntries(a + b)
    decreases |a|
  {
    if a == [] {
      assert (a + [r] + b)[1..] == b;
      assert a + b == b;
    } else {
      assert (a + [r] + b)[1..] == a[1..] + [r] + b;
      assert (a + b)[1..] == a[1..] + b;
      IssuesIgnoreUncounted(a[1..], r, b);
    }
  }

  /** `calculateDailyIssues`: each review adds its recorded error count at
      its day. */
  method DailyIssues(reviews: seq<Review>, days: int, today: int) returns (points: seq<DataPoint>)
    ensures Ascending(points)
    ensures forall d :: d in Dates(points) <==> (today - days < d <= today) || d in Tally.KeysOf(IssueEntries(reviews))
    ensures forall i | 0 <= i < |points| :: points[i].count == Tally.AmountOf(IssueEntries(reviews), points[i].date)
    ensures SumCounts(points) == Tally.Total(IssueEntries(reviews))
  {
    points := Series(today, days, IssueEntries(reviews));
  }

  // ---------------------------------------------------------------------
  // Totals
  // ---------------------------------------------------------------------

  /** The sum of `w` over the reviews. */
  function SumOf(reviews: seq<Review>, w: Review -> int): int
    decreases |reviews|
  {
    if reviews == [] then 0 else w(reviews[0]) + SumOf(reviews[1..], w)
  }

  lemma {:induction false} SumOfAppend(a: seq<Review>, b: seq<Review>, w: Review -> int)
    ensures SumOf(a + b, w) == SumOf(a, w) + SumOf(b, w)
    decreases |a|
  {
    if a == [] {
      assert a + b == b;
    } else {
      assert (a + b)[1..] == a[1..] + b;
      SumOfAppend(a[1..], b, w);
    }
  }

  function One(r: Review): int { 1 }

  function CommentsOf(r: Review): int { r.totalComments }

  /** The tokens a completed review recorded; nothing for the others. */
  function TokensOf(r: Review): int {
    if r.status == Completed && r.tokensUsed.Some? then r.tokensUsed.value else 0
  }

  /** `totalTokensUsed`: the `int` sum over completed reviews that recorded
      tokens, wrapping around like Java's `IntStream.sum`. */
  function TotalTokensUsed(reviews: seq<Review>): (t: int)
    ensures -0x8000_0000 <= t < 0x8000_0000
    ensures (t - SumOf(reviews, TokensOf)) % 0x1_0000_0000 == 0
  {
    Json.Int32(SumOf(reviews, TokensOf))
  }

  /** Reviews that are not completed, or recorded no tokens, do not count. */
  lemma TokensSkipUnfinished(a: seq<Review>, r: Review, b: seq<Review>)
    requires r.status != Completed || r.tokensUsed.None?
    ensures TotalTokensUsed(a + [r] + b) == TotalTokensUsed(a + b)
  {
    SumOfAppend(a + [r], b, TokensOf);
    SumOfAppend(a, [r], TokensOf);
    SumOfAppend(a, b, TokensOf);
  }

  /** The dashboard totals that do not involve averages. */
  datatype OverallStats = OverallStats(
    totalRepositories: int,
    totalPullRequests: int,
    totalReviews: int,
    totalComments: int,
    totalTokensUsed: int)

  function OverallOf(repositories: seq<Repository>, prs: seq<PullRequest>, db: Db): (s: OverallStats)
    ensures s.totalReviews == |db.reviews| && s.totalComments == |db.comments|
    ensures s.totalRepositories == |repositories| && s.totalPullRequests == |prs|
    ensures -0x8000_0000 <= s.totalTokensUsed < 0x8000_0000
    ensures (s.totalTokensUsed - SumOf(db.reviews, TokensOf)) % 0x1_0000_0000 == 0
  {
    OverallStats(|repositories|, |prs|, |db.reviews|, |db.comments|, TotalTokensUsed(db.reviews))
  }

  // ---------------------------------------------------------------------
  // Per-repository totals
  // ---------------------------------------------------------------------

  /** `findByPullRequestId`: the reviews of one pull request, in table
      order. */
  function PrReviews(reviews: seq<Review>, prId: nat): seq<Review>
    decreases |reviews|
  {
    if reviews == [] then []
    else (if reviews[0].pullRequestId == prId then [reviews[0]] else []) + PrReviews(reviews[1..], prId)
  }

  /** The reviews of every pull request of the repository, pull request by
      pull request. */
  function RepoReviews(prs: seq<PullRequest>, reviews: seq<Review>, repoId: nat): seq<Review>
    decreases |prs|
  {
    if prs == [] then []
    else (if prs[0].repositoryId == repoId then PrReviews(reviews, prs[0].id) else []) + RepoReviews(prs[1..], reviews, repoId)
  }

  datatype RepoStats = RepoStats(totalReviews: int, totalComments: int)

  /** `calculateRepositoryStats`: how many reviews, and the `int` sum of
      their comment counts. */
  function RepositoryStats(prs: seq<PullRequest>, reviews: seq<Review>, repoId: nat): RepoStats {
    var rs := RepoReviews(prs, reviews, repoId);
    RepoStats(|rs|, Json.Int32(SumOf(rs, CommentsOf)))
  }

  /** The ids of the repository's pull requests. */
  function PrIdsOf(prs: seq<PullRequest>, repoId: nat): set<nat> {
    set i | 0 <= i < |prs| && prs[i].repositoryId == repoId :: prs[i].id
  }

  /** The sum of `w` over the reviews whose pull request is in `ids`. */
  function SumIn(reviews: seq<Review>, ids: set<nat>, w: Review -> int): int
    decreases |reviews|
  {
    if reviews == [] then 0
    else (if reviews[0].pullRequestId in ids then w(reviews[0]) else 0) + SumIn(reviews[1..], ids, w)
  }

  lemma {:induction false} PrReviewsSum(reviews: seq<Review>, prId: nat, w: Review -> int)
    ensures SumOf(PrReviews(reviews, prId), w) == SumIn(reviews, {prId}, w)
    decreases |reviews|
  {
    if reviews != [] {
      PrReviewsSum(reviews[1..], prId, w);
      var head := if reviews[0].pullRequestId == prId then [reviews[0]] else [];
      SumOfAppend(head, PrReviews(reviews[1..], prId), w);
    }
  }

  lemma {:induction false} SumInUnion(reviews: seq<Review>, a: nat, ids: set<nat>, w: Review -> int)
    requires a !in ids
    ensures SumIn(reviews, {a} + ids, w) == SumIn(reviews, {a}, w) + SumIn(reviews, ids, w)
    decreases |reviews|
  {
    if reviews != [] {
      SumInUnion(reviews[1..], a, ids, w);
    }
  }

  predicate DistinctIds(prs: seq<PullRequest>) {
    forall i, j | 0 <= i < j < |prs| :: prs[i].id != prs[j].id
  }

  /** With distinct pull request ids, a repository's totals count each
      review of its pull requests exactly once: the sum over the
      flattened per-PR lists equals the sum over the review table
      restricted to those pull requests. */
  lemma {:induction false} RepoReviewsSum(prs: seq<PullRequest>, reviews: seq<Review>, repoId: nat, w: Review -> int)
    requires DistinctIds(prs)
    ensures SumOf(RepoReviews(prs, reviews, repoId), w) == SumIn(reviews, PrIdsOf(prs, repoId), w)
    decreases |prs|
  {
    if prs == [] {
      assert PrIdsOf(prs, repoId) == {};
      SumInEmpty(reviews, w);
    } else {
      var p := prs[0];
      var rest := prs[1..];
      assert DistinctIds(rest) by {
        forall i, j | 0 <= i < j < |rest|
          ensures rest[i].id != rest[j].id
        {
          assert rest[i] == prs[i + 1] && rest[j] == prs[j + 1];
        }
      }
      RepoReviewsSum(rest, reviews, repoId, w);
      var head := if p.repositoryId == repoId then PrReviews(reviews, p.id) else [];
      SumOfAppend(head, RepoReviews(rest, reviews, repoId), w);
      if p.repositoryId == repoId {
        forall i | 0 <= i < |rest|
          ensures rest[i].id != p.id
        {
          assert rest[i] == prs[i + 1];
        }
        assert p.id !in PrIdsOf(rest, repoId);
        assert PrIdsOf(prs, repoId) == {p.id} + PrIdsOf(rest, repoId) by {
          forall x | x in PrIdsOf(prs, repoId)
            ensures x in {p.id} + PrIdsOf(rest, repoId)
          {
            var i :| 0 <= i < |prs| && prs[i].repositoryId == repoId && prs[i].id == x;
            if i > 0 { assert rest[i - 1] == prs[i]; }
          }
          forall x | x in PrIdsOf(rest, repoId)
            ensures x in PrIdsOf(prs, repoId)
          {
            var i :| 0 <= i < |rest| && rest[i].repositoryId == repoId && rest[i].id == x;
            assert prs[i + 1] == rest[i];
          }
        }
        PrReviewsSum(reviews, p.id, w);
        SumInUnion(reviews, p.id, PrIdsOf(rest, repoId), w);
      } else {
        assert PrIdsOf(prs, repoId) == PrIdsOf(rest, repoId) by {
          forall x | x in PrIdsOf(prs, repoId)
            ensures x in PrIdsOf(rest, repoId)
          {
            var i :| 0 <= i < |prs| && prs[i].repositoryId == repoId && prs[i].id == x;
            assert i > 0;
            assert rest[i - 1] == prs[i];
          }
          forall x | x in PrIdsOf(rest, repoId)
            ensures x in PrIdsOf(prs, repoId)
          {
            var i :| 0 <= i < |rest| && rest[i].repositoryId == repoId && rest[i].id == x;
            assert prs[i + 1] == rest[i];
          }
        }
      }
    }
  }

  lemma {:induction false} SumInEmpty(reviews: seq<Review>, w: Review -> int)
    ensures SumIn(reviews, {}, w) == 0
    decreases |reviews|
  {
    if reviews != [] {
      SumInEmpty(reviews[1..], w);
    }
  }

  lemma {:induction false} SumOfOnes(reviews: seq<Review>)
    ensures SumOf(reviews, One) == |reviews|
    decreases |reviews|
  {
    if reviews != [] {
      SumOfOnes(reviews[1..]);
    }
  }

  /** A repository's review count is the number of reviews of its pull
      requests, and its comment total is (modulo 2^32) the sum of their
      comment counts. */
  lemma RepositoryStatsSpec(prs: seq<PullRequest>, reviews: seq<Review>, repoId: nat)
    requires DistinctIds(prs)
    ensures RepositoryStats(prs, reviews, repoId).totalReviews == SumIn(reviews, PrIdsOf(prs, repoId), One)
    ensures (RepositoryStats(prs, reviews, repoId).totalComments - SumIn(reviews, PrIdsOf(prs, repoId), CommentsOf))
            % 0x1_0000_0000 == 0
  {
    var rs := RepoReviews(prs, reviews, repoId);
    SumOfOnes(rs);
    RepoReviewsSum(prs, reviews, repoId, One);
    RepoReviewsSum(prs, reviews, repoId, CommentsOf);
  }
}

=== FILE: tally.dfy ===
/**
 * Counting into a `HashMap` with `merge(key, amount, Integer::sum)`: the
 * severity counts of a review, the severity and category distributions
 * and the daily series of the statistics all build their maps this way.
 */
module Tally {
  /** `m.getOrDefault(k, 0)` */
  function Lookup<K(==,!new)>(m: map<K, int>, k: K): int {
    if k in m then m[k] else 0
  }

  /** `m.merge(k, v, Integer::sum)`: a new key starts at `v`, an existing
      one grows by `v`. */
  function Merge<K(==,!new)>(m: map<K, int>, k: K, v: int): (r: map<K, int>)
    ensures r.Keys == m.Keys + {k}
    ensures Lookup(r, k) == Lookup(m, k) + v
    ensures forall j | j != k :: Lookup(r, j) == Lookup(m, j)
  {
    m[k := Lookup(m, k) + v]
  }

  /** The entries merged one after the other, starting from `m`. */
  function MergeAll<K(==,!new)>(m: map<K, int>, entries: seq<(K, int)>): map<K, int>
    decreases |entries|
  {
    if entries == [] then m else MergeAll(Merge(m, entries[0].0, entries[0].1), entries[1..])
  }

  /** The keys the entries name. */
  function KeysOf<K(==,!new)>(entries: seq<(K, int)>): set<K> {
    set i | 0 <= i < |entries| :: entries[i].0
  }

  /** The summed amount of the entries for key `k`. */
  function AmountOf<K(==,!new)>(entries: seq<(K, int)>, k: K): int
    decreases |entries|
  {
    if entries == [] then 0
    else (if entries[0].0 == k then entries[0].1 else 0) + AmountOf(entries[1..], k)
  }

  function Total<K(==,!new)>(entries: seq<(K, int)>): int
    decreases |entries|
  {
    if entries == [] then 0 else entries[0].1 + Total(entries[1..])
  }

  /** Merging all entries adds their keys to the map and, at every key, the
      amounts of the entries for that key. */
  lemma {:induction false} MergeAllSpec<K(!new)>(m: map<K, int>, entries: seq<(K, int)>)
    ensures MergeAll(m, entries).Keys == m.Keys + KeysOf(entries)
    ensures forall k :: k in MergeAll(m, entries) <==> k in m || k in KeysOf(entries)
    ensures forall k :: Lookup(MergeAll(m, entries), k) == Lookup(m, k) + AmountOf(entries, k)
    decreases |entries|
  {
    if entries != [] {
      var m' := Merge(m, entries[0].0, entries[0].1);
      MergeAllSpec(m', entries[1..]);
      assert KeysOf(entries) == {entries[0].0} + KeysOf(entries[1..]) by {
        forall x | x in KeysOf(entries)
          ensures x in {entries[0].0} + KeysOf(entries[1..])
        {
          var i :| 0 <= i < |entries| && entries[i].0 == x;
          if i > 0 { assert entries[1..][i - 1] == entries[i]; }
        }
        forall x | x in KeysOf(entries[1..])
          ensures x in KeysOf(entries)
        {
          var i :| 0 <= i < |entries[1..]| && entries[1..][i].0 == x;
          assert entries[i + 1] == entries[1..][i];
        }
      }
    }
  }

  /** The sum of the map's values at the listed keys. */
  function SumAt<K(==,!new)>(m: map<K, int>, ks: seq<K>): int
    decreases |ks|
  {
    if ks == [] then 0 else Lookup(m, ks[0]) + SumAt(m, ks[1..])
  }

  /** Every key of `m` is listed in `ks`. */
  predicate Covers<K(==,!new)>(m: map<K, int>, ks: seq<K>) {
    forall k | k in m :: k in ks
  }

  predicate Distinct<K(==,!new)>(ks: seq<K>) {
    forall i, j | 0 <= i < j < |ks| :: ks[i] != ks[j]
  }

  lemma {:induction false} SumAtMerge<K(!new)>(m: map<K, int>, k: K, v: int, ks: seq<K>)
    requires Distinct(ks)
    ensures SumAt(Merge(m, k, v), ks) == SumAt(m, ks) + (if k in ks then v else 0)
    decreases |ks|
  {
    if ks != [] {
      assert Distinct(ks[1..]) by {
        forall i, j | 0 <= i < j < |ks[1..]|
          ensures ks[1..][i] != ks[1..][j]
        {
          assert ks[1..][i] == ks[i + 1] && ks[1..][j] == ks[j + 1];
        }
      }
      SumAtMerge(m, k, v, ks[1..]);
      if ks[0] == k {
        assert k !in ks[1..] by {
          forall i | 0 <= i < |ks[1..]|
            ensures ks[1..][i] != k
          {
            assert ks[1..][i] == ks[i + 1];
          }
        }
      } else {
        assert k in ks <==> k in ks[1..] by {
          assert ks == [ks[0]] + ks[1..];
        }
      }
    }
  }

  /** Summed over any duplicate-free list of keys that covers the entries,
      merging adds exactly the total of the entries. */
  lemma {:induction false} SumAtMergeAll<K(!new)>(m: map<K, int>, entries: seq<(K, int)>, ks: seq<K>)
    requires Distinct(ks)
    requires forall i | 0 <= i < |entries| :: entries[i].0 in ks
    ensures SumAt(MergeAll(m, entries), ks) == SumAt(m, ks) + Total(entries)
    decreases |entries|
  {
    if entries != [] {
      var m' := Merge(m, entries[0].0, entries[0].1);
      SumAtMerge(m, entries[0].0, entries[0].1, ks);
      assert forall i | 0 <= i < |entries[1..]| :: entries[1..][i] == entries[i + 1];
      SumAtMergeAll(m', entries[1..], ks);
    }
  }

  lemma {:induction false} SumAtZero<K(!new)>(m: map<K, int>, ks: seq<K>)
    requires forall k | k in m :: m[k] == 0
    ensures SumAt(m, ks) == 0
    decreases |ks|
  {
    if ks != [] {
      SumAtZero(m, ks[1..]);
    }
  }

  // ---------------------------------------------------------------------
  // Counting occurrences
  // ---------------------------------------------------------------------

  /** One entry of amount 1 per key: counting occurrences. */
  function Ones<K(==,!new)>(keys: seq<K>): (r: seq<(K, int)>)
    ensures |r| == |keys|
    ensures forall i | 0 <= i < |keys| :: r[i] == (keys[i], 1)
  {
    seq(|keys|, i requires 0 <= i < |keys| => (keys[i], 1))
  }

  /** The number of occurrences of `k` in `keys`. */
  function Occurrences<K(==,!new)>(keys: seq<K>, k: K): nat
    decreases |keys|
  {
    if keys == [] then 0 else (if keys[0] == k then 1 else 0) + Occurrences(keys[1..], k)
  }

  lemma {:induction false} OnesCount<K(!new)>(keys: seq<K>)
    ensures Total(Ones(keys)) == |keys|
    ensures forall k :: AmountOf(Ones(keys), k) == Occurrences(keys, k)
    ensures KeysOf(Ones(keys)) == set i | 0 <= i < |keys| :: keys[i]
    decreases |keys|
  {
    if keys != [] {
      OnesCount(keys[1..]);
      assert Ones(keys)[1..] == Ones(keys[1..]);
    }
  }

  /** The counts of a tally seeded with zeros: the seeded keys and the
      counted ones are present, every value is the number of occurrences,
      and over any duplicate-free list of all its keys the values sum to
      the number of counted items. */
  lemma CountSpec<K(!new)>(seed: map<K, int>, keys: seq<K>, ks: seq<K>)
    requires forall k | k in seed :: seed[k] == 0
    ensures var counts := MergeAll(seed, Ones(keys));
      && counts.Keys == seed.Keys + (set i | 0 <= i < |keys| :: keys[i])
      && (forall k :: Lookup(counts, k) == Occurrences(keys, k))
      && (Distinct(ks) && Covers(counts, ks) ==> SumAt(counts, ks) == |keys|)
  {
    var counts := MergeAll(seed, Ones(keys));
    MergeAllSpec(seed, Ones(keys));
    OnesCount(keys);
    if Distinct(ks) && Covers(counts, ks) {
      forall i | 0 <= i < |Ones(keys)|
        ensures Ones(keys)[i].0 in ks
      {
        assert Ones(keys)[i].0 in KeysOf(Ones(keys));
        assert Ones(keys)[i].0 in counts.Keys;
      }
      SumAtMergeAll(seed, Ones(keys), ks);
      SumAtZero(seed, ks);
    }
  }
}

=== FILE: text.dfy ===
/** The small slice of `java.lang.String` (and of JavaScript string
    formatting) that the review pipeline relies on, written over `seq<char>`.
    Case mapping is restricted to ASCII letters. */
module Text {
  import opened Wrappers

  // ---------------------------------------------------------------------
  // Prefixes, suffixes and occurrences
  // ---------------------------------------------------------------------

  /** `s.startsWith(p)` */
  predicate StartsWith(s: string, p: string) {
    p == [] || (s != [] && s[0] == p[0] && StartsWith(s[1..], p[1..]))
  }

  lemma {:induction false} StartsWithSlice(s: string, p: string)
    ensures StartsWith(s, p) <==> |p| <= |s| && s[..|p|] == p
  {
    if p != [] && s != [] {
      StartsWithSlice(s[1..], p[1..]);
      if |p| <= |s| && s[..|p|] == p {
        assert s[1..][..|p| - 1] == p[1..];
      }
      if StartsWith(s, p) {
        assert s[..|p|] == [s[0]] + s[1..][..|p| - 1];
      }
    }
  }

  /** `s.endsWith(p)` */
  predicate EndsWith(s: string, p: string) {
    |p| <= |s| && s[|s| - |p|..] == p
  }

  /** `p` occurs in `s` starting at index `i`. */
  predicate OccursAt(s: string, p: string, i: nat) {
    i + |p| <= |s| && s[i..i + |p|] == p
  }

  /** `s.contains(p)` */
  predicate Contains(s: string, p: string) {
    exists i: nat | i <= |s| :: OccursAt(s, p, i)
  }

  /** First occurrence of `p` at or after `from`. */
  function IndexOfFrom(s: string, p: string, from: nat): (r: Option<nat>)
    ensures r.Some? ==> from <= r.value && OccursAt(s, p, r.value)
    ensures r.Some? ==> forall j: nat :: from <= j < r.value ==> !OccursAt(s, p, j)
    ensures r.None? ==> forall j: nat :: from <= j ==> !OccursAt(s, p, j)
    decreases |s| - from
  {
    if from + |p| > |s| then None
    else if OccursAt(s, p, from) then Some(from)
    else IndexOfFrom(s, p, from + 1)
  }

  /** `s.indexOf(p)`, with `None` for Java's -1. */
  function IndexOf(s: string, p: string): (r: Option<nat>)
    ensures r.Some? <==> Contains(s, p)
    ensures r.Some? ==> OccursAt(s, p, r.value)
    ensures r.Some? ==> forall j: nat :: j < r.value ==> !OccursAt(s, p, j)
  {
    var r := IndexOfFrom(s, p, 0);
    if r.Some? then assert OccursAt(s, p, r.value) && r.value <= |s|; r else r
  }

  /** Last occurrence of `p` strictly before index `n`. */
  function LastBefore(s: string, p: string, n: nat): (r: Option<nat>)
    ensures r.Some? ==> r.value < n && OccursAt(s, p, r.value)
    ensures r.Some? ==> forall j: nat :: r.value < j < n ==> !OccursAt(s, p, j)
    ensures r.None? ==> forall j: nat :: j < n ==> !OccursAt(s, p, j)
  {
    if n == 0 then None
    else if OccursAt(s, p, n - 1) then Some(n - 1)
    else LastBefore(s, p, n - 1)
  }

  /** `s.lastIndexOf(p)`, with `None` for Java's -1. */
  function LastIndexOf(s: string, p: string): (r: Option<nat>)
    ensures r.Some? <==> Contains(s, p)
    ensures r.Some? ==> OccursAt(s, p, r.value)
    ensures r.Some? ==> forall j: nat :: r.value < j ==> !OccursAt(s, p, j)
  {
    var r := LastBefore(s, p, |s| + 1);
    if r.Some? then r
    else
      assert forall j: nat :: j <= |s| ==> !OccursAt(s, p, j);
      r
  }

  lemma OccursAtContains(s: string, p: string, i: nat)
    requires OccursAt(s, p, i)
    ensures Contains(s, p)
  {
  }

  /** Whatever occurs inside `b` occurs inside `a + b + c`. */
  lemma ContainsInfix(a: string, b: string, c: string, p: string)
    requires Contains(b, p)
    ensures Contains(a + b + c, p)
  {
    var i: nat :| i <= |b| && OccursAt(b, p, i);
    assert (a + b + c)[|a| + i..|a| + i + |p|] == b[i..i + |p|];
    assert OccursAt(a + b + c, p, |a| + i);
  }

  lemma ContainsSelf(a: string, b: string, c: string)
    ensures Contains(a + b + c, b)
  {
    assert OccursAt(b, b, 0);
    ContainsInfix(a, b, c, b);
  }

  lemma ContainsHead(a: string, b: string)
    ensures Contains(a + b, a)
  {
    assert (a + b)[..|a|] == a;
    assert OccursAt(a + b, a, 0);
  }

  lemma ContainsTail(a: string, b: string)
    ensures Contains(a + b, b)
  {
    assert (a + b)[|a|..|a| + |b|] == b;
    assert OccursAt(a + b, b, |a|);
  }

  /** Occurrence is transitive: what occurs in an occurring pattern occurs
      in the text. */
  lemma ContainsWithin(s: string, p: string, q: string)
    requires Contains(s, p) && Contains(p, q)
    ensures Contains(s, q)
  {
    var i: nat :| i <= |s| && OccursAt(s, p, i);
    var j: nat :| j <= |p| && OccursAt(p, q, j);
    forall t | 0 <= t < |q|
      ensures s[i + j + t] == q[t]
    {
      assert s[i..i + |p|][j + t] == p[j + t];
      assert p[j..j + |q|][t] == q[t];
    }
    assert s[i + j..i + j + |q|] == q;
    assert OccursAt(s, q, i + j);
  }

  /** Any character of an occurring pattern is a character of the text. */
  lemma ContainsChar(s: string, p: string, x: char)
    requires Contains(s, p) && x in p
    ensures x in s
  {
    var i: nat :| i <= |s| && OccursAt(s, p, i);
    var k :| 0 <= k < |p| && p[k] == x;
    assert s[i + k] == x;
  }

  lemma StartsWithConcat(a: string, b: string)
    ensures StartsWith(a + b, a)
  {
    assert (a + b)[..|a|] == a;
    StartsWithSlice(a + b, a);
  }

  /** A prefix of a prefix is a prefix. */
  lemma StartsWithChain(a: string, b: string, c: string)
    ensures StartsWith(a + b + c, a)
  {
    assert a + b + c == a + (b + c);
    StartsWithConcat(a, b + c);
  }

  lemma EndsWithConcat(a: string, b: string)
    ensures EndsWith(a + b, b)
  {
    assert (a + b)[|a + b| - |b|..] == b;
  }

  /** The three parts of `a + b + c` can be read back by position. */
  lemma Framed(a: string, b: string, c: string)
    ensures StartsWith(a + b + c, a)
    ensures (a + b + c)[|a|..|a| + |b|] == b
    ensures EndsWith(a + b + c, c)
  {
    assert a + b + c == a + (b + c);
    StartsWithConcat(a, b + c);
    EndsWithConcat(a + b, c);
  }

  /** Dropping a head shorter than the part before the suffix keeps it. */
  lemma EndsWithDrop(s: string, k: nat, p: string)
    requires EndsWith(s, p) && k + |p| <= |s|
    ensures EndsWith(s[k..], p)
  {
    assert s[k..][|s[k..]| - |p|..] == s[|s| - |p|..];
  }

  /** A suffix of the tail is a suffix of the whole. */
  lemma EndsWithCons(s: string, p: string)
    requires s != [] && EndsWith(s[1..], p)
    ensures EndsWith(s, p)
  {
    assert s[1..][|s| - 1 - |p|..] == s[|s| - |p|..];
  }

  // ---------------------------------------------------------------------
  // Whitespace
  // ---------------------------------------------------------------------

  /** `Character.isWhitespace`: the ASCII controls TAB..CR and FS..US, the
      space, and the Unicode space/line/paragraph separators other than the
      three no-break spaces. */
  predicate IsJavaWhitespace(c: char) {
    || c == ' ' || ('\t' <= c <= '\r') || ('\U{1C}' <= c <= '\U{1F}')
    || c == '\U{1680}' || ('\U{2000}' <= c <= '\U{2006}') || ('\U{2008}' <= c <= '\U{200A}')
    || c == '\U{2028}' || c == '\U{2029}' || c == '\U{205F}' || c == '\U{3000}'
  }

  /** Spring's `StringUtils.hasText`: some character is not whitespace. */
  predicate HasText(s: string) {
    exists i | 0 <= i < |s| :: !IsJavaWhitespace(s[i])
  }

  /** `String.trim` removes every leading and trailing char `<= U+0020`. */
  predicate IsTrimChar(c: char) {
    c <= ' '
  }

  function TrimLeft(s: string): (r: string)
    ensures |r| <= |s|
  {
    if |s| > 0 && IsTrimChar(s[0]) then TrimLeft(s[1..]) else s
  }

  function TrimRight(s: string): (r: string)
    ensures |r| <= |s|
  {
    if |s| > 0 && IsTrimChar(s[|s| - 1]) then TrimRight(s[..|s| - 1]) else s
  }

  /** `s.trim()` */
  function Trim(s: string): (r: string)
    ensures |r| <= |s|
  {
    TrimRight(TrimLeft(s))
  }

  /** `TrimLeft` drops exactly the leading run of trim characters. */
  lemma {:induction false} TrimLeftSpec(s: string)
    ensures var r := TrimLeft(s);
      && r == s[|s| - |r|..]
      && (r == "" || !IsTrimChar(r[0]))
      && (forall i | 0 <= i < |s| - |r| :: IsTrimChar(s[i]))
    decreases |s|
  {
    if |s| > 0 && IsTrimChar(s[0]) {
      TrimLeftSpec(s[1..]);
      var r := TrimLeft(s);
      assert s[1..][|s| - 1 - |r|..] == s[|s| - |r|..];
      forall i | 0 <= i < |s| - |r|
        ensures IsTrimChar(s[i])
      {
        if i > 0 { assert s[i] == s[1..][i - 1]; }
      }
    }
  }

  /** `TrimRight` drops exactly the trailing run of trim characters. */
  lemma {:induction false} TrimRightSpec(s: string)
    ensures var r := TrimRight(s);
      && r == s[..|r|]
      && (r == "" || !IsTrimChar(r[|r| - 1]))
      && (forall i | |r| <= i < |s| :: IsTrimChar(s[i]))
    decreases |s|
  {
    if |s| > 0 && IsTrimChar(s[|s| - 1]) {
      TrimRightSpec(s[..|s| - 1]);
      var r := TrimRight(s);
      assert s[..|s| - 1][..|r|] == s[..|r|];
      forall i | |r| <= i < |s|
        ensures IsTrimChar(s[i])
      {
        if i < |s| - 1 { assert s[i] == s[..|s| - 1][i]; }
      }
    }
  }

  /** `trim()` returns the middle of its input between two runs of trim
      characters, and the middle neither starts nor ends with one. */
  lemma TrimSpec(s: string)
    ensures IsTrimmed(Trim(s))
    ensures exists a: nat, b: nat | a <= b <= |s| ::
      && Trim(s) == s[a..b]
      && (forall i | 0 <= i < a :: IsTrimChar(s[i]))
      && (forall i | b <= i < |s| :: IsTrimChar(s[i]))
  {
    var l := TrimLeft(s);
    TrimLeftSpec(s);
    var a := |s| - |l|;
    var r := TrimRight(l);
    TrimRightSpec(l);
    var b := a + |r|;
    assert r == s[a..b] by {
      assert l == s[a..] && r == l[..|r|];
    }
    forall i | b <= i < |s|
      ensures IsTrimChar(s[i])
    {
      assert s[i] == l[i - a];
    }
    if r != "" {
      assert r[0] == l[0];
    }
    assert Trim(s) == r;
    assert IsTrimmed(r);
    assert (forall i | 0 <= i < a :: IsTrimChar(s[i]));
  }

  /** `trim()` yields "" exactly when every character is a trim character. */
  lemma TrimEmpty(s: string)
    ensures Trim(s) == "" <==> forall i | 0 <= i < |s| :: IsTrimChar(s[i])
  {
    var l := TrimLeft(s);
    TrimLeftSpec(s);
    TrimRightSpec(l);
    var a := |s| - |l|;
    assert l != "" ==> l[0] == s[a];
    if Trim(s) == "" {
      assert l == "";
    }
  }

  predicate IsTrimmed(s: string) {
    s == "" || (!IsTrimChar(s[0]) && !IsTrimChar(s[|s| - 1]))
  }

  lemma TrimOfTrimmed(s: string)
    requires IsTrimmed(s)
    ensures Trim(s) == s
  {
    if s != "" {
      assert TrimLeft(s) == s;
    }
  }

  /** Trimming removes the padding that surrounds already-trimmed text. */
  lemma {:induction false} TrimPadded(pre: string, s: string, post: string)
    requires IsTrimmed(s)
    requires forall i | 0 <= i < |pre| :: IsTrimChar(pre[i])
    requires forall i | 0 <= i < |post| :: IsTrimChar(post[i])
    ensures Trim(pre + s + post) == s
  {
    var t := pre + s + post;
    var l := TrimLeft(t);
    if s == "" {
      assert forall i | 0 <= i < |t| :: IsTrimChar(t[i]) by {
        forall i | 0 <= i < |t| ensures IsTrimChar(t[i]) {
          if i < |pre| { assert t[i] == pre[i]; } else { assert t[i] == post[i - |pre|]; }
        }
      }
      TrimEmpty(t);
    } else {
      TrimLeftPadded(pre, s + post);
      assert pre + s + post == pre + (s + post);
      assert l == s + post;
      TrimRightPadded(s, post);
    }
  }

  lemma {:induction false} TrimLeftPadded(pre: string, s: string)
    requires s != "" && !IsTrimChar(s[0])
    requires forall i | 0 <= i < |pre| :: IsTrimChar(pre[i])
    ensures TrimLeft(pre + s) == s
    decreases |pre|
  {
    if pre == [] {
      assert pre + s == s;
    } else {
      assert (pre + s)[1..] == pre[1..] + s;
      TrimLeftPadded(pre[1..], s);
    }
  }

  lemma {:induction false} TrimRightPadded(s: string, post: string)
    requires s != "" && !IsTrimChar(s[|s| - 1])
    requires forall i | 0 <= i < |post| :: IsTrimChar(post[i])
    ensures TrimRight(s + post) == s
    decreases |post|
  {
    if post == [] {
      assert s + post == s;
    } else {
      assert (s + post)[..|s + post| - 1] == s + post[..|post| - 1];
      TrimRightPadded(s, post[..|post| - 1]);
    }
  }

  /** A string that `trim()` maps to "" is blank; `hasText` is stricter
      about what counts as blank only outside ASCII. */
  predicate IsBlank(s: string) {
    Trim(s) == ""
  }

  // ---------------------------------------------------------------------
  // Case mapping (ASCII letters only)
  // ---------------------------------------------------------------------

  function LowerChar(c: char): char {
    if 'A' <= c <= 'Z' then (c as int + 32) as char else c
  }

  function UpperChar(c: char): char {
    if 'a' <= c <= 'z' then (c as int - 32) as char else c
  }

  /** `s.toLowerCase()` restricted to ASCII */
  function ToLower(s: string): (r: string)
    ensures |r| == |s|
    ensures forall i | 0 <= i < |s| :: r[i] == LowerChar(s[i])
  {
    seq(|s|, i requires 0 <= i < |s| => LowerChar(s[i]))
  }

  /** `s.toUpperCase()` restricted to ASCII */
  function ToUpper(s: string): (r: string)
    ensures |r| == |s|
    ensures forall i | 0 <= i < |s| :: r[i] == UpperChar(s[i])
  {
    seq(|s|, i requires 0 <= i < |s| => UpperChar(s[i]))
  }

  lemma ToLowerIdempotent(s: string)
    ensures ToLower(ToLower(s)) == ToLower(s)
  {
  }

  // ---------------------------------------------------------------------
  // Splitting and joining
  // ---------------------------------------------------------------------

  /** Every piece between separators, keeping empty pieces. */
  function SplitAll(s: string, c: char): (r: seq<string>)
    ensures |r| >= 1
    ensures forall k | 0 <= k < |r| :: c !in r[k]
    ensures c !in s ==> r == [s]
    decreases |s|
  {
    if |s| == 0 then [""]
    else if s[0] == c then [""] + SplitAll(s[1..], c)
    else
      var rest := SplitAll(s[1..], c);
      assert c !in s ==> [[s[0]] + rest[0]] + rest[1..] == [s] by {
        if c !in s {
          assert c !in s[1..];
          assert [s[0]] + s[1..] == s;
        }
      }
      [[s[0]] + rest[0]] + rest[1..]
  }

  /** A piece free of the separator, then the separator, is split off as
      the first piece. */
  lemma {:induction false} SplitAllHead(w: string, rest: string, c: char)
    requires c !in w
    ensures SplitAll(w + [c] + rest, c) == [w] + SplitAll(rest, c)
    decreases |w|
  {
    var s := w + [c] + rest;
    if |w| == 0 {
      assert s[0] == c && s[1..] == rest;
    } else {
      assert s[0] == w[0] && s[1..] == w[1..] + [c] + rest;
      SplitAllHead(w[1..], rest, c);
      assert [w[0]] + w[1..] == w;
    }
  }

  /** Pieces glued back with the separator between consecutive ones. */
  function JoinWith(parts: seq<string>, sep: string): string {
    if |parts| == 0 then ""
    else if |parts| == 1 then parts[0]
    else parts[0] + sep + JoinWith(parts[1..], sep)
  }

  /** Prefixing the first piece with a character prefixes the joined text. */
  lemma JoinConsHead(x: char, rest: seq<string>, sep: string)
    requires |rest| >= 1
    ensures JoinWith([[x] + rest[0]] + rest[1..], sep) == [x] + JoinWith(rest, sep)
  {
    var parts := [[x] + rest[0]] + rest[1..];
    assert parts[0] == [x] + rest[0] && parts[1..] == rest[1..];
    if |rest| > 1 {
      assert JoinWith(parts, sep) == ([x] + rest[0]) + sep + JoinWith(rest[1..], sep);
      assert JoinWith(rest, sep) == rest[0] + sep + JoinWith(rest[1..], sep);
    }
  }

  /** Splitting and re-joining on the same separator is the identity. */
  lemma {:induction false} JoinSplitAll(s: string, c: char)
    ensures JoinWith(SplitAll(s, c), [c]) == s
    decreases |s|
  {
    if |s| == 0 {
    } else if s[0] == c {
      JoinSplitAll(s[1..], c);
      assert [c] + s[1..] == s;
    } else {
      JoinSplitAll(s[1..], c);
      JoinConsHead(s[0], SplitAll(s[1..], c), [c]);
      assert [s[0]] + s[1..] == s;
    }
  }

  function DropTrailingEmpty(r: seq<string>): (d: seq<string>)
    ensures |d| <= |r| && d == r[..|d|]
    ensures |d| == 0 || d[|d| - 1] != ""
    ensures forall k | |d| <= k < |r| :: r[k] == ""
  {
    if |r| > 0 && r[|r| - 1] == "" then DropTrailingEmpty(r[..|r| - 1]) else r
  }

  /** `s.split(String.valueOf(c))` for a separator that is not a regex
      metacharacter: when the separator occurs, trailing empty pieces are
      removed; when it does not, the whole string is the only piece. */
  function JavaSplit(s: string, c: char): (r: seq<string>)
    ensures forall k | 0 <= k < |r| :: c !in r[k]
    ensures c !in s ==> r == [s]
    ensures |r| <= |SplitAll(s, c)| && r == SplitAll(s, c)[..|r|]
  {
    if c in s then DropTrailingEmpty(SplitAll(s, c)) else [s]
  }

  lemma Assoc(x: string, y: string, z: string)
    ensures x + (y + z) == x + y + z
  {
  }

  /** The texts of `xs` under `f`, one after the other. */
  function ConcatMap<T>(f: T -> string, xs: seq<T>): string
    decreases |xs|
  {
    if xs == [] then "" else f(xs[0]) + ConcatMap(f, xs[1..])
  }

  /** Two lists in a row give the text of the first, then of the second. */
  lemma {:induction false} ConcatMapAppend<T>(f: T -> string, a: seq<T>, b: seq<T>)
    ensures ConcatMap(f, a + b) == ConcatMap(f, a) + ConcatMap(f, b)
    decreases |a|
  {
    if a == [] {
      assert a + b == b;
    } else {
      assert (a + b)[1..] == a[1..] + b;
      ConcatMapAppend(f, a[1..], b);
    }
  }

  /** The text of element `i` sits between those of the elements before
      and after it. */
  lemma ConcatMapAt<T>(f: T -> string, xs: seq<T>, i: nat)
    requires i < |xs|
    ensures ConcatMap(f, xs) == ConcatMap(f, xs[..i]) + f(xs[i]) + ConcatMap(f, xs[i + 1..])
  {
    var rest := xs[i..];
    assert xs == xs[..i] + rest;
    assert rest[0] == xs[i] && rest[1..] == xs[i + 1..];
    ConcatMapAppend(f, xs[..i], rest);
    Assoc(ConcatMap(f, xs[..i]), f(xs[i]), ConcatMap(f, xs[i + 1..]));
  }

  /** One more element appends its text. */
  lemma ConcatMapSnoc<T>(f: T -> string, xs: seq<T>, i: nat)
    requires i < |xs|
    ensures ConcatMap(f, xs[..i + 1]) == ConcatMap(f, xs[..i]) + f(xs[i])
  {
    assert xs[..i + 1] == xs[..i] + [xs[i]];
    ConcatMapAppend(f, xs[..i], [xs[i]]);
    assert ConcatMap(f, [xs[i]]) == f(xs[i]) + ConcatMap(f, []);
  }

  // ---------------------------------------------------------------------
  // Decimal rendering (`%d`, `StringBuilder.append(int)`, JS templates)
  // ---------------------------------------------------------------------

  function DigitChar(d: nat): char
    requires d < 10
  {
    "0123456789"[d]
  }

  predicate IsDigit(c: char) {
    '0' <= c <= '9'
  }

  function NatToString(n: nat): (r: string)
    ensures |r| >= 1
    ensures forall i | 0 <= i < |r| :: IsDigit(r[i])
  {
    if n < 10 then [DigitChar(n)] else NatToString(n / 10) + [DigitChar(n % 10)]
  }

  function IntToString(i: int): (r: string)
    ensures |r| >= 1
  {
    if i < 0 then "-" + NatToString(-i) else NatToString(i)
  }

  /** The decimal value of a string of digits (`Integer.parseInt` without
      the range check). */
  function DecimalValue(s: string): int
    decreases |s|
  {
    if |s| == 0 then 0 else DecimalValue(s[..|s| - 1]) * 10 + (s[|s| - 1] as int - '0' as int)
  }

  lemma DigitValue(d: nat)
    requires d < 10
    ensures DigitChar(d) as int - '0' as int == d
  {
    assert "0123456789"[d] as int == '0' as int + d;
  }

  /** Reading the decimal text of a number gives the number back. */
  lemma {:induction false} DecimalRoundTrip(n: nat)
    ensures DecimalValue(NatToString(n)) == n
    decreases n
  {
    var s := NatToString(n);
    DigitValue(n % 10);
    if n < 10 {
      assert s == [DigitChar(n)];
    } else {
      var head := NatToString(n / 10);
      assert s == head + [DigitChar(n % 10)];
      DecimalRoundTrip(n / 10);
      assert s[..|s| - 1] == head;
    }
  }

  // ---------------------------------------------------------------------
  // Java lengths
  // ---------------------------------------------------------------------

  /** Needs a surrogate pair in UTF-16. */
  predicate IsAstral(c: char) {
    c as int > 0xFFFF
  }

  /** `s.length()`: Java counts UTF-16 code units, so a character outside
      the Basic Multilingual Plane counts twice. */
  function Utf16Length(s: string): (n: nat)
    ensures |s| <= n <= 2 * |s|
  {
    if s == [] then 0
    else (if IsAstral(s[0]) then 2 else 1) + Utf16Length(s[1..])
  }

  /** The UTF-16 length equals the number of characters exactly when no
      character lies outside the Basic Multilingual Plane. */
  lemma {:induction false} Utf16LengthExact(s: string)
    ensures Utf16Length(s) == |s| <==> forall k | 0 <= k < |s| :: !IsAstral(s[k])
    decreases |s|
  {
    if s != [] {
      Utf16LengthExact(s[1..]);
      assert forall k | 1 <= k < |s| :: s[k] == s[1..][k - 1];
    }
  }

  lemma {:induction false} Utf16LengthAppend(a: string, b: string)
    ensures Utf16Length(a + b) == Utf16Length(a) + Utf16Length(b)
    decreases |a|
  {
    if a != [] {
      var ab := a + b;
      assert ab != [] && ab[0] == a[0] && ab[1..] == a[1..] + b;
      Utf16LengthAppend(a[1..], b);
    } else {
      assert a + b == b;
    }
  }

  /** Java's rendering of a possibly-null string in concatenation. */
  function OrNull(s: Option<string>): string {
    match s
    case Some(v) => v
    case None => "null"
  }
}

=== FILE: webhooks.dfy ===
/**
 * Event intake: the three webhook controllers and the GitHub signature
 * check. GitHub requests are authenticated with an HMAC-SHA256 signature
 * (section 2 of RFC 2104) of the raw payload before anything else
 * happens; GitLab and Bitbucket events are acknowledged at once and
 * handled in the background, so their responses never depend on the
 * handling.
 */
module Webhooks {
  import opened Wrappers
  import opened Text
  import opened Exceptions
  import opened Domain
  import PullRequests
  import GitLab
  import Bitbucket
  import Publishing
  import Base64

  // ---------------------------------------------------------------------
  // Java's bitwise `^` and `|` on non-negative ints
  // ---------------------------------------------------------------------

  /** `x ^ y` for non-negative operands, bit by bit from the lowest. */
  function Xor(x: nat, y: nat): nat
    decreases x + y
  {
    if x == 0 then y
    else if y == 0 then x
    else 2 * Xor(x / 2, y / 2) + (if x % 2 == y % 2 then 0 else 1)
  }

  /** `x | y` for non-negative operands, bit by bit from the lowest. */
  function BitOr(x: nat, y: nat): nat
    decreases x + y
  {
    if x == 0 then y
    else if y == 0 then x
    else 2 * BitOr(x / 2, y / 2) + (if x % 2 == 1 || y % 2 == 1 then 1 else 0)
  }

  /** Exclusive or is zero exactly on equal operands. */
  lemma {:induction false} XorZero(x: nat, y: nat)
    ensures Xor(x, y) == 0 <==> x == y
    decreases x + y
  {
    if x != 0 && y != 0 {
      XorZero(x / 2, y / 2);
    }
  }

  /** Or is zero exactly when both operands are. */
  lemma {:induction false} BitOrZero(x: nat, y: nat)
    ensures BitOr(x, y) == 0 <==> x == 0 && y == 0
    decreases x + y
  {
    if x != 0 && y != 0 {
      BitOrZero(x / 2, y / 2);
    }
  }

  // ---------------------------------------------------------------------
  // verifySignature
  // ---------------------------------------------------------------------

  /** `MessageDigestEquals`: the lengths first, then every character pair
      folded into one accumulator, so that the time taken does not depend
      on where the strings first differ. */
  method MessageDigestEquals(a: string, b: string) returns (eq: bool)
    ensures eq <==> a == b
  {
    if |a| != |b| {
      return false;
    }
    var result: nat := 0;
    for i := 0 to |a|
      invariant result == 0 <==> a[..i] == b[..i]
    {
      XorZero(a[i] as nat, b[i] as nat);
      BitOrZero(result, Xor(a[i] as nat, b[i] as nat));
      assert a[..i + 1] == a[..i] + [a[i]] && b[..i + 1] == b[..i] + [b[i]];
      result := BitOr(result, Xor(a[i] as nat, b[i] as nat));
    }
    assert a[..|a|] == a && b[..|b|] == b;
    return result == 0;
  }

  /** HMAC-SHA256 of the payload under the secret, both taken as UTF-8;
      `None` when the key is rejected (an empty secret). */
  type Hmac = (string, string) -> Option<seq<Base64.Byte>>

  const SignaturePrefix: string := "sha256="

  const HexDigits: string := "0123456789abcdef"

  /** One byte as two lower-case hexadecimal digits (`HexFormat.of()`). */
  function HexPair(b: Base64.Byte): string {
    [HexDigits[b / 16], HexDigits[b % 16]]
  }

  /** `HexFormat.of().formatHex(bytes)`. */
  function Hex(bytes: seq<Base64.Byte>): string {
    ConcatMap(HexPair, bytes)
  }

  /** The hex text has two digits per byte, every one a lower-case
      hexadecimal digit. */
  lemma {:induction false} HexShape(bytes: seq<Base64.Byte>)
    ensures |Hex(bytes)| == 2 * |bytes|
    ensures forall i | 0 <= i < |Hex(bytes)| :: Hex(bytes)[i] in HexDigits
    decreases |bytes|
  {
    if bytes != [] {
      HexShape(bytes[1..]);
      var h := Hex(bytes);
      assert h == HexPair(bytes[0]) + Hex(bytes[1..]);
      assert forall i | 2 <= i < |h| :: h[i] == Hex(bytes[1..])[i - 2];
    }
  }

  /** The signature GitHub must have sent: the prefix, then the hex of the
      HMAC of the payload; no signature is expected when the HMAC cannot
      be computed. */
  function Expected(payload: string, secret: string, hmac: Hmac): Option<string> {
    match hmac(secret, payload)
    case None => None
    case Some(h) => Some(SignaturePrefix + Hex(h))
  }

  /** `verifySignature`: a missing signature or one without the prefix is
      rejected before any HMAC is computed; a failure computing it
      rejects too; otherwise the signature must equal the expected text
      exactly. */
  method VerifySignature(payload: string, signature: Option<string>, secret: string, hmac: Hmac)
    returns (ok: bool)
    ensures ok <==> signature.Some? && Expected(payload, secret, hmac) == Some(signature.value)
  {
    if signature.None? || !StartsWith(signature.value, SignaturePrefix) {
      if hmac(secret, payload).Some? {
        StartsWithConcat(SignaturePrefix, Hex(hmac(secret, payload).value));
      }
      return false;
    }
    match hmac(secret, payload) {
      case None =>
        return false;
      case Some(h) =>
        ok := MessageDigestEquals(SignaturePrefix + Hex(h), signature.value);
    }
  }

  /** Predicate form of the verdict, for the controller. */
  predicate SignatureValid(payload: string, signature: Option<string>, secret: string, hmac: Hmac) {
    signature.Some? && Expected(payload, secret, hmac) == Some(signature.value)
  }

  /** The comparison is exact: a signature whose hex part has an
      upper-case digit never verifies. */
  lemma UpperCaseHexRejected(payload: string, hex: string, secret: string, hmac: Hmac, k: nat)
    requires k < |hex| && 'A' <= hex[k] <= 'F'
    ensures !SignatureValid(payload, Some(SignaturePrefix + hex), secret, hmac)
  {
    if hmac(secret, payload).Some? {
      var digits := Hex(hmac(secret, payload).value);
      HexShape(hmac(secret, payload).value);
      assert hex[k] !in HexDigits;
      assert digits != hex by {
        if k < |digits| {
          assert digits[k] in HexDigits;
        }
      }
      PrefixCancels(SignaturePrefix, digits, hex);
    }
  }

  lemma PrefixCancels(a: string, b: string, c: string)
    ensures a + b == a + c ==> b == c
  {
    assert (a + b)[|a|..] == b && (a + c)[|a|..] == c;
  }

  // ---------------------------------------------------------------------
  // WebhookController.handleGitHubWebhook
  // ---------------------------------------------------------------------

  const InvalidSignatureBody: string := "Invalid signature"
  const ProcessedBody: string := "Webhook processed successfully"
  const ErrorBodyPrefix: string := "Error processing webhook: "

  /** The review handed to the asynchronous `performReview`: the stored
      pull request and the head commit (possibly null). */
  datatype ReviewJob = ReviewJob(pullRequest: PullRequest, commitSha: Option<string>)

  /** The response, the tables afterwards (the pull request service
      commits on its own), and the review queued, if any. */
  datatype GitHubOutcome = GitHubOutcome(status: int, body: string, store: PullRequests.Store, queued: Option<ReviewJob>)

  /** The GitHub side: the webhook secret, the HMAC, and Jackson's reading
      of the payload into `GitHubWebhookPayload`. */
  datatype GitHubEnv = GitHubEnv(secret: string, hmac: Hmac, parse: string -> Result<PullRequests.Payload, Exn>)

  predicate TriggersReview(action: Option<string>) {
    action == Some("opened") || action == Some("synchronize")
  }

  /** `handleGitHubWebhook` with its private `handlePullRequestEvent`. */
  function HandleGitHubWebhook(event: Option<string>, signature: Option<string>, payload: string,
                               gh: GitHubEnv, s: PullRequests.Store): (o: GitHubOutcome)
    ensures o.status in {200, 401, 500}
    ensures o.queued.Some? ==> o.status == 200
  {
    if !SignatureValid(payload, signature, gh.secret, gh.hmac) then
      GitHubOutcome(401, InvalidSignatureBody, s, None)
    else
      match gh.parse(payload)
      case Err(e) => GitHubOutcome(500, ErrorBodyPrefix + OrNull(e.message), s, None)
      case Ok(p) =>
        if event != Some("pull_request") || !TriggersReview(p.action) then
          GitHubOutcome(200, ProcessedBody, s, None)
        else
          match PullRequests.HandlePullRequestEvent(s, p)
          case Err(e) => GitHubOutcome(500, ErrorBodyPrefix + OrNull(e.message), s, None)
          case Ok((s', pr)) =>
            var dto := p.pullRequest.value;
            if dto.head.None? then GitHubOutcome(500, ErrorBodyPrefix + OrNull(NullDereference.message), s', None)
            else GitHubOutcome(200, ProcessedBody, s', Some(ReviewJob(pr, dto.head.value.sha)))
  }

  /** A bad signature is answered 401 before the payload is read: the
      parser is never consulted, nothing is stored and nothing queued. */
  lemma BadSignatureStopsEverything(event: Option<string>, signature: Option<string>, payload: string,
                                    gh: GitHubEnv, s: PullRequests.Store)
    ensures var o := HandleGitHubWebhook(event, signature, payload, gh, s);
            o.status == 401 <==> !SignatureValid(payload, signature, gh.secret, gh.hmac)
    ensures !SignatureValid(payload, signature, gh.secret, gh.hmac) ==>
            forall parse' :: HandleGitHubWebhook(event, signature, payload, gh.(parse := parse'), s)
                             == GitHubOutcome(401, InvalidSignatureBody, s, None)
  {
  }

  /** A review is queued exactly for a signed "pull_request" event whose
      action is "opened" or "synchronize", once the pull request is
      stored, and it is for the payload's head commit. */
  lemma QueuedIffOpenedOrSynchronized(event: Option<string>, signature: Option<string>, payload: string,
                                      gh: GitHubEnv, s: PullRequests.Store)
    ensures var o := HandleGitHubWebhook(event, signature, payload, gh, s);
      o.queued.Some? <==>
        && SignatureValid(payload, signature, gh.secret, gh.hmac)
        && gh.parse(payload).Ok?
        && event == Some("pull_request")
        && TriggersReview(gh.parse(payload).value.action)
        && PullRequests.HandlePullRequestEvent(s, gh.parse(payload).value).Ok?
        && gh.parse(payload).value.pullRequest.value.head.Some?
    ensures var o := HandleGitHubWebhook(event, signature, payload, gh, s);
      o.queued.Some? ==>
        var p := gh.parse(payload).value;
        var (s', pr) := PullRequests.HandlePullRequestEvent(s, p).value;
        o.queued.value == ReviewJob(pr, p.pullRequest.value.head.value.sha) && o.store == s'
  {
  }

  /** Any other signed event, or a pull request action other than the two,
      is answered 200 and changes nothing. */
  lemma OtherEventsChangeNothing(event: Option<string>, signature: Option<string>, payload: string,
                                 gh: GitHubEnv, s: PullRequests.Store)
    requires SignatureValid(payload, signature, gh.secret, gh.hmac) && gh.parse(payload).Ok?
    requires event != Some("pull_request") || !TriggersReview(gh.parse(payload).value.action)
    ensures HandleGitHubWebhook(event, signature, payload, gh, s) == GitHubOutcome(200, ProcessedBody, s, None)
  {
  }

  // ---------------------------------------------------------------------
  // GitLabWebhookController / BitbucketWebhookController
  // ---------------------------------------------------------------------

  /** The JSON map the two controllers answer with (HTTP 200). */
  datatype Ack = Ack(status: string, message: string)

  /** The response and the background handling started, if any. */
  datatype Intake = Intake(response: Ack, started: Option<Publishing.Handling>)

  const Ignored: Ack := Ack("ignored", "Event type not supported")
  const MrAccepted: Ack := Ack("accepted", "Merge request event queued for processing")
  const PrAccepted: Ack := Ack("accepted", "Pull request event queued for processing")

  predicate IsMergeRequestEvent(gitlabEvent: Option<string>, objectKind: Option<string>) {
    gitlabEvent == Some("Merge Request Hook") || objectKind == Some("merge_request")
  }

  /** `GitLabWebhookController.handleWebhook`: a merge request event is
      handed to a new thread, whose failures are only logged. */
  function GitLabWebhook(gitlabEvent: Option<string>, event: GitLab.MrEvent, gl: GitLab.GitLabEnv,
                         analyze: Publishing.Analyzer): (i: Intake)
    ensures i.started.Some? <==> i.response == MrAccepted
  {
    if IsMergeRequestEvent(gitlabEvent, event.objectKind) then
      Intake(MrAccepted, Some(GitLab.HandleMergeRequestEvent(event, gl, analyze)))
    else Intake(Ignored, None)
  }

  /** The GitLab answer depends only on the header and the object kind,
      never on how the handling goes. */
  lemma GitLabAnswerIgnoresOutcome(gitlabEvent: Option<string>, event: GitLab.MrEvent,
                                   gl: GitLab.GitLabEnv, gl': GitLab.GitLabEnv,
                                   analyze: Publishing.Analyzer, analyze': Publishing.Analyzer)
    ensures GitLabWebhook(gitlabEvent, event, gl, analyze).response
         == GitLabWebhook(gitlabEvent, event, gl', analyze').response
    ensures GitLabWebhook(gitlabEvent, event, gl, analyze).response == MrAccepted
        <==> IsMergeRequestEvent(gitlabEvent, event.objectKind)
  {
  }

  const PullRequestKeyPrefix: string := "pullrequest:"

  predicate IsPullRequestEvent(eventKey: Option<string>) {
    eventKey.Some? && StartsWith(eventKey.value, PullRequestKeyPrefix)
  }

  /** `BitbucketWebhookController.handleWebhook`: an event whose key
      starts with "pullrequest:" is handed to a new thread. */
  function BitbucketWebhook(eventKey: Option<string>, event: Bitbucket.PrEvent, bb: Bitbucket.BitbucketEnv,
                            analyze: Publishing.Analyzer): (i: Intake)
    ensures i.started.Some? <==> i.response == PrAccepted
  {
    if IsPullRequestEvent(eventKey) then
      Intake(PrAccepted, Some(Bitbucket.HandlePullRequestEvent(event, bb, analyze)))
    else Intake(Ignored, None)
  }

  /** The Bitbucket answer depends only on the event key (a null key is
      ignored), never on how the handling goes. */
  lemma BitbucketAnswerIgnoresOutcome(eventKey: Option<string>, event: Bitbucket.PrEvent,
                                      bb: Bitbucket.BitbucketEnv, bb': Bitbucket.BitbucketEnv,
                                      analyze: Publishing.Analyzer, analyze': Publishing.Analyzer)
    ensures BitbucketWebhook(eventKey, event, bb, analyze).response
         == BitbucketWebhook(eventKey, event, bb', analyze').response
    ensures BitbucketWebhook(eventKey, event, bb, analyze).response == PrAccepted
        <==> eventKey.Some? && StartsWith(eventKey.value, PullRequestKeyPrefix)
  {
  }
}

=== FILE: wrappers.dfy ===
/** Failure-carrying wrapper types shared by every module of the model.
    `Option` stands in for Java's nullable references and `Optional`,
    `Result` for a computation that either returns or throws. */
module Wrappers {

  datatype Option<+T> = None | Some(value: T) {

    function GetOr(default: T): T {
      match this
      case Some(v) => v
      case None => default
    }
  }

  datatype Result<+T, +E> = Ok(value: T) | Err(error: E) {

    predicate IsFailure() {
      Err?
    }

    function PropagateFailure<U>(): Result<U, E>
      requires Err?
    {
      Err(error)
    }

    function Extract(): T
      requires Ok?
    {
      value
    }
  }
}
